=== FILE: README.md ===
# Advent of Code 2020, days 1 to 20, in Dafny

This project models twenty Rust solutions to the Advent of Code 2020 puzzles.
Each solution is one `dayNN/src/main.rs`. The project has one Dafny module per
day, `Day01` to `Day20`, each in its own file. Day 12 has two modules,
`Day12Part1` and `Day12Part2`, because the Rust file has two modules, each with
its own `Ship`. Every solution reads a puzzle input, computes one or two
answers and prints them. The model covers the computation between the read and
the print.

Shared building blocks live in two files:

- `common.dfy` holds five modules:
  - `Wrappers`: `Option` and `Result`.
  - `Lists`: `Collect`, the `collect::<Option<Vec<_>>>()` idiom.
  - `Numbers`: powers of two, and Rust's truncating `/` and `%` as `Quot` and `Rem`.
  - `Text`: Rust's string operations used by the solutions (`parse`, `split`,
    `split_once`, `lines`, `split_ascii_whitespace`, `trim_matches`).
  - `Runs`: a generic "apply one step per input line, stop at the first panic" fold.
- `sorting.dfy` holds `Sorting`: a sort specified as a sorted permutation, and
  the fact that such a result is unique. Day 5 (`sort`) and day 10
  (`sort_unstable`) use it. Day 16 sorts positions by a key and keeps ties
  in place (`sort_by_key`), so it carries its own stable by-size insertion
  sort (`Day16.BySize`).

The form of each module follows the Rust code:

- Pure iterator pipelines and recursive functions are Dafny functions with
  lemmas.
- Code that mutates state in loops is a Dafny `method` with loop invariants.
  Each such method is proved equal to a specification function, and the
  specification function's properties are proved as lemmas. Examples:
  - day03 `count_trees`
  - day07 `count1` and `count2`
  - day08 `run_prog`
  - day09
  - day10 `part2`
  - day11 grid updates
  - day13 `extended_euclid`
  - day14 `apply_mask`
  - day15 game loop
  - day16 `part2`
  - day17 `parse` and `neighbors`
  - day19 `full_match`
  - day20 `find_neighbors`
- The ships of day 12 and the program state of day 8 are classes whose methods update their fields.

Panics are modelled in one of two ways:

- A panic on bad input that the code checks explicitly (`panic!`, `expect`,
  `unwrap` on a parse) becomes a failure value: `None`, `Err`, or a `false`
  success flag.
- An implicit out-of-bounds index or a shift overflow becomes either a
  precondition or a failure value; the row of each member says which. For
  example `Day16.NarrowValue` (the `valid[idx_value]` index), `Day20.ParseRow`
  (the `u16` shift) and `Day14.MaskBits` (a mask bit 64 or more places from
  the right) return a failure value, while `Day20.FindNeighbors` requires
  tiles of 10 to 16 rows.

Integers are unbounded, except where the code's width is part of what it
computes:

- day14 masks and addresses are `bv64`;
- day20 edges are `bv16`.

## Model

| member | source | states |
|---|---|---|
| Day01.PartnerFrom | day01/src/main.rs:30-34 | the inner loop's search: the first index at or after `from` whose entry adds up to `sum` with `a`; None exactly when no later entry does |
| Day01.PairFrom | day01/src/main.rs:29-37 | the first index pair, in nested-loop order from row `from`, whose entries add up to `sum` (the same element may be used twice); None exactly when no such pair exists |
| Day01.TripleFrom | day01/src/main.rs:41-51 | the first index triple, in nested-loop order from row `from`, whose entries add up to `sum`; None exactly when no such triple exists |
| Day01.FindProduct2 | day01/src/main.rs:28-38 | None iff no two entries (possibly the same one twice) add up to `sum`; otherwise the product of the first such pair in nested-loop order |
| Day01.FindProduct3 | day01/src/main.rs:40-52 | None iff no three entries add up to `sum`; otherwise the product of the first such triple in nested-loop order |
| Day01.SampleSome | day01/src/main.rs:58-62 | the example report gives 514579 |
| Day01.SampleNone | day01/src/main.rs:64-68 | with 299 replaced by 500 there is no pair and the result is None |
| Day02.CountIsMultiplicity | day02/src/main.rs:40 | the count of `password.matches(c)` is the multiplicity of `c` in the password |
| Day02.Validate | day02/src/main.rs:39-43 | true iff the policy character occurs at least `a` and at most `b` times |
| Day02.Validate2 | day02/src/main.rs:45-48 | needs both 1-based positions inside the password (the source indexes bytes, the model characters); true iff exactly one of the two positions holds the character, so never when `a == b` |
| Day02.Samples | day02/src/main.rs:90-107 | the three test policies give true, false, true under `validate` and true, false, false under `validate2` |
| Day03.SteppedCount | day03/src/main.rs:22 | `step_by(y_step)` visits ceil(lines / y_step) rows |
| Day03.CountTrees | day03/src/main.rs:18-34 | requires exactly the inputs on which `count_trees` does not panic: `y_step > 0` (`step_by(0)` panics) and `InBounds` (every later stepped row is long enough for its column, and the width is not 0, so `x % width` and the index are defined); then the loop's count equals `Trees`: the first stepped row only gives the width, and every later stepped row k counts a tree at column `(k * x_step) mod width` |
| Day03.TreesBetweenBound | day03/src/main.rs:25-31 | each visited row after the first adds at most one tree |
| Day03.TreesBound | day03/src/main.rs:22-31 | the count is at most the number of stepped rows minus one |
| Day03.SampleSlope11 | day03/src/main.rs:57 | slope (1, 1) on the example map meets 2 trees |
| Day03.SampleSlope31 | day03/src/main.rs:58 | slope (3, 1) meets 7 trees |
| Day03.SampleSlope51 | day03/src/main.rs:59 | slope (5, 1) meets 3 trees |
| Day03.SampleSlope71 | day03/src/main.rs:60 | slope (7, 1) meets 4 trees |
| Day03.SampleSlope12 | day03/src/main.rs:61 | slope (1, 2) meets 2 trees |
| Day04.Validate | day04/src/main.rs:17-21 | true iff each of byr, iyr, eyr, hgt, hcl, ecl and pid occurs as a substring of the entry |
| Day04.HeightValid | day04/src/main.rs:44-55 | true iff the value is longer than two characters and is a number followed by "cm" in 150..193 or by "in" in 59..76 |
| Day04.HairValid | day04/src/main.rs:56-62 | true iff the value is '#' followed by one or more hexadecimal digits |
| Day04.FieldValid | day04/src/main.rs:34-66 | per key: the year ranges 1920-2002, 2010-2020 and 2020-2030, the height and hair rules, one of seven eye colours, nine digits for pid, anything for cid, and false for any other key |
| Day04.Validate2 | day04/src/main.rs:27-68 | true iff `Validate` holds and every whitespace-separated word is a `key:value` pair that passes its rule; so `validate2` implies `validate` |
| Day04.UnknownKeyInvalid | day04/src/main.rs:65-66 | a word that is not `key:value` with one of the eight known keys makes the entry invalid |
| Day04.CountValid | day04/src/main.rs:13-15 | counts the entries passing `validate`, at most the number of entries |
| Day04.CountValid2 | day04/src/main.rs:23-25 | counts the entries passing `validate2`, at most the number of entries |
| Day04.CountValid2AtMostCountValid | day04/src/main.rs:28-30 | part 2 never counts more entries than part 1 |
| Day05.FoldBitsValue | day05/src/main.rs:42-52 | the reversed, enumerated `try_fold` succeeds iff every character is `one` or `zero`, and then adds the most-significant-first binary value of the code |
| Day05.MsbValueBound | day05/src/main.rs:42-64 | a code of n characters has a value below 2^n |
| Day05.ReadBinary | day05/src/main.rs:42-64 | Some iff every character is `one` or `zero`; the value is the code read most significant first, below 2^length |
| Day05.Decode | day05/src/main.rs:35-67 | Err(BadLength) iff the code is not 10 characters; Ok iff the first seven are B/F and the last three R/L, with row = first seven as binary (B = 1) < 128 and col = last three (R = 1) < 8 |
| Day05.SeatId | day05/src/main.rs:69-71 | for a column below 8, the id divided by 8 is the row and the id mod 8 is the column |
| Day05.EncodeBinary | day05/src/main.rs:42-64 | the inverse of the binary read: a code of exactly `width` characters |
| Day05.EncodeBinaryRead | day05/src/main.rs:42-64 | reading the code of n < 2^width gives n back |
| Day05.ReadEncodeBinary | day05/src/main.rs:42-64 | encoding the value of a binary code gives the code back |
| Day05.Encode | day05/src/main.rs:35-67 | the inverse of `decode`: a pass of ten characters |
| Day05.EncodeDecode | day05/src/main.rs:35-67 | decoding the pass of any seat in rows 0..127 and columns 0..7 gives that seat |
| Day05.DecodeEncode | day05/src/main.rs:35-67 | encoding a decoded pass gives the pass back, so `decode` is injective on valid passes |
| Day05.Samples | day05/src/main.rs:77-89 | "BFFFBBFRRR", "FFFBBBFRRR" and "BBFFBBFRLL" decode to (70, 7), (14, 7) and (102, 4), with ids 567, 119 and 820 |
| Day05.FindGapFrom | day05/src/main.rs:20-29 | the first window at or after `from` whose two ids are not consecutive; None iff every later window is consecutive |
| Day05.FirstGap | day05/src/main.rs:20-30 | one more than the first element of the first non-consecutive adjacent pair; None iff every adjacent pair is consecutive |
| Day05.HighestSeat | day05/src/main.rs:16-19 | the last sorted id is the maximum id; None iff there are no passes |
| Day05.MissingSeatIsFree | day05/src/main.rs:16-30 | for distinct ids, the seat found is not taken and the seat before it is taken |
| Day05.SameMembers | day05/src/main.rs:16 | sorting keeps the set of ids |
| Day05.SortedDistinctRises | day05/src/main.rs:16 | sorting distinct ids gives a strictly rising sequence |
| Day05.AdjacentMultiplicity | day05/src/main.rs:20-28 | two equal neighbours mean a repeated id |
| Day05.DistinctMultiplicity | day05/src/main.rs:20-28 | in a list without repetitions each id occurs at most once |
| Day06.Chars | day06/src/main.rs:18-19 | `bytes().collect::<HashSet<_>>()`: exactly the characters occurring in the string (its bytes, on ASCII input) |
| Day06.WordsChars | day06/src/main.rs:16-17 | gluing the whitespace-separated words together keeps exactly the non-whitespace characters |
| Day06.UniqueAnswers | day06/src/main.rs:14-20 | the set of non-whitespace characters of the group |
| Day06.IntersectLines | day06/src/main.rs:33-38 | the fold of intersections: the members of the start set that occur in every line, a subset of the start set |
| Day06.CommonAnswers | day06/src/main.rs:30-39 | the answers that every line of the group holds, starting from all answers, so a subset of `unique_answers` |
| Day06.CountUnique | day06/src/main.rs:22-26 | `count_unique_answers` sums the groups' answer counts: it is 0 exactly when no group gave any answer |
| Day06.CountCommon | day06/src/main.rs:28-41 | `count_common_answers` sums the groups' common-answer counts: it is 0 exactly when no group has an answer every member gave |
| Day06.CommonAtMostUnique | day06/src/main.rs:22-41 | `count_common_answers` never exceeds `count_unique_answers` |
| Day07.ParseClause | day07/src/main.rs:31-43 | Ok iff the clause has exactly four space-separated words with an unsigned first word, giving (container, amount, "adj colour"); a wrong word count is a line error, a bad number an amount error |
| Day07.ParseClauses | day07/src/main.rs:29-44 | Ok iff every clause parses, with the triplets in clause order; an error is the error of some clause |
| Day07.ParseLine | day07/src/main.rs:25-47 | Err without " bags contain "; Ok([]) for "no other bags."; otherwise the ", "-separated clauses parsed in order, each triplet naming the text before " bags contain " as its container |
| Day07.ContainedByContents | day07/src/main.rs:52-55 | the reversed map lists, under each contained colour, exactly its containers, and no list is empty |
| Day07.BuildContainedBy | day07/src/main.rs:50-55 | the map-building loop of `count1` yields the reversed containment map |
| Day07.LeastClosedUnique | day07/src/main.rs:49-75 | the set of colours that can hold shiny gold (the least set closed under "is a container of") is unique |
| Day07.ChainInClosed | day07/src/main.rs:49-75 | a colour with a containment chain down to shiny gold lies in every closed set |
| Day07.LeastClosedHasChains | day07/src/main.rs:49-75 | every colour in the least closed set has a containment chain down to shiny gold |
| Day07.ListedUnderAppend | day07/src/main.rs:62-65 | the colours listed under the keys `ks + [k]` are those listed under `ks` plus those under `k` |
| Day07.ExpandStep | day07/src/main.rs:62-65 | one `map.remove` of the `flat_map` keeps the expansion invariant: a key still in the map is removed and its list appended |
| Day07.TakeKey | day07/src/main.rs:64 | one `map.remove(k)` of the `flat_map`: a key still in the map leaves it and its list is appended to the new list; a key already removed adds nothing and changes nothing |
| Day07.Expand | day07/src/main.rs:62-65 | one pass of the `flat_map`: the keys visited leave the map, the others keep their lists, the new list holds exactly the colours listed under the visited keys, and it is non-empty iff the map shrank |
| Day07.SearchStep | day07/src/main.rs:61-72 | a pass keeps the search invariant: the visited colours lie in every closed set, and every removed key's containers are visited |
| Day07.SearchDone | day07/src/main.rs:67-69 | when a pass finds nothing new, the visited colours are the least closed set |
| Day07.Count1 | day07/src/main.rs:49-75 | `count1` is the size of the least closed set: the number of distinct colours that can eventually contain shiny gold; each key is expanded at most once, so the loop ends |
| Day07.Contents | day07/src/main.rs:80-83 | the (amount, colour) pairs a container holds are taken from its own triplets, at most one per triplet |
| Day07.ContentsRanked | day07/src/main.rs:77-111 | under an acyclicity ranking, everything a bag holds ranks below it |
| Day07.WeightAppend | day07/src/main.rs:90-105 | the bags still to be counted for a waiting list grow by amount times total for an appended pair |
| Day07.BuildContents | day07/src/main.rs:78-83 | the map-building loop of `count2` maps every container to its contents in input order, and a colour it omits holds nothing |
| Day07.HoldsStep | day07/src/main.rs:97-101 | one step of the inner `map`: the count gains amt × amt2 and the pair passes on, keeping count plus the bags still to be counted |
| Day07.PairStep | day07/src/main.rs:97-101 | one (amt2, contained) pair of the inner `map`: the count plus the bags still to be counted stays the same, and the appended pair ranks below the bound |
| Day07.ExpandPair | day07/src/main.rs:93-103 | the inner `map` for one pair: the count plus the bags still to be counted stays the same, and ranks drop below the bound |
| Day07.VisitPair | day07/src/main.rs:93-103 | one (amt, container) pair of the `flat_map`: the count plus the bags still to be counted grows by amt times everything the container holds, and the new pairs rank below the bound |
| Day07.ExpandLevel | day07/src/main.rs:91-105 | one pass of the `flat_map`: the count plus the bags still to be counted stays the same |
| Day07.Count2 | day07/src/main.rs:77-111 | for acyclic rules (given as a ranking) `count2` returns `Total`: the sum over all containment paths out of shiny gold of the product of the amounts along them |
| Day08.ParseInstr | day08/src/main.rs:15-27 | needs a space (the source indexes `subs[1]`); a non-integer argument is an argument error, checked before the opcode; Ok iff the argument is a signed integer and the opcode is nop, acc or jmp, with the matching variant and argument; any other opcode is an opcode error naming it |
| Day08.Exec | day08/src/main.rs:63-72 | Nop adds 1 to pc; Acc adds the argument to acc and 1 to pc; Jmp adds the argument to pc |
| Day08.FirstStopUnique | day08/src/main.rs:77 | the first step at which the run reaches a pc already run (or outside the program) is unique |
| Day08.Indexed | day08/src/main.rs:43 | `(0i32..).zip(prog).collect()`: keys exactly 0..len, each mapped to its instruction |
| Day08.ProgState.constructor | day08/src/main.rs:38-46 | `ProgState::from`: every instruction keyed by index, pc and acc zero |
| Day08.ProgState.Step | day08/src/main.rs:63-72 | `step` sets pc and acc to what `Exec` gives and leaves the instruction map alone |
| Day08.IndexedCard | day08/src/main.rs:43 | the map starts with exactly len(prog) keys |
| Day08.TracksInit | day08/src/main.rs:75 | a fresh state matches the run after zero steps, with every instruction still in the map |
| Day08.TracksStep | day08/src/main.rs:77-79 | removing and running the instruction at pc matches the run one step further, with the run's pcs removed from the map |
| Day08.TracksStop | day08/src/main.rs:77 | when pc is no longer in the map, the run has reached its first stop, within len(prog) steps |
| Day08.RunProg | day08/src/main.rs:74-82 | `run_prog` returns the accumulator at the first stop, which comes within len(prog) steps, so no instruction runs twice |
| Day08.OutcomeAt | day08/src/main.rs:84-96 | the outcome at the first stop is Some(acc) iff pc is exactly len(prog), and None otherwise |
| Day08.RunProg2 | day08/src/main.rs:84-96 | `run_prog2` returns Some(acc) iff pc lands exactly on len(prog) before any repeat, and None on a repeat or any other pc outside the program |
| Day08.Patch | day08/src/main.rs:100-106 | the patched copy: None exactly for an Acc; otherwise the same length, nop and jmp swapped at i with the same argument, every other instruction unchanged |
| Day08.TryRun | day08/src/main.rs:98-114 | None iff no single nop/jmp swap makes the program run off its end; otherwise the outcome of the lowest index whose swap does |
| Day08Samples.SampleFirstStop | day08/src/main.rs:130-147 | the sample program first repeats after 7 steps, at pc 1 with acc 5 |
| Day08Samples.SampleRunProg | day08/src/main.rs:144-147 | any result `run_prog` may give on the sample is 5 |
| Day08Samples.SamplePatch0 | day08/src/main.rs:157-160 | swapping index 0 gives `jmp +0`, which repeats at once |
| Day08Samples.SamplePatch2 | day08/src/main.rs:157-160 | swapping index 2 repeats pc 1 |
| Day08Samples.SamplePatch4 | day08/src/main.rs:157-160 | swapping index 4 repeats pc 6 |
| Day08Samples.SamplePatch7 | day08/src/main.rs:149-155 | swapping index 7 runs off the end with acc 8 |
| Day08Samples.SampleRepairs | day08/src/main.rs:157-160 | only the swap at index 7 repairs the sample, and it gives 8 |
| Day08Samples.SampleTryRun | day08/src/main.rs:157-160 | any result `try_run` may give on the sample is Some(8) |
| Day09.Compare | day09/src/main.rs:31-41 | true iff some two entries, possibly the same one twice, add up to n |
| Day09.Scan | day09/src/main.rs:19-29 | None iff every number from index p on is a sum of two of the p numbers before it; otherwise the first number that is not |
| Day09.SumSnoc | day09/src/main.rs:47-49 | appending a number adds it to the running sum |
| Day09.SumGrows | day09/src/main.rs:49-53 | running sums from a fixed start never decrease, so the break on passing `invalid` loses no run |
| Lists.Max | day09/src/main.rs:56 | the largest entry of a non-empty list: an element no smaller than any other (shared by `scan2` and by day 10's `iter().max()` at day10/src/main.rs:34) |
| Day09.Min | day09/src/main.rs:57 | the smallest entry of a non-empty run |
| Day09.Scan2 | day09/src/main.rs:43-68 | None iff no contiguous run sums exactly to `invalid`; otherwise max + min of the run with the smallest start (and then the smallest end) that does |
| Day09Samples.SampleNotSums | day09/src/main.rs:74-82 | with a preamble of 5, 127 is the first number that is not a sum of two of the five before it |
| Day09Samples.WindowSum | day09/src/main.rs:19-29 | a number equal to the sum of two entries of the window before it is not reported by `scan` |
| Day09Samples.SampleScan | day09/src/main.rs:74-82 | any result `scan(sample, 5)` may give is Some(127) |
| Day09Samples.SampleSums | day09/src/main.rs:84-92 | the running sums the search passes before it reaches 127 |
| Day09Samples.SampleFirstRun | day09/src/main.rs:84-92 | 15, 25, 47, 40 is the first run summing to 127 |
| Day09Samples.FirstRunUnique | day09/src/main.rs:43-68 | the run `scan2` settles on is determined: two first runs are the same run |
| Day09Samples.SampleScan2 | day09/src/main.rs:84-92 | any result `scan2(sample, 127)` may give is Some(62) |
| Day10.Fold | day10/src/main.rs:19-26 | the fold over windows of two adds the number of 1-differences to `one` and of 3-differences to `three`; other differences change nothing |
| Day10.Part1 | day10/src/main.rs:15-29 | `part1` is (1 + number of 1-gaps) × (1 + number of 3-gaps) over the sorted copy; the caller's list is a value, so it stays unchanged |
| Day10.GapsSnoc | day10/src/main.rs:21-26 | appending an element adds its difference to the last one to the matching count |
| Day10.ChainGaps | day10/src/main.rs:22 | when the smallest adapter is 1, the counts started at 1 are the gap counts of the whole chain 0, adapters, max + 3 |
| Day10.Part1Chain | day10/src/main.rs:15-29 | so `part1` is the product of the 1- and 3-gap counts along the whole chain when the smallest adapter is 1 |
| Day10.BelowPow2 | day10/src/main.rs:49 | k + 1 ≤ 2^(k+1), a step towards `ProductBelowPow2` |
| Day10.ProductBelowPow2 | day10/src/main.rs:49 | k(k + 1) ≤ 2^(k+2), so the subtraction in the factor never underflows |
| Day10.Factor | day10/src/main.rs:44-50 | the factor of a run of n consecutive joltages, as written (1 for n ≤ 2, 2^(n-2) for n in 3..4, 2^(n-2) - (n-4)(n-3)/2 above), is at least 1 |
| Day10.RunEnd | day10/src/main.rs:42-54 | the inner loop's end: the first j whose joltage exceeds its distance from i above `numbers[i]`, or the length; every index before it stays within its distance |
| Day10.RunStep | day10/src/main.rs:41-57 | one pass of the outer loop keeps `acc` times the product of the remaining runs' factors constant |
| Day10.MultiplyRuns | day10/src/main.rs:37-59 | the two `while` loops compute the product of the factors of the runs; `i` moves to `j`, which is always past `i`, so the loops end |
| Day10.ScanRun | day10/src/main.rs:42-54 | the inner loop stops at the end of the run starting at `i`, always past `i`, and multiplies `acc` by the run's factor exactly when a larger jump ends the run |
| Day10.Part2 | day10/src/main.rs:31-60 | `part2` is the product, over the runs of consecutive joltages in the chain, of the factor as written |
| Day10.RunWays | day10/src/main.rs:44-50 | the true number of ways to cross a run of n consecutive joltages in steps of 1 to 3, at least 1 |
| Day10.FactorUpToSix | day10/src/main.rs:44-50 | the factor as written equals the true count for runs of 1 to 6 |
| Day10.Spread | day10/src/main.rs:41-57 | along steps of 1 or 3, joltages grow at least as fast as indices |
| Day10.Consecutive | day10/src/main.rs:41-57 | a stretch that rises by exactly its length is consecutive throughout |
| Day10.WaysFirstSteps | day10/src/main.rs:41-57 | the arrangements from k split by the next adapter, among the up to three within 3 jolts |
| Day10.WithinRun | day10/src/main.rs:41-57 | a run followed by a jump of 3 contributes `RunWays(length)` as a factor to the arrangements from its start |
| Day10.WithinLongRun | day10/src/main.rs:41-57 | the same when at least four adapters of the run remain |
| Day10.RunWaysSmall | day10/src/main.rs:44-50 | runs of 1, 2 and 3 have 1, 1 and 2 ways |
| Day10.RunsCountWays | day10/src/main.rs:41-57 | when adjacent adapters differ by 1 or 3, the product of the true run counts is the number of arrangements |
| Day10.Arrangements | day10/src/main.rs:31-60 | the same loops with the true run count as factor; they count every arrangement of the chain when its gaps are 1 or 3 |
| Day10.SevenRunShape | day10/src/main.rs:41-57 | the chain 0..6, 9 is sorted with gaps of 1 or 3 |
| Day10.SevenRunMax | day10/src/main.rs:34 | the maximum of 1..6 and 0 is 6 |
| Day10.SevenRunElements | day10/src/main.rs:32-35 | the adapters 1..6 with 0 and 9 are the elements of that chain |
| Day10.SevenRunChain | day10/src/main.rs:32-35 | so the chain built from 1..6 is 0..6, 9 |
| Day10.SevenRunRuns | day10/src/main.rs:41-57 | that chain is one run of seven followed by the device |
| Day10.SevenRunCounts | day10/src/main.rs:44-50 | on it the factor as written gives 26 and there are 24 arrangements |
| Day10.Part2Overcounts | day10/src/main.rs:31-60 | `part2` on the adapters 1..6 gives 26, while there are 24 arrangements |
| Day11.ParseCell | day11/src/main.rs:32-36 | 'L' is Empty and '.' is Floor, exactly; any other byte fails; a parsed cell is never Occupied |
| Day11.ParseRow | day11/src/main.rs:31-37 | Some iff every byte of the line is 'L' or '.', with one cell per byte in order |
| Day11.ParseRows | day11/src/main.rs:28-38 | Some iff every line parses, with one row per line in order |
| Day11.ParseGrid | day11/src/main.rs:22-41 | `parse_grid`: Some iff every byte of every line is 'L' or '.' (None where the source panics); one row per line and one cell per byte |
| Day11.CountRow | day11/src/main.rs:43-48 | the occupied seats of a row: at most its length, and zero iff none is Occupied |
| Day11.CountOccupied | day11/src/main.rs:43-48 | `count_occupied` is zero iff no cell of the grid is Occupied |
| Day11.ParsedEmpty | day11/src/main.rs:22-48 | a freshly parsed grid has no occupied seat |
| Day11.ColumnCellsMembers | day11/src/main.rs:54-58 | the inner loop pushes exactly the cells of column i in the row range, except (x, y) |
| Day11.ColumnCellsSize | day11/src/main.rs:54-58 | it pushes one cell per row of the range, less one when it skips (x, y) |
| Day11.WindowCellsMembers | day11/src/main.rs:53-59 | the two loops push exactly the cells of the window, except (x, y) |
| Day11.WindowCellsSize | day11/src/main.rs:53-59 | the window's size is columns × rows, less one when it holds (x, y) |
| Day11.NeighborsAdjacent | day11/src/main.rs:50-62 | `get_neighbors` lists exactly the in-grid cells within distance 1 on each axis, without (x, y) |
| Day11.NeighborsAtMostEight | day11/src/main.rs:50-62 | it lists at most eight cells |
| Day11.WindowNoRows | day11/src/main.rs:54 | an empty row range gives no cells |
| Day11.NineCells | day11/src/main.rs:53-55 | a window of at most 3 × 3 cells, less the centre when all nine are there, has at most 8 cells |
| Day11.GetNeighbors | day11/src/main.rs:50-62 | the nested loops return the window list `Neighbors` |
| Day11.PushColumn | day11/src/main.rs:54-58 | the inner loop of `get_neighbors` appends column i of the window, without the cell itself |
| Day11.CountAmong | day11/src/main.rs:73-76 | the occupied cells among a list of in-grid cells: at most the list's length, zero iff none is Occupied |
| Day11.Change | day11/src/main.rs:78-84 | the cell rule: Floor stays Floor and nothing else becomes Floor; the new cell is Occupied iff it was Empty seeing none, or Occupied seeing fewer than the tolerance |
| Day11.SeenAdjacent | day11/src/main.rs:73-76 | a cell sees at most 8 occupied neighbours |
| Day11.Next | day11/src/main.rs:64-90 | the grid after one update of part 1 has the same size, and its Floor cells are exactly the old Floor cells |
| Day11.NextRow | day11/src/main.rs:70-86 | a row holding every new cell of row y, computed from the old grid, is row y of `Next` |
| Day11.FirstUpdateFills | day11/src/main.rs:78-80 | from a grid with no occupied seat, the first update fills every seat and keeps the floor |
| Day11.NeighborsInside | day11/src/main.rs:73-75 | the neighbours of a cell lie inside the grid, so `grid[y2][x2]` is in bounds |
| Day11.UpdateGrid | day11/src/main.rs:64-90 | `update_grid` gives `Next(grid)`, every cell computed from the old grid only, and returns true iff some cell changed |
| Day11.UpdateRow | day11/src/main.rs:71-88 | one row of `update_grid`: each cell is `NextCell` of the old grid, and the row is reported changed iff it differs from the old row |
| Day11.RadiusBound | day11/src/main.rs:122-135 | a cell at distance `radius` in one of the eight directions that is still inside the grid is less than width + height away, so the walk ends |
| Day11.SeenInDirections | day11/src/main.rs:117-138 | the number of the first k directions whose first seat in sight is Occupied, at most k |
| Day11.Next2 | day11/src/main.rs:97-152 | the grid after one update of part 2 (first seat in sight in eight directions, tolerance 5) has the same size and the same Floor cells |
| Day11.NextRow2 | day11/src/main.rs:113-147 | a row holding every new cell of row y is row y of `Next2` |
| Day11.FirstSeatNotOccupied | day11/src/main.rs:122-137 | without occupied seats the walk never finds an occupied seat |
| Day11.FirstUpdateFills2 | day11/src/main.rs:140-142 | from a grid with no occupied seat, the first update of part 2 fills every seat |
| Day11.NoneInSight | day11/src/main.rs:117-138 | when no direction's first seat is Occupied, the count is zero |
| Day11.UpdateGrid2 | day11/src/main.rs:97-152 | `update_grid2` gives `Next2(grid)`, walking past floor in each of the eight directions, and returns true iff some cell changed |
| Day11.UpdateRow2 | day11/src/main.rs:114-147 | one row of `update_grid2`: each cell is `NextCell2` of the old grid, and the row is reported changed iff it differs from the old row |
| Day11.CountSeen | day11/src/main.rs:115-139 | the loop over the eight directions counts those whose first seat in sight is occupied |
| Day11.Look | day11/src/main.rs:118-138 | the walk in one direction past floor finds an occupied seat iff the first seat in sight (`FirstSeat`) is occupied |
| Day11.Iterate | day11/src/main.rs:92-95 | the grid after k updates of part 1 keeps the grid's size |
| Day11.Iterate2 | day11/src/main.rs:154-157 | the grid after k updates of part 2 keeps the grid's size |
| Day11.Run | day11/src/main.rs:92-95 | `run`: every update it makes changed the grid; when it returns a count, the grid is a fixpoint of `Next` and the count is its occupied seats; it gives up only after `fuel` changing updates |
| Day11.Run2 | day11/src/main.rs:154-157 | the same for `run2` and `Next2` |
| Day12Part1.Ordinal | day12/src/main.rs:5-10 | `d as i32`: North, East, South, West are 0 to 3 |
| Day12Part1.FromI32 | day12/src/main.rs:13-21 | Some iff the value is in 0..3, and then the heading with that number; otherwise the panic |
| Day12Part1.Move | day12/src/main.rs:31-38 | `sail` changes exactly one coordinate: North +y, East +x, South -y, West -x; the heading is kept |
| Day12Part1.SailDistance | day12/src/main.rs:31-38 | sailing changes the Manhattan distance from the origin by at most the distance sailed |
| Day12Part1.Turn | day12/src/main.rs:51-52 | a turn succeeds with the heading numbered (d + 4 - value/90) mod 4 for 'L' and (d + value/90) mod 4 for 'R' |
| Day12Part1.TurnPanics | day12/src/main.rs:51-52 | a turn panics exactly when `from_i32`'s argument is negative and not a multiple of four (Rust's `%` keeps the sign) |
| Day12Part1.LeftTurnPanics | day12/src/main.rs:51 | an 'L' turn by a non-negative angle panics exactly when value/90 exceeds heading + 4 and the wrapped amount is not a multiple of four |
| Day12Part1.RightTurnSucceeds | day12/src/main.rs:52 | an 'R' turn by a non-negative angle never panics |
| Day12Part1.RightThenLeft | day12/src/main.rs:51-52 | turning right and then left by the same angle below 450 degrees restores the heading |
| Day12Part1.LeftThenRight | day12/src/main.rs:51-52 | turning left and then right by the same angle below 450 degrees restores the heading |
| Day12Part1.FromOrdinal | day12/src/main.rs:13-21 | `from_i32` undoes `as i32` |
| Day12Part1.Instruction | day12/src/main.rs:41-44 | Some iff the line is non-empty and the rest parses as a signed integer; the action letter and that integer |
| Day12Part1.Act | day12/src/main.rs:46-55 | an action fails exactly when it is not one of N, E, S, W, L, R, F or when a turn's `from_i32` panics |
| Day12Part1.TurnKeepsPosition | day12/src/main.rs:51-52 | 'L' and 'R' change only the heading, to what `Turn` gives; x and y stay |
| Day12Part1.ForwardKeepsHeading | day12/src/main.rs:53 | 'F' sails in the current heading and keeps it |
| Day12Part1.StepDistance | day12/src/main.rs:40-56 | one step moves the ship by at most the number on its line |
| Day12Part1.RunPosesSnoc | day12/src/main.rs:65-67 | running some lines and then one more is one more step |
| Day12Part1.RunPosesStops | day12/src/main.rs:65-67 | a run that panicked stays panicked when one more line follows |
| Day12Part1.Ship.constructor | day12/src/main.rs:59-63 | a new ship is at (0, 0) facing East |
| Day12Part1.Ship.Sail | day12/src/main.rs:31-38 | `Ship::sail` sets the fields to what `Move` gives |
| Day12Part1.Step | day12/src/main.rs:40-56 | `step` succeeds iff `StepPose` does, and then leaves the ship in that pose; on a panic no field has changed |
| Day12Part1.Run | day12/src/main.rs:58-70 | `run` succeeds iff no line panics, and then returns a fresh ship in the pose reached from (0, 0, East) by all lines in order |
| Day12Part1.RunPosesPanics | day12/src/main.rs:65-67 | a panic on some prefix of the lines is a panic of the whole run |
| Day12Part1.SampleRun | day12/src/main.rs:76-87 | "F10 N3 F7 R90 F11" ends at (17, -8) facing South |
| Day12Part1.SampleInstructions | day12/src/main.rs:78 | how the five sample lines parse |
| Day12Part2.Forward | day12/src/main.rs:115-118 | `sail(n)` moves the position by n times the waypoint and leaves the waypoint alone |
| Day12Part2.ForwardTwice | day12/src/main.rs:115-118 | sailing a times and then b times is sailing a + b times |
| Day12Part2.ForwardBack | day12/src/main.rs:115-118 | sailing zero times stays put, and sailing back undoes sailing |
| Day12Part2.Act | day12/src/main.rs:127-136 | N/E/S/W move only the waypoint by the value along their axis; 'L' rotates it by the value and 'R' by its negation; 'F' is `Forward`; any other action fails |
| Day12Part2.StepMovesOneOf | day12/src/main.rs:127-136 | a N/E/S/W line never moves the ship and an F line never moves the waypoint |
| Day12Part2.Ship.constructor | day12/src/main.rs:142-145 | a new ship is at (0, 0) with the waypoint at (10, 1) |
| Day12Part2.Ship.Sail | day12/src/main.rs:115-118 | `Ship::sail` sets the state to `Forward` of the old one |
| Day12Part2.Step | day12/src/main.rs:121-139 | `step` succeeds iff `StepNav` does, and then leaves the ship in that state; on a panic nothing has changed |
| Day12Part2.Run | day12/src/main.rs:141-152 | `run` succeeds iff no line panics, and then returns a fresh ship in the state reached from the start by all lines in order |
| Day12Part2.RunNavsSnoc | day12/src/main.rs:147-149 | running some lines and then one more is one more step, or stays panicked |
| Day12Part2.RunNavsPanics | day12/src/main.rs:147-149 | a panic on some prefix of the lines is a panic of the whole run |
| Day12Part2.SampleRun | day12/src/main.rs:158-168 | given a rotation that turns (10, 4) by -90 degrees into (4, -10), the sample ends at (214, -72) with the waypoint at (4, -10) |
| Day13.Buses | day13/src/main.rs:14-16 | `filter_map(parse)`: every bus is the number of an entry that parses as an unsigned number, every such entry's number is kept, and there are no more buses than entries |
| Day13.BusIndices | day13/src/main.rs:14-16 | the entries `filter_map` keeps: exactly the indices of the entries that parse, in increasing order |
| Day13.BusesRead | day13/src/main.rs:14-16 | `filter_map` keeps order: the k-th bus is the number the k-th kept entry parses to, one bus per kept entry |
| Day13.WaitIsNextDeparture | day13/src/main.rs:17 | the key `x - ts % x` lies in 1..x and is the time to the first departure strictly after `ts`; a bus leaving at `ts` counts a whole period |
| Day13.FirstMin | day13/src/main.rs:17 | `min_by_key` picks an index whose key is smallest and which comes before every other index with that key |
| Day13.Earliest | day13/src/main.rs:13-21 | `part1` on the parsed buses: Some iff there is a bus and none is zero (the source panics otherwise); the product of the first bus with the smallest key and that key |
| Day13.Part1 | day13/src/main.rs:13-21 | `part1` on the comma-separated list: `None` (the panic) exactly when no entry is a number or some listed bus is 0; otherwise the answer is `PicksEntry`'s: the entry whose bus has the smallest key `x - ts % x`, the first in list order among equal keys as `min_by_key` keeps it, times that key |
| Day13.EarliestPicksEntry | day13/src/main.rs:14-17 | the first bus with the smallest key among the kept buses is the first entry of the list with the smallest key, so the tie-break carries over to the list |
| Day13.PicksEntryUnique | day13/src/main.rs:17 | only one entry satisfies that description, so `Part1`'s contract fixes its answer |
| Day13.TieGoesFirst | day13/src/main.rs:17-20 | at time 13 buses 3 and 5 both wait 2 minutes: the answer is 3 × 2 = 6, not 10 |
| Day13.WaitKeys | day13/src/main.rs:17 | the key of every bus, in order |
| Day13.WaitFromIsNextDeparture | day13/src/main.rs:17 | the intended wait `(x - ts % x) % x` lies in 0..x-1 and is the time to the first departure at or after `ts` |
| Day13.EarliestFrom | day13/src/main.rs:13-21 | `part1` with the intended wait: the first bus with the smallest such wait, times that wait |
| Day13.WaitFromKeys | day13/src/main.rs:17 | the intended wait of every bus, in order |
| Day13.WaitsAgree | day13/src/main.rs:17 | the two waits agree unless the bus leaves exactly at `ts` |
| Day13.DepartureAtTimestamp | day13/src/main.rs:13-21 | at time 10 with buses "5,7" the code answers 28, where the puzzle's answer is 0 |
| Day13.BusesFiveSeven | day13/src/main.rs:14-16 | "5" and "7" parse to the buses 5 and 7 |
| Day13.EarliestAtTen | day13/src/main.rs:13-21 | on buses 5 and 7 at time 10, the code gives 28 and the intended version 0 |
| Day13.SplitFiveSeven | day13/src/main.rs:15 | "5,7" splits into "5" and "7" |
| Day13.SampleEarliest | day13/src/main.rs:71-73 | at 939 with buses 7, 13, 59, 31, 19 the answer is 295 |
| Day13.Euclid | day13/src/main.rs:37-54 | the reference recursion: its first component is s·x + t·y for its other two |
| Day13.Combine | day13/src/main.rs:41-50 | one back-substitution step keeps the combination |
| Day13.EuclidDivides | day13/src/main.rs:37-54 | for non-negative inputs the first component is non-negative and divides both inputs |
| Day13.EuclidGreatest | day13/src/main.rs:37-54 | every common divisor of the inputs divides the first component, so it is the gcd |
| Day13.DividesCombination | day13/src/main.rs:37-54 | a common divisor divides every integer combination |
| Day13.LiftStep | day13/src/main.rs:40-51 | one iteration of the loop does not change what the loop will return |
| Day13.ExtendedEuclid | day13/src/main.rs:37-54 | the loop, which keeps x = x0·X + y0·Y and y = x1·X + y1·Y, returns `Euclid(X, Y)`, with gcd = s·X + t·Y |
| Day13.RowStep | day13/src/main.rs:41-50 | the new y, `x % y` with Rust's truncating `%`, is the combination given by the updated coefficients |
| Day13.SampleEuclid | day13/src/main.rs:75-78 | `extended_euclid(102, 38)` is (2, 3, -8) |
| Day13.CoprimeGcd | day13/src/main.rs:27-34 | two non-negative numbers are coprime (some combination is 1) iff `Euclid` gives 1 |
| Day13.UnitDivisor | day13/src/main.rs:27-34 | a non-negative divisor of 1 is 1 |
| Day13.CoprimeSymmetric | day13/src/main.rs:27-34 | coprimality is symmetric |
| Day13.CoprimeMul | day13/src/main.rs:27-34 | a number coprime to two numbers is coprime to their product |
| Day13.ProductWithout | day13/src/main.rs:25 | the product of the moduli is the product of the others times one |
| Day13.ProductPositive | day13/src/main.rs:25 | a product of positive moduli is positive |
| Day13.CoprimeProduct | day13/src/main.rs:25-30 | a modulus coprime to every other is coprime to their product |
| Day13.Moduli | day13/src/main.rs:25 | the moduli of the pairs, in order |
| Day13.Crt | day13/src/main.rs:23-35 | Some iff no modulus is zero (the source panics in `N / n_i`); the result lies in [0, abs(N)) where N is the product of the moduli |
| Day13.ProductNonZero | day13/src/main.rs:25 | a product of non-zero moduli is non-zero |
| Day13.ModCongruent | day13/src/main.rs:34 | numbers differing by a multiple of n have the same remainder |
| Day13.Cofactor | day13/src/main.rs:28-30 | for pairwise coprime moduli, `N / n_i` is the product of the other moduli and is coprime to n_i |
| Day13.QuotExact | day13/src/main.rs:29 | exact truncating division |
| Day13.OtherDivides | day13/src/main.rs:29 | every other modulus divides `N / n_i` |
| Day13.CrtSumResidue | day13/src/main.rs:27-32 | after the first k terms of the fold, the sum is a_j plus a multiple of n_j if j < k, and a multiple of n_j otherwise |
| Day13.StepOwn | day13/src/main.rs:31 | pair j's own term adds a_j modulo n_j |
| Day13.StepOther | day13/src/main.rs:31 | another pair's term is a multiple of n_j |
| Day13.CrtSolves | day13/src/main.rs:23-35 | for pairwise coprime positive moduli, `crt` succeeds and its result is congruent to a_j modulo n_j for every pair |
| Day13.ReduceResidue | day13/src/main.rs:34 | `rem_euclid(N)` keeps the residue modulo every n_j dividing N |
| Day13.SampleCrt | day13/src/main.rs:82 | `crt([(3, 0), (4, 3), (5, 4)])` is 39 |
| Day13.SampleSum | day13/src/main.rs:27-32 | the fold over that sample sums to -141 |
| Day13.SumOfThree | day13/src/main.rs:27-32 | the fold over three pairs is the sum of their terms |
| Day13.CrtSumSnoc | day13/src/main.rs:27-32 | one more pair adds its term |
| Day13.SampleTerms | day13/src/main.rs:31 | the sample's terms are 0, -45 and -96 |
| Day13.SampleQuotients | day13/src/main.rs:29 | 60 / 3, 60 / 4 and 60 / 5 are 20, 15 and 12 |
| Day13.TermThree | day13/src/main.rs:31 | the term of (3, 0) is 0 |
| Day13.TermFour | day13/src/main.rs:31 | the term of (4, 3) is -45 |
| Day13.TermFive | day13/src/main.rs:31 | the term of (5, 4) is -96 |
| Day13.CoefficientThree | day13/src/main.rs:30 | `extended_euclid(3, 20)` is (1, 7, -1) |
| Day13.CoefficientFour | day13/src/main.rs:30 | `extended_euclid(4, 15)` is (1, 4, -1) |
| Day13.CoefficientFive | day13/src/main.rs:30 | `extended_euclid(5, 12)` is (1, 5, -2) |
| Day13.Pairs | day13/src/main.rs:56-64 | only the entries that parse are kept: every pair is (x, x - i) for an entry x at index i, and every such entry gives a pair |
| Day13.Part2 | day13/src/main.rs:56-64 | `part2`: `None` (the panic in `N / n_i`) exactly when some entry is the number 0; with pairwise coprime positive buses the result t meets every entry: bus x at offset i has t ≡ x − i (mod x), i.e. it leaves i minutes after t |
| Bits64.BitSingle | day14/src/main.rs:45-46 | `1 << k` has bit k set and no other |
| Bits64.BitOr | day14/src/main.rs:45-46 | `v \| 1 << k` sets bit k and changes no other bit |
| Bits64.BitClear | day14/src/main.rs:96 | `v & !(1 << k)` clears bit k and changes no other bit |
| Bits64.BitAnd | day14/src/main.rs:94 | a bit of `a & b` is set iff it is set in both |
| Bits64.BitMasked | day14/src/main.rs:28 | a bit of `(v \| ones) & !zeroes` is set iff it is not in `zeroes` and is in `ones` or in `v` |
| Bits64.Extensional | day14/src/main.rs:28 | two words with the same 64 bits are equal |
| Day14.CollectStep | day14/src/main.rs:41-48 | one more character of the mask sets its bit in the ones or the zeroes, and none past the 64th |
| Day14.CollectUnfold | day14/src/main.rs:41-48 | the unfolding of that fold by one character |
| Day14.Collect | day14/src/main.rs:41-48 | after n characters from the right, bit i is set iff i < n and the character i places from the right is the given one |
| Day14.MaskBits | day14/src/main.rs:37-51 | `parse_mask` panics exactly on a line shorter than seven characters or on a '1' or '0' 64 or more places from the right; otherwise bit i of `ones` (`zeroes`) is set iff the character i places from the right is '1' ('0'), so `ones & zeroes == 0` |
| Day14.ParseMask | day14/src/main.rs:37-51 | the loop over the reversed mask computes `MaskOf` |
| Day14.SampleMaskChars | day14/src/main.rs:121 | the sample mask has 36 characters, with '1' at place 6, '0' at place 1 and 'X' elsewhere |
| Day14.SingleFromBits | day14/src/main.rs:45-46 | a word with exactly bit k set is `1 << k` |
| Day14.SampleMask | day14/src/main.rs:118-124 | the sample mask line gives (64, 2) |
| Day14.ParseU64 | day14/src/main.rs:55-58 | `parse::<u64>()`: Some iff the text is a decimal number below 2^64 |
| Day14.NoSpaceInDigits | day14/src/main.rs:54 | digits hold no space, so " = " cannot occur in them |
| Day14.ParseDigits | day14/src/main.rs:55-58 | decimal digits below 2^64 parse to their value |
| Day14.SplitMemLine | day14/src/main.rs:54 | `split(" = ")` of "mem[a] = v" gives "mem[a]" and "v" |
| Day14.ParseMemLine | day14/src/main.rs:53-60 | "mem[a] = v" with decimal a and v below 2^64 reads back as (a, v) |
| Day14.SampleParseMem | day14/src/main.rs:126-129 | `parse_mem("mem[8] = 11")` is (8, 11) |
| Day14.KeyExists | day14/src/main.rs:34 | a non-empty memory has a key |
| Day14.Without | day14/src/main.rs:34 | removing a key leaves one entry fewer |
| Day14.SumValuesRemove | day14/src/main.rs:34 | the sum of the values is the value at any key plus the sum of the rest, so it does not depend on the order of the keys |
| Day14.SumMemory | day14/src/main.rs:34 | `mem.values().sum()`, visiting keys in any order, is the sum of all values |
| Day14.Overwrite | day14/src/main.rs:28 | a second insert at the same address replaces the first |
| Day14.Step1Write | day14/src/main.rs:26-29 | a "me" line stores `(v \| ones) & !zeroes` at its address |
| Day14.Line1 | day14/src/main.rs:20-31 | the body of the loop of `part1` computes one step `Step1` on the current memory and mask |
| Day14.Part1 | day14/src/main.rs:14-35 | `part1`: None iff some line panics (neither "ma" nor "me", or a bad mask or memory line); otherwise the sum of the values the lines leave in memory |
| Day14.WriteThroughMask | day14/src/main.rs:19-32 | a value written after a mask line has a one under each '1', a zero under each '0' and its own bit elsewhere |
| Day14.MaskThenWrite | day14/src/main.rs:19-32 | a mask line then a write stores the value through that mask |
| Day14.MaskedBits | day14/src/main.rs:28 | the bits of a value written through a parsed mask |
| Day14.LaterWriteWins | day14/src/main.rs:26-29 | a later write to an address replaces an earlier one |
| Day14.MaskKeepsMemory | day14/src/main.rs:21-25 | a mask line succeeds iff the mask parses, replaces the mask and leaves the memory alone |
| Day14.Floating | day14/src/main.rs:71-76 | `xs`: the places from the right that hold an 'X', each one listed, in increasing order |
| Day14.BaseStepBit | day14/src/main.rs:94-97 | one step of the fold decides bit idx and keeps every other bit |
| Day14.Base | day14/src/main.rs:90-98 | the base address has a one under each '1', the address's own bit under each '0', and a zero under each 'X', under any other character and past the mask |
| Day14.BaseNext | day14/src/main.rs:90-98 | one more character of that fold |
| Day14.FillFloating | day14/src/main.rs:104-106 | the inner loop of `apply_mask` sets the bit of each X place that the corresponding bit of perm selects |
| Day14.ApplyMask | day14/src/main.rs:89-112 | `apply_mask` returns exactly 2^len(xs) pairs, all carrying the value, and they are `Mutations`: for each perm in order, the base address with the X places filled from the bits of perm |
| Day14.AddressBits | day14/src/main.rs:105-107 | for distinct places, bit `xs[j]` of the result is set iff it is in the base or bit j of perm is, and every other bit is the base's |
| Day14.AddressStepBit | day14/src/main.rs:106 | one step of the inner loop on one bit |
| Day14.AddressUnfold | day14/src/main.rs:106 | the unfolding of the inner loop by one place |
| Day14.Extract | day14/src/main.rs:102-107 | the perm whose bit j is bit `xs[k + j]` of an address, below 2^(len(xs) - k) |
| Day14.BitsDetermine | day14/src/main.rs:102-107 | two numbers below 2^n with the same low n bits are equal |
| Day14.ExtractAddress | day14/src/main.rs:102-107 | reading the floating bits back out of an address gives the perm that filled them in |
| Day14.BaseFloatsClear | day14/src/main.rs:96 | the base address has a zero under every 'X' |
| Day14.AddressDecodes | day14/src/main.rs:89-112 | every address `apply_mask` makes is one the mask decodes the address to |
| Day14.AddressExtract | day14/src/main.rs:89-112 | every address the mask decodes the address to is made by `apply_mask`, for the perm read back out of it |
| Day14.MutationsDistinct | day14/src/main.rs:89-112 | the addresses of `apply_mask` are pairwise distinct |
| Day14.MutationsCover | day14/src/main.rs:89-112 | the addresses of `apply_mask` are exactly those the mask decodes the address to |
| Day14.ExtendWrites | day14/src/main.rs:80 | `mem.extend(pairs)`, all pairs carrying v: the keys are the old keys plus the listed addresses, a listed address holds v and every other key keeps its value |
| Day14.StartConsistent | day14/src/main.rs:64-65 | the start mask of 36 zeroes has no 'X', so `xs` starts in step with it |
| Day14.NoFloating | day14/src/main.rs:71-76 | a mask without 'X' has no floating places |
| Day14.RunConsistent | day14/src/main.rs:67-84 | every line keeps `xs` equal to the 'X' places of the current mask |
| Day14.ReachableConsistent | day14/src/main.rs:62-87 | every state `part2` reaches has `xs` in step with its mask |
| Day14.FloatingWrite | day14/src/main.rs:78-81 | a memory line writes the value at exactly the addresses the mask decodes its address to and leaves every other address alone |
| Day14.Line2 | day14/src/main.rs:66-83 | the body of the loop of `part2` computes one step `Step2` on the current memory and mask |
| Day14.Part2 | day14/src/main.rs:62-87 | `part2`: None iff some line panics; otherwise the sum of the values the lines leave in memory |
| Day15.LastIndex | day15/src/main.rs:22-28 | the last index at which a number occurs in the history, None iff it does not occur |
| Day15.NextSpokenGap | day15/src/main.rs:22-29 | the game's rule: the next number is 0 iff the last one is new, else the number of turns since it was last said before, which points at an earlier occurrence with none in between |
| Day15.GameRule | day15/src/main.rs:12-37 | the game's reference history: every number after the starting ones is the rule applied to the numbers before it |
| Day15.Turns | day15/src/main.rs:22-31 | the turns on which a number is said, increasing, each within the history, non-empty iff the number occurs |
| Day15.TurnsSnoc | day15/src/main.rs:31 | saying a number adds the current turn to its own list and to no other |
| Day15.TurnsLast | day15/src/main.rs:28 | the last turn on record for a number is one past its last index |
| Day15.TracksOrdered | day15/src/main.rs:22-31 | a map in step with the history has non-empty, increasing lists of past turns |
| Day15.Push | day15/src/main.rs:31 | `entry(x).or_insert(..).push(turn)` adds x to the keys and leaves every other list alone |
| Day15.PushTracks | day15/src/main.rs:31 | pushing the current turn for the number said keeps the map in step with the history |
| Day15.Record | day15/src/main.rs:15-17 | the starting loop: the keys are the starting numbers and each holds only the turn it was last said on |
| Day15.RecordOrdered | day15/src/main.rs:15-17 | the starting loop leaves one past turn per key |
| Day15.RecordTracks | day15/src/main.rs:15-17 | with distinct starting numbers, the starting loop leaves the map in step with the starting history |
| Day15.OnlyTurn | day15/src/main.rs:15-17 | in a history without repeats a number's only turn is its index plus one |
| Day15.PushOrdered | day15/src/main.rs:31 | pushing the current turn keeps every list non-empty, increasing and below the next turn |
| Day15.TurnOrdered | day15/src/main.rs:22-32 | one turn keeps the lists increasing and below the next turn, and a number with a record is said into a number with a record |
| Day15.PlayUnfold | day15/src/main.rs:21-33 | the main loop is one turn followed by the rest of the loop |
| Day15.GapIsNext | day15/src/main.rs:23-29 | the 0-or-gap read off the last number's list is the game's next number |
| Day15.TurnFollowsGame | day15/src/main.rs:22-32 | one turn from a state in step with the game says the game's next number and stays in step |
| Day15.PlayStep | day15/src/main.rs:21-33 | one iteration of the main loop from a state in step with a history moves to a state in step with that history plus its next number |
| Day15.PlayFollowsRules | day15/src/main.rs:21-33 | the loop run from a state in step with a history ends on the number the rules say for the last turn when that history is played on |
| Day15.ContinueGame | day15/src/main.rs:12-37 | playing on by the rules from the game's first k numbers gives the game's first n numbers |
| Day15.PlayFollowsGame | day15/src/main.rs:21-33 | the loop run from a state in step with the starting numbers ends on the game's number for the last turn |
| Day15.RecitedFollowsGame | day15/src/main.rs:12-37 | with distinct starting numbers, `part1` returns the game's number for the last turn |
| Day15.RecordStart | day15/src/main.rs:15-17 | the starting loop builds exactly the map of the starting-loop model |
| Day15.SayNext | day15/src/main.rs:22-32 | the loop body computes one turn of the state machine |
| Day15.Part1 | day15/src/main.rs:12-37 | `part1`: None iff it panics (no starting numbers); otherwise the number the code leaves, which is the game's number for the last turn when the starting numbers are distinct |
| Day15.RecordAllTracks | day15/src/main.rs:15-17 | pushing (instead of inserting) each starting turn leaves the map in step with the starting history for every start |
| Day15.RecitedAllFollowsGame | day15/src/main.rs:12-37 | with that starting loop, the code returns the game's number for every start |
| Day15.RepeatedStart | day15/src/main.rs:15-17 | from 0, 0 the game says 1 on turn 3, but the code as written says 0 |
| Day15.GameStep | day15/src/main.rs:21-33 | the game one turn longer is the history plus its next number |
| Day15.SampleReply | day15/src/main.rs:45 | three replies of the sample game |
| Day15.SampleFirstTurns | day15/src/main.rs:45 | the first six numbers from 0, 3, 6 are 0, 3, 6, 0, 3, 3 |
| Day15.SampleLaterTurns | day15/src/main.rs:45 | the first ten are 0, 3, 6, 0, 3, 3, 1, 0, 4, 0 |
| Day15.SampleGame | day15/src/main.rs:45 | the game says 0 on turn 10 from 0, 3, 6 |
| Day15.SamplePart1 | day15/src/main.rs:45 | `part1(&[0, 3, 6], 10)` is 0 |
| Day16.AnyRule | day16/src/main.rs:53-55 | true iff some rule has the value in one of its two ranges |
| Day16.Pieces | day16/src/main.rs:50 | splitting on line feeds and commas gives at least one piece, and no piece holds a separator |
| Day16.Separators | day16/src/main.rs:50 | the separators of the text, in order |
| Day16.WeavePieces | day16/src/main.rs:50 | the split loses nothing: putting the separators back between the pieces gives the text again |
| Day16.PiecesJoin | day16/src/main.rs:50 | text joined at a separator splits into the pieces of each side |
| Day16.PiecesFree | day16/src/main.rs:50 | text without a separator is one piece |
| Day16.PiecesWeave | day16/src/main.rs:50 | pieces without separators, joined by separators, split back into the same pieces |
| Day16.InvalidCounts | day16/src/main.rs:51-61 | the filter keeps each value no rule allows as often as it occurs, and drops every value some rule allows |
| Day16.Invalid | day16/src/main.rs:51-61 | the `filter_map` keeps no more values than it is given, and they sum to no more than all the values |
| Day16.NearbyValues | day16/src/main.rs:46-52 | `None` exactly when there is no line feed after the header (`nth(1).unwrap()`) or some comma/line piece is not a number (`parse().unwrap()`); otherwise one value per piece |
| Day16.Part1 | day16/src/main.rs:45-63 | `part1` fails exactly when the values cannot be read; the error rate never exceeds the sum of the values, and it is positive only when some value fits no rule |
| Day16.InvalidSumAppend | day16/src/main.rs:51-62 | the error rate of two runs of values is the sum of their error rates |
| Day16.SumAppend | day16/src/main.rs:62 | the sum of two runs of values is the sum of their sums |
| Day16.AllRules | day16/src/main.rs:67 | `(0..n).collect()` holds exactly the numbers below n, n of them |
| Day16.NoMatch | day16/src/main.rs:72-82 | `no_match` holds exactly the indices of the rules that do not allow the value |
| Lists.SubsetSize | day16/src/main.rs:84 | a subset is no larger than its superset, and equal in size only when equal (also the part-2 bound of day 6, day06/src/main.rs:30-39) |
| Day16.NoMatchSize | day16/src/main.rs:84 | `no_match.len() == rules.len()` holds exactly when no rule allows the value |
| Day16.NarrowedEmptyTicket | day16/src/main.rs:69-70 | a new ticket with no values yet keeps the candidate sets exact |
| Day16.AllowedSnoc | day16/src/main.rs:70-86 | one more value of the current ticket changes what is allowed only at its own position |
| Day16.NarrowStep | day16/src/main.rs:71-86 | removing `no_match` from the current position's set, when some rule allows the value, keeps every candidate set exactly the rules that allow all values seen there |
| Day16.NarrowTicket | day16/src/main.rs:70-87 | the loop over one ticket's values succeeds iff every value parses and every allowed value's position has a set; then the sets are exact for the tickets so far and only shrink |
| Day16.NarrowValue | day16/src/main.rs:71-86 | one value of a ticket: fails (the `valid[idx_value]` index panic) exactly when the value matches some rule but its position is past the last set; otherwise the sets stay exact for the value added and only shrink |
| Day16.FitsPrefix | day16/src/main.rs:69-88 | the tickets read so far fit when all tickets do |
| Day16.TicketsSnoc | day16/src/main.rs:69-71 | the parsed tickets grow by the next line's values |
| Day16.TicketsPrefix | day16/src/main.rs:69-71 | the tickets read so far are a prefix of all the tickets |
| Day16.Narrow | day16/src/main.rs:67-88 | the loops over the nearby tickets succeed iff every ticket parses and fits; then each position's set is exactly the rules that allow every value there some rule allows |
| Day16.InsertBySize | day16/src/main.rs:90-91 | inserting a position into a list ordered by set size, ties by position, keeps it ordered and adds only that position |
| Day16.BySize | day16/src/main.rs:90-91 | `sort_by_key(len)`, stable: positions 0 to n - 1, each once, ordered by set size and then by position |
| Day16.HeadFirst | day16/src/main.rs:90-91 | the first position of such an ordering comes before every other one |
| Day16.SizeOrderedUnique | day16/src/main.rs:90-91 | two such orderings of the same positions are the same list, so the sort's outcome is fixed |
| Day16.AssignmentSnoc | day16/src/main.rs:102-104 | matching one more position to one of its candidates not yet matched extends an assignment |
| Day16.DepartureDefined | day16/src/main.rs:106-108 | the product is defined iff every pick names a rule and every position matched to a "departure" field has a value on my ticket |
| Day16.DepartureSnoc | day16/src/main.rs:106-108 | one more matched position multiplies the product by its value exactly when its rule is a "departure" field |
| Day16.NoDepartureProduct | day16/src/main.rs:93-111 | without a "departure" field among the rules the product is 1 |
| Day16.Elems | day16/src/main.rs:92 | the elements of a list of picks |
| Day16.DistinctCard | day16/src/main.rs:92 | a list without repeats has as many elements as entries |
| Day16.ChainGrows | day16/src/main.rs:102-104 | in a chain of nested candidate sets, later positions have larger sets |
| Day16.PicksFill | day16/src/main.rs:102-104 | under a chain, the first k picks use up exactly the candidates of the k-th position |
| Day16.SubsetDifference | day16/src/main.rs:103 | the size of a set difference with a subset |
| Day16.Singleton | day16/src/main.rs:103 | a set of one element has only that element |
| Day16.ForcedPick | day16/src/main.rs:103 | under a chain, two assignments that agree so far pick the same rule next |
| Day16.AssignmentForced | day16/src/main.rs:102-109 | under a chain, every assignment is the same: whichever element the hash set yields first, the matching does not change |
| Day16.Match | day16/src/main.rs:102-109 | the matching loop, when it does not panic, matches each position in order to a candidate not yet matched, and returns the product of my values at the positions matched to a "departure" field |
| Day16.Part2 | day16/src/main.rs:65-111 | `part2`: None when a nearby ticket or my ticket does not parse; otherwise the tickets fit and the result is a product of an outcome: exact candidate sets, positions by size, an assignment, and the departure product |
| Day16.NoDepartureOutcome | day16/src/main.rs:65-111 | with no "departure" field among the rules every result of `part2` is 1 |
| Day16.SamplePart2 | day16/src/main.rs:159-166 | the second example's answer is 1 |
| Day16.SampleLine | day16/src/main.rs:153 | a ticket line of three comma-separated numbers splits into them |
| Day16.SampleValues | day16/src/main.rs:153 | the example's four ticket lines split into their twelve values |
| Day16.FourLines | day16/src/main.rs:50 | four lines joined by line feeds split into the pieces of each line |
| Day16.SampleParse | day16/src/main.rs:52 | the twelve example pieces parse to their values |
| Day16.OneRate | day16/src/main.rs:51-62 | the error rate of one value is the value when no rule allows it, else 0 |
| Day16.TicketRate | day16/src/main.rs:51-62 | the error rate of a ticket of three values adds up those no rule allows |
| Day16.SampleRanges | day16/src/main.rs:118-136 | under the example rules a value is allowed iff it lies in 1-3, 5-11, 13-44 or 45-50 |
| Day16.SampleRate | day16/src/main.rs:148-157 | the example values have an error rate of 71 |
| Day16.SampleBody | day16/src/main.rs:153 | the example body parses to its twelve values |
| Day16.SamplePart1 | day16/src/main.rs:148-157 | `part1` on the example is 71 |
| Day16.SampleHeader | day16/src/main.rs:46-49 | `splitn(2, '\n').nth(1)` drops the header line "nearby tickets:" |
| Day17.Parse | day17/src/main.rs:18-30 | the active cells are exactly the '#' characters of the input, at (column, line, 0, 0) |
| Day17.Neighbors | day17/src/main.rs:32-50 | 27 cells in 3-D and 81 in 4-D, without repeats: exactly the cells within one step of the cell on every axis, the cell itself included, with w = 0 in 3-D |
| Day17.PushColumn | day17/src/main.rs:37-44 | one pass of the z loop adds the next column of the cube (3 cells in 4-D, 1 in 3-D) and keeps the list free of repeats |
| Day17.DistinctSnoc | day17/src/main.rs:40-43 | pushing a cell not yet listed keeps the list free of repeats |
| Day17.Cube | day17/src/main.rs:59 | the set made of `neighbors(c)` holds exactly the cells near c |
| Day17.Step | day17/src/main.rs:52-69 | every cell active after a cycle is near a cell active before it, and the 3-D mode stays in the plane w = 0 |
| Day17.NearSymmetric | day17/src/main.rs:53-59 | a cell is near another iff the other is near it (in 3-D, for cells with w = 0) |
| Day17.CountOthers | day17/src/main.rs:58-64 | the intersection count includes the cell itself: it is the number of active others, plus one when the cell is active |
| Day17.StepRule | day17/src/main.rs:52-69 | the puzzle's rule: an active cell stays active iff 2 or 3 others around it are active, an inactive one becomes active iff exactly 3 are |
| Day17.Run | day17/src/main.rs:71-79 | `run` returns the number of active cells after the given number of cycles |
| Day17.Spread | day17/src/main.rs:71-79 | after k cycles every active cell lies within k cells of an initially active one, on every axis |
| Day17.SampleLines | day17/src/main.rs:100 | the example input splits into its three lines |
| Day17.SampleParse | day17/src/main.rs:98-102 | the example parses to exactly the five cells of the test |
| Day18.OpPrecedence1 | day18/src/main.rs:15-20 | `*` and `+` both have precedence 0; every other token has none |
| Day18.OpPrecedence2 | day18/src/main.rs:22-28 | `+` has precedence 1 and `*` precedence 0; every other token has none |
| Day18.ApplyOp | day18/src/main.rs:30-36 | `*` multiplies, `+` adds, and any other operator panics (None) |
| Day18.Primary | day18/src/main.rs:38-58 | a successful primary consumes at least one token and stays within the line |
| Day18.Expr | day18/src/main.rs:60-78 | a successful expression consumes at least one token and stays within the line |
| Day18.Climb | day18/src/main.rs:68-75 | the operator loop never moves the cursor back or past the end |
| Day18.ClimbStops | day18/src/main.rs:68-71 | at precedence 0 the loop stops only at the end of the line or at a token that is not an operator |
| Day18.ExprStops | day18/src/main.rs:60-78 | a top-level expression stops only at the end of the line or at a token that is not an operator, such as `)` |
| Day18.ParsePrimary | day18/src/main.rs:38-58 | `parse_primary` with its cursor: the value and the new cursor of `Primary`, None where it panics |
| Day18.ParseExpression | day18/src/main.rs:60-78 | `parse_expression` with its cursor and its while loop: the value and the new cursor of `Expr` |
| Day18.Atom1 | day18/src/main.rs:38-58 | reference grammar of part 1: a digit or a parenthesised flat expression, consuming at least one token |
| Day18.Flat | day18/src/main.rs:60-78 | reference grammar of part 1: atoms joined by `+` and `*`, evaluated strictly from left to right |
| Day18.FlatTail | day18/src/main.rs:68-75 | the rest of a flat expression never moves the cursor back |
| Day18.Part1Operand | day18/src/main.rs:73 | with equal precedences, a right operand is a single primary |
| Day18.Part1Primary | day18/src/main.rs:38-58 | in part 1 `parse_primary` computes the reference atom |
| Day18.Part1Expr | day18/src/main.rs:60-78 | in part 1 `parse_expression` evaluates from left to right, exactly as the reference grammar |
| Day18.Part1Climb | day18/src/main.rs:68-75 | in part 1 the operator loop folds the operands from left to right |
| Day18.Atom2 | day18/src/main.rs:38-58 | reference grammar of part 2: a digit or a parenthesised product |
| Day18.Sum | day18/src/main.rs:22-28 | reference grammar of part 2: atoms joined by `+` |
| Day18.SumTail | day18/src/main.rs:68-75 | the rest of a sum never moves the cursor back |
| Day18.Product | day18/src/main.rs:22-28 | reference grammar of part 2: sums joined by `*`, so `+` binds tighter |
| Day18.ProductTail | day18/src/main.rs:68-75 | the rest of a product never moves the cursor back |
| Day18.SumTailStops | day18/src/main.rs:68-71 | a sum stops at the end of the line or at a token other than `+` |
| Day18.SumTailShift | day18/src/main.rs:73-74 | adding to the running sum first or last gives the same result: associativity of `+` |
| Day18.Part2Primary | day18/src/main.rs:38-58 | in part 2 `parse_primary` computes the reference atom |
| Day18.Part2Operand | day18/src/main.rs:73 | above the highest precedence a right operand is a single primary |
| Day18.Part2Sum | day18/src/main.rs:73 | at precedence 1 `parse_expression` reads a sum |
| Day18.Part2SumClimb | day18/src/main.rs:68-75 | at precedence 1 the operator loop is the rest of a sum |
| Day18.Part2Climb | day18/src/main.rs:68-75 | at precedence 0 the operator loop is the rest of a sum followed by the rest of a product |
| Day18.Part2Expr | day18/src/main.rs:60-78 | in part 2 `parse_expression` evaluates `+` before `*`, exactly as the reference grammar |
| Day18.StripKeeps | day18/src/main.rs:85-89 | removing spaces (the `filter(x != b' ')`) leaves no space and keeps every other character exactly as often as it occurs |
| Day18.Homework | day18/src/main.rs:80-96 | `do_homework` succeeds iff every line's expression parses |
| Day18.LineValueReads | day18/src/main.rs:83-94 | one line of `do_homework`: the value of `parse_expression` on the stripped line is the reference reading, left to right under `op_precedence1`, sums before products under `op_precedence2` |
| Day18.Solve | day18/src/main.rs:98-104 | `part1` / `part2`: succeed exactly when every line of the input parses |
| Day18.HomeworkAppend | day18/src/main.rs:80-96 | the homework of two blocks of lines is the sum of their homeworks |
| Day18.StripAppend | day18/src/main.rs:85-89 | removing spaces distributes over concatenation |
| Day18.SamplePart1 | day18/src/main.rs:113 | "2*3+(4*5)" is 26 in part 1 |
| Day18.SamplePart2 | day18/src/main.rs:125 | "2*3+(4*5)" is 46 in part 2 |
| Day19.ParseSymbol | day19/src/main.rs:37-47 | a number is a rule reference; a terminal is a lower-case letter of the token that is not a number; a token that is no number and has no lower-case letter panics |
| Day19.TrimMatchesWithin | day19/src/main.rs:41 | trimming quotes keeps only characters of the token |
| Day19.QuotedLetter | day19/src/main.rs:41-44 | a quoted lower-case letter is that terminal |
| Day19.ParseAlternative | day19/src/main.rs:56 | a parsed alternative has at least one symbol |
| Day19.ParseRule | day19/src/main.rs:49-59 | a parsed rule has its index from before ": ", one alternative per " \| "-separated part of the body, and no empty alternative |
| Day19.ToMap | day19/src/main.rs:62 | collecting pairs into a map: the keys are exactly the indices listed, each holding a rule listed with it |
| Day19.ToMapLast | day19/src/main.rs:62 | the rule kept for an index is that of its last pair |
| Day19.BuildMap | day19/src/main.rs:61-63 | `build_map` succeeds iff every line parses as a rule; every rule of the map is non-empty with non-empty alternatives |
| Day19.ParseInput | day19/src/main.rs:28-35 | `parse_input` needs a blank line between rules and messages (it panics otherwise), and every message is one line |
| Day19.Word | day19/src/main.rs:65-67 | a message as a string of terminals, one per character |
| Day19.WordSnoc | day19/src/main.rs:85-86 | one more matched character adds its terminal |
| Day19.DerivableStart | day19/src/main.rs:77-80 | rule 0 alone is derivable |
| Day19.DerivableStep | day19/src/main.rs:99-106 | rewriting a rule of a derivable form by one of its alternatives gives a derivable form |
| Day19.Push | day19/src/main.rs:71-74 | `push_stack` panics exactly on an empty list; otherwise it pushes one entry whose symbol and pending symbols are the list, above the untouched stack |
| Day19.Expanded | day19/src/main.rs:102-106 | the alternatives of a rule, each followed by the pending symbols, pushed in order at the same position above the untouched stack; a panic iff one of them is empty |
| Day19.ExpandRule | day19/src/main.rs:102-106 | the `for` loop over the alternatives computes `Expanded` |
| Day19.ExpandedPanics | day19/src/main.rs:105 | an empty alternative with nothing pending makes `push_stack` panic |
| Day19.PopCases | day19/src/main.rs:82-108 | one iteration: a terminal that does not match the next character drops its entry; one that does advances by one and pushes its pending symbols; acceptance only when the last pending terminal matches the last character; a rule pushes one entry per alternative at the same position |
| Day19.PopEntry | day19/src/main.rs:82-108 | the body of the loop of `full_match` computes one iteration `Pop`, and keeps every matched count within the message (so the `new_matched > len` branch is never taken) |
| Day19.FullMatch | day19/src/main.rs:76-111 | `full_match` with an iteration bound computes `Match`, and returns true only for a non-empty message that rule 0 derives |
| Day19.ExpandSound | day19/src/main.rs:99-106 | the entries pushed for a rule each stand for a rewriting of a derivable form, so they stay derivable |
| Day19.TerminalSound | day19/src/main.rs:84-97 | a terminal that matches the next character keeps the stack derivable, and accepts only at the end of a derivable message |
| Day19.PopSound | day19/src/main.rs:82-108 | one iteration keeps every entry of the stack derivable from rule 0 and accepts only a derivable message |
| Day19.SearchSound | day19/src/main.rs:82-110 | the loop, from a stack of derivable entries, accepts only a non-empty message that rule 0 derives |
| Day19.InitialSound | day19/src/main.rs:77-80 | the initial stack, one entry per alternative of rule 0, is derivable |
| Day19.MatchSound | day19/src/main.rs:76-111 | soundness of the matcher: it accepts only non-empty messages that rule 0 derives |
| Day19.Accepted | day19/src/main.rs:113-121 | the matching messages, in order: defined iff every match finishes, no more of them than messages, each one a message |
| Day19.AcceptedDerivable | day19/src/main.rs:113-121 | every counted message is derived by rule 0 |
| Day19.Part1 | day19/src/main.rs:113-121 | `part1`: the number of matching messages, None iff a match panics or runs out of iterations |
| Day19.AcceptedStops | day19/src/main.rs:116-118 | one message whose match does not finish makes the whole count fail |
| Day19.Replaced | day19/src/main.rs:124-127 | `map.extend`: rules 8 and 11 become their looping versions, every other rule is kept |
| Day19.Part2 | day19/src/main.rs:123-135 | `part2`: the number of messages that match under the replaced rules |
| Day19.RuleLine | day19/src/main.rs:50 | "index: body" splits at the first ": " when the index is all digits |
| Day19.BarSplit | day19/src/main.rs:51 | a body with one " \| " splits into its two alternatives |
| Day19.SpaceSplit2 | day19/src/main.rs:56 | two space-free tokens joined by a space split into both |
| Day19.SpaceSplit3 | day19/src/main.rs:56 | three space-free tokens joined by spaces split into all three |
| Day19.RuleToken | day19/src/main.rs:38-40 | a token of one or two digits is a rule reference |
| Day19.AltOne | day19/src/main.rs:56 | an alternative of one token |
| Day19.RuleOne | day19/src/main.rs:49-59 | a rule line of one alternative |
| Day19.AltTwo | day19/src/main.rs:56 | an alternative of two tokens |
| Day19.AltThree | day19/src/main.rs:56 | an alternative of three tokens |
| Day19.RuleTwo | day19/src/main.rs:49-59 | a rule line of two alternatives |
| Day19.ParseLoop8 | day19/src/main.rs:125 | `parse_rule("8: 42 \| 42 8")` is the looping rule 8 |
| Day19.ParseLoop11 | day19/src/main.rs:126 | `parse_rule("11: 42 31 \| 42 11 31")` is the looping rule 11 |
| Day19.SampleLine0 | day19/src/main.rs:141-158 | "0: 1 2" parses to rule 0 with one alternative 1 2 |
| Day19.SampleLetter | day19/src/main.rs:141-158 | a line of a quoted letter parses to that terminal |
| Day19.SampleLine1 | day19/src/main.rs:141-158 | "1: \"a\"" parses to the terminal a |
| Day19.SampleLine3 | day19/src/main.rs:141-158 | "3: \"b\"" parses to the terminal b |
| Day19.SampleLine2 | day19/src/main.rs:141-158 | "2: 1 3 \| 3 1" parses to its two alternatives |
| Day19.ToMapSnoc | day19/src/main.rs:62 | one more pair updates the map at its index |
| Day19.SampleToMap | day19/src/main.rs:141-158 | the four parsed rules collect into the map of the test |
| Day19.SampleBuildMap | day19/src/main.rs:141-158 | `build_map` on the four example lines is the map of the test |
| Day19.StepAtIndex | day19/src/main.rs:99-106 | the symbols of a rewriting, position by position |
| Day19.SampleStep | day19/src/main.rs:160-184 | a rewriting by the example grammar keeps the shape of its forms |
| Day19.SampleChain | day19/src/main.rs:160-184 | every form of a derivation by the example grammar has that shape |
| Day19.SampleLanguage | day19/src/main.rs:160-184 | the example grammar derives no message other than "aab" and "aba" |
| Day19.SampleRejects | day19/src/main.rs:160-184 | "abaa", "ab" and "baa" never match the example grammar |
| Day19.SearchMore | day19/src/main.rs:82-110 | more iterations change nothing once the loop has finished |
| Day19.EntryOf | day19/src/main.rs:71-74 | an entry is determined by the list it was pushed for |
| Day19.SampleStart | day19/src/main.rs:77-80 | the example starts from one entry for rule 0 |
| Day19.SampleRule2 | day19/src/main.rs:102-106 | rule 2 of the example pushes its two alternatives |
| Day19.SampleLetterRule | day19/src/main.rs:102-106 | a rule of one terminal is replaced by that terminal |
| Day19.SearchStep | day19/src/main.rs:82-109 | one iteration of the loop |
| Day19.SampleMatch | day19/src/main.rs:77-82 | the example match starts from its single entry |
| Day19.SampleOpening | day19/src/main.rs:160-184 | after three iterations on a message starting with 'a', both alternatives of rule 2 are pending |
| Day19.SampleAab | day19/src/main.rs:160-184 | "aab" then matches |
| Day19.SampleAba | day19/src/main.rs:160-184 | "aba" then matches |
| Day19.SampleAccepts | day19/src/main.rs:160-184 | "aab" and "aba" match the example grammar given nine iterations |
| Day20.AgreeingBits | day20/src/main.rs:28 | two edges whose sixteen bits agree one by one are equal |
| Day20.SameBits | day20/src/main.rs:28 | two edges with the same bits are the same edge |
| Day20.TenBitsHigh | day20/src/main.rs:25-28 | an edge fits in ten bits iff its bits 10 to 15 are clear |
| Day20.ReverseBits | day20/src/main.rs:41 | `u16::reverse_bits`: bit i of the result is bit 15 - i |
| Day20.Reverse | day20/src/main.rs:40-42 | `Edge::reverse`: bit i of the result is bit (9 - i) mod 16, so a ten-bit edge is read backwards |
| Day20.ReverseInvolution | day20/src/main.rs:40-42 | reversing twice gives the edge back |
| Day20.ReverseTenBits | day20/src/main.rs:40-42 | reversal keeps a ten-bit edge within ten bits |
| Day20.ReverseInjective | day20/src/main.rs:40-42 | different edges have different reversals |
| Day20.Tile.Rotate | day20/src/main.rs:86-93 | `rotate` keeps the id and makes ten rows, row k being column k reversed |
| Day20.EdgesLayout | day20/src/main.rs:51-74 | the four edges are row 0, column 9, row 9 and column 0, in that order and none reversed; bit r of a column edge is that pixel of row r |
| Day20.ColumnStepAt | day20/src/main.rs:82 | one step of the fold of `get_col` sets bit k to pixel c of row k and keeps the other bits |
| Day20.ColumnBitAt | day20/src/main.rs:80-84 | bit r of column c is pixel c of row r; the bits past the last row are clear |
| Day20.ColumnBits | day20/src/main.rs:80-84 | the same for every bit of the column |
| Day20.RotateBitAt | day20/src/main.rs:86-93 | after a quarter turn, pixel j of row k is pixel k of old row 9 - j |
| Day20.RotateSquare | day20/src/main.rs:86-93 | a quarter turn of a tile of ten rows of ten pixels is again such a tile |
| Day20.HalfTurnBitAt | day20/src/main.rs:86-93 | after two quarter turns, pixel j of row k is pixel 9 - j of old row 9 - k |
| Day20.RotateFour | day20/src/main.rs:86-93 | four quarter turns give the tile back |
| Day20.RotateEdges | day20/src/main.rs:51-93 | a quarter turn takes the edges top, right, bottom, left to: the old left reversed, the old top, the old right reversed, the old bottom |
| Day20.ParseRow | day20/src/main.rs:127-136 | the fold over one line fails exactly when a '#' lies at column 16 or beyond (the shift overflows a `u16`) |
| Day20.MarkBitAt | day20/src/main.rs:131 | `row \| (1 << i)` sets bit i and keeps the others |
| Day20.RowBitAt | day20/src/main.rs:127-136 | bit i of a parsed row is set exactly when column i of the line holds a '#' |
| Day20.RowBits | day20/src/main.rs:127-136 | the same for every bit of the row |
| Day20.ParseHeader | day20/src/main.rs:114-118 | an accepted header is "Tile ", the id's text and ":" |
| Day20.HeaderOf | day20/src/main.rs:114-118 | every header "Tile <digits>:" gives the value of its digits |
| Day20.ParseTile | day20/src/main.rs:112-140 | `parse_tile` fails without a line feed, with a bad header, or on a '#' past column 15; otherwise one row per following line, with the '#' positions as bits |
| Day20.RowsBits | day20/src/main.rs:124-138 | every parsed row has its '#' positions as bits |
| Day20.ParseInput | day20/src/main.rs:105-110 | `parse_input` succeeds iff every blank-line-separated block is a tile, and then gives those tiles in order |
| Day20.MatchSymmetric | day20/src/main.rs:158 | the test `edge == edge2 \|\| edge == edge2.reverse()` is symmetric |
| Day20.MatchReversed | day20/src/main.rs:158 | reversing one side does not change whether two edges match |
| Day20.Hits | day20/src/main.rs:157-161 | the number of edges of the other tile that match an edge is at most the number of edges |
| Day20.MatchesSnocRight | day20/src/main.rs:156-162 | one more edge on the other tile adds the matches of that edge |
| Day20.MatchesNone | day20/src/main.rs:156-162 | no edges, no matches |
| Day20.MatchesSymmetric | day20/src/main.rs:156-162 | the number of matching edge pairs does not depend on which tile comes first |
| Day20.HitsReversed | day20/src/main.rs:158 | reversing an edge does not change how many edges it matches |
| Day20.MatchesFour | day20/src/main.rs:156-162 | the matching pairs of four edges, one edge at a time |
| Day20.RotateKeepsMatches | day20/src/main.rs:86-93 | a quarter turn of a tile does not change how many of its edge pairs match another tile's |
| Day20.Repeat | day20/src/main.rs:159 | n copies of an id |
| Day20.RepeatCount | day20/src/main.rs:159 | n copies of an id hold that id n times and nothing else |
| Day20.Pushes | day20/src/main.rs:151-163 | the middle loop pushes only ids of other tiles, never the tile's own |
| Day20.ListFor | day20/src/main.rs:144-166 | a tile's list holds only ids of tiles with another id |
| Day20.Row | day20/src/main.rs:151-163 | a tile with another id than the list's, or a pair of equal ids, adds nothing |
| Day20.LinkSwap | day20/src/main.rs:156-162 | a pair of tiles links a to b as often as it links b to a |
| Day20.RowSwap | day20/src/main.rs:151-163 | the pushes of one tile's middle loop are those onto it from the others |
| Day20.LinksNone | day20/src/main.rs:150 | no tiles, no pushes |
| Day20.LinksSnocRight | day20/src/main.rs:151 | one more tile adds the pushes it causes |
| Day20.LinksSwap | day20/src/main.rs:150-164 | the pushes of b onto a's list over all pairs are those of a onto b's |
| Day20.PushesCount | day20/src/main.rs:151-163 | how often b is pushed while the middle loop runs for a tile |
| Day20.ListForCount | day20/src/main.rs:150-164 | how often b is in a's list once the outer loop is done |
| Day20.NeighborCount | day20/src/main.rs:144-166 | b is in a's list once per matching edge pair between a tile with id a and a tile with id b; a tile is never its own neighbour |
| Day20.NeighborsSymmetric | day20/src/main.rs:144-166 | b is in a's list exactly as often as a is in b's |
| Day20.FindNeighbors | day20/src/main.rs:144-166 | `find_neighbors`: one list per tile id, holding the id of the other tile once for every pair of matching edges |
| Day20.PushRow | day20/src/main.rs:151-163 | the middle loop appends the pushes of one tile |
| Day20.PushMatches | day20/src/main.rs:156-162 | the two inner loops append the other tile's id once per pair of matching edges |
| Day20.PushHits | day20/src/main.rs:157-161 | the innermost loop appends the id once per matching edge |
| Day20.ProductRemove | day20/src/main.rs:172 | any id can be taken out of the product first, so the map's iteration order does not matter |
| Day20.Part1 | day20/src/main.rs:168-173 | `part1`: the product of the ids whose list has exactly two entries |
| Day20.VisitKey | day20/src/main.rs:168-173 | one key of the `filter_map`/`product`: the running product times the corner product of the keys left is the corner product of all ids, and one key is consumed |
| Lists.Collect | day20/src/main.rs:105-110 | `collect::<Option<Vec<_>>>()`: defined iff every element maps to a value, and then those values in order |
| Lists.CollectSnoc | day20/src/main.rs:105-110 | collecting one more element appends its value |
| Lists.CollectIs | day20/src/main.rs:105-110 | elements that map to given values collect to exactly those values |
| Numbers.Pow2 | day10/src/main.rs:49 | `2u64.pow(n)` is at least 1 |
| Numbers.Quot | day12/src/main.rs:51-52 | Rust's `/` on `i32` with a positive divisor rounds toward zero |
| Numbers.Rem | day12/src/main.rs:51-52 | Rust's `%` on `i32` with a positive divisor takes the sign of the dividend and completes the division |
| Numbers.RemZero | day12/src/main.rs:51-52 | Rust's remainder and the Euclidean one are zero together |
| Text.ParseNat | day09/src/main.rs:6-8 | `str::parse` into an unsigned type: defined iff the text is an optional '+' followed by one or more decimal digits |
| Text.ParseInt | day08/src/main.rs:18 | `str::parse::<i32>()`: the empty text fails; text without a leading '-' parses as the unsigned parse does; after a '-' it is defined iff one or more digits follow, and is then minus their value |
| Text.OneDigit | day19/src/main.rs:38 | a one-digit text parses to its digit |
| Text.TwoDigits | day19/src/main.rs:38 | a two-digit text parses to its value |
| Text.Split | day04/src/main.rs:5 | `str::split` on a text separator gives at least one piece |
| Text.JoinSplit | day04/src/main.rs:5 | the split loses nothing: joining the pieces with the separator gives the text back |
| Text.Find | day19/src/main.rs:50 | the first occurrence of a separator, or None iff it never occurs |
| Text.SplitOnce | day19/src/main.rs:50 | `split_once`: the text is the part before, the separator and the part after, with no earlier occurrence; None iff the separator does not occur |
| Text.SplitOnceChar | day20/src/main.rs:113 | `split_once` on a character splits at its first occurrence |
| Text.Lines | day07/src/main.rs:9 | `str::lines`: no line holds a line feed |
| Text.LinesJoin | day07/src/main.rs:9 | a non-empty text has at least one line, and its lines joined with line feeds give the text back less one final line feed |
| Text.JoinSnoc | day04/src/main.rs:5 | joining one more piece appends the separator and the piece |
| Text.NoNewlineInPieces | day04/src/main.rs:5 | no piece of a split on line feeds holds a line feed |
| Text.Words | day04/src/main.rs:32 | `split_ascii_whitespace`: non-empty words without whitespace |
| Text.WordsConcat | day06/src/main.rs:16-17 | the words glued together (`collect::<String>()`) are exactly the text's non-whitespace characters, in order |
| Text.WordsWeave | day04/src/main.rs:32 | the text is its words interleaved with whitespace gaps, every gap between two words being non-empty, so each word is a maximal non-whitespace run; a leading whitespace character opens a non-empty first gap |
| Text.NonWhitespacePrefix | day06/src/main.rs:16-17 | a whitespace-free prefix passes through unchanged when whitespace is dropped |
| Text.WovenSpace | day04/src/main.rs:32 | a leading whitespace character joins the first gap and leaves the words unchanged |
| Text.WovenWord | day04/src/main.rs:32 | a leading word is the first word, after an empty gap |
| Text.WovenWordWeave | day04/src/main.rs:32 | a leading word followed by the weave of the rest weaves back to the text |
| Text.WordFirst | day04/src/main.rs:32 | a text starting with a word: that word comes first, after an empty gap, then the words and gaps of the rest |
| Text.WeaveWord | day04/src/main.rs:32 | a word in front of text that is empty or starts with whitespace: weaving it behind an empty gap gives word and text, and the gaps stay separating |
| Text.WeaveFront | day04/src/main.rs:32 | weaving a leading word behind an empty gap puts it in front of the rest |
| Text.WeaveWiden | day04/src/main.rs:32 | widening the first gap by a character puts that character in front of the woven text |
| Text.GapsWiden | day04/src/main.rs:32 | widening the first gap by whitespace keeps the gaps whitespace and the inner gaps non-empty |
| Text.WordLength | day04/src/main.rs:32 | the length of the leading word: no whitespace in it, and whitespace or the end after it |
| Text.TrimMatches | day19/src/main.rs:41 | `trim_matches`: the result is a contiguous piece of the text with only the trimmed character before and after it, and neither of its ends is that character; a text that does not start with it keeps its first character |
| Text.TrimStart | day19/src/main.rs:41 | `trim_start_matches`: a suffix of the text not starting with the character, everything cut off being that character |
| Text.TrimEnd | day19/src/main.rs:41 | `trim_end_matches`: a prefix of the text not ending with the character, everything cut off being that character |
| Text.TrimmedBy | day19/src/main.rs:41 | trimming the front and then the back of what is left trims both ends of the text |
| Text.SplitFree | day04/src/main.rs:5 | text without the separator's first character is one piece |
| Text.SplitLead | day04/src/main.rs:5 | a first piece free of the separator's first character is split off exactly |
| Text.FindAt | day19/src/main.rs:50 | an occurrence with none before it is the one found |
| Text.SplitFirstAt | day19/src/main.rs:51 | splitting at the first occurrence of the separator |
| Text.SplitNowhere | day19/src/main.rs:51 | text in which the separator never occurs is one piece |
| Text.SplitWithout | day19/src/main.rs:51 | text lacking some character of the separator is one piece |
| Runs.RunSnoc | day14/src/main.rs:19-32 | feeding one more line is one more step |
| Runs.RunStops | day14/src/main.rs:19-32 | a run that panics on some lines panics on any extension of them |
| Runs.RunTwo | day14/src/main.rs:19-32 | two lines are two steps |
| Runs.RunPanics | day14/src/main.rs:19-32 | a panic on the k-th line makes the whole run panic |
| Sorting.Insert | day10/src/main.rs:17 | inserting into a sorted list keeps it sorted and adds exactly the new element |
| Sorting.Sort | day10/src/main.rs:17 | `sort_unstable`: a sorted permutation of the input |
| Sorting.SortedUnique | day10/src/main.rs:17 | two sorted permutations of the same elements are equal, so the outcome does not depend on the sorting algorithm |

## Left out

- File reading, printing and timing in every `main`: I/O, outside the computation. The model starts from the input text or the parsed values.
- The regex parsers of day 2 (`day02/src/main.rs:21-37`) and day 16 (`day16/src/main.rs:30-43`): they depend on the `regex` crate. Their `Rule` records are inputs of the model.
- `Point::rotate` of day 12 part 2 (`day12/src/main.rs:98-106`): it computes with `f32` sine and cosine. It is a parameter of `Day12Part2.Step` and `Day12Part2.Run`, and the sample lemma states the one rotation it needs as a precondition. The debug `println!` at `day12/src/main.rs:138` is output only.
- The `Debug` impls of day 20 (`day20/src/main.rs:30-37`, `96-103`): formatting only. `Tile::get_row` (`day20/src/main.rs:76-78`) is never called.
- The commented-out part 2 of day 20 (`day20/src/main.rs:14-19`) and its tests (`day20/src/main.rs:287-391`). There is no grid assembly or image stitching in the code. The live `edges` (`day20/src/main.rs:67-74`) reverses none of the four edges, and the model follows it.
- The debug dump at `day15/src/main.rs:35`: output only.
- Fixed-width integers (`u32`, `u64`, `i32`, `i64`, `usize`) are unbounded, except the `u64` masks and addresses of day 14 and the `u16` edges of day 20. Overflow that the inputs never reach is not modelled: the `u64` sums of days 14 and 18, the products of days 10, 16 and 20, and the `u32` turns of day 15.
- `str::lines` also strips a `\r` before each line feed; `Text.Lines` splits on line feeds only.
- Day 14 indexes the mask line by bytes and the model by characters. They agree on ASCII input.
- Day05.Decode: the source checks `code.len() != 10` and slices `code[0..7]` / `code[7..10]` in bytes; the model counts characters. They agree on ASCII input; a pass with a multi-byte character gets a different error, or a slicing panic in the source, which the model does not reproduce.
- Day17.Parse: the source takes x from `line.bytes().enumerate()`, a byte offset; the model uses the character index. They agree on ASCII input.
- Day02.Validate2: the source indexes `password.as_bytes()`; the model's precondition and positions count characters. They agree on ASCII input; on a password with a multi-byte character the source checks its bounds in bytes and compares the bytes at those positions, not the characters.
- Day03.CountTrees: the width and the column count characters where the source uses `len()` and `as_bytes()`; they agree on ASCII input. The source's panics (`step_by(0)`, `x % 0` after an empty first row, a row too short for its column) are the precondition `y_step > 0 && InBounds`, not a failure value.
- Day04.HeightValid: the source cuts the value with `split_at(value.len() - 2)`, at a byte offset; the model cuts two characters off. They agree on ASCII input; a value ending in a multi-byte character makes the source panic where the model answers false.
- Day04.HairValid: the source tests `value.len() > 1` and cuts with `split_at(1)`, in bytes; the model counts characters. They agree on ASCII input; a value starting with a multi-byte character makes the source panic where the model answers false.
- Day06.Chars: the source collects the answers' bytes, so a multi-byte character is several answers there and one answer here. They agree on ASCII input.
- Hash-map and hash-set iteration order: sums and products are proved independent of it (`Day14.SumValuesRemove`, `Day20.ProductRemove`). Day 16 takes the first element of a set difference; `Day16.Match` picks any element, and `Day16.AssignmentForced` shows that the choice does not matter when the candidate sets form a chain.
- Day16.Part2: its contract gives None on a nearby or own ticket that does not parse, and otherwise an outcome of the matching. It does not say when the matching itself panics (no candidate left, or a "departure" position past the end of the own ticket), because that depends on the set elements picked.
- Day16.Part2: the source narrows on every value some rule allows, even when another value of the same ticket is allowed by no rule. The model does this as written.
- Day19.FullMatch: soundness is proved (a `true` is only returned for a message rule 0 derives) but completeness is not. The loop does not terminate on some left-recursive grammars, so the model bounds the number of iterations by a fuel argument and reports running out.
- Day11.Run and Day11.Run2: the loops until nothing changes are bounded by a fuel argument, and the contracts say what happens when the fuel runs out. Termination is not proved. Both require a rectangular grid, which the source assumes when it indexes rows by the first row's width.
- Day07.Count2: it requires a ghost rank map that ranks every container above everything it holds, so it excludes every rule list with a containment cycle. The source loops for ever only when a cycle is reachable from shiny gold; on rules whose cycles lie among bags that shiny gold cannot reach it terminates, and the model does not cover those inputs.
- Day20: tiles must have 10 to 16 rows (`Shaped`); the source panics indexing row 9 of a shorter tile, and its shifts overflow a `u16` past 16 rows. `Day20.ParseRow` returns None where the source panics on a '#' past column 15.
- Worked examples whose evaluation is too costly for the verifier:
  - day 4: 2 of the 4 sample passports, and the eight `validate2` cases;
  - day 6: the sums 11 and 6;
  - day 7: the `parse_line` test and the counts 4 and 32;
  - day 8: the `from_str` test;
  - day 10: 35, 220, 8 and 19208;
  - day 11: the 10 by 10 sample grid with 71 seats, and the fixpoints with 37 and 26;
  - day 13: the second `crt` sample, 1068781, and the `part2` sample;
  - day 14: the sums 165 and 208;
  - day 15: the 2020-turn samples (1, 10, 27, 78, 438, 1836) and the 30,000,000-turn run;
  - day 16: the second example only as "every possible answer is 1";
  - day 17: the active counts 11, 21, 38, 29, 60, 112 and 848;
  - day 18: the test lines other than "2 * 3 + (4 * 5)", and the space-stripping of literal lines;
  - day 19: the six-rule sample with 2 matches, and the large sample with 3 and 12;
  - day 20: the nine-tile product 20899048083289.

## Findings

| source | as written | input that shows it | evidently intended | confidence | as-written member | corrected member |
|---|---|---|---|---|---|---|
| day10/src/main.rs:44-50 | a run of n consecutive joltages multiplies the count by 2^(n-2) - (n-4)(n-3)/2 | adapters 1, 2, 3, 4, 5, 6: the chain 0 to 6 then 9 is one run of 7, and the code gives 26 | the number of arrangements, which is 24 for that run (the run counts grow 1, 1, 2, 4, 7, 13, 24) | not executed | Day10.Part2Overcounts | Day10.RunsCountWays |
| day13/src/main.rs:17-20 | the wait for bus x is `x - ts % x` | timestamp 10 with buses 5 and 7: bus 5 leaves at 10 but is charged a wait of 5, so the code answers 7 * 4 = 28 | a wait of 0 for a bus leaving at the timestamp, answer 0 | not executed | Day13.DepartureAtTimestamp | Day13.WaitFromIsNextDeparture |
| day15/src/main.rs:15-17 | `insert` records each starting number with the last turn it was said on, dropping earlier ones | starting numbers 0, 0: turn 3 should say 1 (0 was said on turns 1 and 2), the code says 0 | every turn of a repeated starting number recorded | not executed | Day15.RepeatedStart | Day15.RecitedAllFollowsGame |

=== FILE: common.dfy ===
/** Failure-compatible wrappers shared by every day. */
module Wrappers {
  datatype Option<T> = None | Some(value: T)
}

/** Sequence and set helpers shared by several days. */
module Lists {
  import opened Wrappers

  /**
   * A `collect` into `Option` followed by `unwrap`: `f` applied to every
   * element, or `None` as soon as one element fails.
   */
  function Collect<T, U>(f: T -> Option<U>, xs: seq<T>): (r: Option<seq<U>>)
    ensures r.Some? <==> forall k :: 0 <= k < |xs| ==> f(xs[k]).Some?
    ensures r.Some? ==> |r.value| == |xs| && forall k :: 0 <= k < |xs| ==> r.value[k] == f(xs[k]).value
  {
    if xs == [] then Some([])
    else
      var init := Collect(f, xs[..|xs| - 1]);
      assert forall k :: 0 <= k < |xs| - 1 ==> xs[..|xs| - 1][k] == xs[k];
      match (init, f(xs[|xs| - 1]))
      case (Some(vs), Some(v)) => Some(vs + [v])
      case _ => None
  }

  lemma CollectSnoc<T, U>(f: T -> Option<U>, xs: seq<T>, x: T)
    requires Collect(f, xs).Some? && f(x).Some?
    ensures Collect(f, xs + [x]) == Some(Collect(f, xs).value + [f(x).value])
  {
    assert (xs + [x])[..|xs|] == xs;
  }

  lemma CollectIs<T, U>(f: T -> Option<U>, xs: seq<T>, ys: seq<U>)
    requires |xs| == |ys| && forall k :: 0 <= k < |xs| ==> f(xs[k]) == Some(ys[k])
    ensures Collect(f, xs) == Some(ys)
  {
    var r := Collect(f, xs);
    assert r.Some?;
    assert |r.value| == |ys| && forall k :: 0 <= k < |ys| ==> r.value[k] == ys[k];
    assert r.value == ys;
  }

  /** The largest entry of a non-empty list (`iter().max()`). */
  function Max(s: seq<nat>): (m: nat)
    requires |s| > 0
    ensures m in s && forall x :: x in s ==> x <= m
  {
    if |s| == 1 then s[0]
    else
      var m := Max(s[1..]);
      assert forall x :: x in s ==> x == s[0] || x in s[1..];
      if s[0] >= m then s[0] else m
  }

  /** A subset is no larger than its superset, and of the same size only when it is the superset. */
  lemma {:induction false} SubsetSize<T>(a: set<T>, b: set<T>)
    requires a <= b
    ensures |a| <= |b|
    ensures |a| == |b| ==> a == b
    decreases |b|
  {
    if b != {} {
      var y :| y in b;
      SubsetSize(a - {y}, b - {y});
      if y in a {
        assert |a - {y}| == |a| - 1;
        if |a| == |b| {
          assert a == (a - {y}) + {y} && b == (b - {y}) + {y};
        }
      } else {
        assert a - {y} == a;
      }
    } else {
      assert a == {};
    }
  }
}

/** Arithmetic shared by several days. */
module Numbers {
  /** Two to the power `n`. */
  function Pow2(n: nat): (p: nat)
    ensures p >= 1
  {
    if n == 0 then 1 else 2 * Pow2(n - 1)
  }

  /** Rust's `/` on signed integers with a positive divisor: the quotient rounded toward zero. */
  function Quot(a: int, b: int): (q: int)
    requires b > 0
    ensures a >= 0 ==> q >= 0 && q * b <= a < q * b + b
    ensures a < 0 ==> q <= 0 && q * b - b < a <= q * b
  {
    if a >= 0 then a / b else -((-a) / b)
  }

  /** Rust's `%` on signed integers with a positive divisor: the remainder takes the sign of `a`. */
  function Rem(a: int, b: int): (r: int)
    requires b > 0
    ensures a == Quot(a, b) * b + r
    ensures a >= 0 ==> 0 <= r < b
    ensures a < 0 ==> -b < r <= 0
  {
    a - Quot(a, b) * b
  }

  lemma MulAtLeast(c: int, b: int)
    requires c >= 1 && b > 0
    ensures c * b >= b
  {
  }

  /** Euclidean `%` of `k * b + r` is `r` whenever `0 <= r < b`. */
  lemma ModOfShifted(k: int, b: int, r: int)
    requires b > 0 && 0 <= r < b
    ensures (k * b + r) % b == r
  {
    var a := k * b + r;
    var q := a / b;
    var m := a % b;
    assert a == q * b + m && 0 <= m < b;
    var c := k - q;
    assert c * b == m - r by { assert c * b == k * b - q * b; }
    if c > 0 {
      MulAtLeast(c, b);
    } else if c < 0 {
      MulAtLeast(-c, b);
    }
  }

  lemma ModOfMultiple(k: int, b: int)
    requires b > 0
    ensures (k * b) % b == 0
  {
    ModOfShifted(k, b, 0);
  }

  /** `a` and `-a` are multiples of `b` together. */
  lemma NegZero(a: int, b: int)
    requires b > 0
    ensures a % b == 0 <==> (-a) % b == 0
  {
    if a % b == 0 {
      assert a == (a / b) * b;
      assert -a == (-(a / b)) * b;
      ModOfMultiple(-(a / b), b);
    }
    if (-a) % b == 0 {
      assert -a == ((-a) / b) * b;
      assert a == (-((-a) / b)) * b;
      ModOfMultiple(-((-a) / b), b);
    }
  }

  /** Truncating and Euclidean remainders are zero together. */
  lemma RemZero(a: int, b: int)
    requires b > 0
    ensures Rem(a, b) == 0 <==> a % b == 0
  {
    if a < 0 {
      var q := (-a) / b;
      assert -a == q * b + (-a) % b;
      assert a == (-q) * b - (-a) % b;
      if (-a) % b == 0 {
        assert a == (-q) * b;
        ModOfMultiple(-q, b);
      } else {
        assert a == (-q - 1) * b + (b - (-a) % b);
        ModOfShifted(-q - 1, b, b - (-a) % b);
      }
    }
  }
}

/**
 * Text helpers that mirror the parts of Rust's `str` API the solutions use:
 * character classes, `parse::<uN>()` / `parse::<iN>()`, `split`, `splitn(2, ..)` /
 * `split_once`, `lines` and `split_ascii_whitespace`. Strings are sequences of
 * characters, one character per byte of ASCII input.
 */
module Text {
  import opened Wrappers

  predicate IsDigit(c: char) { '0' <= c <= '9' }

  predicate IsLower(c: char) { 'a' <= c <= 'z' }

  /** `u8::is_ascii_hexdigit` */
  predicate IsHexDigit(c: char) { IsDigit(c) || 'a' <= c <= 'f' || 'A' <= c <= 'F' }

  /** `u8::is_ascii_whitespace`: space, tab, line feed, form feed, carriage return. */
  predicate IsAsciiWhitespace(c: char) {
    c == ' ' || c == '\t' || c == '\n' || c as int == 0x0C || c == '\r'
  }

  predicate AllDigits(s: string) { forall i :: 0 <= i < |s| ==> IsDigit(s[i]) }

  /** Value of a string of decimal digits, most significant first. */
  function DigitsValue(s: string): nat
    requires AllDigits(s)
  {
    if s == [] then 0 else 10 * DigitsValue(s[..|s| - 1]) + (s[|s| - 1] as int - '0' as int)
  }

  /**
   * `s.parse::<uN>()`: an optional '+', then one or more decimal digits.
   * Overflow of the fixed width is not modelled.
   */
  function ParseNat(s: string): (r: Option<nat>)
    ensures r.Some? <==> (|s| > 0 && s[0] == '+' && |s| > 1 && AllDigits(s[1..]))
                         || (|s| > 0 && AllDigits(s))
  {
    if |s| > 0 && s[0] == '+' then
      (if |s| > 1 && AllDigits(s[1..]) then Some(DigitsValue(s[1..])) else None)
    else if |s| > 0 && AllDigits(s) then Some(DigitsValue(s))
    else None
  }

  /** `s.parse::<iN>()`: an optional '+' or '-', then one or more decimal digits. */
  function ParseInt(s: string): (r: Option<int>)
    ensures |s| > 0 && s[0] != '-' ==> r == (match ParseNat(s) case Some(n) => Some(n as int) case None => None)
    ensures r.Some? && |s| > 0 && s[0] == '-' ==> r.value <= 0
    ensures |s| > 0 && s[0] == '-' ==>
              (r.Some? <==> |s| > 1 && AllDigits(s[1..]))
              && (r.Some? ==> r.value == -(DigitsValue(s[1..]) as int))
    ensures s == [] ==> r.None?
  {
    if |s| > 0 && s[0] == '-' then
      (if |s| > 1 && AllDigits(s[1..]) then Some(0 - DigitsValue(s[1..]) as int) else None)
    else
      match ParseNat(s)
      case Some(n) => Some(n)
      case None => None
  }

  /** A one-digit string parses to its digit. */
  lemma OneDigit(s: string, v: nat)
    requires |s| == 1 && IsDigit(s[0]) && v == s[0] as int - '0' as int
    ensures ParseNat(s) == Some(v)
  {
    assert AllDigits(s) && s[..0] == [] && s[0] != '+';
    assert DigitsValue(s) == 10 * DigitsValue(s[..0]) + v;
  }

  /** A two-digit string parses to its value. */
  lemma TwoDigits(s: string, v: nat)
    requires |s| == 2 && IsDigit(s[0]) && IsDigit(s[1])
    requires v == 10 * (s[0] as int - '0' as int) + (s[1] as int - '0' as int)
    ensures ParseNat(s) == Some(v)
  {
    assert AllDigits(s) && s[..1] == [s[0]] && s[..1][..0] == [] && s[0] != '+';
    assert DigitsValue(s[..1]) == s[0] as int - '0' as int;
    assert DigitsValue(s) == 10 * DigitsValue(s[..1]) + (s[1] as int - '0' as int);
  }

  predicate StartsWith(s: string, prefix: string) {
    |prefix| <= |s| && s[..|prefix|] == prefix
  }

  /** `pat` occurs in `s` starting at index `i`. */
  predicate OccursAt(s: string, pat: string, i: int) {
    0 <= i && i + |pat| <= |s| && s[i..i + |pat|] == pat
  }

  /** `str::contains` for a string pattern. */
  predicate Contains(s: string, pat: string) {
    exists i :: 0 <= i <= |s| - |pat| && OccursAt(s, pat, i)
  }

  /**
   * `s.split(sep)` for a non-empty separator: the pieces between the
   * non-overlapping occurrences of `sep`, found left to right.
   */
  function Split(s: string, sep: string): (parts: seq<string>)
    requires |sep| > 0
    ensures |parts| >= 1
    decreases |s|
  {
    if |s| < |sep| then [s]
    else if s[..|sep|] == sep then [""] + Split(s[|sep|..], sep)
    else
      var rest := Split(s[1..], sep);
      [[s[0]] + rest[0]] + rest[1..]
  }

  /** The inverse of `Split`: the pieces with `sep` between consecutive ones. */
  function Join(parts: seq<string>, sep: string): string
    requires |parts| >= 1
  {
    if |parts| == 1 then parts[0] else parts[0] + sep + Join(parts[1..], sep)
  }

  /** Splitting and joining again gives back the original string. */
  lemma {:induction false} JoinSplit(s: string, sep: string)
    requires |sep| > 0
    ensures Join(Split(s, sep), sep) == s
    decreases |s|
  {
    if |s| < |sep| {
    } else if s[..|sep|] == sep {
      JoinSplit(s[|sep|..], sep);
      var rest := Split(s[|sep|..], sep);
      assert Split(s, sep) == [""] + rest;
      assert s == s[..|sep|] + s[|sep|..];
    } else {
      JoinSplit(s[1..], sep);
      var rest := Split(s[1..], sep);
      var parts := [[s[0]] + rest[0]] + rest[1..];
      assert Split(s, sep) == parts;
      if |rest| == 1 {
        assert Join(parts, sep) == [s[0]] + rest[0];
      } else {
        assert parts[1..] == rest[1..];
        assert Join(parts, sep) == [s[0]] + rest[0] + sep + Join(rest[1..], sep);
        assert Join(rest, sep) == rest[0] + sep + Join(rest[1..], sep);
      }
      assert s == [s[0]] + s[1..];
    }
  }

  /** Index of the first occurrence of `sep` in `s`, if any. */
  function Find(s: string, sep: string): (r: Option<nat>)
    requires |sep| > 0
    ensures r.Some? ==> OccursAt(s, sep, r.value)
    ensures r.Some? ==> forall i :: 0 <= i < r.value ==> !OccursAt(s, sep, i)
    ensures r.None? ==> forall i :: !OccursAt(s, sep, i)
    decreases |s|
  {
    if |s| < |sep| then None
    else if s[..|sep|] == sep then Some(0)
    else
      var r := Find(s[1..], sep);
      OccursShift(s, sep);
      assert !OccursAt(s, sep, 0);
      match r
      case None => None
      case Some(k) => Some(k + 1)
  }

  /** An occurrence at `i >= 1` in `s` is one at `i - 1` in `s[1..]`. */
  lemma OccursShift(s: string, sep: string)
    requires |s| >= 1
    ensures forall i {:trigger OccursAt(s, sep, i)} :: 1 <= i ==> (OccursAt(s, sep, i) <==> OccursAt(s[1..], sep, i - 1))
  {
    forall i | 1 <= i ensures OccursAt(s, sep, i) <==> OccursAt(s[1..], sep, i - 1) {
      if i + |sep| <= |s| {
        var a, b := s[i..i + |sep|], s[1..][i - 1..i - 1 + |sep|];
        assert forall j :: 0 <= j < |a| ==> a[j] == b[j];
        assert a == b;
      }
    }
  }

  /**
   * `s.split_once(sep)`, which is also what `s.splitn(2, sep)` yields when it
   * yields two pieces: the text before and after the first occurrence.
   */
  function SplitOnce(s: string, sep: string): (r: Option<(string, string)>)
    requires |sep| > 0
    ensures r.Some? ==> s == r.value.0 + sep + r.value.1 && !Contains(r.value.0, sep)
    ensures r.None? <==> !Contains(s, sep)
  {
    match Find(s, sep)
    case None =>
      None
    case Some(k) =>
      var before := s[..k];
      assert OccursAt(s, sep, k);
      assert !Contains(before, sep) by {
        if Contains(before, sep) {
          var i :| 0 <= i <= |before| - |sep| && OccursAt(before, sep, i);
          assert s[i..i + |sep|] == before[i..i + |sep|];
          assert OccursAt(s, sep, i);
        }
      }
      assert s == s[..k] + sep + s[k + |sep|..];
      Some((before, s[k + |sep|..]))
  }

  /** `split_once` on a one-character separator splits at its first occurrence. */
  lemma SplitOnceChar(s: string, before: string, c: char, after: string)
    requires s == before + [c] + after && c !in before
    ensures SplitOnce(s, [c]) == Some((before, after))
  {
    assert OccursAt(s, [c], |before|);
    forall i | 0 <= i < |before|
      ensures !OccursAt(s, [c], i)
    {
      assert s[i..i + 1] == [before[i]];
    }
    var k := Find(s, [c]);
    assert k == Some(|before|);
    assert s[..|before|] == before && s[|before| + 1..] == after;
  }

  /**
   * `s.lines()`: the pieces between line feeds, without a final empty piece
   * after a trailing line feed; the empty string has no lines.
   */
  function Lines(s: string): (ls: seq<string>)
    ensures forall i :: 0 <= i < |ls| ==> '\n' !in ls[i]
  {
    if s == [] then []
    else
      var parts := Split(s, "\n");
      NoNewlineInPieces(s);
      if parts[|parts| - 1] == "" then parts[..|parts| - 1] else parts
  }

  /**
   * The lines of a non-empty text, joined with line feeds, give back the
   * text less one final line feed.
   */
  lemma {:induction false} LinesJoin(s: string)
    requires s != []
    ensures |Lines(s)| >= 1
    ensures Join(Lines(s), "\n") + (if s[|s| - 1] == '\n' then "\n" else "") == s
  {
    var parts := Split(s, "\n");
    JoinSplit(s, "\n");
    NoNewlineInPieces(s);
    var last := parts[|parts| - 1];
    if |parts| == 1 {
      assert s == last;
      assert last != "" && s[|s| - 1] != '\n' by { assert s[|s| - 1] in last; }
    } else {
      var init := parts[..|parts| - 1];
      assert parts == init + [last];
      JoinSnoc(init, last, "\n");
      if last == "" {
        assert Lines(s) == init;
      } else {
        assert s[|s| - 1] == last[|last| - 1];
        assert last[|last| - 1] in last;
      }
    }
  }

  /** Joining one more piece adds the separator and the piece at the end. */
  lemma {:induction false} JoinSnoc(parts: seq<string>, x: string, sep: string)
    requires |parts| >= 1
    ensures Join(parts + [x], sep) == Join(parts, sep) + sep + x
    decreases |parts|
  {
    if |parts| > 1 {
      assert (parts + [x])[1..] == parts[1..] + [x];
      JoinSnoc(parts[1..], x, sep);
    }
  }

  /** No piece of a split on line feeds holds a line feed. */
  lemma {:induction false} NoNewlineInPieces(s: string)
    ensures forall i :: 0 <= i < |Split(s, "\n")| ==> '\n' !in Split(s, "\n")[i]
    decreases |s|
  {
    if |s| < 1 {
    } else if s[..1] == "\n" {
      NoNewlineInPieces(s[1..]);
    } else {
      NoNewlineInPieces(s[1..]);
      assert s[0] != '\n' by { assert s[..1] == [s[0]]; }
    }
  }

  /** `s.split_ascii_whitespace()`: the maximal runs of non-whitespace characters. */
  function Words(s: string): (ws: seq<string>)
    ensures forall i :: 0 <= i < |ws| ==> |ws[i]| > 0
    ensures forall i, j :: 0 <= i < |ws| && 0 <= j < |ws[i]| ==> !IsAsciiWhitespace(ws[i][j])
    decreases |s|
  {
    if s == [] then []
    else if IsAsciiWhitespace(s[0]) then Words(s[1..])
    else
      var n := WordLength(s);
      [s[..n]] + Words(s[n..])
  }

  /** The characters of the pieces, in order, as `collect::<String>()`. */
  function Concat(ws: seq<string>): string {
    if ws == [] then "" else ws[0] + Concat(ws[1..])
  }

  /** The characters of `s` that are not ASCII whitespace, in order. */
  function NonWhitespace(s: string): string {
    if s == [] then "" else (if IsAsciiWhitespace(s[0]) then "" else [s[0]]) + NonWhitespace(s[1..])
  }

  /**
   * The whitespace around the words of `s`: the run before the first word,
   * the run between each two words, and the run after the last.
   */
  function Gaps(s: string): (gs: seq<string>)
    ensures |gs| >= 1
    decreases |s|
  {
    if s == [] then [""]
    else if IsAsciiWhitespace(s[0]) then
      var g := Gaps(s[1..]);
      [[s[0]] + g[0]] + g[1..]
    else [""] + Gaps(s[WordLength(s)..])
  }

  /** The gaps and words interleaved: `gs[0] + ws[0] + gs[1] + … + ws[n - 1] + gs[n]`. */
  function Weave(ws: seq<string>, gs: seq<string>): string
    requires |gs| == |ws| + 1
  {
    if ws == [] then gs[0] else gs[0] + ws[0] + Weave(ws[1..], gs[1..])
  }

  /** Each gap is whitespace, and every gap between two words holds at least one character. */
  predicate Separating(gs: seq<string>) {
    (forall i, j :: 0 <= i < |gs| && 0 <= j < |gs[i]| ==> IsAsciiWhitespace(gs[i][j]))
    && (forall i :: 0 < i < |gs| - 1 ==> |gs[i]| > 0)
  }

  /** Gluing the words together gives the non-whitespace characters of `s`, in order. */
  lemma {:induction false} WordsConcat(s: string)
    ensures Concat(Words(s)) == NonWhitespace(s)
    decreases |s|
  {
    if s != [] {
      if IsAsciiWhitespace(s[0]) {
        WordsConcat(s[1..]);
      } else {
        var n := WordLength(s);
        WordsConcat(s[n..]);
        assert Words(s) == [s[..n]] + Words(s[n..]);
        NonWhitespacePrefix(s, n);
      }
    }
  }

  /** A prefix without whitespace passes through `NonWhitespace` unchanged. */
  lemma {:induction false} NonWhitespacePrefix(s: string, n: nat)
    requires n <= |s| && forall j :: 0 <= j < n ==> !IsAsciiWhitespace(s[j])
    ensures NonWhitespace(s) == s[..n] + NonWhitespace(s[n..])
    decreases n
  {
    if n > 0 {
      NonWhitespacePrefix(s[1..], n - 1);
      assert s[1..][n - 1..] == s[n..];
      assert s[..n] == [s[0]] + s[1..][..n - 1];
    }
  }

  /**
   * `s` is its words woven with whitespace gaps, and each gap between two
   * words is non-empty: every word is a maximal run of non-whitespace.
   */
  lemma {:induction false} WordsWeave(s: string)
    ensures |Gaps(s)| == |Words(s)| + 1
    ensures Weave(Words(s), Gaps(s)) == s
    ensures Separating(Gaps(s))
    ensures |s| > 0 && IsAsciiWhitespace(s[0]) ==> |Gaps(s)[0]| > 0
    decreases |s|
  {
    if s != [] {
      if IsAsciiWhitespace(s[0]) {
        WordsWeave(s[1..]);
        WovenSpace(s);
      } else {
        WordsWeave(s[WordLength(s)..]);
        WovenWord(s);
      }
    }
  }

  /** The facts `WordsWeave` states about `s`. */
  predicate Woven(s: string) {
    |Gaps(s)| == |Words(s)| + 1 && Weave(Words(s), Gaps(s)) == s && Separating(Gaps(s))
    && (|s| > 0 && IsAsciiWhitespace(s[0]) ==> |Gaps(s)[0]| > 0)
  }

  /** A leading whitespace character joins the first gap. */
  lemma WovenSpace(s: string)
    requires s != [] && IsAsciiWhitespace(s[0]) && Woven(s[1..])
    ensures Woven(s)
  {
    var ws, g := Words(s[1..]), Gaps(s[1..]);
    assert Words(s) == ws;
    assert Gaps(s) == [[s[0]] + g[0]] + g[1..];
    GapsWiden(g, s[0]);
    calc {
      Weave(Words(s), Gaps(s));
      Weave(ws, [[s[0]] + g[0]] + g[1..]);
      { WeaveWiden(ws, g, s[0]); }
      [s[0]] + Weave(ws, g);
      [s[0]] + s[1..];
      { assert s == [s[0]] + s[1..]; }
      s;
    }
  }

  /** A leading word comes after an empty first gap. */
  lemma WovenWord(s: string)
    requires s != [] && !IsAsciiWhitespace(s[0]) && Woven(s[WordLength(s)..])
    ensures Woven(s)
  {
    var n := WordLength(s);
    var rest := s[n..];
    var ws, gs := Words(rest), Gaps(rest);
    assert rest != [] ==> IsAsciiWhitespace(rest[0]);
    WeaveWord(s[..n], rest, ws, gs);
    assert Words(s) == [s[..n]] + ws;
    assert Gaps(s) == [""] + gs;
    WovenWordWeave(s, n);
  }

  /** The weave part of `WovenWord`. */
  lemma WovenWordWeave(s: string, n: nat)
    requires s != [] && !IsAsciiWhitespace(s[0]) && n == WordLength(s)
    requires |Gaps(s[n..])| == |Words(s[n..])| + 1 && Weave(Words(s[n..]), Gaps(s[n..])) == s[n..]
    ensures Weave(Words(s), Gaps(s)) == s
  {
    WordFirst(s, n);
    WeaveFront(Words(s), Gaps(s), s, n);
  }

  /** A text that starts with a word: the word is the first of `Words`, after an empty gap. */
  lemma WordFirst(s: string, n: nat)
    requires s != [] && !IsAsciiWhitespace(s[0]) && n == WordLength(s)
    ensures |Words(s)| >= 1 && Words(s)[0] == s[..n] && Words(s)[1..] == Words(s[n..])
    ensures |Gaps(s)| >= 1 && Gaps(s)[0] == "" && Gaps(s)[1..] == Gaps(s[n..])
  {
  }

  /** Weaving a word behind an empty gap puts the word in front. */
  lemma WeaveFront(ws: seq<string>, gs: seq<string>, s: string, n: nat)
    requires n <= |s| && |ws| >= 1 && |gs| == |ws| + 1 && ws[0] == s[..n] && gs[0] == ""
    requires Weave(ws[1..], gs[1..]) == s[n..]
    ensures Weave(ws, gs) == s
  {
    calc {
      Weave(ws, gs);
      gs[0] + ws[0] + Weave(ws[1..], gs[1..]);
      s[..n] + s[n..];
      { assert s == s[..n] + s[n..]; }
      s;
    }
  }

  /** A word in front of a text that is empty or starts with whitespace adds an empty first gap. */
  lemma WeaveWord(w: string, rest: string, ws: seq<string>, gs: seq<string>)
    requires |gs| == |ws| + 1 && Weave(ws, gs) == rest && Separating(gs)
    requires rest == [] ==> |gs| == 1
    requires rest != [] ==> IsAsciiWhitespace(rest[0]) && |gs[0]| > 0
    ensures Weave([w] + ws, [""] + gs) == w + rest
    ensures Separating([""] + gs)
  {
    var gs' := [""] + gs;
    assert ([w] + ws)[1..] == ws && gs'[1..] == gs;
    forall i, j | 0 <= i < |gs'| && 0 <= j < |gs'[i]|
      ensures IsAsciiWhitespace(gs'[i][j])
    {
      assert gs'[i] == gs[i - 1];
    }
  }

  /** Widening the first gap by a character widens the woven text by it at the front. */
  lemma WeaveWiden(ws: seq<string>, gs: seq<string>, c: char)
    requires |gs| == |ws| + 1
    ensures Weave(ws, [[c] + gs[0]] + gs[1..]) == [c] + Weave(ws, gs)
  {
    var gs' := [[c] + gs[0]] + gs[1..];
    assert gs'[1..] == gs[1..];
  }

  /** Widening the first gap by a whitespace character keeps the gaps separating. */
  lemma GapsWiden(gs: seq<string>, c: char)
    requires |gs| >= 1 && Separating(gs) && IsAsciiWhitespace(c)
    ensures Separating([[c] + gs[0]] + gs[1..])
  {
    var gs' := [[c] + gs[0]] + gs[1..];
    forall i, j | 0 <= i < |gs'| && 0 <= j < |gs'[i]|
      ensures IsAsciiWhitespace(gs'[i][j])
    {
      if i == 0 && j > 0 {
        assert gs'[0][j] == gs[0][j - 1];
      } else if i > 0 {
        assert gs'[i] == gs[i];
      }
    }
  }

  /** Length of the run of non-whitespace characters that starts `s`. */
  function WordLength(s: string): (n: nat)
    ensures n <= |s|
    ensures forall j :: 0 <= j < n ==> !IsAsciiWhitespace(s[j])
    ensures n < |s| ==> IsAsciiWhitespace(s[n])
  {
    if s == [] || IsAsciiWhitespace(s[0]) then 0 else 1 + WordLength(s[1..])
  }

  /** `r` is the piece `s[i..i + |r|]` of `s`, with only copies of `c` around it. */
  predicate TrimmedAt(s: string, c: char, r: string, i: int) {
    0 <= i <= |s| - |r| && s[i..i + |r|] == r
    && (forall k :: 0 <= k < i ==> s[k] == c)
    && (forall k :: i + |r| <= k < |s| ==> s[k] == c)
  }

  /** `r` is what is left of `s` once copies of `c` are cut from both ends. */
  predicate TrimmedOf(s: string, c: char, r: string) {
    exists i :: 0 <= i <= |s| && TrimmedAt(s, c, r, i)
  }

  /** `s.trim_matches(c)`: `s` without its leading and trailing copies of `c`. */
  function TrimMatches(s: string, c: char): (r: string)
    ensures |r| > 0 ==> r[0] != c && r[|r| - 1] != c
    ensures |s| > 0 && s[0] != c ==> |r| > 0 && r[0] == s[0]
    ensures TrimmedOf(s, c, r)
  {
    var m := TrimStart(s, c);
    TrimmedBy(s, c, m, TrimEnd(m, c));
    TrimEnd(m, c)
  }

  /** Trimming the front to `m`, then the back of `m` to `r`, trims `s` to `r`. */
  lemma TrimmedBy(s: string, c: char, m: string, r: string)
    requires |m| <= |s| && m == s[|s| - |m|..] && forall k :: 0 <= k < |s| - |m| ==> s[k] == c
    requires |r| <= |m| && r == m[..|r|] && forall k :: |r| <= k < |m| ==> m[k] == c
    ensures TrimmedOf(s, c, r)
  {
    var i := |s| - |m|;
    assert s[i..i + |r|] == r;
    forall k | i + |r| <= k < |s|
      ensures s[k] == c
    {
      assert s[k] == m[k - i];
    }
    assert TrimmedAt(s, c, r, i);
  }

  function TrimStart(s: string, c: char): (r: string)
    ensures |r| > 0 ==> r[0] != c
    ensures |r| <= |s| && r == s[|s| - |r|..]
    ensures forall k :: 0 <= k < |s| - |r| ==> s[k] == c
    ensures |s| > 0 && s[0] != c ==> r == s
  {
    if |s| > 0 && s[0] == c then
      var r := TrimStart(s[1..], c);
      assert forall k :: 1 <= k < |s| ==> s[k] == s[1..][k - 1];
      r
    else s
  }

  function TrimEnd(s: string, c: char): (r: string)
    ensures |r| > 0 ==> r[|r| - 1] != c
    ensures |r| <= |s| && r == s[..|r|]
    ensures forall k :: |r| <= k < |s| ==> s[k] == c
    ensures |s| > 0 && s[0] != c ==> |r| > 0
  {
    if |s| > 0 && s[|s| - 1] == c then TrimEnd(s[..|s| - 1], c) else s
  }

  /** A string that does not contain the separator's first character is a single piece. */
  lemma {:induction false} SplitFree(s: string, sep: string)
    requires |sep| > 0 && sep[0] !in s
    ensures Split(s, sep) == [s]
    decreases |s|
  {
    if |s| >= |sep| {
      assert s[..|sep|][0] != sep[0];
      SplitFree(s[1..], sep);
      assert [s[0]] + s[1..] == s;
    }
  }

  /** A first piece free of the separator's first character is split off exactly. */
  lemma {:induction false} SplitLead(x: string, sep: string, y: string)
    requires |sep| > 0 && sep[0] !in x
    ensures Split(x + sep + y, sep) == [x] + Split(y, sep)
    decreases |x|
  {
    var s := x + sep + y;
    if x == [] {
      assert s == sep + y;
      assert s[..|sep|] == sep;
      assert s[|sep|..] == y;
    } else {
      assert s[..|sep|][0] == x[0] != sep[0];
      assert s[1..] == x[1..] + sep + y;
      SplitLead(x[1..], sep, y);
      assert [x[0]] + x[1..] == x;
    }
  }

  /** `Find` is the first occurrence: an occurrence at `k` with none before it. */
  lemma FindAt(s: string, sep: string, k: nat)
    requires |sep| > 0 && OccursAt(s, sep, k)
    requires forall i :: 0 <= i < k ==> !OccursAt(s, sep, i)
    ensures Find(s, sep) == Some(k)
  {
  }

  /** Splitting at the first occurrence of the separator. */
  lemma {:induction false} SplitFirstAt(s: string, sep: string, k: nat)
    requires |sep| > 0 && OccursAt(s, sep, k)
    requires forall i :: 0 <= i < k ==> !OccursAt(s, sep, i)
    ensures Split(s, sep) == [s[..k]] + Split(s[k + |sep|..], sep)
    decreases k
  {
    if k == 0 {
      assert s[..|sep|] == sep;
    } else {
      assert !OccursAt(s, sep, 0);
      assert s[..|sep|] != sep;
      OccursShift(s, sep);
      var t := s[1..];
      assert OccursAt(t, sep, k - 1);
      forall i | 0 <= i < k - 1 ensures !OccursAt(t, sep, i) {
        assert !OccursAt(s, sep, i + 1);
      }
      SplitFirstAt(t, sep, k - 1);
      assert t[k - 1 + |sep|..] == s[k + |sep|..];
      assert [s[0]] + t[..k - 1] == s[..k];
    }
  }

  /** A string in which the separator never occurs is a single piece. */
  lemma {:induction false} SplitNowhere(s: string, sep: string)
    requires |sep| > 0
    requires forall i :: 0 <= i <= |s| - |sep| ==> !OccursAt(s, sep, i)
    ensures Split(s, sep) == [s]
    decreases |s|
  {
    if |s| >= |sep| {
      assert !OccursAt(s, sep, 0);
      OccursShift(s, sep);
      forall i | 0 <= i <= |s[1..]| - |sep| ensures !OccursAt(s[1..], sep, i) {
        assert !OccursAt(s, sep, i + 1);
      }
      SplitNowhere(s[1..], sep);
      assert [s[0]] + s[1..] == s;
    }
  }

  /** A string lacking some character of the separator is a single piece. */
  lemma SplitWithout(s: string, sep: string, j: nat)
    requires j < |sep| && sep[j] !in s
    ensures Split(s, sep) == [s]
  {
    forall i | 0 <= i <= |s| - |sep| ensures !OccursAt(s, sep, i) {
      assert s[i + j] in s;
      assert s[i..i + |sep|][j] == s[i + j];
    }
    SplitNowhere(s, sep);
  }
}

/** Line-by-line state machines that may panic on a line. */
module Runs {
  import opened Wrappers

  /** Feeds the lines to `step` in order; `None` from the first line that panics on. */
  function Run<S>(step: (S, string) -> Option<S>, s: S, lines: seq<string>): Option<S>
    decreases |lines|
  {
    if lines == [] then Some(s)
    else
      match step(s, lines[0])
      case None => None
      case Some(t) => Run(step, t, lines[1..])
  }

  /** Running some lines and then one more is one more step. */
  lemma {:induction false} RunSnoc<S>(step: (S, string) -> Option<S>, s: S, lines: seq<string>, line: string)
    requires Run(step, s, lines).Some?
    ensures Run(step, s, lines + [line]) == step(Run(step, s, lines).value, line)
    decreases |lines|
  {
    if lines == [] {
      assert [line][1..] == [];
    } else {
      assert (lines + [line])[1..] == lines[1..] + [line];
      RunSnoc(step, step(s, lines[0]).value, lines[1..], line);
    }
  }

  /** A run that panics on some lines panics on any extension of them. */
  lemma {:induction false} RunStops<S>(step: (S, string) -> Option<S>, s: S, lines: seq<string>, more: seq<string>)
    requires Run(step, s, lines).None?
    ensures Run(step, s, lines + more).None?
    decreases |lines|
  {
    assert lines != [];
    assert (lines + more)[0] == lines[0];
    if step(s, lines[0]).Some? {
      assert (lines + more)[1..] == lines[1..] + more;
      RunStops(step, step(s, lines[0]).value, lines[1..], more);
    }
  }

  /** Two lines are two steps, when the first one does not panic. */
  lemma RunTwo<S>(step: (S, string) -> Option<S>, s: S, first: string, second: string, t: S)
    requires step(s, first) == Some(t)
    ensures Run(step, s, [first, second]) == step(t, second)
  {
    assert [first, second][1..] == [second];
    RunOne(step, t, second);
  }

  /** One line is one step. */
  lemma RunOne<S>(step: (S, string) -> Option<S>, s: S, line: string)
    ensures Run(step, s, [line]) == step(s, line)
  {
    assert [line][1..] == [];
    match step(s, line)
    case None =>
    case Some(t) => assert Run(step, t, []) == Some(t);
  }

  /** The run of the first `k + 1` lines is one step after the run of the first `k`. */
  lemma RunPrefix<S>(step: (S, string) -> Option<S>, s: S, lines: seq<string>, k: nat)
    requires k < |lines| && Run(step, s, lines[..k]).Some?
    ensures Run(step, s, lines[..k + 1]) == step(Run(step, s, lines[..k]).value, lines[k])
  {
    RunSnoc(step, s, lines[..k], lines[k]);
    assert lines[..k] + [lines[k]] == lines[..k + 1];
  }

  /** The run of the first `k + 1` lines when the `k`th one panics. */
  lemma RunPanics<S>(step: (S, string) -> Option<S>, s: S, lines: seq<string>, k: nat)
    requires k < |lines| && Run(step, s, lines[..k]).Some?
    requires step(Run(step, s, lines[..k]).value, lines[k]).None?
    ensures Run(step, s, lines).None?
  {
    RunSnoc(step, s, lines[..k], lines[k]);
    assert lines[..k] + [lines[k]] == lines[..k + 1];
    RunStops(step, s, lines[..k + 1], lines[k + 1..]);
    assert lines[..k + 1] + lines[k + 1..] == lines;
  }
}

=== FILE: day01.dfy ===
/**
 * Day 1, "Report Repair": find two (or three) entries of an expense report
 * that add up to a target and multiply them. The nested loops of the source
 * only search, so they are modelled as a search over index pairs and triples
 * in nested loop order; the same entry may be picked more than once.
 */
module Day01 {
  import opened Wrappers

  /** (i, j) comes before (i2, j2) in the order of two nested loops. */
  predicate PairBefore(i: int, j: int, i2: int, j2: int) {
    i < i2 || (i == i2 && j < j2)
  }

  predicate IsPair(list: seq<int>, sum: int, i: int, j: int) {
    0 <= i < |list| && 0 <= j < |list| && list[i] + list[j] == sum
  }

  predicate IsTriple(list: seq<int>, sum: int, i: int, j: int, k: int) {
    0 <= i < |list| && 0 <= j < |list| && 0 <= k < |list| && list[i] + list[j] + list[k] == sum
  }

  /** The first `j >= from` with `a + list[j] == sum`: one pass of the inner loop. */
  function PartnerFrom(list: seq<int>, sum: int, a: int, from: nat): (r: Option<nat>)
    requires from <= |list|
    ensures r.Some? ==> from <= r.value < |list| && a + list[r.value] == sum
    ensures r.Some? ==> forall j :: from <= j < r.value ==> a + list[j] != sum
    ensures r.None? ==> forall j :: from <= j < |list| ==> a + list[j] != sum
    decreases |list| - from
  {
    if from == |list| then None
    else if a + list[from] == sum then Some(from)
    else PartnerFrom(list, sum, a, from + 1)
  }

  /** The first pair of indices, at or after row `from` of the outer loop, whose entries add to `sum`. */
  function PairFrom(list: seq<int>, sum: int, from: nat): (r: Option<(nat, nat)>)
    requires from <= |list|
    ensures r.Some? ==> from <= r.value.0 && IsPair(list, sum, r.value.0, r.value.1)
    ensures r.Some? ==> forall i, j :: from <= i && PairBefore(i, j, r.value.0, r.value.1) ==> !IsPair(list, sum, i, j)
    ensures r.None? ==> forall i, j :: from <= i ==> !IsPair(list, sum, i, j)
    decreases |list| - from
  {
    if from == |list| then None
    else match PartnerFrom(list, sum, list[from], 0)
      case Some(j) => Some((from, j))
      case None => PairFrom(list, sum, from + 1)
  }

  /** The first triple of indices, at or after row `from` of the outer loop, whose entries add to `sum`. */
  function TripleFrom(list: seq<int>, sum: int, from: nat): (r: Option<(nat, nat, nat)>)
    requires from <= |list|
    ensures r.Some? ==> from <= r.value.0 && IsTriple(list, sum, r.value.0, r.value.1, r.value.2)
    ensures r.Some? ==> forall i, j, k :: from <= i < r.value.0 ==> !IsTriple(list, sum, i, j, k)
    ensures r.Some? ==> forall j, k :: PairBefore(j, k, r.value.1, r.value.2) ==> !IsTriple(list, sum, r.value.0, j, k)
    ensures r.None? ==> forall i, j, k :: from <= i ==> !IsTriple(list, sum, i, j, k)
    decreases |list| - from
  {
    if from == |list| then None
    else
      assert forall j, k :: IsTriple(list, sum, from, j, k) <==> IsPair(list, sum - list[from], j, k);
      match PairFrom(list, sum - list[from], 0)
      case Some((j, k)) => Some((from, j, k))
      case None => TripleFrom(list, sum, from + 1)
  }

  /**
   * `find_product2`: the product of the first pair in nested loop order that
   * adds up to `sum`, or None when there is no such pair.
   */
  function FindProduct2(list: seq<int>, sum: int): (r: Option<int>)
    ensures r.None? <==> forall i, j :: !IsPair(list, sum, i, j)
    ensures r.Some? ==> exists i, j :: IsPair(list, sum, i, j) && r.value == list[i] * list[j]
                          && forall i2, j2 :: PairBefore(i2, j2, i, j) ==> !IsPair(list, sum, i2, j2)
  {
    match PairFrom(list, sum, 0)
    case Some((i, j)) => Some(list[i] * list[j])
    case None => None
  }

  /** `find_product3`: the same search over triples. */
  function FindProduct3(list: seq<int>, sum: int): (r: Option<int>)
    ensures r.None? <==> forall i, j, k :: !IsTriple(list, sum, i, j, k)
    ensures r.Some? ==> exists i, j, k :: IsTriple(list, sum, i, j, k) && r.value == list[i] * list[j] * list[k]
                          && (forall i2, j2, k2 :: i2 < i ==> !IsTriple(list, sum, i2, j2, k2))
                          && (forall j2, k2 :: PairBefore(j2, k2, j, k) ==> !IsTriple(list, sum, i, j2, k2))
  {
    match TripleFrom(list, sum, 0)
    case Some((i, j, k)) => Some(list[i] * list[j] * list[k])
    case None => None
  }

  /** The example report: 1721 + 299 = 2020, and 1721 · 299 = 514579. */
  lemma SampleSome()
    ensures FindProduct2([1721, 979, 366, 299, 675, 1456], 2020) == Some(514579)
  {
    var list := [1721, 979, 366, 299, 675, 1456];
    assert IsPair(list, 2020, 0, 3);
    var r := FindProduct2(list, 2020);
    var i, j :| IsPair(list, 2020, i, j) && r.value == list[i] * list[j]
                && forall i2, j2 :: PairBefore(i2, j2, i, j) ==> !IsPair(list, 2020, i2, j2);
    assert !PairBefore(0, 3, i, j);
    assert i == 0;
    assert !IsPair(list, 2020, 0, 0) && !IsPair(list, 2020, 0, 1) && !IsPair(list, 2020, 0, 2);
  }

  /** With 299 replaced by 500 no two entries add up to 2020. */
  lemma SampleNone()
    ensures FindProduct2([1721, 979, 366, 500, 675, 1456], 2020) == None
  {
    var list := [1721, 979, 366, 500, 675, 1456];
    forall i, j ensures !IsPair(list, 2020, i, j) {
      if 0 <= i < 6 && 0 <= j < 6 {
        assert list[i] in {1721, 979, 366, 500, 675, 1456};
      }
    }
  }
}

=== FILE: day02.dfy ===
/**
 * Day 2, "Password Philosophy": each password comes with a rule naming a
 * character and two numbers. The rule records are taken as already parsed.
 */
module Day02 {
  /** A policy line: `a-b character`. */
  datatype Rule = Rule(character: char, a: nat, b: nat)

  /** Number of occurrences of `c` in `s`, as `password.matches(c).count()`. */
  function Count(s: string, c: char): nat
  {
    if s == [] then 0 else (if s[0] == c then 1 else 0) + Count(s[1..], c)
  }

  /** `Count` agrees with the multiplicity of `c` in the password. */
  lemma {:induction false} CountIsMultiplicity(s: string, c: char)
    ensures Count(s, c) == multiset(s)[c]
  {
    if s != [] {
      CountIsMultiplicity(s[1..], c);
      assert s == [s[0]] + s[1..];
    }
  }

  /** Old policy: the character occurs between `a` and `b` times inclusive. */
  function Validate(rule: Rule, password: string): (r: bool)
    ensures r <==> rule.a <= multiset(password)[rule.character] <= rule.b
  {
    CountIsMultiplicity(password, rule.character);
    var count := Count(password, rule.character);
    count >= rule.a && count <= rule.b
  }

  /**
   * New policy: exactly one of the 1-based positions `a` and `b` holds the
   * character. The source indexes the password bytes, so both positions must
   * exist.
   */
  function Validate2(rule: Rule, password: string): (r: bool)
    requires 1 <= rule.a <= |password| && 1 <= rule.b <= |password|
    ensures r <==> (password[rule.a - 1] == rule.character && password[rule.b - 1] != rule.character)
                   || (password[rule.a - 1] != rule.character && password[rule.b - 1] == rule.character)
    ensures rule.a == rule.b ==> !r
  {
    (password[rule.a - 1] == rule.character) != (password[rule.b - 1] == rule.character)
  }

  /** The three example policies: true, false, true under the old policy and true, false, false under the new one. */
  lemma Samples()
    ensures Validate(Rule('a', 1, 3), "abcde")
    ensures !Validate(Rule('b', 1, 3), "cdefg")
    ensures Validate(Rule('c', 2, 9), "ccccccccc")
    ensures Validate2(Rule('a', 1, 3), "abcde")
    ensures !Validate2(Rule('b', 1, 3), "cdefg")
    ensures !Validate2(Rule('c', 2, 9), "ccccccccc")
  {
    CountIsMultiplicity("abcde", 'a');
    CountIsMultiplicity("cdefg", 'b');
    CountIsMultiplicity("ccccccccc", 'c');
  }
}

=== FILE: day03.dfy ===
/**
 * Day 3, "Toboggan Trajectory": walk down a map whose rows repeat to the
 * right, moving `xStep` columns right for every `yStep` rows down, and count
 * the trees ('#') met on the way.
 */
module Day03 {
  /** Number of rows visited when taking every `yStep`-th row starting with row 0. */
  function SteppedCount(lines: seq<string>, yStep: nat): (n: nat)
    requires yStep > 0
    ensures n * yStep >= |lines| && (n == 0 || (n - 1) * yStep < |lines|)
  {
    (|lines| + yStep - 1) / yStep
  }

  /** Width of the map: the length of the first row, or 0 when there is none. */
  function Width(lines: seq<string>): nat {
    if |lines| == 0 then 0 else |lines[0]|
  }

  /** The visited rows with index 1 and above, where the source indexes column `(k * xStep) mod width`. */
  predicate InBounds(lines: seq<string>, xStep: nat, yStep: nat)
    requires yStep > 0
  {
    forall k :: 1 <= k < SteppedCount(lines, yStep) ==> RowInBounds(lines, xStep, yStep, k)
  }

  /** The k-th visited row exists and is long enough for column `(k * xStep) mod width`. */
  predicate RowInBounds(lines: seq<string>, xStep: nat, yStep: nat, k: nat) {
    k * yStep < |lines| && Width(lines) > 0 && (k * xStep) % Width(lines) < |lines[k * yStep]|
  }

  /** Whether the k-th visited row has a tree where the toboggan crosses it. */
  predicate TreeAt(lines: seq<string>, xStep: nat, yStep: nat, k: nat)
    requires yStep > 0 && InBounds(lines, xStep, yStep)
    requires 1 <= k < SteppedCount(lines, yStep)
  {
    assert RowInBounds(lines, xStep, yStep, k);
    lines[k * yStep][(k * xStep) % Width(lines)] == '#'
  }

  /** Trees met on visited rows `from` up to (but excluding) `stop`. */
  function TreesBetween(lines: seq<string>, xStep: nat, yStep: nat, from: nat, stop: nat): nat
    requires yStep > 0 && InBounds(lines, xStep, yStep)
    requires 1 <= from <= stop <= SteppedCount(lines, yStep)
    decreases stop - from
  {
    if from == stop then 0
    else (if TreeAt(lines, xStep, yStep, from) then 1 else 0) + TreesBetween(lines, xStep, yStep, from + 1, stop)
  }

  /** Trees met on every visited row but the first, which only supplies the width. */
  function Trees(lines: seq<string>, xStep: nat, yStep: nat): nat
    requires yStep > 0 && InBounds(lines, xStep, yStep)
  {
    var n := SteppedCount(lines, yStep);
    if n <= 1 then 0 else TreesBetween(lines, xStep, yStep, 1, n)
  }

  /**
   * `count_trees`: the first visited row gives the width; every later visited
   * row moves x by `xStep` and checks column `x mod width`.
   */
  method CountTrees(lines: seq<string>, xStep: nat, yStep: nat) returns (trees: nat)
    requires yStep > 0 && InBounds(lines, xStep, yStep)
    ensures trees == Trees(lines, xStep, yStep)
  {
    var width := if |lines| == 0 then 0 else |lines[0]|;
    ghost var n := SteppedCount(lines, yStep);
    if |lines| <= yStep {
      OneRow(lines, yStep);
      return 0;
    }
    var x := 0;
    trees := 0;
    var k := 1;
    var row := yStep;
    while row < |lines|
      invariant 1 <= k <= n && row == k * yStep && x == (k - 1) * xStep
      invariant trees + TreesBetween(lines, xStep, yStep, k, n) == Trees(lines, xStep, yStep)
      decreases |lines| - row
    {
      Succ(k - 1, xStep);
      Succ(k, yStep);
      LastRow(lines, yStep, k);
      x := x + xStep;
      assert RowInBounds(lines, xStep, yStep, k);
      if lines[row][x % width] == '#' {
        trees := trees + 1;
      }
      k := k + 1;
      row := row + yStep;
    }
    LastRow(lines, yStep, k);
  }

  lemma Succ(a: nat, b: nat)
    ensures (a + 1) * b == a * b + b
  {
  }

  /** With no more rows than one step, only row 0 is visited. */
  lemma OneRow(lines: seq<string>, yStep: nat)
    requires 0 < yStep && |lines| <= yStep
    ensures SteppedCount(lines, yStep) <= 1
  {
    var n := SteppedCount(lines, yStep);
    if n >= 2 {
      assert (n - 1) * yStep >= yStep by {
        Succ(n - 2, yStep);
      }
    }
  }

  /** Row `k * yStep` is visited exactly when it exists. */
  lemma LastRow(lines: seq<string>, yStep: nat, k: nat)
    requires 0 < yStep && 1 <= k <= SteppedCount(lines, yStep)
    ensures k * yStep < |lines| <==> k < SteppedCount(lines, yStep)
  {
    var n := SteppedCount(lines, yStep);
    if k < n {
      assert k * yStep <= (n - 1) * yStep by {
        MulLe(k, n - 1, yStep);
      }
    }
  }

  lemma MulLe(a: nat, b: nat, c: nat)
    requires a <= b
    ensures a * c <= b * c
  {
  }

  /** Each visited row after the first meets at most one tree. */
  lemma {:induction false} TreesBetweenBound(lines: seq<string>, xStep: nat, yStep: nat, from: nat, stop: nat)
    requires yStep > 0 && InBounds(lines, xStep, yStep)
    requires 1 <= from <= stop <= SteppedCount(lines, yStep)
    ensures TreesBetween(lines, xStep, yStep, from, stop) <= stop - from
    decreases stop - from
  {
    if from < stop {
      TreesBetweenBound(lines, xStep, yStep, from + 1, stop);
    }
  }

  /** The count is at most the number of visited rows minus one. */
  lemma TreesBound(lines: seq<string>, xStep: nat, yStep: nat)
    requires yStep > 0 && InBounds(lines, xStep, yStep) && |lines| > 0
    ensures Trees(lines, xStep, yStep) <= SteppedCount(lines, yStep) - 1
  {
    if SteppedCount(lines, yStep) > 1 {
      TreesBetweenBound(lines, xStep, yStep, 1, SteppedCount(lines, yStep));
    }
  }

  const Sample: seq<string> := [
    "..##.......",
    "#...#...#..",
    ".#....#..#.",
    "..#.#...#.#",
    ".#...##..#.",
    "..#.##.....",
    ".#.#.#....#",
    ".#........#",
    "#.##...#...",
    "#...##....#",
    ".#..#...#.#"]

  /** Every row of the example map has eleven columns, so every slope stays in bounds. */
  lemma SampleInBounds(xStep: nat, yStep: nat)
    requires yStep > 0
    ensures InBounds(Sample, xStep, yStep)
  {
    assert forall r :: 0 <= r < |Sample| ==> |Sample[r]| == 11;
    forall k | 1 <= k < SteppedCount(Sample, yStep)
      ensures RowInBounds(Sample, xStep, yStep, k)
    {
      LastRow(Sample, yStep, k);
    }
  }

  lemma SampleSlope11Tail()
    ensures InBounds(Sample, 1, 1) && TreesBetween(Sample, 1, 1, 6, 11) == 1
  {
    SampleInBounds(1, 1);
    assert TreesBetween(Sample, 1, 1, 10, 11) == 1;
    assert TreesBetween(Sample, 1, 1, 9, 11) == 1;
    assert TreesBetween(Sample, 1, 1, 8, 11) == 1;
    assert TreesBetween(Sample, 1, 1, 7, 11) == 1;
  }

  /** The five slopes of the example map meet 2, 7, 3, 4 and 2 trees. */
  lemma SampleSlope11()
    ensures InBounds(Sample, 1, 1) && Trees(Sample, 1, 1) == 2
  {
    SampleSlope11Tail();
    assert TreesBetween(Sample, 1, 1, 5, 11) == 2;
    assert TreesBetween(Sample, 1, 1, 4, 11) == 2;
    assert TreesBetween(Sample, 1, 1, 3, 11) == 2;
    assert TreesBetween(Sample, 1, 1, 2, 11) == 2;
    assert TreesBetween(Sample, 1, 1, 1, 11) == 2;
  }

  lemma SampleSlope31Tail()
    ensures InBounds(Sample, 3, 1) && TreesBetween(Sample, 3, 1, 6, 11) == 4
  {
    SampleInBounds(3, 1);
    assert TreesBetween(Sample, 3, 1, 10, 11) == 1;
    assert TreesBetween(Sample, 3, 1, 9, 11) == 2;
    assert TreesBetween(Sample, 3, 1, 8, 11) == 3;
    assert TreesBetween(Sample, 3, 1, 7, 11) == 4;
  }

  lemma SampleSlope31()
    ensures InBounds(Sample, 3, 1) && Trees(Sample, 3, 1) == 7
  {
    SampleSlope31Tail();
    assert TreesBetween(Sample, 3, 1, 5, 11) == 5;
    assert TreesBetween(Sample, 3, 1, 4, 11) == 6;
    assert TreesBetween(Sample, 3, 1, 3, 11) == 6;
    assert TreesBetween(Sample, 3, 1, 2, 11) == 7;
    assert TreesBetween(Sample, 3, 1, 1, 11) == 7;
  }

  lemma SampleSlope51Tail()
    ensures InBounds(Sample, 5, 1) && TreesBetween(Sample, 5, 1, 6, 11) == 1
  {
    SampleInBounds(5, 1);
    assert TreesBetween(Sample, 5, 1, 10, 11) == 0;
    assert TreesBetween(Sample, 5, 1, 9, 11) == 0;
    assert TreesBetween(Sample, 5, 1, 8, 11) == 1;
    assert TreesBetween(Sample, 5, 1, 7, 11) == 1;
  }

  lemma SampleSlope51()
    ensures InBounds(Sample, 5, 1) && Trees(Sample, 5, 1) == 3
  {
    SampleSlope51Tail();
    assert TreesBetween(Sample, 5, 1, 5, 11) == 1;
    assert TreesBetween(Sample, 5, 1, 4, 11) == 2;
    assert TreesBetween(Sample, 5, 1, 3, 11) == 3;
    assert TreesBetween(Sample, 5, 1, 2, 11) == 3;
    assert TreesBetween(Sample, 5, 1, 1, 11) == 3;
  }

  lemma SampleSlope71Tail()
    ensures InBounds(Sample, 7, 1) && TreesBetween(Sample, 7, 1, 6, 11) == 1
  {
    SampleInBounds(7, 1);
    assert TreesBetween(Sample, 7, 1, 10, 11) == 1;
    assert TreesBetween(Sample, 7, 1, 9, 11) == 1;
    assert TreesBetween(Sample, 7, 1, 8, 11) == 1;
    assert TreesBetween(Sample, 7, 1, 7, 11) == 1;
  }

  lemma SampleSlope71()
    ensures InBounds(Sample, 7, 1) && Trees(Sample, 7, 1) == 4
  {
    SampleSlope71Tail();
    assert TreesBetween(Sample, 7, 1, 5, 11) == 2;
    assert TreesBetween(Sample, 7, 1, 4, 11) == 3;
    assert TreesBetween(Sample, 7, 1, 3, 11) == 4;
    assert TreesBetween(Sample, 7, 1, 2, 11) == 4;
    assert TreesBetween(Sample, 7, 1, 1, 11) == 4;
  }

  lemma SampleSlope12()
    ensures InBounds(Sample, 1, 2) && Trees(Sample, 1, 2) == 2
  {
    SampleInBounds(1, 2);
    assert TreesBetween(Sample, 1, 2, 5, 6) == 0;
    assert TreesBetween(Sample, 1, 2, 4, 6) == 0;
    assert TreesBetween(Sample, 1, 2, 3, 6) == 1;
    assert TreesBetween(Sample, 1, 2, 2, 6) == 1;
    assert TreesBetween(Sample, 1, 2, 1, 6) == 2;
  }
}

=== FILE: day04.dfy ===
/**
 * Day 4, "Passport Processing": a passport entry is a blank-line separated
 * block of `key:value` pairs. Part 1 only asks that the seven required keys
 * appear somewhere in the entry; part 2 also checks every pair's value.
 */
module Day04 {
  import opened Wrappers
  import opened Text

  /** The seven keys part 1 looks for; `cid` is optional. */
  const Required: seq<string> := ["byr", "iyr", "eyr", "hgt", "hcl", "ecl", "pid"]

  /** The seven accepted eye colours. */
  const EyeColours: seq<string> := ["amb", "blu", "brn", "gry", "grn", "hzl", "oth"]

  /** `validate`: every required key occurs as a substring of the entry. */
  function Validate(entry: string): (r: bool)
    ensures r <==> forall key :: key in Required ==> Contains(entry, key)
  {
    Contains(entry, "byr") && Contains(entry, "iyr") && Contains(entry, "eyr") && Contains(entry, "hgt")
    && Contains(entry, "hcl") && Contains(entry, "ecl") && Contains(entry, "pid")
  }

  /** A `u32` parsed from `value` lying in the inclusive range lo..hi. */
  predicate NumberIn(value: string, lo: nat, hi: nat) {
    match ParseNat(value)
    case Some(n) => lo <= n <= hi
    case None => false
  }

  /** The height rule: a number followed by "cm" (150..193) or "in" (59..76). */
  function HeightValid(value: string): (r: bool)
    ensures r ==> |value| > 2 && value[|value| - 2..] in {"cm", "in"}
    ensures r && value[|value| - 2..] == "cm" ==> NumberIn(value[..|value| - 2], 150, 193)
    ensures r && value[|value| - 2..] == "in" ==> NumberIn(value[..|value| - 2], 59, 76)
    ensures |value| > 2 && value[|value| - 2..] == "cm" && NumberIn(value[..|value| - 2], 150, 193) ==> r
    ensures |value| > 2 && value[|value| - 2..] == "in" && NumberIn(value[..|value| - 2], 59, 76) ==> r
  {
    if |value| <= 2 then false
    else
      var (hgt, unit) := (value[..|value| - 2], value[|value| - 2..]);
      if unit == "cm" then NumberIn(hgt, 150, 193)
      else if unit == "in" then NumberIn(hgt, 59, 76)
      else false
  }

  /** The hair-colour rule: '#' then one or more hexadecimal digits (either case). */
  function HairValid(value: string): (r: bool)
    ensures r <==> |value| >= 2 && value[0] == '#' && forall i :: 1 <= i < |value| ==> IsHexDigit(value[i])
  {
    |value| > 1 && value[..1] == "#" && forall i :: 0 <= i < |value[1..]| ==> IsHexDigit(value[1..][i])
  }

  /** The passport-id rule: exactly nine decimal digits (leading zeros allowed). */
  predicate PidValid(value: string) {
    |value| == 9 && AllDigits(value)
  }

  /** The rule for one `key:value` pair; an unknown key is never valid. */
  function FieldValid(key: string, value: string): (r: bool)
    ensures key == "byr" ==> (r <==> NumberIn(value, 1920, 2002))
    ensures key == "iyr" ==> (r <==> NumberIn(value, 2010, 2020))
    ensures key == "eyr" ==> (r <==> NumberIn(value, 2020, 2030))
    ensures key == "hgt" ==> (r <==> HeightValid(value))
    ensures key == "hcl" ==> (r <==> HairValid(value))
    ensures key == "ecl" ==> (r <==> value in EyeColours)
    ensures key == "pid" ==> (r <==> PidValid(value))
    ensures key == "cid" ==> r
    ensures key !in ["byr", "iyr", "eyr", "hgt", "hcl", "ecl", "pid", "cid"] ==> !r
  {
    if key == "byr" then NumberIn(value, 1920, 2002)
    else if key == "iyr" then NumberIn(value, 2010, 2020)
    else if key == "eyr" then NumberIn(value, 2020, 2030)
    else if key == "hgt" then HeightValid(value)
    else if key == "hcl" then HairValid(value)
    else if key == "ecl" then value in EyeColours
    else if key == "pid" then PidValid(value)
    else key == "cid"
  }

  /** A whitespace-separated word must split on ':' into exactly a key and a value. */
  predicate PairValid(word: string) {
    var parts := Split(word, ":");
    |parts| == 2 && FieldValid(parts[0], parts[1])
  }

  /** `validate2`: the required keys are present and every pair passes its rule. */
  function Validate2(entry: string): (r: bool)
    ensures r ==> Validate(entry)
    ensures r <==> Validate(entry) && forall w :: w in Words(entry) ==> PairValid(w)
  {
    if !Validate(entry) then false
    else
      var pairs := Words(entry);
      forall i :: 0 <= i < |pairs| ==> PairValid(pairs[i])
  }

  /** A word that is not `key:value` with a known key makes the entry invalid. */
  lemma UnknownKeyInvalid(entry: string, w: string)
    requires w in Words(entry)
    requires |Split(w, ":")| != 2 || Split(w, ":")[0] !in ["byr", "iyr", "eyr", "hgt", "hcl", "ecl", "pid", "cid"]
    ensures !Validate2(entry)
  {
    assert !PairValid(w);
  }

  /** `count_valid`: the number of entries passing `Validate`. */
  function CountValid(entries: seq<string>): (n: nat)
    ensures n <= |entries|
  {
    if entries == [] then 0
    else (if Validate(entries[0]) then 1 else 0) + CountValid(entries[1..])
  }

  /** `count_valid2`: the number of entries passing `Validate2`. */
  function CountValid2(entries: seq<string>): (n: nat)
    ensures n <= |entries|
  {
    if entries == [] then 0
    else (if Validate2(entries[0]) then 1 else 0) + CountValid2(entries[1..])
  }

  /** Part 2 never accepts more entries than part 1. */
  lemma {:induction false} CountValid2AtMostCountValid(entries: seq<string>)
    ensures CountValid2(entries) <= CountValid(entries)
  {
    if entries != [] {
      CountValid2AtMostCountValid(entries[1..]);
    }
  }
}

=== FILE: day05.dfy ===
/**
 * Day 5, "Binary Boarding": a boarding pass is ten characters. The first
 * seven pick the row (B = upper half = bit 1, F = bit 0) and the last three
 * the column (R = 1, L = 0), most significant first. The seat id is
 * row * 8 + column, and the missing seat is found in the sorted list of ids.
 */
module Day05 {
  import opened Wrappers
  import opened Numbers
  import Sorting

  datatype Seat = Seat(row: nat, col: nat)

  /** Why `decode` rejected a code; the source reports each as an error string. */
  datatype DecodeError = BadLength | BadRowSymbol | BadColSymbol

  datatype Result<T> = Ok(value: T) | Err(error: DecodeError)

  /** Every character of `code` is `one` or `zero`. */
  predicate BinaryCode(code: string, one: char, zero: char) {
    forall i :: 0 <= i < |code| ==> code[i] == one || code[i] == zero
  }

  /** Reference reading of a binary code, most significant character first. */
  function MsbValue(code: string, one: char): nat {
    if code == [] then 0
    else 2 * MsbValue(code[..|code| - 1], one) + (if code[|code| - 1] == one then 1 else 0)
  }

  /**
   * The source's `try_fold` over the reversed characters: the character `idx`
   * places from the right sets bit `idx` when it is `one`, leaves the
   * accumulator alone when it is `zero`, and aborts the fold otherwise. The
   * bits set are all distinct, so the source's `acc | (1 << idx)` is the sum
   * written here.
   */
  function FoldBits(code: string, one: char, zero: char, idx: nat, acc: nat): Option<nat>
    requires idx <= |code|
    decreases |code| - idx
  {
    if idx == |code| then Some(acc)
    else
      var el := code[|code| - 1 - idx];
      if el == zero then FoldBits(code, one, zero, idx + 1, acc)
      else if el == one then FoldBits(code, one, zero, idx + 1, acc + Pow2(idx))
      else None
  }

  /**
   * After the last `idx` characters have been folded, the rest of the fold
   * adds the most-significant-first value of the remaining prefix shifted by
   * `idx`, and fails exactly when that prefix holds a stray character.
   */
  lemma {:induction false} FoldBitsValue(code: string, one: char, zero: char, idx: nat, acc: nat)
    requires idx <= |code| && one != zero
    ensures FoldBits(code, one, zero, idx, acc).Some? <==> BinaryCode(code[..|code| - idx], one, zero)
    ensures FoldBits(code, one, zero, idx, acc).Some? ==>
              FoldBits(code, one, zero, idx, acc).value == acc + Pow2(idx) * MsbValue(code[..|code| - idx], one)
    decreases |code| - idx
  {
    var pre := code[..|code| - idx];
    if idx < |code| {
      var el := code[|code| - 1 - idx];
      var shorter := code[..|code| - (idx + 1)];
      assert pre[..|pre| - 1] == shorter && pre[|pre| - 1] == el;
      var bit := if el == one then 1 else 0;
      FoldBitsValue(code, one, zero, idx + 1, acc + Pow2(idx) * bit);
      BinaryCodeSnoc(pre, one, zero);
      ShiftStep(Pow2(idx), MsbValue(shorter, one), bit);
    } else {
      assert pre == [];
    }
  }

  /** A code is binary exactly when its prefix is and its last character is `one` or `zero`. */
  lemma BinaryCodeSnoc(code: string, one: char, zero: char)
    requires code != []
    ensures BinaryCode(code, one, zero) <==>
              BinaryCode(code[..|code| - 1], one, zero) && (code[|code| - 1] == one || code[|code| - 1] == zero)
  {
    var pre := code[..|code| - 1];
    if BinaryCode(pre, one, zero) && (code[|code| - 1] == one || code[|code| - 1] == zero) {
      forall i | 0 <= i < |code| ensures code[i] == one || code[i] == zero {
        if i < |pre| { assert code[i] == pre[i]; }
      }
    }
  }

  /** Shifting one more bit in: p * (2m + b) == 2p * m + p * b. */
  lemma ShiftStep(p: nat, m: nat, b: nat)
    ensures p * (2 * m + b) == 2 * p * m + p * b
  {
  }

  /** A binary code of n characters has a value below 2^n. */
  lemma {:induction false} MsbValueBound(code: string, one: char)
    ensures MsbValue(code, one) < Pow2(|code|)
  {
    if code != [] {
      MsbValueBound(code[..|code| - 1], one);
    }
  }

  /** Reading a code of `one`/`zero` characters: the value of the source's fold, or None on a stray character. */
  function ReadBinary(code: string, one: char, zero: char): (r: Option<nat>)
    requires one != zero
    ensures r.Some? <==> BinaryCode(code, one, zero)
    ensures r.Some? ==> r.value == MsbValue(code, one) && r.value < Pow2(|code|)
  {
    FoldBitsValue(code, one, zero, 0, 0);
    assert code[..|code|] == code;
    MsbValueBound(code, one);
    FoldBits(code, one, zero, 0, 0)
  }

  /**
   * `decode`: Err unless the code has exactly ten characters, then the row
   * from the first seven (B/F) and the column from the last three (R/L); the
   * row is read first, so a code bad in both parts reports the row.
   */
  function Decode(code: string): (r: Result<Seat>)
    ensures r.Ok? <==> |code| == 10 && BinaryCode(code[..7], 'B', 'F') && BinaryCode(code[7..], 'R', 'L')
    ensures r.Ok? ==> r.value.row == MsbValue(code[..7], 'B') < 128 && r.value.col == MsbValue(code[7..], 'R') < 8
    ensures r == Err(BadLength) <==> |code| != 10
  {
    if |code| != 10 then Err(BadLength)
    else
      var rowCode := code[..7];
      var colCode := code[7..];
      match ReadBinary(rowCode, 'B', 'F')
      case None => Err(BadRowSymbol)
      case Some(row) =>
        match ReadBinary(colCode, 'R', 'L')
        case None => Err(BadColSymbol)
        case Some(col) => Ok(Seat(row, col))
  }

  /** `seat_id`: row * 8 + column. */
  function SeatId(seat: Seat): (id: nat)
    ensures seat.col < 8 ==> id / 8 == seat.row && id % 8 == seat.col
  {
    seat.row * 8 + seat.col
  }

  /** The code of `n` in `width` characters, most significant first. */
  function EncodeBinary(n: nat, width: nat, one: char, zero: char): (code: string)
    ensures |code| == width
  {
    if width == 0 then [] else EncodeBinary(n / 2, width - 1, one, zero) + [if n % 2 == 1 then one else zero]
  }

  lemma {:induction false} EncodeBinaryRead(n: nat, width: nat, one: char, zero: char)
    requires n < Pow2(width) && one != zero
    ensures BinaryCode(EncodeBinary(n, width, one, zero), one, zero)
    ensures MsbValue(EncodeBinary(n, width, one, zero), one) == n
  {
    if width > 0 {
      EncodeBinaryRead(n / 2, width - 1, one, zero);
      var code := EncodeBinary(n, width, one, zero);
      assert code[..|code| - 1] == EncodeBinary(n / 2, width - 1, one, zero);
    }
  }

  lemma {:induction false} ReadEncodeBinary(code: string, one: char, zero: char)
    requires BinaryCode(code, one, zero) && one != zero
    ensures EncodeBinary(MsbValue(code, one), |code|, one, zero) == code
  {
    if code != [] {
      var pre := code[..|code| - 1];
      assert BinaryCode(pre, one, zero) by { BinaryCodeSnoc(code, one, zero); }
      ReadEncodeBinary(pre, one, zero);
      var bit := if code[|code| - 1] == one then 1 else 0;
      HalfStep(MsbValue(pre, one), bit);
      assert code == pre + [code[|code| - 1]];
    }
  }

  /** Dropping the low bit: (2m + b) / 2 == m and (2m + b) % 2 == b. */
  lemma HalfStep(m: nat, b: nat)
    requires b < 2
    ensures (2 * m + b) / 2 == m && (2 * m + b) % 2 == b
  {
  }

  /** The boarding pass of a seat in rows 0..127 and columns 0..7. */
  function Encode(seat: Seat): (code: string)
    ensures |code| == 10
  {
    EncodeBinary(seat.row, 7, 'B', 'F') + EncodeBinary(seat.col, 3, 'R', 'L')
  }

  /** Decoding the pass of any seat gives the seat back. */
  lemma EncodeDecode(seat: Seat)
    requires seat.row < 128 && seat.col < 8
    ensures Decode(Encode(seat)) == Ok(seat)
  {
    var code := Encode(seat);
    assert code[..7] == EncodeBinary(seat.row, 7, 'B', 'F');
    assert code[7..] == EncodeBinary(seat.col, 3, 'R', 'L');
    EncodeBinaryRead(seat.row, 7, 'B', 'F');
    EncodeBinaryRead(seat.col, 3, 'R', 'L');
  }

  /** Encoding a decoded pass gives the pass back, so `Decode` is injective on valid passes. */
  lemma DecodeEncode(code: string)
    requires Decode(code).Ok?
    ensures Encode(Decode(code).value) == code
  {
    ReadEncodeBinary(code[..7], 'B', 'F');
    ReadEncodeBinary(code[7..], 'R', 'L');
    assert code == code[..7] + code[7..];
  }

  /** The three example passes and their ids. */
  lemma Samples()
    ensures Decode("BFFFBBFRRR") == Ok(Seat(70, 7)) && SeatId(Seat(70, 7)) == 567
    ensures Decode("FFFBBBFRRR") == Ok(Seat(14, 7)) && SeatId(Seat(14, 7)) == 119
    ensures Decode("BBFFBBFRLL") == Ok(Seat(102, 4)) && SeatId(Seat(102, 4)) == 820
  {
    DecodeParts("BFFFBBFRRR", "BFFFBBF", "RRR", 70, 7);
    DecodeParts("FFFBBBFRRR", "FFFBBBF", "RRR", 14, 7);
    DecodeParts("BBFFBBFRLL", "BBFFBBF", "RLL", 102, 4);
  }

  /** A ten-character pass whose row part reads as `row` and column part as `col` decodes to that seat. */
  lemma DecodeParts(code: string, rowCode: string, colCode: string, row: nat, col: nat)
    requires code == rowCode + colCode && |rowCode| == 7 && |colCode| == 3
    requires ReadBinary(rowCode, 'B', 'F') == Some(row) && ReadBinary(colCode, 'R', 'L') == Some(col)
    ensures Decode(code) == Ok(Seat(row, col))
  {
    assert code[..7] == rowCode && code[7..] == colCode;
  }

  /** The first index i whose window (ids[i], ids[i + 1]) is not a step of one, searching from `from`. */
  function FindGapFrom(ids: seq<int>, from: nat): (r: Option<nat>)
    requires from <= |ids|
    ensures r.Some? ==> from <= r.value && r.value + 1 < |ids| && ids[r.value] != ids[r.value + 1] - 1
    ensures r.Some? ==> forall i :: from <= i < r.value ==> ids[i] == ids[i + 1] - 1
    ensures r.None? ==> forall i :: from <= i < |ids| - 1 ==> ids[i] == ids[i + 1] - 1
    decreases |ids| - from
  {
    if from + 1 >= |ids| then None
    else if ids[from] != ids[from + 1] - 1 then Some(from)
    else FindGapFrom(ids, from + 1)
  }

  /** Index i is the first window (s[i], s[i + 1]) that is not a step of one. */
  predicate FirstGapAt(s: seq<int>, i: int) {
    0 <= i < |s| - 1 && s[i + 1] != s[i] + 1 && forall j :: 0 <= j < i ==> s[j + 1] == s[j] + 1
  }

  /** The `windows(2).find(..)` search: one more than the first element of the first non-consecutive window. */
  function FirstGap(sorted: seq<int>): (r: Option<int>)
    ensures r.Some? ==> exists i :: FirstGapAt(sorted, i) && r.value == sorted[i] + 1
    ensures r.None? <==> forall j :: 0 <= j < |sorted| - 1 ==> sorted[j + 1] == sorted[j] + 1
  {
    match FindGapFrom(sorted, 0)
    case Some(i) => Some(sorted[i] + 1)
    case None => None
  }

  /** Part 1 of `main`: the last of the sorted ids, that is the highest id, or None without passes. */
  function HighestSeat(ids: seq<int>): (r: Option<int>)
    ensures r.None? <==> |ids| == 0
    ensures r.Some? ==> r.value in ids && forall x :: x in ids ==> x <= r.value
  {
    var sorted := Sorting.Sort(ids);
    SameMembers(ids, sorted);
    assert |sorted| == |multiset(sorted)| == |multiset(ids)| == |ids|;
    if |sorted| == 0 then None else Some(sorted[|sorted| - 1])
  }

  /** The search at the end of `main`, on the sorted ids. */
  function MissingSeat(ids: seq<int>): Option<int> {
    FirstGap(Sorting.Sort(ids))
  }

  /** With distinct ids, the seat found is free and the seat before it is taken. */
  lemma MissingSeatIsFree(ids: seq<int>)
    requires forall i, j :: 0 <= i < j < |ids| ==> ids[i] != ids[j]
    requires MissingSeat(ids).Some?
    ensures MissingSeat(ids).value !in ids && MissingSeat(ids).value - 1 in ids
  {
    var sorted := Sorting.Sort(ids);
    var i := FindGapFrom(sorted, 0).value;
    assert MissingSeat(ids).value == sorted[i] + 1;
    RisesAt(ids, sorted, i);
    FreeSeat(ids, sorted, i);
  }

  /** Sorted distinct ids rise strictly at every index. */
  lemma RisesAt(ids: seq<int>, sorted: seq<int>, k: nat)
    requires forall i, j :: 0 <= i < j < |ids| ==> ids[i] != ids[j]
    requires sorted == Sorting.Sort(ids) && k + 1 < |sorted|
    ensures sorted[k] < sorted[k + 1]
  {
    DistinctMultiplicity(ids, sorted[k]);
    AdjacentMultiplicity(sorted, k);
  }

  /** Where a sorted permutation of the ids skips a value, that value is free and the one before it is taken. */
  lemma FreeSeat(ids: seq<int>, sorted: seq<int>, i: nat)
    requires Sorting.Sorted(sorted) && multiset(sorted) == multiset(ids)
    requires i + 1 < |sorted| && sorted[i + 1] > sorted[i] + 1
    ensures sorted[i] + 1 !in ids && sorted[i] in ids
  {
    GapIsFree(sorted, i);
    assert sorted[i] in sorted;
    SameMembers(ids, sorted);
  }

  /** In a sorted sequence, the value just above an element that the next element skips is absent. */
  lemma GapIsFree(sorted: seq<int>, i: nat)
    requires Sorting.Sorted(sorted) && i + 1 < |sorted| && sorted[i + 1] > sorted[i] + 1
    ensures sorted[i] + 1 !in sorted
  {
    forall k | 0 <= k < |sorted| ensures sorted[k] != sorted[i] + 1 {
      if k <= i {
        assert sorted[k] <= sorted[i];
      } else {
        assert sorted[k] >= sorted[i + 1];
      }
    }
  }

  /** A permutation has the same members. */
  lemma SameMembers(a: seq<int>, b: seq<int>)
    requires multiset(a) == multiset(b)
    ensures forall x :: x in a <==> x in b
  {
    forall x ensures x in a <==> x in b {
      assert x in a <==> x in multiset(a);
      assert x in b <==> x in multiset(b);
    }
  }

  /** Sorting distinct ids gives a strictly rising sequence. */
  lemma SortedDistinctRises(ids: seq<int>, sorted: seq<int>)
    requires forall i, j :: 0 <= i < j < |ids| ==> ids[i] != ids[j]
    requires sorted == Sorting.Sort(ids)
    ensures forall k :: 0 <= k < |sorted| - 1 ==> sorted[k] < sorted[k + 1]
  {
    forall k | 0 <= k < |sorted| - 1 ensures sorted[k] < sorted[k + 1] {
      RisesAt(ids, sorted, k);
    }
  }

  /** Two equal neighbours make a value occur at least twice. */
  lemma AdjacentMultiplicity(s: seq<int>, k: nat)
    requires k + 1 < |s|
    ensures s[k] == s[k + 1] ==> multiset(s)[s[k]] >= 2
  {
    assert s == s[..k] + [s[k], s[k + 1]] + s[k + 2..];
  }

  /** In a sequence without repetitions every value occurs at most once. */
  lemma {:induction false} DistinctMultiplicity(s: seq<int>, x: int)
    requires forall i, j :: 0 <= i < j < |s| ==> s[i] != s[j]
    ensures multiset(s)[x] <= 1
  {
    if s != [] {
      DistinctMultiplicity(s[1..], x);
      assert s == [s[0]] + s[1..];
      if s[0] == x {
        assert x !in s[1..];
      }
    }
  }
}

=== FILE: day06.dfy ===
/**
 * Day 6, "Custom Customs": a group is a block of lines, one line of answered
 * questions (letters) per person. Part 1 counts, per group, the questions
 * anyone answered; part 2 the questions everyone answered.
 */
module Day06 {
  import opened Text
  import opened Lists

  /** The set of characters of a string, as `bytes().collect::<HashSet<u8>>()`. */
  function Chars(s: string): (r: set<char>)
    ensures forall c :: c in r <==> c in s
  {
    set c | c in s
  }

  /** Gluing the whitespace-separated words of `s` together keeps exactly its non-whitespace characters. */
  lemma {:induction false} WordsChars(s: string)
    ensures forall c :: c in Concat(Words(s)) <==> c in s && !IsAsciiWhitespace(c)
    decreases |s|
  {
    if s != [] {
      if IsAsciiWhitespace(s[0]) {
        WordsChars(s[1..]);
        assert s == [s[0]] + s[1..];
      } else {
        var n := WordLength(s);
        WordsChars(s[n..]);
        assert Words(s) == [s[..n]] + Words(s[n..]);
        assert Concat(Words(s)) == s[..n] + Concat(Words(s[n..]));
        assert s == s[..n] + s[n..];
      }
    }
  }

  /** `unique_answers`: every non-whitespace character of the group. */
  function UniqueAnswers(group: string): (r: set<char>)
    ensures forall c :: c in r <==> c in group && !IsAsciiWhitespace(c)
  {
    WordsChars(group);
    Chars(Concat(Words(group)))
  }

  /** The fold of `count_common_answers`: intersect the running set with each line's characters. */
  function IntersectLines(acc: set<char>, lines: seq<string>): (r: set<char>)
    ensures r <= acc
    ensures forall c :: c in r <==> c in acc && forall i :: 0 <= i < |lines| ==> c in lines[i]
  {
    if lines == [] then acc
    else
      var r := IntersectLines(acc * Chars(lines[0]), lines[1..]);
      assert forall i :: 1 <= i < |lines| ==> lines[i] == lines[1..][i - 1];
      r
  }

  /** The answers everybody in the group gave, starting the fold from all answers given. */
  function CommonAnswers(group: string): (r: set<char>)
    ensures r <= UniqueAnswers(group)
    ensures forall c :: c in r <==> c in UniqueAnswers(group) && forall i :: 0 <= i < |Lines(group)| ==> c in Lines(group)[i]
  {
    IntersectLines(UniqueAnswers(group), Lines(group))
  }

  /** `count_unique_answers`: the sum over groups of the number of answers anyone gave. */
  function CountUnique(groups: seq<string>): (r: nat)
    ensures r == 0 <==> forall k :: 0 <= k < |groups| ==> UniqueAnswers(groups[k]) == {}
  {
    if groups == [] then 0
    else
      assert forall k :: 1 <= k < |groups| ==> groups[1..][k - 1] == groups[k];
      |UniqueAnswers(groups[0])| + CountUnique(groups[1..])
  }

  /** `count_common_answers`: the sum over groups of the number of answers everyone gave. */
  function CountCommon(groups: seq<string>): (r: nat)
    ensures r == 0 <==> forall k :: 0 <= k < |groups| ==> CommonAnswers(groups[k]) == {}
  {
    if groups == [] then 0
    else
      assert forall k :: 1 <= k < |groups| ==> groups[1..][k - 1] == groups[k];
      |CommonAnswers(groups[0])| + CountCommon(groups[1..])
  }

  /** Part 2 never counts more than part 1, group by group and in total. */
  lemma {:induction false} CommonAtMostUnique(groups: seq<string>)
    ensures CountCommon(groups) <= CountUnique(groups)
  {
    if groups != [] {
      CommonAtMostUnique(groups[1..]);
      SubsetSize(CommonAnswers(groups[0]), UniqueAnswers(groups[0]));
    }
  }
}

=== FILE: day07.dfy ===
/**
 * Day 7, "Handy Haversacks": each rule line says how many bags of which
 * colours a bag of some colour directly contains. Part 1 counts the colours
 * that can eventually contain a shiny gold bag; part 2 counts the bags a
 * shiny gold bag must hold.
 */
module Day07 {
  import opened Wrappers
  import opened Text

  /** One containment fact: `container` directly holds `amount` bags of colour `contained`. */
  datatype Triplet = Triplet(container: string, amount: nat, contained: string)

  /** The two error messages of `parse_line`. */
  datatype ParseError = BadLine | BadAmount

  datatype Result<T> = Ok(value: T) | Err(error: ParseError)

  const Start: string := "shiny gold"

  /**
   * One clause such as "2 muted yellow bags": exactly four space-separated
   * words, the first an unsigned number; the colour is the next two words.
   */
  function ParseClause(container: string, clause: string): (r: Result<Triplet>)
    ensures r.Ok? <==> |Split(clause, " ")| == 4 && ParseNat(Split(clause, " ")[0]).Some?
    ensures r.Ok? ==> r.value == Triplet(container, ParseNat(Split(clause, " ")[0]).value,
                                         Split(clause, " ")[1] + " " + Split(clause, " ")[2])
    ensures r.Err? && |Split(clause, " ")| != 4 ==> r.error == BadLine
    ensures r.Err? && |Split(clause, " ")| == 4 ==> r.error == BadAmount
  {
    var words := Split(clause, " ");
    if |words| != 4 then Err(BadLine)
    else match ParseNat(words[0])
      case Some(n) => Ok(Triplet(container, n, words[1] + " " + words[2]))
      case None => Err(BadAmount)
  }

  /** The clauses in order; the first bad clause decides the error, as `collect::<Result<Vec<_>, _>>()`. */
  function ParseClauses(container: string, clauses: seq<string>): (r: Result<seq<Triplet>>)
    ensures r.Ok? <==> forall i :: 0 <= i < |clauses| ==> ParseClause(container, clauses[i]).Ok?
    ensures r.Ok? ==> |r.value| == |clauses| &&
                      forall i :: 0 <= i < |clauses| ==> r.value[i] == ParseClause(container, clauses[i]).value
    ensures r.Err? ==> exists i :: 0 <= i < |clauses| && ParseClause(container, clauses[i]) == Err(r.error)
                                   && forall j :: 0 <= j < i ==> ParseClause(container, clauses[j]).Ok?
  {
    if clauses == [] then Ok([])
    else match ParseClause(container, clauses[0])
      case Err(e) => Err(e)
      case Ok(t) =>
        match ParseClauses(container, clauses[1..])
        case Err(e) =>
          assert forall i :: 1 <= i < |clauses| ==> clauses[i] == clauses[1..][i - 1];
          Err(e)
        case Ok(ts) =>
          assert forall i :: 1 <= i < |clauses| ==> clauses[i] == clauses[1..][i - 1];
          Ok([t] + ts)
  }

  /**
   * `parse_line`: "<colour> bags contain <clauses>". A line without
   * " bags contain " is an error; "no other bags." yields no triplets;
   * otherwise the clauses are split on ", " and parsed in order.
   */
  function ParseLine(line: string): (r: Result<seq<Triplet>>)
    ensures SplitOnce(line, " bags contain ").None? ==> r == Err(BadLine)
    ensures SplitOnce(line, " bags contain ").Some? && SplitOnce(line, " bags contain ").value.1 == "no other bags." ==> r == Ok([])
    ensures SplitOnce(line, " bags contain ").Some? && SplitOnce(line, " bags contain ").value.1 != "no other bags." ==>
              r == ParseClauses(SplitOnce(line, " bags contain ").value.0, Split(SplitOnce(line, " bags contain ").value.1, ", "))
    ensures r.Ok? ==> forall i :: 0 <= i < |r.value| ==> line == r.value[i].container + " bags contain " + SplitOnce(line, " bags contain ").value.1
  {
    match SplitOnce(line, " bags contain ")
    case None => Err(BadLine)
    case Some((container, rest)) =>
      if rest == "no other bags." then Ok([])
      else ParseClauses(container, Split(rest, ", "))
  }

  // ---------------------------------------------------------------------
  // Part 1: which colours can contain shiny gold?
  // ---------------------------------------------------------------------

  /** The colours listed as directly containing `colour`. */
  function ContainersOf(triplets: seq<Triplet>, colour: string): set<string> {
    set i | 0 <= i < |triplets| && triplets[i].contained == colour :: triplets[i].container
  }

  /** The map `count1` builds: contained colour to the containers, in input order. */
  function ContainedBy(triplets: seq<Triplet>): map<string, seq<string>>
  {
    if triplets == [] then map[]
    else
      var m := ContainedBy(triplets[..|triplets| - 1]);
      var t := triplets[|triplets| - 1];
      m[t.contained := (if t.contained in m then m[t.contained] else []) + [t.container]]
  }

  /** Every list of `ContainedBy` is non-empty and lists exactly the containers of its key. */
  lemma {:induction false} ContainedByContents(triplets: seq<Triplet>)
    ensures forall k :: k in ContainedBy(triplets) ==> |ContainedBy(triplets)[k]| > 0
    ensures forall k :: k in ContainedBy(triplets) ==> (forall v :: v in ContainedBy(triplets)[k] <==> v in ContainersOf(triplets, k))
    ensures forall k :: k !in ContainedBy(triplets) ==> ContainersOf(triplets, k) == {}
  {
    if triplets != [] {
      var init := triplets[..|triplets| - 1];
      ContainedByContents(init);
      var t := triplets[|triplets| - 1];
      forall k ensures ContainersOf(triplets, k) == ContainersOf(init, k) + (if t.contained == k then {t.container} else {}) {
        forall v | v in ContainersOf(triplets, k) ensures v in ContainersOf(init, k) + (if t.contained == k then {t.container} else {}) {
          var i :| 0 <= i < |triplets| && triplets[i].contained == k && triplets[i].container == v;
          if i < |init| { assert init[i] == triplets[i]; }
        }
        forall v | v in ContainersOf(init, k) ensures v in ContainersOf(triplets, k) {
          var i :| 0 <= i < |init| && init[i].contained == k && init[i].container == v;
          assert triplets[i] == init[i];
        }
        if t.contained == k {
          assert triplets[|triplets| - 1].container in ContainersOf(triplets, k);
        }
      }
    }
  }

  /** The map-building loop at the top of `count1`. */
  method BuildContainedBy(triplets: seq<Triplet>) returns (m: map<string, seq<string>>)
    ensures m == ContainedBy(triplets)
  {
    m := map[];
    var i := 0;
    while i < |triplets|
      invariant 0 <= i <= |triplets|
      invariant m == ContainedBy(triplets[..i])
    {
      var t := triplets[i];
      var items := if t.contained in m then m[t.contained] else [];
      m := m[t.contained := items + [t.container]];
      i := i + 1;
      assert triplets[..i][..i - 1] == triplets[..i - 1];
    }
    assert triplets[..i] == triplets;
  }

  /** A set of colours holding every container of shiny gold and every container of its own members. */
  predicate Closed(triplets: seq<Triplet>, s: set<string>) {
    ContainersOf(triplets, Start) <= s && forall c :: c in s ==> ContainersOf(triplets, c) <= s
  }

  /** The colours that can eventually contain shiny gold: the least closed set. */
  ghost predicate LeastClosed(triplets: seq<Triplet>, s: set<string>) {
    Closed(triplets, s) && forall t {:trigger Closed(triplets, t)} :: Closed(triplets, t) ==> s <= t
  }

  /** The least closed set is unique, so the count of `count1` is determined. */
  lemma LeastClosedUnique(triplets: seq<Triplet>, s1: set<string>, s2: set<string>)
    requires LeastClosed(triplets, s1) && LeastClosed(triplets, s2)
    ensures s1 == s2
  {
    assert s1 <= s2 && s2 <= s1;
  }

  /** `c` contains shiny gold through the chain `path`: c, then a colour it directly holds, and so on down to shiny gold. */
  predicate ChainTo(triplets: seq<Triplet>, path: seq<string>) {
    |path| >= 2 && path[|path| - 1] == Start &&
    forall i :: 0 <= i < |path| - 1 ==> path[i] in ContainersOf(triplets, path[i + 1])
  }

  /** Every colour with a containment chain down to shiny gold lies in every closed set. */
  lemma {:induction false} ChainInClosed(triplets: seq<Triplet>, path: seq<string>, s: set<string>)
    requires ChainTo(triplets, path) && Closed(triplets, s)
    ensures path[0] in s
    decreases |path|
  {
    if |path| > 2 {
      ChainInClosed(triplets, path[1..], s);
    }
  }

  /** Every member of the least closed set has a containment chain down to shiny gold. */
  lemma LeastClosedHasChains(triplets: seq<Triplet>, s: set<string>)
    requires LeastClosed(triplets, s)
    ensures forall c :: c in s ==> exists path :: ChainTo(triplets, path) && path[0] == c
  {
    var reach := set c | c in s && exists path :: ChainTo(triplets, path) && path[0] == c;
    forall c | c in ContainersOf(triplets, Start) ensures c in reach {
      assert ChainTo(triplets, [c, Start]);
    }
    forall c, d | c in reach && d in ContainersOf(triplets, c) ensures d in reach {
      var path :| ChainTo(triplets, path) && path[0] == c;
      var longer := [d] + path;
      assert ChainTo(triplets, longer);
    }
    assert Closed(triplets, reach);
  }

  /** `v` is listed under some key of `m` that occurs in `keys`. */
  predicate ListedUnder(m: map<string, seq<string>>, keys: seq<string>, v: string) {
    exists k :: k in keys && k in m && v in m[k]
  }

  lemma ListedUnderAppend(m: map<string, seq<string>>, keys: seq<string>, k: string)
    ensures forall v :: ListedUnder(m, keys + [k], v) <==> ListedUnder(m, keys, v) || (k in m && v in m[k])
  {
    forall v ensures ListedUnder(m, keys + [k], v) <==> ListedUnder(m, keys, v) || (k in m && v in m[k]) {
      if ListedUnder(m, keys + [k], v) {
        var k' :| k' in keys + [k] && k' in m && v in m[k'];
        if k' != k { assert k' in keys; }
      }
      if ListedUnder(m, keys, v) {
        var k' :| k' in keys && k' in m && v in m[k'];
        assert k' in keys + [k];
      }
      if k in m && v in m[k] {
        assert k in keys + [k];
      }
    }
  }

  /** What the loop of `Expand` keeps true after handling `done`. */
  ghost predicate ExpandInvariant(m: map<string, seq<string>>, done: seq<string>, next: seq<string>,
                                  rest: map<string, seq<string>>, removed: nat) {
    (forall k :: k in rest <==> k in m && k !in done) &&
    (forall k :: k in rest ==> rest[k] == m[k]) &&
    (forall v :: v in next <==> ListedUnder(m, done, v)) &&
    |rest.Keys| + removed == |m.Keys| && (|next| > 0 <==> removed > 0)
  }

  lemma ExpandStep(m: map<string, seq<string>>, done: seq<string>, next: seq<string>,
                   rest: map<string, seq<string>>, removed: nat, k: string)
    requires forall k :: k in m ==> |m[k]| > 0
    requires ExpandInvariant(m, done, next, rest, removed)
    ensures k in rest ==> ExpandInvariant(m, done + [k], next + rest[k], rest - {k}, removed + 1)
    ensures k !in rest ==> ExpandInvariant(m, done + [k], next, rest, removed)
  {
    ListedUnderAppend(m, done, k);
    if k in rest {
      assert (rest - {k}).Keys == rest.Keys - {k};
      assert m[k][0] in m[k];
    } else if k in m {
      assert k in done;
      forall v | v in m[k] ensures ListedUnder(m, done, v) {
        assert k in done && k in m && v in m[k];
      }
    }
  }

  /**
   * One pass of the `flat_map` in `count1`: for each colour to visit, in
   * order, remove its entry from the map and append the removed list.
   */
  method Expand(m: map<string, seq<string>>, toVisit: seq<string>) returns (next: seq<string>, rest: map<string, seq<string>>)
    requires forall k :: k in m ==> |m[k]| > 0
    ensures forall k :: k in rest <==> k in m && k !in toVisit
    ensures forall k :: k in rest ==> rest[k] == m[k]
    ensures forall v :: v in next <==> ListedUnder(m, toVisit, v)
    ensures |next| > 0 <==> |rest.Keys| < |m.Keys|
  {
    next := [];
    rest := m;
    var i := 0;
    ghost var removed := 0;
    while i < |toVisit|
      invariant 0 <= i <= |toVisit|
      invariant ExpandInvariant(m, toVisit[..i], next, rest, removed)
    {
      var k := toVisit[i];
      assert toVisit[..i + 1] == toVisit[..i] + [k];
      next, rest, removed := TakeKey(m, toVisit[..i], next, rest, removed, k);
      i := i + 1;
    }
    assert toVisit[..i] == toVisit;
  }

  /** One iteration of `Expand`: when `k` is still in the map, remove it and append its list. */
  method TakeKey(m: map<string, seq<string>>, ghost done: seq<string>, next: seq<string>,
                 rest: map<string, seq<string>>, ghost removed: nat, k: string)
    returns (next': seq<string>, rest': map<string, seq<string>>, ghost removed': nat)
    requires forall k :: k in m ==> |m[k]| > 0
    requires ExpandInvariant(m, done, next, rest, removed)
    ensures ExpandInvariant(m, done + [k], next', rest', removed')
    ensures k in rest ==> next' == next + rest[k] && rest' == rest - {k}
    ensures k !in rest ==> next' == next && rest' == rest
  {
    ExpandStep(m, done, next, rest, removed, k);
    if k in rest {
      next', rest', removed' := next + rest[k], rest - {k}, removed + 1;
    } else {
      next', rest', removed' := next, rest, removed;
    }
  }

  /** What the search loop of `count1` keeps true between passes. */
  ghost predicate SearchInvariant(triplets: seq<Triplet>, m0: map<string, seq<string>>, m: map<string, seq<string>>,
                                  visited: set<string>, toVisit: seq<string>) {
    (forall k :: k in m ==> k in m0 && m[k] == m0[k]) &&
    (forall k :: k in m0 && k !in m ==> (forall v :: v in m0[k] ==> v in visited)) &&
    (forall x :: (x in visited || x == Start) ==> x in toVisit || x !in m) &&
    (forall x :: x in toVisit ==> x in visited || x == Start) &&
    (forall t {:trigger Closed(triplets, t)} :: Closed(triplets, t) ==> visited <= t)
  }

  /** The lists of the map built by `count1` are the containers of their keys. */
  ghost predicate ListsContainers(triplets: seq<Triplet>, m0: map<string, seq<string>>) {
    (forall k :: k in m0 ==> |m0[k]| > 0) &&
    (forall k :: k in m0 ==> (forall v :: v in m0[k] <==> v in ContainersOf(triplets, k))) &&
    (forall k :: k !in m0 ==> ContainersOf(triplets, k) == {})
  }

  /** A pass that found new colours keeps the invariant. */
  lemma SearchStep(triplets: seq<Triplet>, m0: map<string, seq<string>>, m: map<string, seq<string>>,
                   visited: set<string>, toVisit: seq<string>, next: seq<string>, rest: map<string, seq<string>>)
    requires ListsContainers(triplets, m0)
    requires SearchInvariant(triplets, m0, m, visited, toVisit)
    requires forall k :: k in rest <==> k in m && k !in toVisit
    requires forall k :: k in rest ==> rest[k] == m[k]
    requires forall v :: v in next <==> ListedUnder(m, toVisit, v)
    ensures SearchInvariant(triplets, m0, rest, visited + (set v | v in next), next)
  {
    var visited' := visited + (set v | v in next);
    forall t | Closed(triplets, t) ensures visited' <= t {
      forall v | v in next ensures v in t {
        var k :| k in toVisit && k in m && v in m[k];
        assert v in ContainersOf(triplets, k);
      }
    }
    forall k | k in m0 && k !in rest ensures (forall v :: v in m0[k] ==> v in visited') {
      if k in m {
        assert k in toVisit;
        forall v | v in m0[k] ensures v in visited' {
          assert ListedUnder(m, toVisit, v);
        }
      }
    }
  }

  /** When a pass finds nothing new, the visited colours form the least closed set. */
  lemma SearchDone(triplets: seq<Triplet>, m0: map<string, seq<string>>, m: map<string, seq<string>>,
                   visited: set<string>, toVisit: seq<string>)
    requires ListsContainers(triplets, m0)
    requires SearchInvariant(triplets, m0, m, visited, toVisit)
    requires forall k :: k in toVisit ==> k !in m
    ensures LeastClosed(triplets, visited)
  {
    forall x | x in visited || x == Start ensures ContainersOf(triplets, x) <= visited {
      assert x !in m;
      if x in m0 {
        forall v | v in ContainersOf(triplets, x) ensures v in visited {
          assert v in m0[x];
        }
      }
    }
  }

  /**
   * `count1`: breadth-first search from shiny gold through the reversed
   * containment map. Each key is removed from the map when it is expanded,
   * so it is expanded at most once and the loop ends; the result is the
   * number of colours that can eventually contain shiny gold.
   */
  method Count1(triplets: seq<Triplet>) returns (count: nat)
    ensures exists s :: LeastClosed(triplets, s) && count == |s|
  {
    var m0 := BuildContainedBy(triplets);
    ContainedByContents(triplets);
    var m := m0;
    var visited: set<string> := {};
    var toVisit: seq<string> := [Start];
    while true
      invariant SearchInvariant(triplets, m0, m, visited, toVisit)
      decreases |m.Keys|
    {
      var next, rest := Expand(m, toVisit);
      if |next| == 0 {
        forall k | k in toVisit ensures k !in m {
          if k in m { assert ListedUnder(m, toVisit, m[k][0]); }
        }
        SearchDone(triplets, m0, m, visited, toVisit);
        break;
      }
      SearchStep(triplets, m0, m, visited, toVisit, next, rest);
      m := rest;
      visited := visited + (set v | v in next);
      toVisit := next;
    }
    count := |visited|;
  }

  // ---------------------------------------------------------------------
  // Part 2: how many bags does shiny gold hold?
  // ---------------------------------------------------------------------

  /** The rank a ranking gives a colour; colours it leaves out rank lowest. */
  function Rank(rank: map<string, nat>, c: string): nat {
    if c in rank then rank[c] else 0
  }

  /**
   * Every containment goes strictly down the ranking, so the rules have no
   * cycle. Without such a ranking `count2` does not terminate when a cycle
   * is reachable from shiny gold.
   */
  predicate Ranked(triplets: seq<Triplet>, rank: map<string, nat>) {
    forall i :: 0 <= i < |triplets| ==> Rank(rank, triplets[i].contained) < Rank(rank, triplets[i].container)
  }

  /** The (amount, colour) pairs a container directly holds, in input order. */
  function Contents(triplets: seq<Triplet>, c: string): (r: seq<(nat, string)>)
    ensures |r| <= |triplets|
    ensures forall j :: 0 <= j < |r| ==> exists i :: 0 <= i < |triplets| && triplets[i] == Triplet(c, r[j].0, r[j].1)
  {
    if triplets == [] then []
    else
      var init := triplets[..|triplets| - 1];
      var t := triplets[|triplets| - 1];
      var r := Contents(init, c) + (if t.container == c then [(t.amount, t.contained)] else []);
      assert forall j :: 0 <= j < |Contents(init, c)| ==> r[j] == Contents(init, c)[j];
      assert forall i :: 0 <= i < |init| ==> triplets[i] == init[i];
      r
  }

  /** Under a ranking every colour a container holds ranks below it. */
  lemma ContentsRanked(triplets: seq<Triplet>, rank: map<string, nat>, c: string)
    requires Ranked(triplets, rank)
    ensures forall j :: 0 <= j < |Contents(triplets, c)| ==> Rank(rank, Contents(triplets, c)[j].1) < Rank(rank, c)
  {
    forall j | 0 <= j < |Contents(triplets, c)| ensures Rank(rank, Contents(triplets, c)[j].1) < Rank(rank, c) {
      var i :| 0 <= i < |triplets| && triplets[i] == Triplet(c, Contents(triplets, c)[j].0, Contents(triplets, c)[j].1);
    }
  }

  /** The number of bags inside one bag of colour `c`. */
  function Total(triplets: seq<Triplet>, rank: map<string, nat>, c: string): nat
    requires Ranked(triplets, rank)
    decreases Rank(rank, c), 1
  {
    ContentsRanked(triplets, rank, c);
    Holds(triplets, rank, c, Contents(triplets, c))
  }

  /** The bags that the pairs `es` of a `c` bag stand for: each bag itself and everything inside it. */
  function Holds(triplets: seq<Triplet>, rank: map<string, nat>, c: string, es: seq<(nat, string)>): nat
    requires Ranked(triplets, rank)
    requires forall j :: 0 <= j < |es| ==> Rank(rank, es[j].1) < Rank(rank, c)
    decreases Rank(rank, c), 0, |es|
  {
    if es == [] then 0
    else es[0].0 * (1 + Total(triplets, rank, es[0].1)) + Holds(triplets, rank, c, es[1..])
  }

  /** The bags inside all of the (amount, colour) pairs waiting to be visited. */
  function Weight(triplets: seq<Triplet>, rank: map<string, nat>, xs: seq<(nat, string)>): nat
    requires Ranked(triplets, rank)
  {
    if xs == [] then 0 else xs[0].0 * Total(triplets, rank, xs[0].1) + Weight(triplets, rank, xs[1..])
  }

  lemma {:induction false} WeightAppend(triplets: seq<Triplet>, rank: map<string, nat>, xs: seq<(nat, string)>, x: (nat, string))
    requires Ranked(triplets, rank)
    ensures Weight(triplets, rank, xs + [x]) == Weight(triplets, rank, xs) + x.0 * Total(triplets, rank, x.1)
  {
    if xs != [] {
      assert (xs + [x])[1..] == xs[1..] + [x];
      WeightAppend(triplets, rank, xs[1..], x);
    }
  }

  /** `m` maps every container to its contents, and has no entry for a colour that holds nothing. */
  ghost predicate ContentsMap(triplets: seq<Triplet>, m: map<string, seq<(nat, string)>>) {
    (forall c :: c in m ==> m[c] == Contents(triplets, c)) &&
    (forall c :: c !in m ==> Contents(triplets, c) == [])
  }

  /** The map-building loop at the top of `count2`: container to its contents, in input order. */
  method BuildContents(triplets: seq<Triplet>) returns (m: map<string, seq<(nat, string)>>)
    ensures ContentsMap(triplets, m)
  {
    m := map[];
    var i := 0;
    while i < |triplets|
      invariant 0 <= i <= |triplets|
      invariant forall c :: c in m ==> m[c] == Contents(triplets[..i], c)
      invariant forall c :: c !in m ==> Contents(triplets[..i], c) == []
    {
      var t := triplets[i];
      var items := if t.container in m then m[t.container] else [];
      forall c ensures Contents(triplets[..i + 1], c) == Contents(triplets[..i], c) + (if t.container == c then [(t.amount, t.contained)] else []) {
        ContentsSnoc(triplets, i, c);
      }
      m := m[t.container := items + [(t.amount, t.contained)]];
      i := i + 1;
    }
    assert triplets[..i] == triplets;
  }

  /** Every pair of `xs` holds a colour ranked below `b`. */
  predicate RankedBelow(rank: map<string, nat>, xs: seq<(nat, string)>, b: int) {
    forall k :: 0 <= k < |xs| ==> Rank(rank, xs[k].1) < b
  }

  /** The contents after one more triplet. */
  lemma ContentsSnoc(triplets: seq<Triplet>, i: nat, c: string)
    requires i < |triplets|
    ensures Contents(triplets[..i + 1], c) ==
              Contents(triplets[..i], c) + (if triplets[i].container == c then [(triplets[i].amount, triplets[i].contained)] else [])
  {
    assert triplets[..i + 1][..i] == triplets[..i];
  }

  /** One step of the inner `map` of `count2`: the pair's bags are counted, its contents pass to the next level. */
  lemma HoldsStep(triplets: seq<Triplet>, rank: map<string, nat>, c: string, amt: nat, items: seq<(nat, string)>, j: nat,
                  count: nat, next: seq<(nat, string)>)
    requires Ranked(triplets, rank)
    requires forall k :: 0 <= k < |items| ==> Rank(rank, items[k].1) < Rank(rank, c)
    requires j < |items|
    ensures count + amt * items[j].0 + Weight(triplets, rank, next + [(amt * items[j].0, items[j].1)])
              + amt * Holds(triplets, rank, c, items[j + 1..])
            == count + Weight(triplets, rank, next) + amt * Holds(triplets, rank, c, items[j..])
  {
    assert items[j..][1..] == items[j + 1..];
    WeightAppend(triplets, rank, next, (amt * items[j].0, items[j].1));
    Distribute(amt, items[j].0, Total(triplets, rank, items[j].1), Holds(triplets, rank, c, items[j + 1..]));
  }

  lemma Distribute(a: int, b: int, t: int, h: int)
    ensures a * (b * (1 + t) + h) == a * b + a * b * t + a * h
  {
    calc {
      a * (b * (1 + t) + h);
      a * (b * (1 + t)) + a * h;
      a * (b + b * t) + a * h;
      a * b + a * (b * t) + a * h;
    }
  }

  /**
   * The inner `map` of `count2` for one pair (amt, c) with contents `items`:
   * each content pair (amt2, d) adds amt * amt2 to the count and passes
   * (amt * amt2, d) on to the next level.
   */
  method ExpandPair(triplets: seq<Triplet>, ghost rank: map<string, nat>, ghost c: string, amt: nat,
                    items: seq<(nat, string)>, count: nat, next: seq<(nat, string)>, ghost bound: int)
    returns (count': nat, next': seq<(nat, string)>)
    requires Ranked(triplets, rank)
    requires forall k :: 0 <= k < |items| ==> Rank(rank, items[k].1) < Rank(rank, c)
    requires Rank(rank, c) < bound
    requires RankedBelow(rank, next, bound - 1)
    ensures count' + Weight(triplets, rank, next') == count + Weight(triplets, rank, next) + amt * Holds(triplets, rank, c, items)
    ensures RankedBelow(rank, next', bound - 1)
  {
    count', next' := count, next;
    ghost var goal := count + Weight(triplets, rank, next) + amt * Holds(triplets, rank, c, items);
    assert items[0..] == items;
    var j := 0;
    while j < |items|
      invariant 0 <= j <= |items|
      invariant count' + Weight(triplets, rank, next') + amt * Holds(triplets, rank, c, items[j..]) == goal
      invariant RankedBelow(rank, next', bound - 1)
    {
      count', next' := PairStep(triplets, rank, c, amt, items, j, count', next', bound);
      j := j + 1;
    }
  }

  /** One iteration of `ExpandPair`, for the content pair at index `j`. */
  method PairStep(triplets: seq<Triplet>, ghost rank: map<string, nat>, ghost c: string, amt: nat,
                  items: seq<(nat, string)>, j: nat, count: nat, next: seq<(nat, string)>, ghost bound: int)
    returns (count': nat, next': seq<(nat, string)>)
    requires Ranked(triplets, rank)
    requires forall k :: 0 <= k < |items| ==> Rank(rank, items[k].1) < Rank(rank, c)
    requires j < |items| && Rank(rank, c) < bound
    requires RankedBelow(rank, next, bound - 1)
    ensures count' + Weight(triplets, rank, next') + amt * Holds(triplets, rank, c, items[j + 1..])
            == count + Weight(triplets, rank, next) + amt * Holds(triplets, rank, c, items[j..])
    ensures RankedBelow(rank, next', bound - 1)
  {
    var add := amt * items[j].0;
    HoldsStep(triplets, rank, c, amt, items, j, count, next);
    count' := count + add;
    next' := next + [(add, items[j].1)];
  }

  /**
   * One pass of the `flat_map` in `count2`: every pair (amount, colour) to
   * visit turns into the pairs its colour holds, amounts multiplied, and
   * every product is added to the count.
   */
  method ExpandLevel(triplets: seq<Triplet>, ghost rank: map<string, nat>, m: map<string, seq<(nat, string)>>,
                     toVisit: seq<(nat, string)>, count: nat, ghost bound: int)
    returns (count': nat, next: seq<(nat, string)>)
    requires Ranked(triplets, rank)
    requires ContentsMap(triplets, m)
    requires RankedBelow(rank, toVisit, bound)
    ensures count' + Weight(triplets, rank, next) == count + Weight(triplets, rank, toVisit)
    ensures RankedBelow(rank, next, bound - 1)
  {
    count' := count;
    next := [];
    ghost var goal := count + Weight(triplets, rank, toVisit);
    var i := 0;
    while i < |toVisit|
      invariant 0 <= i <= |toVisit|
      invariant count' + Weight(triplets, rank, next) + Weight(triplets, rank, toVisit[i..]) == goal
      invariant RankedBelow(rank, next, bound - 1)
    {
      assert toVisit[i..][1..] == toVisit[i + 1..];
      assert Weight(triplets, rank, toVisit[i..]) == toVisit[i].0 * Total(triplets, rank, toVisit[i].1) + Weight(triplets, rank, toVisit[i + 1..]);
      count', next := VisitPair(triplets, rank, m, toVisit[i], count', next, bound);
      i := i + 1;
    }
  }

  /** One iteration of `ExpandLevel`: the pair (amount, colour) adds the bags its colour holds, times the amount. */
  method VisitPair(triplets: seq<Triplet>, ghost rank: map<string, nat>, m: map<string, seq<(nat, string)>>,
                   pair: (nat, string), count: nat, next: seq<(nat, string)>, ghost bound: int)
    returns (count': nat, next': seq<(nat, string)>)
    requires Ranked(triplets, rank)
    requires ContentsMap(triplets, m)
    requires Rank(rank, pair.1) < bound && RankedBelow(rank, next, bound - 1)
    ensures count' + Weight(triplets, rank, next') == count + Weight(triplets, rank, next) + pair.0 * Total(triplets, rank, pair.1)
    ensures RankedBelow(rank, next', bound - 1)
  {
    var items := if pair.1 in m then m[pair.1] else [];
    ContentsRanked(triplets, rank, pair.1);
    assert items == Contents(triplets, pair.1);
    assert Total(triplets, rank, pair.1) == Holds(triplets, rank, pair.1, items);
    count', next' := ExpandPair(triplets, rank, pair.1, pair.0, items, count, next, bound);
  }

  /**
   * `count2`: level by level from one shiny gold bag, multiplying the
   * amounts along the way and adding every bag met to the count; stops
   * at the first level with no bags.
   */
  method Count2(triplets: seq<Triplet>, ghost rank: map<string, nat>) returns (count: nat)
    requires Ranked(triplets, rank)
    ensures count == Total(triplets, rank, Start)
  {
    var m := BuildContents(triplets);
    count := 0;
    var toVisit: seq<(nat, string)> := [(1, Start)];
    ghost var bound := Rank(rank, Start) + 1;
    ghost var goal := Total(triplets, rank, Start);
    assert Weight(triplets, rank, toVisit) == goal by {
      assert toVisit[1..] == [];
    }
    while true
      invariant |toVisit| > 0
      invariant count + Weight(triplets, rank, toVisit) == goal
      invariant RankedBelow(rank, toVisit, bound)
      decreases bound
    {
      var next;
      count, next := ExpandLevel(triplets, rank, m, toVisit, count, bound);
      if |next| == 0 {
        return;
      }
      toVisit := next;
      bound := bound - 1;
    }
  }
}

=== FILE: day08.dfy ===
/**
 * Day 8, "Handheld Halting": a program of `nop`, `acc` and `jmp`
 * instructions. Part 1 runs it until an instruction is about to run a
 * second time; part 2 repairs it by swapping one `nop`/`jmp` so that it
 * runs off its end.
 */
module Day08 {
  import opened Wrappers
  import opened Text

  datatype Instr = Nop(arg: int) | Acc(arg: int) | Jmp(arg: int)

  /** The two error messages of `from_str`. */
  datatype ParseError = BadArgument | BadOpcode(opcode: string)

  datatype Result<T> = Ok(value: T) | Err(error: ParseError)

  /** `Instr::from_str`: "<opcode> <signed integer>"; the argument is checked before the opcode. */
  function ParseInstr(s: string): (r: Result<Instr>)
    requires SplitOnce(s, " ").Some?
    ensures ParseInt(SplitOnce(s, " ").value.1).None? <==> r == Err(BadArgument)
    ensures r.Ok? <==> ParseInt(SplitOnce(s, " ").value.1).Some? && SplitOnce(s, " ").value.0 in ["nop", "acc", "jmp"]
    ensures r.Ok? ==> r.value.arg == ParseInt(SplitOnce(s, " ").value.1).value
    ensures r.Ok? ==> ((r.value.Nop? <==> SplitOnce(s, " ").value.0 == "nop")
                       && (r.value.Acc? <==> SplitOnce(s, " ").value.0 == "acc")
                       && (r.value.Jmp? <==> SplitOnce(s, " ").value.0 == "jmp"))
    ensures r.Err? && r.error.BadOpcode? ==> r.error.opcode == SplitOnce(s, " ").value.0
  {
    var opcode := SplitOnce(s, " ").value.0;
    match ParseInt(SplitOnce(s, " ").value.1)
    case None => Err(BadArgument)
    case Some(arg) =>
      if opcode == "nop" then Ok(Nop(arg))
      else if opcode == "acc" then Ok(Acc(arg))
      else if opcode == "jmp" then Ok(Jmp(arg))
      else Err(BadOpcode(opcode))
  }

  /** The program counter and accumulator of a run. */
  datatype State = State(pc: int, acc: int)

  /** The effect of one instruction on the program counter and the accumulator. */
  function Exec(instr: Instr, s: State): (r: State)
    ensures instr.Nop? ==> r == State(s.pc + 1, s.acc)
    ensures instr.Acc? ==> r == State(s.pc + 1, s.acc + instr.arg)
    ensures instr.Jmp? ==> r == State(s.pc + instr.arg, s.acc)
  {
    match instr
    case Nop(_) => s.(pc := s.pc + 1)
    case Acc(arg) => State(s.pc + 1, s.acc + arg)
    case Jmp(arg) => s.(pc := s.pc + arg)
  }

  /** The state after `n` steps from pc 0 and acc 0; a run whose pc leaves the program stays put. */
  function Nth(prog: seq<Instr>, n: nat): State {
    if n == 0 then State(0, 0)
    else
      var s := Nth(prog, n - 1);
      if 0 <= s.pc < |prog| then Exec(prog[s.pc], s) else s
  }

  /** After `k` steps the run must stop: the pc is outside the program or was already run. */
  predicate Stops(prog: seq<Instr>, k: nat) {
    !(0 <= Nth(prog, k).pc < |prog|) || exists j :: 0 <= j < k && Nth(prog, j).pc == Nth(prog, k).pc
  }

  /** `k` is the first step at which the run stops. */
  predicate FirstStop(prog: seq<Instr>, k: nat) {
    Stops(prog, k) && forall j :: 0 <= j < k ==> !Stops(prog, j)
  }

  /** There is only one first stop. */
  lemma FirstStopUnique(prog: seq<Instr>, k: nat, k': nat)
    requires FirstStop(prog, k) && FirstStop(prog, k')
    ensures k == k'
  {
  }

  /** The instructions keyed by index, as `(0i32..).zip(prog).collect()`. */
  function Indexed(prog: seq<Instr>): (m: map<int, Instr>)
    ensures forall i :: i in m <==> 0 <= i < |prog|
    ensures forall i :: 0 <= i < |prog| ==> m[i] == prog[i]
  {
    map i | 0 <= i < |prog| :: prog[i]
  }

  /** The pcs run in the first `k` steps. */
  function RunPcs(prog: seq<Instr>, k: nat): set<int> {
    set j | 0 <= j < k :: Nth(prog, j).pc
  }

  /** The mutable state of a run: the instructions not yet run (the source's `map`), pc and acc. */
  class ProgState {
    var instrs: map<int, Instr>
    var pc: int
    var acc: int

    /** `ProgState::from`: every instruction still to run, pc and acc at zero. */
    constructor(prog: seq<Instr>)
      ensures instrs == Indexed(prog) && pc == 0 && acc == 0
    {
      instrs := Indexed(prog);
      pc := 0;
      acc := 0;
    }

    /** `step`: changes pc and acc as the instruction says and nothing else. */
    method Step(instr: Instr)
      modifies this
      ensures State(pc, acc) == Exec(instr, State(old(pc), old(acc)))
      ensures instrs == old(instrs)
    {
      match instr
      case Nop(_) => pc := pc + 1;
      case Acc(arg) => acc := acc + arg; pc := pc + 1;
      case Jmp(arg) => pc := pc + arg;
    }
  }

  /**
   * After `k` steps without a stop: `s` is the `k`-th state, the
   * instructions already run are exactly those removed from `m`, and no pc
   * has been run twice.
   */
  ghost predicate Tracks(prog: seq<Instr>, k: nat, m: map<int, Instr>, s: State) {
    s == Nth(prog, k) &&
    m == Indexed(prog) - RunPcs(prog, k) &&
    (forall j :: 0 <= j < k ==> !Stops(prog, j)) &&
    |m.Keys| + k == |prog|
  }

  /** The keys of `Indexed` number exactly `|prog|`. */
  lemma {:induction false} IndexedCard(prog: seq<Instr>)
    ensures |Indexed(prog).Keys| == |prog|
  {
    if prog != [] {
      var init := prog[..|prog| - 1];
      IndexedCard(init);
      assert Indexed(prog).Keys == Indexed(init).Keys + {|prog| - 1};
    } else {
      assert Indexed(prog).Keys == {};
    }
  }

  /** A fresh `ProgState` tracks the run after no steps. */
  lemma TracksInit(prog: seq<Instr>)
    ensures Tracks(prog, 0, Indexed(prog), State(0, 0))
  {
    IndexedCard(prog);
    assert RunPcs(prog, 0) == {};
  }

  /** Running the instruction at pc when it is still in the map keeps `Tracks` one step further. */
  lemma TracksStep(prog: seq<Instr>, k: nat, m: map<int, Instr>, s: State)
    requires Tracks(prog, k, m, s)
    requires s.pc in m
    ensures Tracks(prog, k + 1, m - {s.pc}, Exec(m[s.pc], s))
  {
    StepMap(prog, k, m, s.pc);
    NthStep(prog, k);
    NotStopsAt(prog, k);
    NoStopSnoc(prog, k);
  }

  /** The state after step `k` when its pc is inside the program. */
  lemma NthStep(prog: seq<Instr>, k: nat)
    requires 0 <= Nth(prog, k).pc < |prog|
    ensures Nth(prog, k + 1) == Exec(prog[Nth(prog, k).pc], Nth(prog, k))
  {
  }

  lemma NoStopSnoc(prog: seq<Instr>, k: nat)
    requires forall j :: 0 <= j < k ==> !Stops(prog, j)
    requires !Stops(prog, k)
    ensures forall j :: 0 <= j < k + 1 ==> !Stops(prog, j)
  {
  }

  /** The map after removing the pc of step `k`, when it is still there. */
  lemma StepMap(prog: seq<Instr>, k: nat, m: map<int, Instr>, pc: int)
    requires m == Indexed(prog) - RunPcs(prog, k) && pc == Nth(prog, k).pc && pc in m
    ensures 0 <= pc < |prog| && pc !in RunPcs(prog, k) && m[pc] == prog[pc]
    ensures m - {pc} == Indexed(prog) - RunPcs(prog, k + 1)
    ensures |(m - {pc}).Keys| + 1 == |m.Keys|
  {
    RunPcsSnoc(prog, k);
    RemoveAgain(Indexed(prog), RunPcs(prog, k), pc);
    KeysRemove(m, pc);
  }

  /** Removing a present key takes one off the number of keys. */
  lemma KeysRemove(m: map<int, Instr>, x: int)
    requires x in m
    ensures |(m - {x}).Keys| + 1 == |m.Keys|
  {
    var rest := (m - {x}).Keys;
    assert m.Keys == rest + {x} && x !in rest;
  }

  /** Removing the keys `a` and then `x` removes the keys `a + {x}`. */
  lemma RemoveAgain(m: map<int, Instr>, a: set<int>, x: int)
    ensures (m - a) - {x} == m - (a + {x})
  {
  }

  /** A step whose pc is inside the program and not run before does not stop the run. */
  lemma NotStopsAt(prog: seq<Instr>, k: nat)
    requires 0 <= Nth(prog, k).pc < |prog| && Nth(prog, k).pc !in RunPcs(prog, k)
    ensures !Stops(prog, k)
  {
  }

  /** One more step adds its pc to the pcs run. */
  lemma RunPcsSnoc(prog: seq<Instr>, k: nat)
    ensures RunPcs(prog, k + 1) == RunPcs(prog, k) + {Nth(prog, k).pc}
  {
  }

  /** When pc is no longer in the map, the run stops at step `k`. */
  lemma TracksStop(prog: seq<Instr>, k: nat, m: map<int, Instr>, s: State)
    requires Tracks(prog, k, m, s)
    requires s.pc !in m
    ensures FirstStop(prog, k) && k <= |prog|
  {
    if 0 <= s.pc < |prog| {
      assert s.pc in RunPcs(prog, k);
      var j :| 0 <= j < k && Nth(prog, j).pc == s.pc;
    }
  }

  /**
   * `run_prog`: removes each instruction from the map as it runs it, and
   * stops when pc is not in the map. The result is the accumulator at the
   * first stop, which comes within `|prog|` steps.
   */
  method RunProg(prog: seq<Instr>) returns (acc: int)
    ensures exists k: nat :: k <= |prog| && FirstStop(prog, k) && acc == Nth(prog, k).acc
  {
    var state := new ProgState(prog);
    ghost var k := 0;
    TracksInit(prog);
    while state.pc in state.instrs
      invariant Tracks(prog, k, state.instrs, State(state.pc, state.acc))
      decreases |state.instrs.Keys|
    {
      var instr := state.instrs[state.pc];
      TracksStep(prog, k, state.instrs, State(state.pc, state.acc));
      state.instrs := state.instrs - {state.pc};
      state.Step(instr);
      k := k + 1;
    }
    TracksStop(prog, k, state.instrs, State(state.pc, state.acc));
    acc := state.acc;
  }

  /** The outcome `run_prog2` promises: the accumulator when the first stop lands exactly on `|prog|`. */
  ghost function Outcome(prog: seq<Instr>): Option<int> {
    if exists k: nat :: FirstStop(prog, k) && Nth(prog, k).pc == |prog| then
      var k: nat :| FirstStop(prog, k) && Nth(prog, k).pc == |prog|;
      Some(Nth(prog, k).acc)
    else None
  }

  /** The outcome read off at the first stop. */
  lemma OutcomeAt(prog: seq<Instr>, k: nat)
    requires FirstStop(prog, k)
    ensures Outcome(prog) == if Nth(prog, k).pc == |prog| then Some(Nth(prog, k).acc) else None
  {
    if exists k': nat :: FirstStop(prog, k') && Nth(prog, k').pc == |prog| {
      var k': nat :| FirstStop(prog, k') && Nth(prog, k').pc == |prog|;
      FirstStopUnique(prog, k, k');
    }
  }

  /**
   * `run_prog2`: like `run_prog`, but reports `Some(acc)` only when pc lands
   * exactly on the instruction after the last one, and `None` on a repeat or
   * any other pc outside the program.
   */
  method RunProg2(prog: seq<Instr>) returns (r: Option<int>)
    ensures r == Outcome(prog)
  {
    var state := new ProgState(prog);
    ghost var k := 0;
    TracksInit(prog);
    while true
      invariant Tracks(prog, k, state.instrs, State(state.pc, state.acc))
      decreases |state.instrs.Keys|
    {
      if state.pc == |prog| {
        TracksStop(prog, k, state.instrs, State(state.pc, state.acc));
        OutcomeAt(prog, k);
        return Some(state.acc);
      } else if state.pc in state.instrs {
        var instr := state.instrs[state.pc];
        TracksStep(prog, k, state.instrs, State(state.pc, state.acc));
        state.instrs := state.instrs - {state.pc};
        state.Step(instr);
        k := k + 1;
      } else {
        TracksStop(prog, k, state.instrs, State(state.pc, state.acc));
        OutcomeAt(prog, k);
        return None;
      }
    }
  }

  /** The copy `try_run` runs at index `i`: `nop` and `jmp` swapped, `acc` skipped. */
  function Patch(prog: seq<Instr>, i: nat): (r: Option<seq<Instr>>)
    requires i < |prog|
    ensures r.None? <==> prog[i].Acc?
    ensures r.Some? ==> |r.value| == |prog| && r.value[i].arg == prog[i].arg
                        && (r.value[i].Nop? <==> prog[i].Jmp?) && (r.value[i].Jmp? <==> prog[i].Nop?)
                        && forall j :: 0 <= j < |prog| && j != i ==> r.value[j] == prog[j]
  {
    match prog[i]
    case Nop(arg) => Some(prog[i := Jmp(arg)])
    case Jmp(arg) => Some(prog[i := Nop(arg)])
    case Acc(_) => None
  }

  /** Patching at `i` gives a program that runs off its end. */
  ghost predicate Repairs(prog: seq<Instr>, i: nat)
    requires i < |prog|
  {
    Patch(prog, i).Some? && Outcome(Patch(prog, i).value).Some?
  }

  /**
   * `try_run`: patches one index at a time, in increasing order, and returns
   * the outcome of the first patched copy that runs off its end.
   */
  method TryRun(prog: seq<Instr>) returns (r: Option<int>)
    ensures r.None? <==> forall i :: 0 <= i < |prog| ==> !Repairs(prog, i)
    ensures r.Some? ==> exists i :: 0 <= i < |prog| && Repairs(prog, i) && r == Outcome(Patch(prog, i).value)
                                    && forall j :: 0 <= j < i ==> !Repairs(prog, j)
  {
    for i := 0 to |prog|
      invariant forall j :: 0 <= j < i ==> !Repairs(prog, j)
    {
      var copy := prog;
      match prog[i] {
        case Nop(arg) => copy := copy[i := Jmp(arg)];
        case Jmp(arg) => copy := copy[i := Nop(arg)];
        case Acc(_) => continue;
      }
      assert copy == Patch(prog, i).value;
      var res := RunProg2(copy);
      if res.Some? {
        assert Repairs(prog, i);
        return res;
      }
    }
    return None;
  }
}

module Day08Samples {
  import opened Wrappers
  import opened Day08

  const Sample: seq<Instr> := [Nop(0), Acc(1), Jmp(4), Acc(3), Jmp(-3), Acc(-99), Acc(1), Jmp(-4), Acc(6)]

  /** The sample run visits pcs 0, 1, 2, 6, 7, 3, 4 and stops at the repeated pc 1 with acc 5. */
  lemma SampleFirstStop()
    ensures FirstStop(Sample, 7) && Nth(Sample, 7) == State(1, 5)
  {
    SampleStates();
  }

  /** The states of the sample run after one to seven steps. */
  lemma SampleStates()
    ensures Nth(Sample, 1) == State(1, 0) && Nth(Sample, 2) == State(2, 1) && Nth(Sample, 3) == State(6, 1)
    ensures Nth(Sample, 4) == State(7, 2) && Nth(Sample, 5) == State(3, 2) && Nth(Sample, 6) == State(4, 5)
    ensures Nth(Sample, 7) == State(1, 5)
  {
    assert Nth(Sample, 1) == State(1, 0);
    assert Nth(Sample, 2) == State(2, 1);
    assert Nth(Sample, 3) == State(6, 1);
    assert Nth(Sample, 4) == State(7, 2);
    assert Nth(Sample, 5) == State(3, 2);
    assert Nth(Sample, 6) == State(4, 5);
  }

  /** `run_prog` on the sample returns 5. */
  lemma SampleRunProg(acc: int)
    requires exists k: nat :: k <= |Sample| && FirstStop(Sample, k) && acc == Nth(Sample, k).acc
    ensures acc == 5
  {
    var k: nat :| k <= |Sample| && FirstStop(Sample, k) && acc == Nth(Sample, k).acc;
    SampleFirstStop();
    FirstStopUnique(Sample, k, 7);
  }

  /** Swapping the `nop` at index 0 gives `jmp +0`, which repeats at once. */
  lemma SamplePatch0()
    ensures Patch(Sample, 0).Some? && FirstStop(Patch(Sample, 0).value, 1)
    ensures Nth(Patch(Sample, 0).value, 1) == State(0, 0)
  {
    var p := Patch(Sample, 0).value;
    assert p[0] == Jmp(0);
    assert Nth(p, 1) == State(0, 0);
    assert Nth(p, 0).pc == Nth(p, 1).pc;
  }

  /** Swapping the `jmp` at index 2 repeats pc 1. */
  lemma SamplePatch2()
    ensures Patch(Sample, 2).Some? && FirstStop(Patch(Sample, 2).value, 5)
    ensures Nth(Patch(Sample, 2).value, 5) == State(1, 4)
  {
    var p := Patch(Sample, 2).value;
    assert Nth(p, 1) == State(1, 0);
    assert Nth(p, 2) == State(2, 1);
    assert Nth(p, 3) == State(3, 1);
    assert Nth(p, 4) == State(4, 4);
    assert Nth(p, 5) == State(1, 4);
  }

  /** Swapping the `jmp` at index 4 repeats pc 6. */
  lemma SamplePatch4()
    ensures Patch(Sample, 4).Some? && FirstStop(Patch(Sample, 4).value, 8)
    ensures Nth(Patch(Sample, 4).value, 8) == State(6, -94)
  {
    var p := Patch(Sample, 4).value;
    assert Nth(p, 1) == State(1, 0);
    assert Nth(p, 2) == State(2, 1);
    assert Nth(p, 3) == State(6, 1);
    assert Nth(p, 4) == State(7, 2);
    assert Nth(p, 5) == State(3, 2);
    assert Nth(p, 6) == State(4, 5);
    assert Nth(p, 7) == State(5, 5);
    assert Nth(p, 8) == State(6, -94);
  }

  /** Swapping the `jmp` at index 7 runs off the end with acc 8. */
  lemma SamplePatch7()
    ensures Patch(Sample, 7).Some? && FirstStop(Patch(Sample, 7).value, 6)
    ensures Nth(Patch(Sample, 7).value, 6) == State(9, 8)
  {
    var p := Patch(Sample, 7).value;
    assert Nth(p, 1) == State(1, 0);
    assert Nth(p, 2) == State(2, 1);
    assert Nth(p, 3) == State(6, 1);
    assert Nth(p, 4) == State(7, 2);
    assert Nth(p, 5) == State(8, 2);
    assert Nth(p, 6) == State(9, 8);
  }

  /** Only the swap at index 7 repairs the sample, and it gives 8. */
  lemma SampleRepairs()
    ensures forall i :: 0 <= i < 7 ==> !Repairs(Sample, i)
    ensures Repairs(Sample, 7) && Outcome(Patch(Sample, 7).value) == Some(8)
  {
    SamplePatch0();
    OutcomeAt(Patch(Sample, 0).value, 1);
    SamplePatch2();
    OutcomeAt(Patch(Sample, 2).value, 5);
    SamplePatch4();
    OutcomeAt(Patch(Sample, 4).value, 8);
    SamplePatch7();
    OutcomeAt(Patch(Sample, 7).value, 6);
    forall i | 0 <= i < 7 ensures !Repairs(Sample, i) {
      assert i in {0, 1, 2, 3, 4, 5, 6};
    }
  }

  /** `try_run` on the sample returns Some(8). */
  lemma SampleTryRun(r: Option<int>)
    requires r.None? <==> forall i :: 0 <= i < |Sample| ==> !Repairs(Sample, i)
    requires r.Some? ==> exists i :: 0 <= i < |Sample| && Repairs(Sample, i) && r == Outcome(Patch(Sample, i).value)
                                     && forall j :: 0 <= j < i ==> !Repairs(Sample, j)
    ensures r == Some(8)
  {
    SampleRepairs();
    var i :| 0 <= i < |Sample| && Repairs(Sample, i) && r == Outcome(Patch(Sample, i).value)
             && forall j :: 0 <= j < i ==> !Repairs(Sample, j);
    assert i == 7;
  }
}

=== FILE: day09.dfy ===
/**
 * Day 9, "Encoding Error": every number after the preamble should be the
 * sum of two of the `preamble_len` numbers before it. Part 1 finds the
 * first that is not; part 2 finds a contiguous run summing to it and adds
 * the run's smallest and largest numbers.
 */
module Day09 {
  import opened Lists
  import opened Wrappers

  /** Some two entries of `xs`, possibly the same entry twice, add up to `n`. */
  predicate IsSum(xs: seq<nat>, n: nat) {
    exists i, j :: 0 <= i < |xs| && 0 <= j < |xs| && xs[i] + xs[j] == n
  }

  /** `compare`: a search over all ordered pairs of entries, stopping at the first that adds up to `n`. */
  method Compare(xs: seq<nat>, n: nat) returns (r: bool)
    ensures r <==> IsSum(xs, n)
  {
    for a := 0 to |xs|
      invariant forall i, j :: 0 <= i < a && 0 <= j < |xs| ==> xs[i] + xs[j] != n
    {
      for b := 0 to |xs|
        invariant forall j :: 0 <= j < b ==> xs[a] + xs[j] != n
      {
        if xs[a] + xs[b] == n {
          return true;
        }
      }
    }
    return false;
  }

  /** The number at index `k + p` is not a sum of two of the `p` numbers before it. */
  predicate NotSumAt(numbers: seq<nat>, p: nat, k: nat)
    requires k + p < |numbers|
  {
    !IsSum(numbers[k..k + p], numbers[k + p])
  }

  /**
   * `scan`: slides a window of `p + 1` numbers along the list and returns
   * the last number of the first window whose other numbers do not sum to it.
   */
  method Scan(numbers: seq<nat>, p: nat) returns (r: Option<nat>)
    ensures r.None? <==> forall k: nat :: k + p < |numbers| ==> !NotSumAt(numbers, p, k)
    ensures r.Some? ==> exists k: nat :: k + p < |numbers| && NotSumAt(numbers, p, k) && r.value == numbers[k + p]
                                         && forall k': nat :: k' < k ==> !NotSumAt(numbers, p, k')
  {
    var windows := if |numbers| > p then |numbers| - p else 0;
    for k := 0 to windows
      invariant forall k': nat :: k' < k ==> !NotSumAt(numbers, p, k')
    {
      var ok := Compare(numbers[k..k + p], numbers[k + p]);
      if !ok {
        assert NotSumAt(numbers, p, k);
        return Some(numbers[k + p]);
      }
    }
    return None;
  }

  /** The sum of a list of numbers. */
  function Sum(s: seq<nat>): nat {
    if s == [] then 0 else Sum(s[..|s| - 1]) + s[|s| - 1]
  }

  /** Appending a number adds it to the sum. */
  lemma SumSnoc(s: seq<nat>, x: nat)
    ensures Sum(s + [x]) == Sum(s) + x
  {
    assert (s + [x])[..|s|] == s;
  }

  /** Running sums from a fixed start never decrease, as all numbers are unsigned. */
  lemma {:induction false} SumGrows(numbers: seq<nat>, i: nat, j: nat, k: nat)
    requires i <= j <= k <= |numbers|
    ensures Sum(numbers[i..j]) <= Sum(numbers[i..k])
    decreases k - j
  {
    if j < k {
      SumGrows(numbers, i, j, k - 1);
      assert numbers[i..k][..k - 1 - i] == numbers[i..k - 1];
    }
  }

  /** The smallest entry of a non-empty list. */
  function Min(s: seq<nat>): (m: nat)
    requires |s| > 0
    ensures m in s && forall x :: x in s ==> m <= x
  {
    if |s| == 1 then s[0]
    else
      var m := Min(s[1..]);
      assert forall x :: x in s ==> x == s[0] || x in s[1..];
      if s[0] <= m then s[0] else m
  }

  /** The run from index `i` to index `j` inclusive sums to `target`. */
  predicate RunAt(numbers: seq<nat>, target: nat, i: nat, j: nat) {
    i <= j < |numbers| && Sum(numbers[i..j + 1]) == target
  }

  /** Runs ordered by start, then by end: (i, j) comes no later than every run. */
  ghost predicate FirstRun(numbers: seq<nat>, target: nat, i: nat, j: nat) {
    RunAt(numbers, target, i, j) &&
    forall i': nat, j': nat :: RunAt(numbers, target, i', j') ==> i < i' || (i == i' && j <= j')
  }

  /**
   * `scan2`: for each start in order, adds numbers until the sum reaches or
   * passes `invalid`; on an exact hit returns the run's largest plus its
   * smallest number. The break on passing is safe because the sums from a
   * start only grow.
   */
  method Scan2(numbers: seq<nat>, invalid: nat) returns (r: Option<nat>)
    ensures r.None? <==> forall i: nat, j: nat :: !RunAt(numbers, invalid, i, j)
    ensures r.Some? ==> exists i: nat, j: nat :: FirstRun(numbers, invalid, i, j) &&
                                                r.value == Max(numbers[i..j + 1]) + Min(numbers[i..j + 1])
  {
    for i := 0 to |numbers|
      invariant forall i': nat, j': nat :: i' < i ==> !RunAt(numbers, invalid, i', j')
    {
      var sum := 0;
      var j := i;
      while j < |numbers|
        invariant i <= j <= |numbers|
        invariant sum == Sum(numbers[i..j])
        invariant forall j': nat :: j' < j ==> !RunAt(numbers, invalid, i, j')
      {
        assert numbers[i..j + 1][..j - i] == numbers[i..j];
        sum := sum + numbers[j];
        if sum > invalid {
          forall j': nat | j <= j' ensures !RunAt(numbers, invalid, i, j') {
            if j' < |numbers| {
              SumGrows(numbers, i, j + 1, j' + 1);
            }
          }
          break;
        }
        if sum == invalid {
          assert RunAt(numbers, invalid, i, j);
          assert FirstRun(numbers, invalid, i, j);
          return Some(Max(numbers[i..j + 1]) + Min(numbers[i..j + 1]));
        }
        j := j + 1;
      }
    }
    return None;
  }
}

module Day09Samples {
  import opened Lists
  import opened Wrappers
  import opened Day09

  const Sample: seq<nat> := [35, 20, 15, 25, 47, 40, 62, 55, 65, 95, 102, 117, 150, 182, 127, 219, 299, 277, 309, 576]

  /** With a preamble of 5, 127 (index 14) is the first number that is not a sum of two of the five before it. */
  lemma SampleNotSums()
    ensures NotSumAt(Sample, 5, 9)
    ensures forall k: nat :: k < 9 ==> !NotSumAt(Sample, 5, k)
  {
    SampleNotSum(Sample[9..14]);
    forall k: nat | k < 9 ensures !NotSumAt(Sample, 5, k) {
      SampleSumAt(k);
    }
  }

  /** The five numbers before 127 are all at least 95, so no two of them add up to 127. */
  lemma SampleNotSum(window: seq<nat>)
    requires window == [95, 102, 117, 150, 182]
    ensures !IsSum(window, 127)
  {
    assert forall i :: 0 <= i < |window| ==> window[i] >= 95;
  }

  /** The number after a window is a sum of the window's entries `a` and `b`. */
  lemma WindowSum(numbers: seq<nat>, p: nat, k: nat, a: nat, b: nat)
    requires k + p < |numbers| && a < p && b < p && numbers[k + a] + numbers[k + b] == numbers[k + p]
    ensures !NotSumAt(numbers, p, k)
  {
    assert numbers[k..k + p][a] == numbers[k + a];
    assert numbers[k..k + p][b] == numbers[k + b];
  }

  /** Each of the numbers at indices 5 to 13 is a sum of two of the five before it. */
  lemma SampleSumAt(k: nat)
    requires k < 9
    ensures !NotSumAt(Sample, 5, k)
  {
    if k == 0 {
      SampleSum5();
    } else if k == 1 {
      SampleSum6();
    } else if k == 2 {
      SampleSum7();
    } else if k == 3 {
      SampleSum8();
    } else if k == 4 {
      SampleSum9();
    } else if k == 5 {
      SampleSum10();
    } else if k == 6 {
      SampleSum11();
    } else if k == 7 {
      SampleSum12();
    } else {
      SampleSum13();
    }
  }

  lemma SampleSum5()
    ensures !NotSumAt(Sample, 5, 0)
  {
    WindowSum(Sample, 5, 0, 2, 3);
  }

  lemma SampleSum6()
    ensures !NotSumAt(Sample, 5, 1)
  {
    WindowSum(Sample, 5, 1, 1, 3);
  }

  lemma SampleSum7()
    ensures !NotSumAt(Sample, 5, 2)
  {
    WindowSum(Sample, 5, 2, 0, 3);
  }

  lemma SampleSum8()
    ensures !NotSumAt(Sample, 5, 3)
  {
    WindowSum(Sample, 5, 3, 0, 2);
  }

  lemma SampleSum9()
    ensures !NotSumAt(Sample, 5, 4)
  {
    WindowSum(Sample, 5, 4, 1, 3);
  }

  lemma SampleSum10()
    ensures !NotSumAt(Sample, 5, 5)
  {
    WindowSum(Sample, 5, 5, 0, 1);
  }

  lemma SampleSum11()
    ensures !NotSumAt(Sample, 5, 6)
  {
    WindowSum(Sample, 5, 6, 0, 1);
  }

  lemma SampleSum12()
    ensures !NotSumAt(Sample, 5, 7)
  {
    WindowSum(Sample, 5, 7, 0, 2);
  }

  lemma SampleSum13()
    ensures !NotSumAt(Sample, 5, 8)
  {
    WindowSum(Sample, 5, 8, 0, 3);
  }

  /** `scan(sample, 5)` is 127. */
  lemma SampleScan(r: Option<nat>)
    requires r.None? <==> forall k: nat :: k + 5 < |Sample| ==> !NotSumAt(Sample, 5, k)
    requires r.Some? ==> exists k: nat :: k + 5 < |Sample| && NotSumAt(Sample, 5, k) && r.value == Sample[k + 5]
                                         && forall k': nat :: k' < k ==> !NotSumAt(Sample, 5, k')
    ensures r == Some(127)
  {
    SampleNotSums();
    var k: nat :| k + 5 < |Sample| && NotSumAt(Sample, 5, k) && r.value == Sample[k + 5]
                  && forall k': nat :: k' < k ==> !NotSumAt(Sample, 5, k');
    assert k == 9;
  }

  /** The sums of the runs the search passes through before it hits 127. */
  lemma SampleSums()
    ensures Sum(Sample[0..4]) == 95 && Sum(Sample[0..5]) == 142
    ensures Sum(Sample[1..5]) == 107 && Sum(Sample[1..6]) == 147
    ensures Sum(Sample[2..5]) == 87 && Sum(Sample[2..6]) == 127
  {
    SampleSumsFrom0(Sample[0..4], Sample[0..5]);
    SampleSumsFrom1(Sample[1..5], Sample[1..6]);
    SampleSumsFrom2(Sample[2..5], Sample[2..6]);
  }

  lemma SampleSumsFrom0(four: seq<nat>, five: seq<nat>)
    requires four == [35, 20, 15, 25] && five == four + [47]
    ensures Sum(four) == 95 && Sum(five) == 142
  {
    assert four == [35, 20, 15] + [25];
    assert [35, 20] + [15] == [35, 20, 15];
    SumSnoc([35, 20], 15);
    SumSnoc([35, 20, 15], 25);
    SumSnoc(four, 47);
  }

  lemma SampleSumsFrom1(four: seq<nat>, five: seq<nat>)
    requires four == [20, 15, 25, 47] && five == four + [40]
    ensures Sum(four) == 107 && Sum(five) == 147
  {
    assert four == [20, 15, 25] + [47];
    assert [20, 15] + [25] == [20, 15, 25];
    SumSnoc([20, 15], 25);
    SumSnoc([20, 15, 25], 47);
    SumSnoc(four, 40);
  }

  lemma SampleSumsFrom2(three: seq<nat>, four: seq<nat>)
    requires three == [15, 25, 47] && four == three + [40]
    ensures Sum(three) == 87 && Sum(four) == 127
  {
    assert three == [15, 25] + [47];
    SumSnoc([15, 25], 47);
    SumSnoc(three, 40);
  }

  /** The run 15, 25, 47, 40 is the first run summing to 127. */
  lemma SampleFirstRun()
    ensures FirstRun(Sample, 127, 2, 5)
  {
    SampleSums();
    forall i': nat, j': nat | RunAt(Sample, 127, i', j') ensures 2 < i' || (2 == i' && 5 <= j') {
      // Below the hit every run's sum is at most that of a shorter known run,
      // and past it at least that of a longer one.
      if i' == 0 {
        if j' < 4 { SumGrows(Sample, 0, j' + 1, 4); } else { SumGrows(Sample, 0, 5, j' + 1); }
      } else if i' == 1 {
        if j' < 5 { SumGrows(Sample, 1, j' + 1, 5); } else { SumGrows(Sample, 1, 6, j' + 1); }
      } else if i' == 2 && j' < 5 {
        SumGrows(Sample, 2, j' + 1, 5);
      }
    }
  }

  /** `scan2(sample, 127)` is 15 + 47 = 62. */
  lemma SampleScan2(r: Option<nat>)
    requires r.Some? ==> exists i: nat, j: nat :: FirstRun(Sample, 127, i, j) &&
                                                r.value == Max(Sample[i..j + 1]) + Min(Sample[i..j + 1])
    requires r.None? <==> forall i: nat, j: nat :: !RunAt(Sample, 127, i, j)
    ensures r == Some(62)
  {
    SampleFirstRun();
    var i: nat, j: nat :| FirstRun(Sample, 127, i, j) && r.value == Max(Sample[i..j + 1]) + Min(Sample[i..j + 1]);
    FirstRunUnique(Sample, 127, i, j, 2, 5);
    SampleRun();
    SampleExtremes(Sample[2..6]);
  }

  lemma SampleRun()
    ensures Sample[2..6] == [15, 25, 47, 40]
  {
  }

  /** Two first runs are the same run. */
  lemma FirstRunUnique(numbers: seq<nat>, target: nat, i: nat, j: nat, i2: nat, j2: nat)
    requires FirstRun(numbers, target, i, j) && FirstRun(numbers, target, i2, j2)
    ensures i == i2 && j == j2
  {
  }

  lemma SampleExtremes(run: seq<nat>)
    requires run == [15, 25, 47, 40]
    ensures Max(run) == 47 && Min(run) == 15
  {
    var hi, lo := Max(run), Min(run);
    assert run[2] == 47 && run[0] == 15;
    assert run[2] in run && run[0] in run;
    var a :| 0 <= a < |run| && run[a] == hi;
    var b :| 0 <= b < |run| && run[b] == lo;
  }
}

=== FILE: day10.dfy ===
/**
 * Day 10, "Adapter Array": joltage adapters, each taking an input 1 to 3
 * jolts below its rating. Part 1 multiplies the numbers of 1-jolt and
 * 3-jolt differences in the sorted chain; part 2 counts the arrangements
 * of adapters from the outlet (0) to the device (maximum + 3).
 */
module Day10 {
  import opened Lists
  import opened Numbers
  import Sorting

  // ---------------------------------------------------------------------
  // Part 1
  // ---------------------------------------------------------------------

  /** The number of adjacent pairs of `s` that differ by exactly `d`. */
  function Gaps(s: seq<int>, d: int): nat {
    if |s| < 2 then 0 else (if s[1] - s[0] == d then 1 else 0) + Gaps(s[1..], d)
  }

  /** The fold of `part1` over the windows of two: counts of 1- and 3-differences, added to `one` and `three`. */
  function Fold(s: seq<int>, one: nat, three: nat): (r: (nat, nat))
    ensures r == (one + Gaps(s, 1), three + Gaps(s, 3))
  {
    if |s| < 2 then (one, three)
    else if s[1] - s[0] == 1 then Fold(s[1..], one + 1, three)
    else if s[1] - s[0] == 3 then Fold(s[1..], one, three + 1)
    else Fold(s[1..], one, three)
  }

  /** `part1` sorts a copy and multiplies the two counts, each started at 1: it is (1 + the number of 1-gaps) times (1 + the number of 3-gaps) of the sorted copy. */
  function Part1(numbers: seq<nat>): (r: nat)
    ensures r == (1 + Gaps(Sorting.Sort(numbers), 1)) * (1 + Gaps(Sorting.Sort(numbers), 3))
  {
    var s := Sorting.Sort(numbers);
    CountsProduct(s);
    Fold(s, 1, 1).0 * Fold(s, 1, 1).1
  }

  /** The product of the counts started at 1 is the product of the gap counts plus one. */
  lemma CountsProduct(s: seq<int>)
    ensures Fold(s, 1, 1).0 * Fold(s, 1, 1).1 >= 0
    ensures Fold(s, 1, 1).0 * Fold(s, 1, 1).1 == (1 + Gaps(s, 1)) * (1 + Gaps(s, 3))
  {
    var counts := Fold(s, 1, 1);
    MulNat(counts.0, counts.1);
    MulEq(counts.0, counts.1, 1 + Gaps(s, 1), 1 + Gaps(s, 3));
  }

  lemma MulNat(a: nat, b: nat)
    ensures a * b >= 0
  {
  }

  lemma MulEq(x: nat, y: nat, a: nat, b: nat)
    requires x == a && y == b
    ensures x * y == a * b
  {
  }

  /** Appending an element adds the last difference to the count. */
  lemma {:induction false} GapsSnoc(s: seq<int>, x: int, d: int)
    requires |s| > 0
    ensures Gaps(s + [x], d) == Gaps(s, d) + (if x - s[|s| - 1] == d then 1 else 0)
  {
    if |s| > 1 {
      assert (s + [x])[1..] == s[1..] + [x];
      GapsSnoc(s[1..], x, d);
    }
  }

  /**
   * The two 1s the counts start from stand for the outlet and the device:
   * when the smallest adapter is rated 1, the counts are those of the whole
   * chain 0, adapters in order, maximum + 3.
   */
  lemma ChainGaps(s: seq<int>)
    requires |s| > 0 && s[0] == 1
    ensures Gaps([0] + s + [s[|s| - 1] + 3], 1) == 1 + Gaps(s, 1)
    ensures Gaps([0] + s + [s[|s| - 1] + 3], 3) == 1 + Gaps(s, 3)
  {
    assert ([0] + s)[1..] == s;
    GapsSnoc([0] + s, s[|s| - 1] + 3, 1);
    GapsSnoc([0] + s, s[|s| - 1] + 3, 3);
  }

  /** `part1` multiplies the counts of 1- and 3-differences along the whole chain when the smallest adapter is 1. */
  lemma Part1Chain(numbers: seq<nat>, s: seq<int>)
    requires s == Sorting.Sort(numbers)
    requires |s| > 0 && s[0] == 1
    ensures Part1(numbers) == Gaps([0] + s + [s[|s| - 1] + 3], 1) * Gaps([0] + s + [s[|s| - 1] + 3], 3)
  {
    var chain := [0] + s + [s[|s| - 1] + 3];
    ChainGaps(s);
    MulEq(1 + Gaps(s, 1), 1 + Gaps(s, 3), Gaps(chain, 1), Gaps(chain, 3));
  }

  // ---------------------------------------------------------------------
  // Part 2
  // ---------------------------------------------------------------------

  /** `k + 1` never exceeds `2^(k + 1)`. */
  lemma {:induction false} BelowPow2(k: nat)
    ensures k + 1 <= Pow2(k + 1)
  {
    if k > 0 {
      BelowPow2(k - 1);
    }
  }

  /** `k * (k + 1)` never exceeds `2^(k + 2)`. */
  lemma {:induction false} ProductBelowPow2(k: nat)
    ensures k * (k + 1) <= Pow2(k + 2)
  {
    if k > 0 {
      ProductBelowPow2(k - 1);
      BelowPow2(k - 1);
      NextProduct(k);
      assert Pow2(k + 2) == 2 * Pow2(k + 1) && Pow2(k + 1) == 2 * Pow2(k);
    }
  }

  lemma NextProduct(k: nat)
    requires k > 0
    ensures k * (k + 1) == (k - 1) * k + 2 * k
  {
  }

  /**
   * The factor `part2` applies for a run of `n` consecutive joltages, as
   * written. The unsigned subtraction never goes below 1.
   */
  function Factor(n: nat): (f: nat)
    ensures f >= 1
  {
    if 2 < n <= 4 then Pow2(n - 2)
    else if n > 4 then
      ProductBelowPow2(n - 4);
      assert Pow2(n - 2) == 2 * Pow2(n - 3);
      Pow2(n - 2) - (n - 4) * (n - 4 + 1) / 2
    else 1
  }

  /** The first index at or after `i` whose joltage is more than its distance from `i` above `s[i]`, or `|s|`. */
  function RunEnd(s: seq<int>, i: nat, j: nat): (e: nat)
    requires i <= j <= |s|
    ensures j <= e <= |s|
    ensures forall k :: j <= k < e ==> s[k] - s[i] <= k - i
    ensures e < |s| ==> s[e] - s[i] > e - i
    decreases |s| - j
  {
    if j == |s| then j
    else if s[j] - s[i] > j - i then j
    else RunEnd(s, i, j + 1)
  }

  /**
   * The product `part2` computes from index `i` on: each run cut short by
   * a larger jump contributes `factor` of its length; a run reaching the end
   * of the list contributes nothing.
   */
  function RunProduct(s: seq<int>, i: nat, factor: nat -> nat): nat
    requires i <= |s|
    decreases |s| - i
  {
    if i == |s| then 1
    else
      var e := RunEnd(s, i, i);
      assert e > i by { assert s[i] - s[i] <= 0; }
      (if e < |s| then factor(e - i) else 1) * RunProduct(s, e, factor)
  }

  /** What one pass of the outer loop of `part2` does to the invariant. */
  lemma RunStep(s: seq<int>, i: nat, j: nat, factor: nat -> nat, before: nat, acc: nat)
    requires i < j <= |s| && j == RunEnd(s, i, i)
    requires acc == if j < |s| then before * factor(j - i) else before
    ensures acc * RunProduct(s, j, factor) == before * RunProduct(s, i, factor)
  {
    var rest := RunProduct(s, j, factor);
    var f := if j < |s| then factor(j - i) else 1;
    assert RunProduct(s, i, factor) == f * rest;
    MulAssoc(before, f, rest);
  }

  lemma MulAssoc(a: int, b: int, c: int)
    ensures (a * b) * c == a * (b * c)
  {
  }

  /** The list `part2` works on: the adapters, the outlet 0 and the device at the maximum + 3, sorted. */
  function Chain(numbers: seq<nat>): seq<int>
  {
    Sorting.Sort(numbers + [0] + [Max(numbers + [0]) + 3])
  }

  /**
   * The two loops of `part2` over a sorted list: the outer loop moves `i` to
   * the end of the run found by the inner loop, which is always past `i`,
   * and multiplies `acc` by the factor of each run that ends in a larger jump.
   */
  method MultiplyRuns(s: seq<int>, factor: nat -> nat) returns (acc: nat)
    ensures acc == RunProduct(s, 0, factor)
  {
    ghost var goal := RunProduct(s, 0, factor);
    acc := 1;
    var i := 0;
    while i < |s|
      invariant 0 <= i <= |s|
      invariant goal == if i == |s| then acc else acc * RunProduct(s, i, factor)
      decreases |s| - i
    {
      ghost var before := acc;
      var j;
      j, acc := ScanRun(s, i, factor, acc);
      RunStep(s, i, j, factor, before, acc);
      i := j;
    }
  }

  /**
   * The inner loop of `part2`: walks `j` from `i` to the end of the run and,
   * when the run ends in a larger jump, multiplies `acc` by its factor.
   */
  method ScanRun(s: seq<int>, i: nat, factor: nat -> nat, acc: nat) returns (j: nat, acc': nat)
    requires i < |s|
    ensures i < j <= |s| && j == RunEnd(s, i, i)
    ensures acc' == if j < |s| then acc * factor(j - i) else acc
  {
    j := i;
    acc' := acc;
    while j < |s|
      invariant i <= j <= |s|
      invariant RunEnd(s, i, i) == RunEnd(s, i, j)
      invariant acc' == acc
    {
      var n := j - i;
      if s[j] - s[i] > n {
        acc' := acc * factor(n);
        break;
      }
      j := j + 1;
    }
    assert j > i by { assert s[i] - s[i] <= 0; }
  }

  /** `part2`: the product of the factors of the runs of the chain. */
  method Part2(numbers: seq<nat>) returns (acc: nat)
    ensures acc == RunProduct(Chain(numbers), 0, Factor)
  {
    acc := MultiplyRuns(Chain(numbers), Factor);
  }

  // ---------------------------------------------------------------------
  // What part 2 is meant to count
  // ---------------------------------------------------------------------

  /**
   * The number of arrangements of the adapters from index `i` on that end
   * at the last one: each step goes to a later adapter at most 3 jolts
   * higher.
   */
  function Ways(s: seq<int>, i: nat): nat
    requires i < |s|
    decreases |s| - i, 1
  {
    if i == |s| - 1 then 1 else WaysVia(s, i, i + 1)
  }

  /** The arrangements from `i` whose next adapter is at index `k` or later, scanning until a step would exceed 3 jolts. */
  function WaysVia(s: seq<int>, i: nat, k: nat): nat
    requires i < k <= |s|
    decreases |s| - i, 0, |s| - k
  {
    if k == |s| || s[k] - s[i] > 3 then 0 else Ways(s, k) + WaysVia(s, i, k + 1)
  }

  /** The number of ways to cross a run of `n` consecutive joltages from its first to its last in steps of 1 to 3 jolts. */
  function RunWays(n: nat): (w: nat)
    ensures n >= 1 ==> w >= 1
  {
    if n == 0 then 0
    else if n <= 2 then 1
    else RunWays(n - 1) + RunWays(n - 2) + RunWays(n - 3)
  }

  /** The factor as written agrees with the true count for runs of up to 6 and exceeds it from 7 on. */
  lemma FactorUpToSix(n: nat)
    requires 1 <= n <= 6
    ensures Factor(n) == RunWays(n)
  {
    assert Pow2(1) == 2 && Pow2(2) == 4 && Pow2(3) == 8 && Pow2(4) == 16;
  }

  /** Adjacent adapters of the chain differ by 1 or 3 jolts, the last step (to the device) by 3. */
  predicate Steps1Or3(s: seq<int>) {
    |s| >= 2 && s[|s| - 1] - s[|s| - 2] == 3 &&
    forall k :: 0 < k < |s| ==> s[k] - s[k - 1] == 1 || s[k] - s[k - 1] == 3
  }

  /** Along steps of 1 or 3 jolts, joltages grow at least as fast as indices. */
  lemma {:induction false} Spread(s: seq<int>, a: nat, b: nat)
    requires Steps1Or3(s) && a <= b < |s|
    ensures s[b] - s[a] >= b - a
    decreases b - a
  {
    if a < b {
      Spread(s, a, b - 1);
    }
  }

  /** Within steps of 1 or 3 jolts, a stretch that rises by exactly its length is consecutive. */
  lemma Consecutive(s: seq<int>, k: nat, m: nat, e: nat)
    requires Steps1Or3(s) && k <= m <= e < |s| && s[e] - s[k] == e - k
    ensures s[m] - s[k] == m - k && s[e] - s[m] == e - m
  {
    Spread(s, k, m);
    Spread(s, m, e);
  }

  /** The arrangements from `k` whose next adapter is one of the three after `k` within 3 jolts. */
  lemma WaysFirstSteps(s: seq<int>, k: nat, n: nat)
    requires Steps1Or3(s) && 1 <= n <= 3 && k + n < |s|
    requires s[k + n] - s[k] <= 3
    requires n < 3 && k + n + 1 < |s| ==> s[k + n + 1] - s[k] > 3
    ensures n == 1 ==> Ways(s, k) == Ways(s, k + 1)
    ensures n == 2 ==> Ways(s, k) == Ways(s, k + 1) + Ways(s, k + 2)
    ensures n == 3 ==> Ways(s, k) == Ways(s, k + 1) + Ways(s, k + 2) + Ways(s, k + 3)
  {
    Spread(s, k, k + n);
    if n == 1 {
      assert WaysVia(s, k, k + 2) == 0;
    } else if n == 2 {
      assert WaysVia(s, k, k + 3) == 0;
      assert WaysVia(s, k, k + 2) == Ways(s, k + 2);
    } else {
      if k + 4 < |s| {
        Spread(s, k, k + 4);
      }
      assert WaysVia(s, k, k + 4) == 0;
      assert WaysVia(s, k, k + 3) == Ways(s, k + 3);
      assert WaysVia(s, k, k + 2) == Ways(s, k + 2) + Ways(s, k + 3);
    }
  }

  /**
   * Inside a run of consecutive joltages from `k` to `e - 1` followed by a
   * jump of 3, every arrangement from `k` crosses the rest of the run and
   * then takes the jump to `e`.
   */
  lemma {:induction false} WithinRun(s: seq<int>, k: nat, e: nat)
    requires Steps1Or3(s) && k < e < |s|
    requires s[e - 1] - s[k] == e - 1 - k && s[e] - s[e - 1] == 3
    ensures Ways(s, k) == RunWays(e - k) * Ways(s, e)
    decreases e - k, 1
  {
    if e - k == 1 {
      WithinRunOne(s, k, e);
    } else if e - k == 2 {
      WithinRunTwo(s, k, e);
    } else if e - k == 3 {
      WithinRunThree(s, k, e);
    } else {
      WithinLongRun(s, k, e);
    }
  }

  lemma WithinRunOne(s: seq<int>, k: nat, e: nat)
    requires Steps1Or3(s) && k + 1 == e < |s| && s[e] - s[e - 1] == 3
    ensures Ways(s, k) == RunWays(1) * Ways(s, e)
  {
    if e + 1 < |s| {
      Spread(s, e, e + 1);
    }
    WaysFirstSteps(s, k, 1);
  }

  lemma WithinRunTwo(s: seq<int>, k: nat, e: nat)
    requires Steps1Or3(s) && k + 2 == e < |s|
    requires s[e - 1] - s[k] == 1 && s[e] - s[e - 1] == 3
    ensures Ways(s, k) == RunWays(2) * Ways(s, e)
  {
    WaysFirstSteps(s, k, 1);
    Consecutive(s, k, k + 1, e - 1);
    WithinRunOne(s, k + 1, e);
    RunWaysSmall();
  }

  lemma WithinRunThree(s: seq<int>, k: nat, e: nat)
    requires Steps1Or3(s) && k + 3 == e < |s|
    requires s[e - 1] - s[k] == 2 && s[e] - s[e - 1] == 3
    ensures Ways(s, k) == RunWays(3) * Ways(s, e)
  {
    WaysFirstSteps(s, k, 2);
    Consecutive(s, k, k + 1, e - 1);
    WithinRunTwo(s, k + 1, e);
    WithinRunOne(s, k + 2, e);
    RunWaysSmall();
  }

  /** `WithinRun` when at least four adapters of the run remain: the first step goes 1, 2 or 3 adapters ahead. */
  lemma {:induction false} WithinLongRun(s: seq<int>, k: nat, e: nat)
    requires Steps1Or3(s) && k + 3 < e < |s|
    requires s[e - 1] - s[k] == e - 1 - k && s[e] - s[e - 1] == 3
    ensures Ways(s, k) == RunWays(e - k) * Ways(s, e)
    decreases e - k, 0
  {
    var w := Ways(s, e);
    Consecutive(s, k, k + 1, e - 1);
    Consecutive(s, k, k + 2, e - 1);
    Consecutive(s, k, k + 3, e - 1);
    Spread(s, k + 3, e);
    WaysFirstSteps(s, k, 3);
    WithinRun(s, k + 1, e);
    WithinRun(s, k + 2, e);
    WithinRun(s, k + 3, e);
    var a, b, c := RunWays(e - k - 1), RunWays(e - k - 2), RunWays(e - k - 3);
    assert Ways(s, k + 1) == a * w && Ways(s, k + 2) == b * w && Ways(s, k + 3) == c * w;
    assert RunWays(e - k) == a + b + c;
    Distribute3(Ways(s, k), a, b, c, w, RunWays(e - k));
  }

  lemma RunWaysSmall()
    ensures RunWays(1) == 1 && RunWays(2) == 1 && RunWays(3) == 2
  {
  }

  lemma Distribute3(x: int, a: int, b: int, c: int, w: int, r: int)
    requires x == a * w + b * w + c * w && r == a + b + c
    ensures x == r * w
  {
  }

  /**
   * When adjacent adapters differ by 1 or 3 jolts, multiplying the true
   * count of each run counts every arrangement.
   */
  lemma {:induction false} RunsCountWays(s: seq<int>, i: nat)
    requires Steps1Or3(s) && i < |s|
    ensures Ways(s, i) == RunProduct(s, i, RunWays)
    decreases |s| - i
  {
    var e := RunEnd(s, i, i);
    if e < |s| {
      RunsCountWays(s, e);
      Spread(s, i, e - 1);
      WithinRun(s, i, e);
    } else if i < |s| - 1 {
      Spread(s, i, |s| - 2);
      assert false;
    }
  }

  /**
   * Part 2 as intended: the same two loops, with the true count of each
   * run as its factor, which counts every arrangement of the chain.
   */
  method Arrangements(numbers: seq<nat>) returns (acc: nat)
    ensures acc == RunProduct(Chain(numbers), 0, RunWays)
    ensures Steps1Or3(Chain(numbers)) ==> acc == Ways(Chain(numbers), 0)
  {
    var s := Chain(numbers);
    acc := MultiplyRuns(s, RunWays);
    if Steps1Or3(s) {
      RunsCountWays(s, 0);
    }
  }

  /** Seven consecutive joltages and the device: the chain `part2` builds from 1, 2, ..., 6. */
  const SevenRun: seq<int> := [0, 1, 2, 3, 4, 5, 6, 9]

  lemma SevenRunShape()
    ensures Sorting.Sorted(SevenRun) && Steps1Or3(SevenRun)
  {
    assert forall i :: 0 <= i < 7 ==> SevenRun[i] == i;
  }

  lemma SevenRunMax(numbers: seq<nat>)
    requires numbers == [1, 2, 3, 4, 5, 6]
    ensures Max(numbers + [0]) == 6
  {
    assert 6 in numbers + [0];
    assert numbers + [0] == [1, 2, 3, 4, 5, 6, 0];
  }

  lemma SevenRunElements(numbers: seq<nat>)
    requires numbers == [1, 2, 3, 4, 5, 6]
    ensures multiset(numbers + [0] + [6 + 3]) == multiset(SevenRun)
  {
    assert SevenRun == [0] + numbers + [9];
    FrontToBack(numbers, 0, 9);
  }

  /** Moving an element from the back to the front keeps the multiset. */
  lemma FrontToBack(s: seq<int>, x: int, y: int)
    ensures multiset(s + [x] + [y]) == multiset([x] + s + [y])
  {
    assert multiset(s + [x] + [y]) == multiset(s) + multiset([x]) + multiset([y]);
    assert multiset([x] + s + [y]) == multiset([x]) + multiset(s) + multiset([y]);
  }

  lemma SevenRunChain(numbers: seq<nat>)
    requires numbers == [1, 2, 3, 4, 5, 6]
    ensures Chain(numbers) == SevenRun
  {
    SevenRunShape();
    SevenRunMax(numbers);
    SevenRunElements(numbers);
    Sorting.SortedUnique(Chain(numbers), SevenRun);
  }

  /** The chain is one run of seven followed by the device. */
  lemma SevenRunRuns(factor: nat -> nat)
    ensures RunProduct(SevenRun, 0, factor) == factor(7)
  {
    assert RunEnd(SevenRun, 0, 0) == 7;
    assert RunEnd(SevenRun, 7, 7) == 8;
  }

  /** The counts on the chain: 26 as written, 24 arrangements. */
  lemma SevenRunCounts()
    ensures RunProduct(SevenRun, 0, Factor) == 26
    ensures Ways(SevenRun, 0) == 24
  {
    SevenRunRuns(Factor);
    SevenRunRuns(RunWays);
    assert Pow2(5) == 32;
    assert Factor(7) == 26;
    assert RunWays(7) == 24;
    SevenRunShape();
    RunsCountWays(SevenRun, 0);
  }

  /** `part2` gives 26 for the adapters 1 to 6, where there are 24 arrangements. */
  lemma Part2Overcounts(numbers: seq<nat>)
    requires numbers == [1, 2, 3, 4, 5, 6]
    ensures Steps1Or3(Chain(numbers))
    ensures RunProduct(Chain(numbers), 0, Factor) == 26
    ensures Ways(Chain(numbers), 0) == 24
  {
    SevenRunChain(numbers);
    SevenRunShape();
    SevenRunCounts();
  }
}

=== FILE: day11.dfy ===
/**
 * Day 11, "Seating System": a cellular automaton on a grid of seats.
 * Part 1 looks at the eight adjacent cells; part 2 looks, in each of the
 * eight directions, at the first seat in sight. Both repeat the update
 * until nothing changes and count the occupied seats.
 *
 * `update_grid` and `update_grid2` take the grid by mutable reference, clone
 * it, write the clone and swap it in; here they take the grid and return
 * the new one.
 */
module Day11 {
  import opened Wrappers
  import opened Text

  datatype Position = Empty | Occupied | Floor

  type Grid = seq<seq<Position>>

  /** A non-empty grid whose rows are as long as the first: the updates read the width from row 0. */
  predicate IsGrid(g: Grid) {
    |g| > 0 && forall y :: 0 <= y < |g| ==> |g[y]| == |g[0]|
  }

  // ---------------------------------------------------------------------
  // Parsing
  // ---------------------------------------------------------------------

  /** 'L' is an empty seat, '.' is floor; anything else makes `parse_grid` panic. */
  function ParseCell(c: char): (p: Option<Position>)
    ensures p == Some(Empty) <==> c == 'L'
    ensures p == Some(Floor) <==> c == '.'
    ensures p.Some? ==> p.value != Occupied
  {
    if c == 'L' then Some(Empty)
    else if c == '.' then Some(Floor)
    else None
  }

  /** One line of the grid, or None when a byte is neither 'L' nor '.'. */
  function ParseRow(line: string): (r: Option<seq<Position>>)
    ensures r.Some? <==> forall i :: 0 <= i < |line| ==> ParseCell(line[i]).Some?
    ensures r.Some? ==> |r.value| == |line| &&
                        forall i :: 0 <= i < |line| ==> Some(r.value[i]) == ParseCell(line[i])
  {
    if line == [] then Some([])
    else
      match (ParseCell(line[0]), ParseRow(line[1..]))
      case (Some(p), Some(rest)) => Some([p] + rest)
      case _ => None
  }

  /** The rows of the grid, line by line. */
  function ParseRows(lines: seq<string>): (r: Option<Grid>)
    ensures r.Some? <==> forall y :: 0 <= y < |lines| ==> ParseRow(lines[y]).Some?
    ensures r.Some? ==> |r.value| == |lines| &&
                        forall y :: 0 <= y < |lines| ==> Some(r.value[y]) == ParseRow(lines[y])
  {
    if lines == [] then Some([])
    else
      match (ParseRow(lines[0]), ParseRows(lines[1..]))
      case (Some(row), Some(rest)) => Some([row] + rest)
      case _ => None
  }

  /** `parse_grid`: one row per line of the input; None where the source panics. */
  function ParseGrid(input: string): (r: Option<Grid>)
    ensures r.Some? <==> forall y, x :: 0 <= y < |Lines(input)| && 0 <= x < |Lines(input)[y]| ==>
                                         ParseCell(Lines(input)[y][x]).Some?
    ensures r.Some? ==> |r.value| == |Lines(input)| &&
                        forall y :: 0 <= y < |Lines(input)| ==> |r.value[y]| == |Lines(input)[y]|
  {
    ParseRows(Lines(input))
  }

  // ---------------------------------------------------------------------
  // Counting
  // ---------------------------------------------------------------------

  /** The occupied seats of one row. */
  function CountRow(row: seq<Position>): (n: nat)
    ensures n <= |row|
    ensures n == 0 <==> forall x :: 0 <= x < |row| ==> row[x] != Occupied
  {
    if row == [] then 0 else (if row[0] == Occupied then 1 else 0) + CountRow(row[1..])
  }

  /** `count_occupied`: the occupied seats of the whole grid. */
  function CountOccupied(g: Grid): (n: nat)
    ensures n == 0 <==> forall y, x :: 0 <= y < |g| && 0 <= x < |g[y]| ==> g[y][x] != Occupied
  {
    if g == [] then 0
    else
      assert forall y :: 0 < y < |g| ==> g[y] == g[1..][y - 1];
      CountRow(g[0]) + CountOccupied(g[1..])
  }

  /** A freshly parsed grid has no occupied seat. */
  lemma ParsedEmpty(input: string)
    requires ParseGrid(input).Some?
    ensures CountOccupied(ParseGrid(input).value) == 0
  {
    var g := ParseGrid(input).value;
    var lines := Lines(input);
    forall y, x | 0 <= y < |g| && 0 <= x < |g[y]| ensures g[y][x] != Occupied {
      assert Some(g[y]) == ParseRow(lines[y]);
      assert Some(g[y][x]) == ParseCell(lines[y][x]);
    }
  }

  // ---------------------------------------------------------------------
  // Part 1: adjacent cells
  // ---------------------------------------------------------------------

  /** `(i, j)` is in the grid, within one step of `(x, y)` on each axis, and not `(x, y)` itself. */
  predicate Adjacent(x: nat, y: nat, w: nat, h: nat, i: nat, j: nat) {
    i < w && j < h && x <= i + 1 && i <= x + 1 && y <= j + 1 && j <= y + 1 && (i, j) != (x, y)
  }

  /** `saturating_sub(1)` on an unsigned index. */
  function Below(x: nat): nat {
    if x == 0 then 0 else x - 1
  }

  function Min(a: nat, b: nat): nat {
    if a <= b then a else b
  }

  /** The cells of column `i` from row `lo` to row `j - 1`, skipping `(x, y)`. */
  function ColumnCells(x: nat, y: nat, i: nat, lo: nat, j: nat): seq<(nat, nat)>
    decreases j
  {
    if j <= lo then [] else ColumnCells(x, y, i, lo, j - 1) + (if (i, j - 1) != (x, y) then [(i, j - 1)] else [])
  }

  /** The cells of columns `lo` to `i - 1`, rows `loY` to `hiY - 1`, column by column, skipping `(x, y)`. */
  function WindowCells(x: nat, y: nat, lo: nat, i: nat, loY: nat, hiY: nat): seq<(nat, nat)>
    decreases i
  {
    if i <= lo then [] else WindowCells(x, y, lo, i - 1, loY, hiY) + ColumnCells(x, y, i - 1, loY, hiY)
  }

  /** The list `get_neighbors` builds: the window around `(x, y)` clipped to the grid. */
  function Neighbors(x: nat, y: nat, w: nat, h: nat): seq<(nat, nat)> {
    WindowCells(x, y, Below(x), Min(x + 2, w), Below(y), Min(y + 2, h))
  }

  lemma {:induction false} ColumnCellsMembers(x: nat, y: nat, i: nat, lo: nat, j: nat)
    ensures forall p :: p in ColumnCells(x, y, i, lo, j) <==> p.0 == i && lo <= p.1 < j && p != (x, y)
    decreases j
  {
    if lo < j {
      ColumnCellsMembers(x, y, i, lo, j - 1);
    }
  }

  lemma {:induction false} ColumnCellsSize(x: nat, y: nat, i: nat, lo: nat, j: nat)
    requires lo <= j
    ensures |ColumnCells(x, y, i, lo, j)| + (if i == x && lo <= y < j then 1 else 0) == j - lo
    decreases j
  {
    if lo < j {
      ColumnCellsSize(x, y, i, lo, j - 1);
    }
  }

  lemma WindowCellsMembers(x: nat, y: nat, lo: nat, i: nat, loY: nat, hiY: nat)
    ensures forall p :: p in WindowCells(x, y, lo, i, loY, hiY) <==>
                        lo <= p.0 < i && loY <= p.1 < hiY && p != (x, y)
  {
    forall p: (nat, nat) ensures p in WindowCells(x, y, lo, i, loY, hiY) <==>
                                 lo <= p.0 < i && loY <= p.1 < hiY && p != (x, y) {
      WindowCellsHas(x, y, lo, i, loY, hiY, p);
    }
  }

  lemma {:induction false} WindowCellsHas(x: nat, y: nat, lo: nat, i: nat, loY: nat, hiY: nat, p: (nat, nat))
    ensures p in WindowCells(x, y, lo, i, loY, hiY) <==> lo <= p.0 < i && loY <= p.1 < hiY && p != (x, y)
    decreases i
  {
    if lo < i {
      ColumnCellsMembers(x, y, i - 1, loY, hiY);
      WindowCellsHas(x, y, lo, i - 1, loY, hiY, p);
      var left, right := WindowCells(x, y, lo, i - 1, loY, hiY), ColumnCells(x, y, i - 1, loY, hiY);
      assert WindowCells(x, y, lo, i, loY, hiY) == left + right;
      assert p in left + right <==> p in left || p in right;
    }
  }

  lemma {:induction false} WindowCellsSize(x: nat, y: nat, lo: nat, i: nat, loY: nat, hiY: nat)
    requires lo <= i && loY <= hiY
    ensures |WindowCells(x, y, lo, i, loY, hiY)| + (if lo <= x < i && loY <= y < hiY then 1 else 0) == (i - lo) * (hiY - loY)
    decreases i
  {
    if lo < i {
      ColumnCellsSize(x, y, i - 1, loY, hiY);
      WindowCellsSize(x, y, lo, i - 1, loY, hiY);
      assert |WindowCells(x, y, lo, i, loY, hiY)| ==
             |WindowCells(x, y, lo, i - 1, loY, hiY)| + |ColumnCells(x, y, i - 1, loY, hiY)|;
      MulSucc(i - 1 - lo, hiY - loY);
    }
  }

  lemma MulSucc(a: nat, b: nat)
    ensures (a + 1) * b == b + a * b
  {
  }

  /** `get_neighbors` lists exactly the adjacent cells inside the grid. */
  lemma NeighborsAdjacent(x: nat, y: nat, w: nat, h: nat)
    ensures forall p :: p in Neighbors(x, y, w, h) <==> Adjacent(x, y, w, h, p.0, p.1)
  {
    WindowCellsMembers(x, y, Below(x), Min(x + 2, w), Below(y), Min(y + 2, h));
  }

  /** A cell has at most eight neighbours. */
  lemma NeighborsAtMostEight(x: nat, y: nat, w: nat, h: nat)
    ensures |Neighbors(x, y, w, h)| <= 8
  {
    var loX, hiX, loY, hiY := Below(x), Min(x + 2, w), Below(y), Min(y + 2, h);
    if loY > hiY {
      WindowNoRows(x, y, loX, hiX, loY, hiY);
    } else if loX < hiX {
      WindowCellsSize(x, y, loX, hiX, loY, hiY);
      NineCells(hiX - loX, hiY - loY, loX <= x < hiX && loY <= y < hiY);
    }
  }

  lemma {:induction false} WindowNoRows(x: nat, y: nat, lo: nat, i: nat, loY: nat, hiY: nat)
    requires hiY <= loY
    ensures WindowCells(x, y, lo, i, loY, hiY) == []
    decreases i
  {
    if lo < i {
      WindowNoRows(x, y, lo, i - 1, loY, hiY);
    }
  }

  /** At most three columns and three rows, and the centre is inside when all nine are. */
  lemma NineCells(a: nat, b: nat, centre: bool)
    requires a <= 3 && b <= 3 && (a == 3 && b == 3 ==> centre)
    ensures a * b - (if centre then 1 else 0) <= 8
  {
    if a <= 2 {
      assert a * b <= 2 * b;
    } else if b <= 2 {
      assert a * b <= 3 * 2;
    }
  }

  /** `get_neighbors`: the window around `(x, y)` column by column, without `(x, y)`. */
  method GetNeighbors(x: nat, y: nat, w: nat, h: nat) returns (neighbors: seq<(nat, nat)>)
    ensures neighbors == Neighbors(x, y, w, h)
  {
    var loX, hiX, loY, hiY := Below(x), Min(x + 2, w), Below(y), Min(y + 2, h);
    neighbors := [];
    var i := loX;
    while i < hiX
      invariant loX <= i && (i <= hiX || i == loX)
      invariant neighbors == WindowCells(x, y, loX, i, loY, hiY)
    {
      neighbors := PushColumn(neighbors, x, y, i, loY, hiY);
      i := i + 1;
    }
  }

  /** The inner loop of `get_neighbors`: appends column `i` of the window, skipping `(x, y)`. */
  method PushColumn(cells: seq<(nat, nat)>, x: nat, y: nat, i: nat, loY: nat, hiY: nat) returns (r: seq<(nat, nat)>)
    ensures r == cells + ColumnCells(x, y, i, loY, hiY)
  {
    r := cells;
    var j := loY;
    while j < hiY
      invariant loY <= j && (j <= hiY || j == loY)
      invariant r == cells + ColumnCells(x, y, i, loY, j)
    {
      if (i, j) != (x, y) {
        r := r + [(i, j)];
      }
      j := j + 1;
    }
  }

  /** The occupied seats among `cells`, all inside the grid. */
  function CountAmong(g: Grid, cells: seq<(nat, nat)>): (n: nat)
    requires forall k :: 0 <= k < |cells| ==> cells[k].1 < |g| && cells[k].0 < |g[cells[k].1]|
    ensures n <= |cells|
    ensures n == 0 <==> forall k :: 0 <= k < |cells| ==> g[cells[k].1][cells[k].0] != Occupied
  {
    if cells == [] then 0
    else
      var last := cells[|cells| - 1];
      CountAmong(g, cells[..|cells| - 1]) + (if g[last.1][last.0] == Occupied then 1 else 0)
  }

  /**
   * The rule both parts apply to one cell, given how many occupied seats it
   * sees: an empty seat seeing none fills, an occupied seat seeing at least
   * `tolerance` empties, and anything else, floor included, stays.
   */
  function Change(cell: Position, seen: nat, tolerance: nat): (p: Position)
    ensures p == Floor <==> cell == Floor
    ensures p == Occupied <==> (cell == Empty && seen == 0) || (cell == Occupied && seen < tolerance)
  {
    if cell == Empty && seen == 0 then Occupied
    else if cell == Occupied && seen >= tolerance then Empty
    else cell
  }

  /** The occupied seats adjacent to `(x, y)`, as `update_grid` counts them. */
  function SeenAdjacent(g: Grid, x: nat, y: nat): (n: nat)
    requires IsGrid(g) && x < |g[0]| && y < |g|
    ensures n <= 8
  {
    var cells := Neighbors(x, y, |g[0]|, |g|);
    NeighborsAdjacent(x, y, |g[0]|, |g|);
    NeighborsAtMostEight(x, y, |g[0]|, |g|);
    assert forall k :: 0 <= k < |cells| ==> cells[k] in cells;
    CountAmong(g, cells)
  }

  /** The new value of cell `(x, y)` in part 1. */
  function NextCell(g: Grid, x: nat, y: nat): Position
    requires IsGrid(g) && x < |g[0]| && y < |g|
  {
    Change(g[y][x], SeenAdjacent(g, x, y), 4)
  }

  /** The grid after one update of part 1, every cell computed from the old grid. */
  function Next(g: Grid): (r: Grid)
    requires IsGrid(g)
    ensures IsGrid(r) && |r| == |g| && |r[0]| == |g[0]|
    ensures forall y, x :: 0 <= y < |g| && 0 <= x < |g[0]| ==> (r[y][x] == Floor <==> g[y][x] == Floor)
  {
    seq(|g|, y requires 0 <= y < |g| => seq(|g[0]|, x requires 0 <= x < |g[0]| => NextCell(g, x, y)))
  }

  /** A row holding every new value of row `y` is row `y` of `Next`. */
  lemma NextRow(g: Grid, y: nat, row: seq<Position>)
    requires IsGrid(g) && y < |g| && |row| == |g[0]|
    requires forall x :: 0 <= x < |row| ==> row[x] == NextCell(g, x, y)
    ensures Next(g)[y] == row
  {
  }

  /** From a grid without occupied seats, the first update of part 1 fills every seat. */
  lemma FirstUpdateFills(g: Grid)
    requires IsGrid(g) && CountOccupied(g) == 0
    ensures forall y, x :: 0 <= y < |g| && 0 <= x < |g[0]| ==>
                             Next(g)[y][x] == if g[y][x] == Empty then Occupied else g[y][x]
  {
    forall y, x | 0 <= y < |g| && 0 <= x < |g[0]|
      ensures Next(g)[y][x] == if g[y][x] == Empty then Occupied else g[y][x]
    {
      var cells := Neighbors(x, y, |g[0]|, |g|);
      NeighborsAdjacent(x, y, |g[0]|, |g|);
      assert forall k :: 0 <= k < |cells| ==> cells[k] in cells;
      assert forall k :: 0 <= k < |cells| ==> g[cells[k].1][cells[k].0] != Occupied;
      assert SeenAdjacent(g, x, y) == CountAmong(g, cells) == 0;
    }
  }

  /** The neighbours of a cell lie inside the grid. */
  lemma NeighborsInside(g: Grid, x: nat, y: nat)
    requires IsGrid(g)
    ensures var cells := Neighbors(x, y, |g[0]|, |g|);
            forall k :: 0 <= k < |cells| ==> cells[k].1 < |g| && cells[k].0 < |g[cells[k].1]|
  {
    var cells := Neighbors(x, y, |g[0]|, |g|);
    NeighborsAdjacent(x, y, |g[0]|, |g|);
    assert forall k :: 0 <= k < |cells| ==> cells[k] in cells;
  }

  /**
   * `update_grid`: writes each cell of a copy from the old grid and reports
   * whether any cell changed.
   */
  method UpdateGrid(grid: Grid) returns (next: Grid, changed: bool)
    requires IsGrid(grid)
    ensures next == Next(grid)
    ensures changed <==> next != grid
  {
    var height := |grid|;
    changed := false;
    next := grid;
    for y := 0 to height
      invariant |next| == height
      invariant forall y' :: 0 <= y' < y ==> next[y'] == Next(grid)[y']
      invariant forall y' :: y <= y' < height ==> next[y'] == grid[y']
      invariant changed <==> next != grid
    {
      var row, rowChanged := UpdateRow(grid, y);
      NextRow(grid, y, row);
      RowWritten(grid, next, y, row);
      next := next[y := row];
      changed := changed || rowChanged;
    }
  }

  /** Writing row `y` over a grid that still holds the old row `y` changes it exactly when the row differs. */
  lemma RowWritten<T>(grid: seq<seq<T>>, next: seq<seq<T>>, y: nat, row: seq<T>)
    requires |next| == |grid| && y < |grid| && next[y] == grid[y]
    ensures next[y := row] != grid <==> next != grid || row != grid[y]
  {
    if next[y := row] == grid {
      assert row == next[y := row][y];
      assert next == next[y := row][y := grid[y]];
    }
  }

  /** The inner loop of `update_grid`: row `y` of the next grid, and whether it differs from the old one. */
  method UpdateRow(grid: Grid, y: nat) returns (row: seq<Position>, changed: bool)
    requires IsGrid(grid) && y < |grid|
    ensures |row| == |grid[0]| && forall x :: 0 <= x < |row| ==> row[x] == NextCell(grid, x, y)
    ensures changed <==> row != grid[y]
  {
    var width, height := |grid[0]|, |grid|;
    row := grid[y];
    changed := false;
    for x := 0 to width
      invariant |row| == width
      invariant forall x' :: 0 <= x' < x ==> row[x'] == NextCell(grid, x', y)
      invariant forall x' :: x <= x' < width ==> row[x'] == grid[y][x']
      invariant changed <==> row != grid[y]
    {
      var val := grid[y][x];
      var neighbors := GetNeighbors(x, y, width, height);
      NeighborsInside(grid, x, y);
      var n := CountAmong(grid, neighbors);
      if val == Empty && n == 0 {
        row := row[x := Occupied];
        changed := true;
      } else if val == Occupied && n >= 4 {
        row := row[x := Empty];
        changed := true;
      }
    }
  }

  // ---------------------------------------------------------------------
  // Part 2: first seat in sight
  // ---------------------------------------------------------------------

  /** The eight directions `update_grid2` looks in, in its order. */
  const Directions: seq<(int, int)> := [(0, 1), (1, 1), (1, 0), (1, -1), (0, -1), (-1, -1), (-1, 0), (-1, 1)]

  /** `(i, j)` lies inside the grid. */
  predicate Inside(g: Grid, i: int, j: int)
    requires IsGrid(g)
  {
    0 <= i < |g[0]| && 0 <= j < |g|
  }

  /** A cell at distance `radius` from `(x, y)` inside the grid is fewer than width + height steps away. */
  lemma RadiusBound(g: Grid, x: int, y: int, dx: int, dy: int, radius: nat)
    requires IsGrid(g) && Inside(g, x, y)
    requires -1 <= dx <= 1 && -1 <= dy <= 1 && (dx, dy) != (0, 0)
    requires Inside(g, x + radius * dx, y + radius * dy)
    ensures radius < |g[0]| + |g|
  {
    if dx == 1 {
      assert x + radius * dx == x + radius;
    } else if dx == -1 {
      assert x + radius * dx == x - radius;
    } else if dy == 1 {
      assert y + radius * dy == y + radius;
    } else {
      assert y + radius * dy == y - radius;
    }
  }

  /**
   * What the walk from `(x, y)` in direction `(dx, dy)` finds from `radius`
   * on: the first seat, or Floor when it leaves the grid first.
   */
  function FirstSeat(g: Grid, x: int, y: int, dx: int, dy: int, radius: nat): Position
    requires IsGrid(g) && Inside(g, x, y)
    requires -1 <= dx <= 1 && -1 <= dy <= 1 && (dx, dy) != (0, 0)
    decreases |g[0]| + |g| - radius
  {
    var i, j := x + radius * dx, y + radius * dy;
    if !Inside(g, i, j) then Floor
    else if g[j][i] != Floor then g[j][i]
    else
      RadiusBound(g, x, y, dx, dy, radius);
      FirstSeat(g, x, y, dx, dy, radius + 1)
  }

  /** The directions among the first `k` whose first seat in sight is occupied. */
  function SeenInDirections(g: Grid, x: int, y: int, k: nat): (n: nat)
    requires IsGrid(g) && Inside(g, x, y) && k <= |Directions|
    ensures n <= k
  {
    if k == 0 then 0
    else
      var d := Directions[k - 1];
      SeenInDirections(g, x, y, k - 1) + (if FirstSeat(g, x, y, d.0, d.1, 1) == Occupied then 1 else 0)
  }

  /** The new value of cell `(x, y)` in part 2: occupied seats in sight, and a tolerance of five. */
  function NextCell2(g: Grid, x: nat, y: nat): Position
    requires IsGrid(g) && x < |g[0]| && y < |g|
  {
    Change(g[y][x], SeenInDirections(g, x, y, |Directions|), 5)
  }

  /** The grid after one update of part 2. */
  function Next2(g: Grid): (r: Grid)
    requires IsGrid(g)
    ensures IsGrid(r) && |r| == |g| && |r[0]| == |g[0]|
    ensures forall y, x :: 0 <= y < |g| && 0 <= x < |g[0]| ==> (r[y][x] == Floor <==> g[y][x] == Floor)
  {
    seq(|g|, y requires 0 <= y < |g| => seq(|g[0]|, x requires 0 <= x < |g[0]| => NextCell2(g, x, y)))
  }

  lemma NextRow2(g: Grid, y: nat, row: seq<Position>)
    requires IsGrid(g) && y < |g| && |row| == |g[0]|
    requires forall x :: 0 <= x < |row| ==> row[x] == NextCell2(g, x, y)
    ensures Next2(g)[y] == row
  {
  }

  /** Without occupied seats nothing is in sight: the walk only ever finds empty seats or leaves the grid. */
  lemma {:induction false} FirstSeatNotOccupied(g: Grid, x: int, y: int, dx: int, dy: int, radius: nat)
    requires IsGrid(g) && Inside(g, x, y) && CountOccupied(g) == 0
    requires -1 <= dx <= 1 && -1 <= dy <= 1 && (dx, dy) != (0, 0)
    ensures FirstSeat(g, x, y, dx, dy, radius) != Occupied
    decreases |g[0]| + |g| - radius
  {
    var i, j := x + radius * dx, y + radius * dy;
    if Inside(g, i, j) && g[j][i] == Floor {
      RadiusBound(g, x, y, dx, dy, radius);
      FirstSeatNotOccupied(g, x, y, dx, dy, radius + 1);
    }
  }

  /** From a grid without occupied seats, the first update of part 2 fills every seat. */
  lemma FirstUpdateFills2(g: Grid)
    requires IsGrid(g) && CountOccupied(g) == 0
    ensures forall y, x :: 0 <= y < |g| && 0 <= x < |g[0]| ==>
                             Next2(g)[y][x] == if g[y][x] == Empty then Occupied else g[y][x]
  {
    forall y, x | 0 <= y < |g| && 0 <= x < |g[0]|
      ensures Next2(g)[y][x] == if g[y][x] == Empty then Occupied else g[y][x]
    {
      forall k | 0 <= k < |Directions| {
        FirstSeatNotOccupied(g, x, y, Directions[k].0, Directions[k].1, 1);
      }
      NoneInSight(g, x, y, |Directions|);
    }
  }

  lemma {:induction false} NoneInSight(g: Grid, x: int, y: int, k: nat)
    requires IsGrid(g) && Inside(g, x, y) && k <= |Directions|
    requires forall k' :: 0 <= k' < k ==> FirstSeat(g, x, y, Directions[k'].0, Directions[k'].1, 1) != Occupied
    ensures SeenInDirections(g, x, y, k) == 0
  {
    if k > 0 {
      NoneInSight(g, x, y, k - 1);
    }
  }

  /**
   * `update_grid2`: for each cell, walks each of the eight directions past
   * floor until a seat or the edge, counts the occupied seats found, and
   * writes the new value into a copy.
   */
  method UpdateGrid2(grid: Grid) returns (next: Grid, changed: bool)
    requires IsGrid(grid)
    ensures next == Next2(grid)
    ensures changed <==> next != grid
  {
    var height := |grid|;
    changed := false;
    next := grid;
    for y := 0 to height
      invariant |next| == height
      invariant forall y' :: 0 <= y' < y ==> next[y'] == Next2(grid)[y']
      invariant forall y' :: y <= y' < height ==> next[y'] == grid[y']
      invariant changed <==> next != grid
    {
      var row, rowChanged := UpdateRow2(grid, y);
      NextRow2(grid, y, row);
      RowWritten(grid, next, y, row);
      next := next[y := row];
      changed := changed || rowChanged;
    }
  }

  /** The middle loop of `update_grid2`: row `y` of the next grid, and whether it differs from the old one. */
  method UpdateRow2(grid: Grid, y: nat) returns (row: seq<Position>, changed: bool)
    requires IsGrid(grid) && y < |grid|
    ensures |row| == |grid[0]| && forall x :: 0 <= x < |row| ==> row[x] == NextCell2(grid, x, y)
    ensures changed <==> row != grid[y]
  {
    var width := |grid[0]|;
    row := grid[y];
    changed := false;
    for x := 0 to width
      invariant |row| == width
      invariant forall x' :: 0 <= x' < x ==> row[x'] == NextCell2(grid, x', y)
      invariant forall x' :: x <= x' < width ==> row[x'] == grid[y][x']
      invariant changed <==> row != grid[y]
    {
      var occupied := CountSeen(grid, x, y);
      if grid[y][x] == Empty && occupied == 0 {
        row := row[x := Occupied];
        changed := true;
      } else if grid[y][x] == Occupied && occupied >= 5 {
        row := row[x := Empty];
        changed := true;
      }
    }
  }

  /** The loop of `update_grid2` over the directions: how many of them see an occupied seat first. */
  method CountSeen(grid: Grid, x: nat, y: nat) returns (occupied: nat)
    requires IsGrid(grid) && Inside(grid, x, y)
    ensures occupied == SeenInDirections(grid, x, y, |Directions|)
  {
    occupied := 0;
    for k := 0 to |Directions|
      invariant occupied == SeenInDirections(grid, x, y, k)
    {
      var (xOff, yOff) := Directions[k];
      var seen := Look(grid, x, y, xOff, yOff);
      if seen {
        occupied := occupied + 1;
      }
    }
  }

  /** The walk of `update_grid2` in one direction: whether the first seat in sight is occupied. */
  method Look(grid: Grid, x: nat, y: nat, xOff: int, yOff: int) returns (seen: bool)
    requires IsGrid(grid) && Inside(grid, x, y)
    requires -1 <= xOff <= 1 && -1 <= yOff <= 1 && (xOff, yOff) != (0, 0)
    ensures seen <==> FirstSeat(grid, x, y, xOff, yOff, 1) == Occupied
  {
    var width, height := |grid[0]|, |grid|;
    var xNeig, yNeig := x + xOff, y + yOff;
    var radius: nat := 1;
    while 0 <= xNeig < width && 0 <= yNeig < height
      invariant xNeig == x + radius * xOff && yNeig == y + radius * yOff
      invariant FirstSeat(grid, x, y, xOff, yOff, radius) == FirstSeat(grid, x, y, xOff, yOff, 1)
      decreases width + height - radius
    {
      RadiusBound(grid, x, y, xOff, yOff, radius);
      match grid[yNeig][xNeig]
      case Empty =>
        return false;
      case Occupied =>
        return true;
      case Floor =>
        radius := radius + 1;
        xNeig := x + radius * xOff;
        yNeig := y + radius * yOff;
    }
    return false;
  }

  // ---------------------------------------------------------------------
  // Repeating the update
  // ---------------------------------------------------------------------

  /** The grid after `k` updates of part 1. */
  function Iterate(g: Grid, k: nat): (r: Grid)
    requires IsGrid(g)
    ensures IsGrid(r) && |r| == |g| && |r[0]| == |g[0]|
  {
    if k == 0 then g else Next(Iterate(g, k - 1))
  }

  /** The grid after `k` updates of part 2. */
  function Iterate2(g: Grid, k: nat): (r: Grid)
    requires IsGrid(g)
    ensures IsGrid(r) && |r| == |g| && |r[0]| == |g[0]|
  {
    if k == 0 then g else Next2(Iterate2(g, k - 1))
  }

  /**
   * `run`: updates until an update changes nothing, then counts the
   * occupied seats. At most `fuel` changing updates are made; None when
   * all of them changed something.
   */
  method Run(grid: Grid, fuel: nat) returns (count: Option<nat>, settled: Grid, steps: nat)
    requires IsGrid(grid)
    ensures steps <= fuel && settled == Iterate(grid, steps)
    ensures forall k :: 0 <= k < steps ==> Iterate(grid, k + 1) != Iterate(grid, k)
    ensures count.Some? ==> Next(settled) == settled && count.value == CountOccupied(settled)
    ensures count.None? ==> steps == fuel
  {
    settled, steps := grid, 0;
    while steps < fuel
      invariant steps <= fuel && settled == Iterate(grid, steps)
      invariant forall k :: 0 <= k < steps ==> Iterate(grid, k + 1) != Iterate(grid, k)
    {
      var next, changed := UpdateGrid(settled);
      if !changed {
        return Some(CountOccupied(settled)), settled, steps;
      }
      settled, steps := next, steps + 1;
    }
    return None, settled, steps;
  }

  /** `run2`: as `run`, with the update of part 2. */
  method Run2(grid: Grid, fuel: nat) returns (count: Option<nat>, settled: Grid, steps: nat)
    requires IsGrid(grid)
    ensures steps <= fuel && settled == Iterate2(grid, steps)
    ensures forall k :: 0 <= k < steps ==> Iterate2(grid, k + 1) != Iterate2(grid, k)
    ensures count.Some? ==> Next2(settled) == settled && count.value == CountOccupied(settled)
    ensures count.None? ==> steps == fuel
  {
    settled, steps := grid, 0;
    while steps < fuel
      invariant steps <= fuel && settled == Iterate2(grid, steps)
      invariant forall k :: 0 <= k < steps ==> Iterate2(grid, k + 1) != Iterate2(grid, k)
    {
      var next, changed := UpdateGrid2(settled);
      if !changed {
        return Some(CountOccupied(settled)), settled, steps;
      }
      settled, steps := next, steps + 1;
    }
    return None, settled, steps;
  }
}

=== FILE: day12.dfy ===
/**
 * Day 12, "Rain Risk", part 1: a ship on a grid follows a list of
 * navigation instructions. N/E/S/W move it, L/R turn it in quarter turns,
 * F moves it forward in its heading. Every operation the source aborts on
 * with a panic is an `Option` here: `None` is the panic.
 */
module Day12Part1 {
  import opened Wrappers
  import opened Text
  import opened Numbers

  /** The four headings, numbered 0 to 3 clockwise from North. */
  datatype Direction = North | East | South | West

  /** `d as i32` */
  function Ordinal(d: Direction): (n: int)
    ensures 0 <= n < 4
  {
    match d
    case North => 0
    case East => 1
    case South => 2
    case West => 3
  }

  /** `Direction::from_i32`: the heading with that number; anything outside 0..3 panics. */
  function FromI32(value: int): (r: Option<Direction>)
    ensures r.Some? <==> 0 <= value < 4
    ensures r.Some? ==> Ordinal(r.value) == value
  {
    if value == 0 then Some(North)
    else if value == 1 then Some(East)
    else if value == 2 then Some(South)
    else if value == 3 then Some(West)
    else None
  }

  /** A position and heading: the three fields of a `Ship`. */
  datatype Pose = Pose(x: int, y: int, d: Direction)

  /** Manhattan distance from the origin. */
  function Distance(p: Pose): nat {
    (if p.x >= 0 then p.x else -p.x) + (if p.y >= 0 then p.y else -p.y)
  }

  /** `Ship::sail`: moves `value` units toward `direction`; the heading is kept. */
  function Move(p: Pose, direction: Direction, value: int): (q: Pose)
    ensures q.d == p.d
    ensures direction == North ==> q.x == p.x && q.y == p.y + value
    ensures direction == East ==> q.x == p.x + value && q.y == p.y
    ensures direction == South ==> q.x == p.x && q.y == p.y - value
    ensures direction == West ==> q.x == p.x - value && q.y == p.y
  {
    match direction
    case North => p.(y := p.y + value)
    case East => p.(x := p.x + value)
    case South => p.(y := p.y - value)
    case West => p.(x := p.x - value)
  }

  /** Sailing changes the distance from the origin by at most the distance sailed. */
  lemma SailDistance(p: Pose, direction: Direction, value: int)
    ensures Distance(Move(p, direction, value)) <= Distance(p) + (if value >= 0 then value else -value)
    ensures Distance(p) <= Distance(Move(p, direction, value)) + (if value >= 0 then value else -value)
  {
  }

  /**
   * The number `from_i32` is given on a turn: `d + 4 - value / 90` for 'L'
   * and `d + value / 90` for 'R', both taken `% 4`.
   */
  function TurnArgument(d: Direction, left: bool, value: int): int {
    if left then Ordinal(d) + 4 - Quot(value, 90) else Ordinal(d) + Quot(value, 90)
  }

  /** The heading after an 'L' (`left`) or 'R' turn by `value` degrees. */
  function Turn(d: Direction, left: bool, value: int): (r: Option<Direction>)
    ensures r.Some? ==> Ordinal(r.value) == TurnArgument(d, left, value) % 4
  {
    FromI32(Rem(TurnArgument(d, left, value), 4))
  }

  /** A turn panics exactly when its argument is negative and not a multiple of four. */
  lemma TurnPanics(d: Direction, left: bool, value: int)
    ensures Turn(d, left, value).None? <==> TurnArgument(d, left, value) < 0 && TurnArgument(d, left, value) % 4 != 0
  {
    var a := TurnArgument(d, left, value);
    var r := Rem(a, 4);
    if a < 0 {
      assert a % 4 == 0 <==> r == 0 by { RemZero(a, 4); }
    }
  }

  /** A left turn by a non-negative angle panics exactly when it wraps past zero to a non-multiple of four quarter turns. */
  lemma LeftTurnPanics(d: Direction, value: int)
    requires value >= 0
    ensures Turn(d, true, value).None? <==> value / 90 > Ordinal(d) + 4 && (value / 90 - Ordinal(d)) % 4 != 0
  {
    TurnPanics(d, true, value);
    var a := TurnArgument(d, true, value);
    assert a == Ordinal(d) + 4 - value / 90;
    if a < 0 {
      assert (value / 90 - Ordinal(d)) == -a + 4;
      assert (-a + 4) % 4 == (-a) % 4 by { ModOfShifted((-a) / 4 + 1, 4, (-a) % 4); }
      assert (a % 4 == 0) <==> ((-a) % 4 == 0) by { NegZero(a, 4); }
    }
  }

  /** A right turn by a non-negative angle never panics. */
  lemma RightTurnSucceeds(d: Direction, value: int)
    requires value >= 0
    ensures Turn(d, false, value).Some?
  {
    TurnPanics(d, false, value);
  }

  /** Turning right and then left by the same angle, under 450 degrees, restores the heading. */
  lemma RightThenLeft(d: Direction, value: int)
    requires 0 <= value < 450
    ensures Turn(d, false, value).Some?
    ensures Turn(Turn(d, false, value).value, true, value) == Some(d)
  {
    var q, o := value / 90, Ordinal(d);
    var e := Turn(d, false, value).value;
    TurnByQuarters(d, false, value, o + q);
    TurnByQuarters(e, true, value, (o + q) % 4 + 4 - q);
    QuartersBack(o, q);
    FromOrdinal(d);
  }

  /** Turning left and then right by the same angle, under 450 degrees, restores the heading. */
  lemma LeftThenRight(d: Direction, value: int)
    requires 0 <= value < 450
    ensures Turn(d, true, value).Some?
    ensures Turn(Turn(d, true, value).value, false, value) == Some(d)
  {
    var q, o := value / 90, Ordinal(d);
    var e := Turn(d, true, value).value;
    TurnByQuarters(d, true, value, o + 4 - q);
    TurnByQuarters(e, false, value, (o + 4 - q) % 4 + q);
    QuartersBack(o, q);
    FromOrdinal(d);
  }

  /** A turn whose argument `a` is not negative ends on heading `a % 4`. */
  lemma TurnByQuarters(d: Direction, left: bool, value: int, a: int)
    requires value >= 0 && a >= 0
    requires a == if left then Ordinal(d) + 4 - value / 90 else Ordinal(d) + value / 90
    ensures Turn(d, left, value) == FromI32(a % 4)
  {
    assert TurnArgument(d, left, value) == a;
  }

  /** Quarter turns forward and back, for every heading and up to four quarters. */
  lemma QuartersBack(o: int, q: int)
    requires 0 <= o < 4 && 0 <= q <= 4
    ensures (o + q) % 4 + 4 - q >= 0 && ((o + q) % 4 + 4 - q) % 4 == o
    ensures o + 4 - q >= 0 && ((o + 4 - q) % 4 + q) % 4 == o
  {
    if q == 0 {
    } else if q == 1 {
    } else if q == 2 {
    } else if q == 3 {
    }
  }

  /** `from_i32` undoes `as i32`. */
  lemma FromOrdinal(d: Direction)
    ensures FromI32(Ordinal(d)) == Some(d)
  {
  }

  /**
   * `line.split_at(1)` followed by `value.parse::<i32>()`: the action
   * letter and the number after it. An empty line or a number that does not
   * parse panics.
   */
  function Instruction(line: string): (r: Option<(char, int)>)
    ensures r.Some? <==> |line| > 0 && ParseInt(line[1..]).Some?
    ensures r.Some? ==> r.value.0 == line[0] && r.value.1 == ParseInt(line[1..]).value
  {
    if |line| == 0 then None
    else
      match ParseInt(line[1..])
      case None => None
      case Some(value) => Some((line[0], value))
  }

  /** The match in `step`: what one action does to the pose, or a panic on an unknown action or heading. */
  function Act(p: Pose, action: char, value: int): (r: Option<Pose>)
    ensures r.None? <==> action !in "NESWLRF" || (action in "LR" && Turn(p.d, action == 'L', value).None?)
  {
    match action
    case 'N' => Some(Move(p, North, value))
    case 'E' => Some(Move(p, East, value))
    case 'S' => Some(Move(p, South, value))
    case 'W' => Some(Move(p, West, value))
    case 'L' =>
      (match Turn(p.d, true, value)
       case None => None
       case Some(d) => Some(p.(d := d)))
    case 'R' =>
      (match Turn(p.d, false, value)
       case None => None
       case Some(d) => Some(p.(d := d)))
    case 'F' => Some(Move(p, p.d, value))
    case _ => None
  }

  /** `step` on a pose: parse the line, then act on it. */
  function StepPose(p: Pose, line: string): Option<Pose> {
    match Instruction(line)
    case None => None
    case Some((action, value)) => Act(p, action, value)
  }

  /** A turn ('L' or 'R') leaves the position alone and sets the heading to `Turn`'s result. */
  lemma TurnKeepsPosition(p: Pose, line: string)
    requires StepPose(p, line).Some? && line[0] in "LR"
    ensures StepPose(p, line).value.x == p.x && StepPose(p, line).value.y == p.y
    ensures Some(StepPose(p, line).value.d) == Turn(p.d, line[0] == 'L', ParseInt(line[1..]).value)
  {
  }

  /** 'F' sails in the current heading and keeps it. */
  lemma ForwardKeepsHeading(p: Pose, line: string)
    requires |line| > 0 && line[0] == 'F' && ParseInt(line[1..]).Some?
    ensures StepPose(p, line) == Some(Move(p, p.d, ParseInt(line[1..]).value))
    ensures StepPose(p, line).value.d == p.d
  {
  }

  /** One step moves the ship by at most the number on its line. */
  lemma StepDistance(p: Pose, line: string)
    requires StepPose(p, line).Some?
    ensures var v := Instruction(line).value.1;
            Distance(StepPose(p, line).value) <= Distance(p) + (if v >= 0 then v else -v)
  {
    var (action, value) := Instruction(line).value;
    if action in "NESWF" {
      var dir := if action == 'N' then North else if action == 'E' then East
                 else if action == 'S' then South else if action == 'W' then West else p.d;
      assert StepPose(p, line) == Some(Move(p, dir, value));
      SailDistance(p, dir, value);
    }
  }

  /** `run` from a given pose: every line in turn, panicking as soon as one panics. */
  function RunPoses(p: Pose, lines: seq<string>): Option<Pose>
    decreases |lines|
  {
    if lines == [] then Some(p)
    else
      match StepPose(p, lines[0])
      case None => None
      case Some(q) => RunPoses(q, lines[1..])
  }

  /** Running a list of lines and then one more is one more step. */
  lemma {:induction false} RunPosesSnoc(p: Pose, lines: seq<string>, line: string)
    requires RunPoses(p, lines).Some?
    ensures RunPoses(p, lines + [line]) == StepPose(RunPoses(p, lines).value, line)
    decreases |lines|
  {
    if lines == [] {
      assert [line][1..] == [];
    } else {
      var q := StepPose(p, lines[0]).value;
      assert (lines + [line])[1..] == lines[1..] + [line];
      RunPosesSnoc(q, lines[1..], line);
    }
  }

  /** A run that panics on a prefix panics on the whole list. */
  lemma {:induction false} RunPosesStops(p: Pose, lines: seq<string>, line: string)
    requires RunPoses(p, lines).None?
    ensures RunPoses(p, lines + [line]).None?
    decreases |lines|
  {
    if lines != [] && StepPose(p, lines[0]).Some? {
      assert (lines + [line])[1..] == lines[1..] + [line];
      RunPosesStops(StepPose(p, lines[0]).value, lines[1..], line);
    }
  }

  /** The ship's starting pose in `run`: the origin, facing East. */
  const Start := Pose(0, 0, East)

  /** `part1::Ship`, whose fields `step` updates in place. */
  class Ship {
    var x: int
    var y: int
    var d: Direction

    function Snapshot(): Pose
      reads this
    {
      Pose(x, y, d)
    }

    /** The ship `run` starts with. */
    constructor()
      ensures Snapshot() == Start
    {
      x, y, d := 0, 0, East;
    }

    /** `Ship::sail`: the new fields are those `Sail` gives. */
    method Sail(direction: Direction, value: int)
      modifies this
      ensures Snapshot() == Move(old(Snapshot()), direction, value)
    {
      match direction
      case North => y := y + value;
      case East => x := x + value;
      case South => y := y - value;
      case West => x := x - value;
    }
  }

  /** `step`: on success the ship is in the pose `StepPose` gives; a panic (`!ok`) happens before any field changes. */
  method Step(ship: Ship, line: string) returns (ok: bool)
    modifies ship
    ensures ok <==> StepPose(old(ship.Snapshot()), line).Some?
    ensures ok ==> ship.Snapshot() == StepPose(old(ship.Snapshot()), line).value
    ensures !ok ==> ship.Snapshot() == old(ship.Snapshot())
  {
    if |line| == 0 {
      return false;
    }
    var parsed := ParseInt(line[1..]);
    if parsed.None? {
      return false;
    }
    var value := parsed.value;
    var action := line[0];
    if action == 'N' {
      ship.Sail(North, value);
    } else if action == 'E' {
      ship.Sail(East, value);
    } else if action == 'S' {
      ship.Sail(South, value);
    } else if action == 'W' {
      ship.Sail(West, value);
    } else if action == 'L' || action == 'R' {
      var turned := FromI32(Rem(if action == 'L' then Ordinal(ship.d) + 4 - Quot(value, 90)
                                else Ordinal(ship.d) + Quot(value, 90), 4));
      if turned.None? {
        return false;
      }
      ship.d := turned.value;
    } else if action == 'F' {
      ship.Sail(ship.d, value);
    } else {
      return false;
    }
    return true;
  }

  /** `run`: a fresh ship steps through the lines of `input`; `!ok` is a panic on some line. */
  method Run(input: string) returns (ship: Ship, ok: bool)
    ensures fresh(ship)
    ensures ok <==> RunPoses(Start, Lines(input)).Some?
    ensures ok ==> ship.Snapshot() == RunPoses(Start, Lines(input)).value
  {
    var lines := Lines(input);
    ship := new Ship();
    for i := 0 to |lines|
      invariant RunPoses(Start, lines[..i]) == Some(ship.Snapshot())
    {
      RunPosesSnoc(Start, lines[..i], lines[i]);
      assert lines[..i + 1] == lines[..i] + [lines[i]];
      ok := Step(ship, lines[i]);
      if !ok {
        RunPosesPanics(Start, lines, i + 1);
        return;
      }
    }
    assert lines[..|lines|] == lines;
    ok := true;
  }

  /** Once a prefix panics, the whole run panics. */
  lemma {:induction false} RunPosesPanics(p: Pose, lines: seq<string>, k: nat)
    requires k <= |lines| && RunPoses(p, lines[..k]).None?
    ensures RunPoses(p, lines).None?
    decreases |lines| - k
  {
    if k < |lines| {
      RunPosesStops(p, lines[..k], lines[k]);
      assert lines[..k + 1] == lines[..k] + [lines[k]];
      RunPosesPanics(p, lines, k + 1);
    } else {
      assert lines[..k] == lines;
    }
  }

  /** A run whose first line steps to `q` goes on from `q` with the other lines. */
  lemma RunPosesCons(p: Pose, lines: seq<string>, q: Pose)
    requires |lines| > 0 && StepPose(p, lines[0]) == Some(q)
    ensures RunPoses(p, lines) == RunPoses(q, lines[1..])
  {
  }

  /** A step is the action its line parses to. */
  lemma StepActs(p: Pose, line: string, action: char, value: int)
    requires Instruction(line) == Some((action, value))
    ensures StepPose(p, line) == Act(p, action, value)
  {
  }

  /** What the five sample actions do to the pose. */
  lemma SampleActs()
    ensures Act(Start, 'F', 10) == Some(Pose(10, 0, East))
    ensures Act(Pose(10, 0, East), 'N', 3) == Some(Pose(10, 3, East))
    ensures Act(Pose(10, 3, East), 'F', 7) == Some(Pose(17, 3, East))
    ensures Act(Pose(17, 3, South), 'F', 11) == Some(Pose(17, -8, South))
  {
  }

  lemma SampleRightTurn()
    ensures Act(Pose(17, 3, East), 'R', 90) == Some(Pose(17, 3, South))
  {
    assert TurnArgument(East, false, 90) == 2 by { assert Quot(90, 90) == 1; }
    assert Rem(2, 4) == 2;
  }

  /** The sample ends at (17, -8) facing South. */
  lemma SampleRun(lines: seq<string>)
    requires lines == ["F10", "N3", "F7", "R90", "F11"]
    ensures RunPoses(Start, lines) == Some(Pose(17, -8, South))
  {
    SampleInstructions();
    SampleActs();
    SampleRightTurn();
    StepActs(Start, "F10", 'F', 10);
    StepActs(Pose(10, 0, East), "N3", 'N', 3);
    StepActs(Pose(10, 3, East), "F7", 'F', 7);
    StepActs(Pose(17, 3, East), "R90", 'R', 90);
    StepActs(Pose(17, 3, South), "F11", 'F', 11);
    RunPosesCons(Start, lines, Pose(10, 0, East));
    var t1 := lines[1..];
    RunPosesCons(Pose(10, 0, East), t1, Pose(10, 3, East));
    var t2 := t1[1..];
    RunPosesCons(Pose(10, 3, East), t2, Pose(17, 3, East));
    var t3 := t2[1..];
    RunPosesCons(Pose(17, 3, East), t3, Pose(17, 3, South));
    var t4 := t3[1..];
    RunPosesCons(Pose(17, 3, South), t4, Pose(17, -8, South));
    assert t4[1..] == [];
  }

  /** How the five sample lines parse. */
  lemma SampleInstructions()
    ensures Instruction("F10") == Some(('F', 10)) && Instruction("N3") == Some(('N', 3))
    ensures Instruction("F7") == Some(('F', 7)) && Instruction("R90") == Some(('R', 90))
    ensures Instruction("F11") == Some(('F', 11))
  {
    assert "F10"[1..] == "10" && "N3"[1..] == "3" && "F7"[1..] == "7" && "R90"[1..] == "90" && "F11"[1..] == "11";
    assert DigitsValue("10") == 10 by { assert "10"[..1] == "1"; }
    assert DigitsValue("3") == 3 by { assert "3"[..0] == ""; }
    assert DigitsValue("7") == 7 by { assert "7"[..0] == ""; }
    assert DigitsValue("90") == 90 by { assert "90"[..1] == "9"; }
    assert DigitsValue("11") == 11 by { assert "11"[..1] == "1"; }
  }
}

/**
 * Day 12 part 2: the instructions now steer a waypoint relative to the
 * ship. N/E/S/W move the waypoint, L/R rotate it about the ship, F moves
 * the ship to the waypoint the given number of times. The rotation is
 * computed in floating point in the source and is a parameter here.
 */
module Day12Part2 {
  import opened Wrappers
  import opened Text
  import Day12Part1

  datatype Point = Point(x: int, y: int)

  /** The two fields of a `Ship`: its position and its waypoint. */
  datatype Nav = Nav(pos: Point, waypoint: Point)

  /** `Ship::sail`: the position moves `n` times by the waypoint, which stays put. */
  function Forward(s: Nav, n: int): (r: Nav)
    ensures r.waypoint == s.waypoint
    ensures r.pos.x - s.pos.x == n * s.waypoint.x && r.pos.y - s.pos.y == n * s.waypoint.y
  {
    Nav(Point(s.pos.x + s.waypoint.x * n, s.pos.y + s.waypoint.y * n), s.waypoint)
  }

  /** Sailing `a` times and then `b` times is sailing `a + b` times. */
  lemma ForwardTwice(s: Nav, a: int, b: int)
    ensures Forward(Forward(s, a), b) == Forward(s, a + b)
  {
    assert s.waypoint.x * a + s.waypoint.x * b == s.waypoint.x * (a + b);
    assert s.waypoint.y * a + s.waypoint.y * b == s.waypoint.y * (a + b);
  }

  /** Sailing zero times stays put, and sailing back undoes sailing. */
  lemma ForwardBack(s: Nav, n: int)
    ensures Forward(s, 0) == s
    ensures Forward(Forward(s, n), -n) == s
  {
    ForwardTwice(s, n, -n);
  }

  /**
   * The match in `part2::step`: `rotate(p, deg)` stands for
   * `Point::rotate`, given `value` for 'L' and `-value` for 'R'.
   */
  function Act(s: Nav, action: char, value: int, rotate: (Point, int) -> Point): (r: Option<Nav>)
    ensures r.None? <==> action !in "NESWLRF"
    ensures action in "NESW" ==> r.Some? && r.value.pos == s.pos
    ensures action == 'N' ==> r.value.waypoint == Point(s.waypoint.x, s.waypoint.y + value)
    ensures action == 'E' ==> r.value.waypoint == Point(s.waypoint.x + value, s.waypoint.y)
    ensures action == 'S' ==> r.value.waypoint == Point(s.waypoint.x, s.waypoint.y - value)
    ensures action == 'W' ==> r.value.waypoint == Point(s.waypoint.x - value, s.waypoint.y)
    ensures action == 'L' ==> r == Some(s.(waypoint := rotate(s.waypoint, value)))
    ensures action == 'R' ==> r == Some(s.(waypoint := rotate(s.waypoint, -value)))
    ensures action == 'F' ==> r == Some(Forward(s, value))
  {
    var w := s.waypoint;
    match action
    case 'N' => Some(s.(waypoint := w.(y := w.y + value)))
    case 'E' => Some(s.(waypoint := w.(x := w.x + value)))
    case 'S' => Some(s.(waypoint := w.(y := w.y - value)))
    case 'W' => Some(s.(waypoint := w.(x := w.x - value)))
    case 'L' => Some(s.(waypoint := rotate(w, value)))
    case 'R' => Some(s.(waypoint := rotate(w, -value)))
    case 'F' => Some(Forward(s, value))
    case _ => None
  }

  /** `part2::step` on a value: parse the line as in part 1, then act on it. */
  function StepNav(s: Nav, line: string, rotate: (Point, int) -> Point): Option<Nav> {
    match Day12Part1.Instruction(line)
    case None => None
    case Some((action, value)) => Act(s, action, value, rotate)
  }

  /** A line of the form N/E/S/W moves only the waypoint; one of the form F moves only the ship. */
  lemma StepMovesOneOf(s: Nav, line: string, rotate: (Point, int) -> Point)
    requires StepNav(s, line, rotate).Some?
    ensures line[0] in "NESW" ==> StepNav(s, line, rotate).value.pos == s.pos
    ensures line[0] == 'F' ==> StepNav(s, line, rotate).value.waypoint == s.waypoint
  {
  }

  /** `part2::run` from a given state. */
  function RunNavs(s: Nav, lines: seq<string>, rotate: (Point, int) -> Point): Option<Nav>
    decreases |lines|
  {
    if lines == [] then Some(s)
    else
      match StepNav(s, lines[0], rotate)
      case None => None
      case Some(t) => RunNavs(t, lines[1..], rotate)
  }

  /** The ship at the origin with its waypoint 10 east and 1 north. */
  const Start := Nav(Point(0, 0), Point(10, 1))

  /** `part2::Ship`, whose position and waypoint `step` updates in place. */
  class Ship {
    var pos: Point
    var waypoint: Point

    function Snapshot(): Nav
      reads this
    {
      Nav(pos, waypoint)
    }

    constructor()
      ensures Snapshot() == Start
    {
      pos, waypoint := Point(0, 0), Point(10, 1);
    }

    /** `Ship::sail`: the new state is `Forward` of the old. */
    method Sail(n: int)
      modifies this
      ensures Snapshot() == Forward(old(Snapshot()), n)
    {
      pos := Point(pos.x + waypoint.x * n, pos.y + waypoint.y * n);
    }
  }

  /** `part2::step`: on success the ship is in the state `StepNav` gives; on a panic nothing has changed. */
  method Step(ship: Ship, line: string, rotate: (Point, int) -> Point) returns (ok: bool)
    modifies ship
    ensures ok <==> StepNav(old(ship.Snapshot()), line, rotate).Some?
    ensures ok ==> ship.Snapshot() == StepNav(old(ship.Snapshot()), line, rotate).value
    ensures !ok ==> ship.Snapshot() == old(ship.Snapshot())
  {
    if |line| == 0 {
      return false;
    }
    var parsed := ParseInt(line[1..]);
    if parsed.None? {
      return false;
    }
    var value := parsed.value;
    var action := line[0];
    if action == 'N' {
      ship.waypoint := ship.waypoint.(y := ship.waypoint.y + value);
    } else if action == 'E' {
      ship.waypoint := ship.waypoint.(x := ship.waypoint.x + value);
    } else if action == 'S' {
      ship.waypoint := ship.waypoint.(y := ship.waypoint.y - value);
    } else if action == 'W' {
      ship.waypoint := ship.waypoint.(x := ship.waypoint.x - value);
    } else if action == 'L' {
      ship.waypoint := rotate(ship.waypoint, value);
    } else if action == 'R' {
      ship.waypoint := rotate(ship.waypoint, -value);
    } else if action == 'F' {
      ship.Sail(value);
    } else {
      return false;
    }
    return true;
  }

  /** `part2::run`: a fresh ship steps through the lines of `input`; `!ok` is a panic on some line. */
  method Run(input: string, rotate: (Point, int) -> Point) returns (ship: Ship, ok: bool)
    ensures fresh(ship)
    ensures ok <==> RunNavs(Start, Lines(input), rotate).Some?
    ensures ok ==> ship.Snapshot() == RunNavs(Start, Lines(input), rotate).value
  {
    var lines := Lines(input);
    ship := new Ship();
    for i := 0 to |lines|
      invariant RunNavs(Start, lines[..i], rotate) == Some(ship.Snapshot())
    {
      RunNavsSnoc(Start, lines[..i], lines[i], rotate);
      assert lines[..i + 1] == lines[..i] + [lines[i]];
      ok := Step(ship, lines[i], rotate);
      if !ok {
        RunNavsPanics(Start, lines, i + 1, rotate);
        return;
      }
    }
    assert lines[..|lines|] == lines;
    ok := true;
  }

  lemma {:induction false} RunNavsSnoc(s: Nav, lines: seq<string>, line: string, rotate: (Point, int) -> Point)
    ensures RunNavs(s, lines + [line], rotate) ==
            match RunNavs(s, lines, rotate) case None => None case Some(t) => StepNav(t, line, rotate)
    decreases |lines|
  {
    if lines == [] {
      assert [line][1..] == [];
    } else {
      assert (lines + [line])[1..] == lines[1..] + [line];
      if StepNav(s, lines[0], rotate).Some? {
        RunNavsSnoc(StepNav(s, lines[0], rotate).value, lines[1..], line, rotate);
      }
    }
  }

  lemma {:induction false} RunNavsPanics(s: Nav, lines: seq<string>, k: nat, rotate: (Point, int) -> Point)
    requires k <= |lines| && RunNavs(s, lines[..k], rotate).None?
    ensures RunNavs(s, lines, rotate).None?
    decreases |lines| - k
  {
    if k < |lines| {
      RunNavsSnoc(s, lines[..k], lines[k], rotate);
      assert lines[..k + 1] == lines[..k] + [lines[k]];
      RunNavsPanics(s, lines, k + 1, rotate);
    } else {
      assert lines[..k] == lines;
    }
  }

  /**
   * The sample ends at (214, -72) with the waypoint at (4, -10), given a
   * rotation that turns (10, 4) by -90 degrees into (4, -10).
   */
  lemma SampleRun(rotate: (Point, int) -> Point)
    requires rotate(Point(10, 4), -90) == Point(4, -10)
    ensures RunNavs(Start, ["F10", "N3", "F7", "R90", "F11"], rotate) == Some(Nav(Point(214, -72), Point(4, -10)))
  {
    Day12Part1.SampleInstructions();
    var lines := ["F10", "N3", "F7", "R90", "F11"];
    var s1 := Nav(Point(100, 10), Point(10, 1));
    var s2 := Nav(Point(100, 10), Point(10, 4));
    var s3 := Nav(Point(170, 38), Point(10, 4));
    var s4 := Nav(Point(170, 38), Point(4, -10));
    assert RunNavs(s4, lines[4..], rotate) == Some(Nav(Point(214, -72), Point(4, -10)));
    assert RunNavs(s3, lines[3..], rotate) == Some(Nav(Point(214, -72), Point(4, -10)));
    assert RunNavs(s2, lines[2..], rotate) == Some(Nav(Point(214, -72), Point(4, -10)));
    assert RunNavs(s1, lines[1..], rotate) == Some(Nav(Point(214, -72), Point(4, -10)));
  }
}

=== FILE: day13.dfy ===
/**
 * Day 13, "Shuttle Search". Part 1 finds the bus that leaves soonest after
 * a timestamp; part 2 finds the earliest time at which each listed bus
 * leaves as many minutes after it as its place in the list, by the Chinese
 * remainder theorem with coefficients from the extended Euclidean
 * algorithm. Every panic of the source is an `Option` here.
 */
module Day13 {
  import opened Wrappers
  import opened Text
  import opened Numbers

  // ---------------------------------------------------------------------
  // Part 1

  /** The entries of the comma-separated list that parse as unsigned numbers, in order; the rest (the `x`s) are dropped. */
  function Buses(parts: seq<string>): (buses: seq<nat>)
    ensures |buses| <= |parts|
    ensures forall k :: 0 <= k < |buses| ==> exists i :: 0 <= i < |parts| && ParseNat(parts[i]) == Some(buses[k])
    ensures forall i :: 0 <= i < |parts| && ParseNat(parts[i]).Some? ==> ParseNat(parts[i]).value in buses
  {
    if parts == [] then []
    else
      var init := Buses(parts[..|parts| - 1]);
      var last := parts[|parts| - 1];
      assert forall i :: 0 <= i < |parts| - 1 ==> parts[..|parts| - 1][i] == parts[i];
      match ParseNat(last)
      case None => init
      case Some(x) => init + [x]
  }

  /** The indices of the entries that parse, in increasing order: the entries `filter_map` keeps. */
  function BusIndices(parts: seq<string>): (idx: seq<nat>)
    ensures KeptEntries(parts, idx)
  {
    if parts == [] then []
    else
      var init := BusIndices(parts[..|parts| - 1]);
      assert forall i :: 0 <= i < |parts| - 1 ==> parts[..|parts| - 1][i] == parts[i];
      if ParseNat(parts[|parts| - 1]).Some? then init + [|parts| - 1] else init
  }

  /**
   * `filter_map` keeps the entries in order: the k-th bus is the number the
   * k-th index of `BusIndices` parses to.
   */
  lemma {:induction false} BusesRead(parts: seq<string>)
    ensures ReadAt(parts, BusIndices(parts), Buses(parts))
  {
    if parts != [] {
      var init := parts[..|parts| - 1];
      BusesRead(init);
      ReadAtExtend(parts, BusIndices(init), Buses(init));
    }
  }

  /** Reading one entry more: the old indices still read the same buses, and a parsing last entry adds its bus. */
  lemma ReadAtExtend(parts: seq<string>, idx: seq<nat>, buses: seq<nat>)
    requires |parts| > 0
    requires KeptEntries(parts[..|parts| - 1], idx) && ReadAt(parts[..|parts| - 1], idx, buses)
    ensures ReadAt(parts, idx, buses)
    ensures ParseNat(parts[|parts| - 1]).Some? ==>
              ReadAt(parts, idx + [|parts| - 1], buses + [ParseNat(parts[|parts| - 1]).value])
  {
    var init := parts[..|parts| - 1];
    forall k | 0 <= k < |idx|
      ensures idx[k] < |parts| && ParseNat(parts[idx[k]]) == Some(buses[k])
    {
      assert init[idx[k]] == parts[idx[k]];
    }
  }

  /** `idx` lists, in increasing order, exactly the indices of the entries that parse. */
  predicate KeptEntries(parts: seq<string>, idx: seq<nat>) {
    (forall k :: 0 <= k < |idx| ==> idx[k] < |parts| && ParseNat(parts[idx[k]]).Some?) &&
    (forall k, l :: 0 <= k < l < |idx| ==> idx[k] < idx[l]) &&
    (forall i :: 0 <= i < |parts| && ParseNat(parts[i]).Some? ==> i in idx)
  }

  /** `buses[k]` is the number entry `idx[k]` parses to, one bus per listed index. */
  predicate ReadAt(parts: seq<string>, idx: seq<nat>, buses: seq<nat>) {
    |buses| == |idx| &&
    forall k :: 0 <= k < |idx| ==> idx[k] < |parts| && ParseNat(parts[idx[k]]) == Some(buses[k])
  }

  /** The key of `part1`'s `min_by_key`: `x - ts % x`. */
  function Wait(ts: nat, x: nat): nat
    requires x > 0
  {
    x - ts % x
  }

  /** Bus `x` leaves `w` minutes after `ts`. */
  predicate Departs(ts: nat, x: nat, w: nat)
    requires x > 0
  {
    (ts + w) % x == 0
  }

  /**
   * The wait is the time to the first departure strictly after `ts`: a bus
   * leaving exactly at `ts` counts as leaving a whole period later.
   */
  lemma WaitIsNextDeparture(ts: nat, x: nat)
    requires x > 0
    ensures 1 <= Wait(ts, x) <= x
    ensures Departs(ts, x, Wait(ts, x))
    ensures forall w: nat :: 1 <= w < Wait(ts, x) ==> !Departs(ts, x, w)
  {
    var q, r := ts / x, ts % x;
    assert ts == q * x + r;
    assert ts + Wait(ts, x) == (q + 1) * x + 0 by { MulSucc(q, x); }
    ModOfShifted(q + 1, x, 0);
    forall w: nat | 1 <= w < Wait(ts, x) ensures !Departs(ts, x, w) {
      ModOfShifted(q, x, r + w);
    }
  }

  lemma MulSucc(q: int, x: int)
    ensures (q + 1) * x == q * x + x
  {
  }

  /** Index of the first smallest key: `min_by_key` keeps the earlier of two equal keys. */
  function FirstMin(keys: seq<int>): (k: nat)
    requires |keys| > 0
    ensures k < |keys|
    ensures forall i :: 0 <= i < |keys| ==> keys[k] <= keys[i]
    ensures forall i :: 0 <= i < k ==> keys[k] < keys[i]
  {
    if |keys| == 1 then 0
    else
      var k := FirstMin(keys[..|keys| - 1]);
      assert forall i :: 0 <= i < |keys| - 1 ==> keys[..|keys| - 1][i] == keys[i];
      if keys[|keys| - 1] < keys[k] then |keys| - 1 else k
  }

  /** Every bus has a period: a bus numbered 0 makes `ts % 0` panic. */
  predicate Periodic(buses: seq<nat>) {
    forall i :: 0 <= i < |buses| ==> buses[i] > 0
  }

  /**
   * `part1` on the parsed list: the bus with the shortest `Wait` (the first
   * such in the list) times that wait. `None` is the source's panic on an
   * empty list or a zero bus.
   */
  function Earliest(ts: nat, buses: seq<nat>): (r: Option<nat>)
    ensures r.Some? <==> |buses| > 0 && Periodic(buses)
    ensures r.Some? ==> exists k :: 0 <= k < |buses| && r.value == buses[k] * Wait(ts, buses[k]) &&
                          (forall i :: 0 <= i < |buses| ==> Wait(ts, buses[k]) <= Wait(ts, buses[i])) &&
                          (forall i :: 0 <= i < k ==> Wait(ts, buses[k]) < Wait(ts, buses[i]))
  {
    if |buses| == 0 || !Periodic(buses) then None
    else
      var keys := WaitKeys(ts, buses);
      var k := FirstMin(keys);
      assert forall i :: 0 <= i < |buses| ==> Wait(ts, buses[k]) <= Wait(ts, buses[i]);
      assert forall i :: 0 <= i < k ==> Wait(ts, buses[k]) < Wait(ts, buses[i]);
      Some(buses[k] * Wait(ts, buses[k]))
  }

  /** The key of every bus, in order. */
  function WaitKeys(ts: nat, buses: seq<nat>): (keys: seq<int>)
    requires Periodic(buses)
    ensures |keys| == |buses| && forall i :: 0 <= i < |buses| ==> keys[i] == Wait(ts, buses[i])
  {
    seq(|buses|, i requires 0 <= i < |buses| => Wait(ts, buses[i]) as int)
  }

  /** The bus numbers among the entries `parts` (the entries that parse). */
  function Listed(parts: seq<string>): set<nat> {
    set i | 0 <= i < |parts| && ParseNat(parts[i]).Some? :: ParseNat(parts[i]).value
  }

  /**
   * `part1`: split the list on commas and pick the earliest bus. It panics
   * (`None`) when no entry is a number or one of them is 0; otherwise the
   * first entry in the list whose bus has the smallest key gives the key
   * times its number.
   */
  function Part1(ts: nat, ids: string): (r: Option<nat>)
    ensures r.Some? <==> Listed(Split(ids, ",")) != {} && 0 !in Listed(Split(ids, ","))
    ensures r.Some? ==> SoonestListed(ts, Listed(Split(ids, ",")), r.value)
    ensures r.Some? ==> exists i :: PicksEntry(ts, Split(ids, ","), i, r.value)
  {
    var buses := Buses(Split(ids, ","));
    ListedBuses(Split(ids, ","));
    SameBusesPanic(Listed(Split(ids, ",")), buses);
    EarliestListed(ts, Listed(Split(ids, ",")), buses);
    EarliestPicksEntry(ts, Split(ids, ","));
    Earliest(ts, buses)
  }

  /**
   * Entry `i` is the bus `part1` picks and `a` its answer: the entry parses
   * to a bus whose key is no larger than any listed bus's and smaller than
   * every earlier one's (`min_by_key` keeps the first of equal keys), and
   * `a` is the bus times its key.
   */
  predicate PicksEntry(ts: nat, parts: seq<string>, i: int, a: nat) {
    0 <= i < |parts| && ParseNat(parts[i]).Some? && ParseNat(parts[i]).value > 0 &&
    a == ParseNat(parts[i]).value * Wait(ts, ParseNat(parts[i]).value) &&
    forall j :: 0 <= j < |parts| && ParseNat(parts[j]).Some? ==>
      ParseNat(parts[j]).value > 0 &&
      Wait(ts, ParseNat(parts[i]).value) <= Wait(ts, ParseNat(parts[j]).value) &&
      (j < i ==> Wait(ts, ParseNat(parts[i]).value) < Wait(ts, ParseNat(parts[j]).value))
  }

  /** The first smallest key among the kept buses is the first smallest key among the entries. */
  lemma EarliestPicksEntry(ts: nat, parts: seq<string>)
    ensures Earliest(ts, Buses(parts)).Some? ==> exists i :: PicksEntry(ts, parts, i, Earliest(ts, Buses(parts)).value)
  {
    var buses := Buses(parts);
    if |buses| > 0 && Periodic(buses) {
      BusesRead(parts);
      FirstKeptEntry(ts, parts, BusIndices(parts), buses);
    }
  }

  /** The bus with the first smallest key among those kept sits at the entry `part1` picks. */
  lemma FirstKeptEntry(ts: nat, parts: seq<string>, idx: seq<nat>, buses: seq<nat>)
    requires KeptEntries(parts, idx) && ReadAt(parts, idx, buses) && |buses| > 0 && Periodic(buses)
    ensures PicksEntry(ts, parts, idx[FirstMin(WaitKeys(ts, buses))], Earliest(ts, buses).value)
  {
    var k := FirstMin(WaitKeys(ts, buses));
    var i := idx[k];
    assert Earliest(ts, buses) == Some(buses[k] * Wait(ts, buses[k]));
    assert ParseNat(parts[i]) == Some(buses[k]);
    forall j | 0 <= j < |parts| && ParseNat(parts[j]).Some?
      ensures ParseNat(parts[j]).value > 0
      ensures Wait(ts, buses[k]) <= Wait(ts, ParseNat(parts[j]).value)
      ensures j < i ==> Wait(ts, buses[k]) < Wait(ts, ParseNat(parts[j]).value)
    {
      assert j in idx;
      var l :| 0 <= l < |idx| && idx[l] == j;
      assert ParseNat(parts[j]) == Some(buses[l]);
      if j < i && k <= l {
        assert k < l ==> idx[k] < idx[l];
      }
    }
  }

  /** Only one entry is picked, so the contract of `Part1` fixes its answer. */
  lemma PicksEntryUnique(ts: nat, parts: seq<string>, i: int, a: nat, i2: int, a2: nat)
    requires PicksEntry(ts, parts, i, a) && PicksEntry(ts, parts, i2, a2)
    ensures i == i2 && a == a2
  {
  }

  /** At 13 the buses 3 and 5 both wait 2 minutes; the first in the list wins, so the answer is 6 and not 10. */
  lemma TieGoesFirst()
    ensures Earliest(13, [3, 5]) == Some(6)
  {
    assert WaitKeys(13, [3, 5]) == [2, 2];
  }

  /** `buses` holds exactly the numbers in `listed`. */
  ghost predicate SameBuses(listed: set<nat>, buses: seq<nat>) {
    forall x :: x in listed <==> x in buses
  }

  /** The parsed list holds exactly the listed buses. */
  lemma ListedBuses(parts: seq<string>)
    ensures SameBuses(Listed(parts), Buses(parts))
  {
    var buses := Buses(parts);
    forall x | x in buses
      ensures x in Listed(parts)
    {
      BusListed(parts, buses, x);
    }
    forall x | x in Listed(parts)
      ensures x in buses
    {
      ListedBus(parts, buses, x);
    }
  }

  /** The same numbers: both are empty together, and both hold 0 together. */
  lemma SameBusesPanic(listed: set<nat>, buses: seq<nat>)
    requires SameBuses(listed, buses)
    ensures (buses != []) == (listed != {})
    ensures Periodic(buses) == (0 !in listed)
  {
    if buses != [] {
      assert buses[0] in buses;
    }
    if listed != {} {
      var x :| x in listed;
    }
    if 0 in buses {
      var k :| 0 <= k < |buses| && buses[k] == 0;
    }
  }

  /** `a` is some listed bus times its key, for a bus whose key is no larger than any listed bus's. */
  ghost predicate SoonestListed(ts: nat, listed: set<nat>, a: nat) {
    exists x :: x in listed && x > 0 && a == x * Wait(ts, x) &&
                forall y :: y in listed ==> y > 0 && Wait(ts, x) <= Wait(ts, y)
  }

  /** The bus `Earliest` picks is a listed bus whose key is no larger than any listed bus's. */
  lemma EarliestListed(ts: nat, listed: set<nat>, buses: seq<nat>)
    requires SameBuses(listed, buses)
    ensures Earliest(ts, buses).Some? ==> SoonestListed(ts, listed, Earliest(ts, buses).value)
  {
    if Earliest(ts, buses).Some? {
      var k := FirstMin(WaitKeys(ts, buses));
      var x := buses[k];
      forall y | y in listed
        ensures y > 0 && Wait(ts, x) <= Wait(ts, y)
      {
        var l :| 0 <= l < |buses| && buses[l] == y;
      }
      assert x in listed;
    }
  }

  lemma BusListed(parts: seq<string>, buses: seq<nat>, x: nat)
    requires buses == Buses(parts) && x in buses
    ensures x in Listed(parts)
  {
    var k :| 0 <= k < |buses| && buses[k] == x;
    var i :| 0 <= i < |parts| && ParseNat(parts[i]) == Some(buses[k]);
    assert ParseNat(parts[i]).value == x;
  }

  lemma ListedBus(parts: seq<string>, buses: seq<nat>, x: nat)
    requires buses == Buses(parts) && x in Listed(parts)
    ensures x in buses
  {
    var i :| 0 <= i < |parts| && ParseNat(parts[i]).Some? && ParseNat(parts[i]).value == x;
    assert ParseNat(parts[i]).value in buses;
  }

  /** The wait the puzzle asks for: zero when a bus leaves exactly at `ts`. */
  function WaitFrom(ts: nat, x: nat): nat
    requires x > 0
  {
    (x - ts % x) % x
  }

  /** `WaitFrom` is the time to the first departure at or after `ts`. */
  lemma WaitFromIsNextDeparture(ts: nat, x: nat)
    requires x > 0
    ensures 0 <= WaitFrom(ts, x) < x
    ensures Departs(ts, x, WaitFrom(ts, x))
    ensures forall w: nat :: w < WaitFrom(ts, x) ==> !Departs(ts, x, w)
  {
    WaitIsNextDeparture(ts, x);
    if ts % x == 0 {
      assert WaitFrom(ts, x) == 0 by { ModOfShifted(1, x, 0); }
      assert ts == (ts / x) * x + 0;
      ModOfShifted(ts / x, x, 0);
    } else {
      ModOfShifted(0, x, Wait(ts, x));
    }
  }

  /** `part1` with the wait the puzzle asks for. */
  function EarliestFrom(ts: nat, buses: seq<nat>): (r: Option<nat>)
    ensures r.Some? <==> |buses| > 0 && Periodic(buses)
    ensures r.Some? ==> exists k :: 0 <= k < |buses| && r.value == buses[k] * WaitFrom(ts, buses[k]) &&
                          (forall i :: 0 <= i < |buses| ==> WaitFrom(ts, buses[k]) <= WaitFrom(ts, buses[i])) &&
                          (forall i :: 0 <= i < k ==> WaitFrom(ts, buses[k]) < WaitFrom(ts, buses[i]))
  {
    if |buses| == 0 || !Periodic(buses) then None
    else
      var keys := WaitFromKeys(ts, buses);
      var k := FirstMin(keys);
      assert forall i :: 0 <= i < |buses| ==> WaitFrom(ts, buses[k]) <= WaitFrom(ts, buses[i]);
      assert forall i :: 0 <= i < k ==> WaitFrom(ts, buses[k]) < WaitFrom(ts, buses[i]);
      Some(buses[k] * WaitFrom(ts, buses[k]))
  }

  function WaitFromKeys(ts: nat, buses: seq<nat>): (keys: seq<int>)
    requires Periodic(buses)
    ensures |keys| == |buses| && forall i :: 0 <= i < |buses| ==> keys[i] == WaitFrom(ts, buses[i])
  {
    seq(|buses|, i requires 0 <= i < |buses| => WaitFrom(ts, buses[i]) as int)
  }

  /** The corrected `part1`. */
  function Part1From(ts: nat, ids: string): Option<nat> {
    EarliestFrom(ts, Buses(Split(ids, ",")))
  }

  /** The two agree unless some bus leaves exactly at `ts`. */
  lemma WaitsAgree(ts: nat, x: nat)
    requires x > 0 && ts % x != 0
    ensures WaitFrom(ts, x) == Wait(ts, x)
  {
    ModOfShifted(0, x, Wait(ts, x));
  }

  /**
   * At time 10 bus 5 is leaving, yet `part1` charges it a wait of 5 and
   * picks bus 7 (wait 4), answering 28; the puzzle's answer is 0.
   */
  lemma DepartureAtTimestamp()
    ensures Part1(10, "5,7") == Some(28)
    ensures Part1From(10, "5,7") == Some(0)
  {
    SplitFiveSeven();
    BusesFiveSeven();
    EarliestAtTen([5, 7]);
  }

  lemma BusesFiveSeven()
    ensures Buses(["5", "7"]) == [5, 7]
  {
    assert ParseNat("5") == Some(5) by { assert DigitsValue("5") == 5 by { assert "5"[..0] == ""; } }
    assert ParseNat("7") == Some(7) by { assert DigitsValue("7") == 7 by { assert "7"[..0] == ""; } }
    assert ["5", "7"][..1] == ["5"];
    assert ["5"][..0] == [];
  }

  lemma EarliestAtTen(buses: seq<nat>)
    requires buses == [5, 7]
    ensures Earliest(10, buses) == Some(28) && EarliestFrom(10, buses) == Some(0)
  {
    var keys := WaitKeys(10, buses);
    assert keys == [5, 4];
    assert FirstMin(keys) == 1 by { assert keys[FirstMin(keys)] <= keys[1]; }
    var keys' := WaitFromKeys(10, buses);
    assert keys' == [0, 4];
    assert FirstMin(keys') == 0 by { assert keys'[FirstMin(keys')] <= keys'[0]; }
  }

  lemma SplitFiveSeven()
    ensures Split("5,7", ",") == ["5", "7"]
  {
    assert Split("", ",") == [""];
    assert Split("7", ",") == ["7"] by {
      assert "7"[..1] == "7" != ",";
      assert "7"[1..] == "";
      assert ['7'] + "" == "7";
      assert [""][1..] == [];
    }
    assert Split(",7", ",") == ["", "7"] by {
      assert ",7"[..1] == ",";
      assert ",7"[1..] == "7";
    }
    assert "5,7"[..1] == "5" != ",";
    assert "5,7"[1..] == ",7";
    assert ['5'] + "" == "5";
    assert ["", "7"][1..] == ["7"];
  }

  /** The sample: at 939 the earliest bus is 59, five minutes away. */
  lemma SampleEarliest()
    ensures Earliest(939, [7, 13, 59, 31, 19]) == Some(295)
  {
    var buses := [7, 13, 59, 31, 19];
    var keys := WaitKeys(939, buses);
    assert keys == [6, 10, 5, 22, 11];
    var k := FirstMin(keys);
    assert keys[k] <= keys[2];
    assert k == 2;
  }

  // ---------------------------------------------------------------------
  // Extended Euclid

  /** `d` divides `n`: `n` is a whole multiple of `d`. */
  ghost predicate Divides(d: int, n: int) {
    exists k :: n == k * d
  }

  /**
   * The extended Euclidean algorithm as a recursion, the reference for the
   * loop in `extended_euclid`: `(g, s, t)` with `g = s * x + t * y`,
   * stopping when `y` is no longer positive. Division and remainder round
   * toward zero as in Rust.
   */
  function Euclid(x: int, y: int): (r: (int, int, int))
    ensures r.0 == r.1 * x + r.2 * y
    decreases if y > 0 then y else 0
  {
    if y <= 0 then (x, 1, 0)
    else
      var q := Quot(x, y);
      var e := Euclid(y, Rem(x, y));
      Combine(e.0, e.1, e.2, x, y, q);
      (e.0, e.2, e.1 - q * e.2)
  }

  /** One step of back-substitution keeps the combination. */
  lemma Combine(g: int, s: int, t: int, x: int, y: int, q: int)
    requires g == s * y + t * (x - q * y)
    ensures g == t * x + (s - q * t) * y
  {
    assert t * (x - q * y) == t * x - (q * t) * y;
    assert (s - q * t) * y == s * y - (q * t) * y;
  }

  /** For non-negative inputs the first component divides both. */
  lemma {:induction false} EuclidDivides(x: int, y: int)
    requires x >= 0 && y >= 0
    ensures Euclid(x, y).0 >= 0
    ensures Divides(Euclid(x, y).0, x) && Divides(Euclid(x, y).0, y)
    decreases y
  {
    var g := Euclid(x, y).0;
    if y == 0 {
      assert x == 1 * g && y == 0 * g;
    } else {
      var r := Rem(x, y);
      var q := Quot(x, y);
      assert x == q * y + r && r >= 0;
      EuclidDivides(y, r);
      DividesSum(g, x, y, q, r);
    }
  }

  /** A common divisor of `y` and `r` divides `q * y + r`. */
  lemma DividesSum(g: int, x: int, y: int, q: int, r: int)
    requires x == q * y + r && Divides(g, y) && Divides(g, r)
    ensures Divides(g, x)
  {
    var a :| y == a * g;
    var b :| r == b * g;
    assert x == (q * a + b) * g by {
      assert q * (a * g) == (q * a) * g;
    }
  }

  /** A divisor of both inputs divides the first component. */
  lemma EuclidGreatest(x: int, y: int, d: int)
    requires Divides(d, x) && Divides(d, y)
    ensures Divides(d, Euclid(x, y).0)
  {
    var e := Euclid(x, y);
    DividesCombination(d, x, y, e.1, e.2);
  }

  lemma DividesCombination(d: int, x: int, y: int, s: int, t: int)
    requires Divides(d, x) && Divides(d, y)
    ensures Divides(d, s * x + t * y)
  {
    var a :| x == a * d;
    var b :| y == b * d;
    assert s * x + t * y == (s * a + t * b) * d by {
      assert s * (a * d) == (s * a) * d;
      assert t * (b * d) == (t * b) * d;
    }
  }

  /** The triple `extended_euclid` would return from the state `(x, y)` with coefficient rows `(x0, y0)` and `(x1, y1)`. */
  function Lift(e: (int, int, int), x0: int, y0: int, x1: int, y1: int): (int, int, int) {
    (e.0, e.1 * x0 + e.2 * x1, e.1 * y0 + e.2 * y1)
  }

  /** One loop iteration does not change what the loop will return. */
  lemma LiftStep(x: int, y: int, x0: int, y0: int, x1: int, y1: int)
    requires y > 0
    ensures Lift(Euclid(x, y), x0, y0, x1, y1) ==
            Lift(Euclid(y, Rem(x, y)), x1, y1, x0 - Quot(x, y) * x1, y0 - Quot(x, y) * y1)
  {
    var q := Quot(x, y);
    var e := Euclid(y, Rem(x, y));
    assert Euclid(x, y) == (e.0, e.2, e.1 - q * e.2);
    Regroup(e.1, e.2, q, x0, x1);
    Regroup(e.1, e.2, q, y0, y1);
  }

  lemma Regroup(s: int, t: int, q: int, a: int, b: int)
    ensures t * a + (s - q * t) * b == s * b + t * (a - q * b)
  {
    assert (s - q * t) * b == s * b - q * t * b;
    assert t * (a - q * b) == t * a - q * t * b;
  }

  /**
   * `extended_euclid`: the loop keeps `x = x0 * X + y0 * Y` and
   * `y = x1 * X + y1 * Y`, and returns what the recursion `Euclid` returns.
   */
  method ExtendedEuclid(bigX: int, bigY: int) returns (g: int, s: int, t: int)
    ensures (g, s, t) == Euclid(bigX, bigY)
    ensures g == s * bigX + t * bigY
  {
    var x, x0, x1, y, y0, y1 := bigX, 1, 0, bigY, 0, 1;
    while y > 0
      invariant x == x0 * bigX + y0 * bigY && y == x1 * bigX + y1 * bigY
      invariant Euclid(bigX, bigY) == Lift(Euclid(x, y), x0, y0, x1, y1)
      decreases if y > 0 then y else 0
    {
      var q := Quot(x, y);
      LiftStep(x, y, x0, y0, x1, y1);
      RowStep(bigX, bigY, x, y, x0, y0, x1, y1);
      var yOld := y;
      y := Rem(x, y);
      x := yOld;
      var x0Old := x0;
      x0 := x1;
      x1 := x0Old - q * x1;
      var y0Old := y0;
      y0 := y1;
      y1 := y0Old - q * y1;
    }
    g, s, t := x, x0, y0;
  }

  /** The new `y`, `x % y`, is the old rows' difference. */
  lemma RowStep(bigX: int, bigY: int, x: int, y: int, x0: int, y0: int, x1: int, y1: int)
    requires y > 0
    requires x == x0 * bigX + y0 * bigY && y == x1 * bigX + y1 * bigY
    ensures Rem(x, y) == (x0 - Quot(x, y) * x1) * bigX + (y0 - Quot(x, y) * y1) * bigY
  {
    var q := Quot(x, y);
    assert Rem(x, y) == x - q * y;
    assert q * y == (q * x1) * bigX + (q * y1) * bigY;
  }

  /** The test: `extended_euclid(102, 38)` is `(2, 3, -8)`. */
  lemma SampleEuclid()
    ensures Euclid(102, 38) == (2, 3, -8)
  {
    assert Euclid(2, 0) == (2, 1, 0);
    assert Euclid(12, 2) == (2, 0, 1);
    assert Euclid(26, 12) == (2, 1, -2);
    assert Euclid(38, 26) == (2, -2, 3);
  }

  // ---------------------------------------------------------------------
  // Chinese remainder theorem

  /** `a` and `b` are coprime: some combination of them is 1. */
  ghost predicate Coprime(a: int, b: int) {
    exists s, t :: s * a + t * b == 1
  }

  /** For non-negative numbers, being coprime is having `Euclid` give 1. */
  lemma CoprimeGcd(a: int, b: int)
    requires a >= 0 && b >= 0
    ensures Coprime(a, b) <==> Euclid(a, b).0 == 1
  {
    var e := Euclid(a, b);
    if Coprime(a, b) {
      var s, t :| s * a + t * b == 1;
      EuclidDivides(a, b);
      DividesCombination(e.0, a, b, s, t);
      var k :| 1 == k * e.0;
      UnitDivisor(e.0, k);
    }
    if e.0 == 1 {
      assert e.1 * a + e.2 * b == 1;
    }
  }

  lemma UnitDivisor(g: int, k: int)
    requires g >= 0 && 1 == k * g
    ensures g == 1
  {
    if g >= 2 {
      if k >= 1 { MulAtLeast(k, g); } else if k <= -1 { MulAtLeast(-k, g); }
    }
  }

  lemma CoprimeSymmetric(a: int, b: int)
    requires Coprime(a, b)
    ensures Coprime(b, a)
  {
    var s, t :| s * a + t * b == 1;
    assert t * b + s * a == 1;
  }

  /** A number coprime to two numbers is coprime to their product. */
  lemma CoprimeMul(a: int, b: int, c: int)
    requires Coprime(a, b) && Coprime(a, c)
    ensures Coprime(a, b * c)
  {
    var s, t :| s * a + t * b == 1;
    var u, v :| u * a + v * c == 1;
    var x, y, x', y' := s * a, t * b, u * a, v * c;
    var s' := s * u * a + s * v * c + t * b * u;
    var t' := t * v;
    Monomials(s, t, u, v, a, b, c);
    assert x * x' + x * y' == x by { assert x * (x' + y') == x * x' + x * y'; }
    assert y * x' + y * y' == y by { assert y * (x' + y') == y * x' + y * y'; }
    assert s' * a + t' * (b * c) == 1;
  }

  /** The Bezout coefficients of a product, term by term. */
  lemma Monomials(s: int, t: int, u: int, v: int, a: int, b: int, c: int)
    ensures (s * u * a + s * v * c + t * b * u) * a == (s * a) * (u * a) + (s * a) * (v * c) + (t * b) * (u * a)
    ensures (t * v) * (b * c) == (t * b) * (v * c)
  {
  }

  /** The product of a list, folded from the front. */
  function Product(ns: seq<int>): int {
    if ns == [] then 1 else Product(ns[..|ns| - 1]) * ns[|ns| - 1]
  }

  /** The list without its entry at `i`. */
  function Without(ns: seq<int>, i: nat): seq<int>
    requires i < |ns|
  {
    ns[..i] + ns[i + 1..]
  }

  lemma MulAssoc(a: int, b: int, c: int)
    ensures (a * b) * c == (a * c) * b
  {
  }

  /** Taking one factor out of the product. */
  lemma {:induction false} ProductWithout(ns: seq<int>, i: nat)
    requires i < |ns|
    ensures Product(ns) == Product(Without(ns, i)) * ns[i]
    decreases |ns|
  {
    var n := |ns| - 1;
    var init := ns[..n];
    if i == n {
      assert Without(ns, i) == init;
    } else {
      ProductWithout(init, i);
      ProductWithoutLast(ns, i);
      MulAssoc(Product(Without(init, i)), ns[i], ns[n]);
    }
  }

  /** Leaving out an entry before the last one keeps the last factor of the product. */
  lemma ProductWithoutLast(ns: seq<int>, i: nat)
    requires i + 1 < |ns|
    ensures Product(Without(ns, i)) == Product(Without(ns[..|ns| - 1], i)) * ns[|ns| - 1]
  {
    var n := |ns| - 1;
    var w := Without(ns, i);
    assert w == Without(ns[..n], i) + [ns[n]];
    assert w[..|w| - 1] == Without(ns[..n], i);
  }

  /** A product of positive numbers is positive. */
  lemma {:induction false} ProductPositive(ns: seq<int>)
    requires forall i :: 0 <= i < |ns| ==> ns[i] >= 1
    ensures Product(ns) >= 1
    decreases |ns|
  {
    if ns != [] {
      ProductPositive(ns[..|ns| - 1]);
      MulAtLeast(Product(ns[..|ns| - 1]), ns[|ns| - 1]);
    }
  }

  /** A number coprime to every entry is coprime to the product. */
  lemma {:induction false} CoprimeProduct(a: int, ms: seq<int>)
    requires forall k :: 0 <= k < |ms| ==> Coprime(a, ms[k])
    ensures Coprime(a, Product(ms))
    decreases |ms|
  {
    if ms == [] {
      assert 0 * a + 1 * 1 == 1;
    } else {
      CoprimeProduct(a, ms[..|ms| - 1]);
      CoprimeMul(a, Product(ms[..|ms| - 1]), ms[|ms| - 1]);
    }
  }

  /** Rust's `/` on `i64` with a non-zero divisor: the quotient rounded toward zero. */
  function Div(a: int, b: int): int
    requires b != 0
  {
    if b > 0 then Quot(a, b) else -Quot(a, -b)
  }

  /** The moduli of the pairs. */
  function Moduli(pairs: seq<(int, int)>): (ns: seq<int>)
    ensures |ns| == |pairs| && forall i :: 0 <= i < |pairs| ==> ns[i] == pairs[i].0
  {
    seq(|pairs|, i requires 0 <= i < |pairs| => pairs[i].0)
  }

  /** No modulus is zero, so the divisions in `crt` do not panic. */
  predicate NonZeroModuli(pairs: seq<(int, int)>) {
    forall i :: 0 <= i < |pairs| ==> pairs[i].0 != 0
  }

  /** The term `crt` adds for pair `p`: `a_i * s_i * (N / n_i)`, `s_i` from `extended_euclid(n_i, N / n_i)`. */
  function Term(p: (int, int), n: int): int
    requires p.0 != 0
  {
    var b := Div(n, p.0);
    p.1 * Euclid(p.0, b).2 * b
  }

  /** The fold in `crt`: the terms summed in order. */
  function CrtSum(pairs: seq<(int, int)>, n: int): int
    requires NonZeroModuli(pairs)
  {
    if pairs == [] then 0 else CrtSum(pairs[..|pairs| - 1], n) + Term(pairs[|pairs| - 1], n)
  }

  /**
   * `crt`: the sum's Euclidean remainder modulo the product `N` of the
   * moduli, so in `[0, |N|)`. A zero modulus panics in `N / n_i`.
   */
  function Crt(pairs: seq<(int, int)>): (r: Option<int>)
    ensures r.Some? <==> NonZeroModuli(pairs)
    ensures r.Some? ==> 0 <= r.value < (if Product(Moduli(pairs)) >= 0 then Product(Moduli(pairs)) else -Product(Moduli(pairs)))
  {
    if !NonZeroModuli(pairs) then None
    else
      var n := Product(Moduli(pairs));
      ProductNonZero(Moduli(pairs));
      Some(CrtSum(pairs, n) % n)
  }

  lemma {:induction false} ProductNonZero(ns: seq<int>)
    requires forall i :: 0 <= i < |ns| ==> ns[i] != 0
    ensures Product(ns) != 0
    decreases |ns|
  {
    if ns != [] {
      ProductNonZero(ns[..|ns| - 1]);
    }
  }

  /** Positive moduli that are pairwise coprime. */
  ghost predicate CoprimeModuli(pairs: seq<(int, int)>) {
    (forall i :: 0 <= i < |pairs| ==> pairs[i].0 >= 1) &&
    forall i, k :: 0 <= i < k < |pairs| ==> Coprime(pairs[i].0, pairs[k].0)
  }

  /** `x` and `y` differ by a multiple of `n` exactly when they have the same remainder. */
  lemma ModCongruent(x: int, y: int, m: int, n: int)
    requires n > 0 && x == y + m * n
    ensures x % n == y % n
  {
    assert y == (y / n) * n + y % n;
    assert x == (y / n + m) * n + y % n;
    ModOfShifted(y / n + m, n, y % n);
  }

  /** Facts about one pair: its `N / n_i` is the product of the other moduli, coprime to `n_i`. */
  lemma {:induction false} Cofactor(pairs: seq<(int, int)>, i: nat)
    requires CoprimeModuli(pairs) && i < |pairs|
    ensures var n := Product(Moduli(pairs));
            Div(n, pairs[i].0) == Product(Without(Moduli(pairs), i)) >= 1 &&
            n == Div(n, pairs[i].0) * pairs[i].0 &&
            Euclid(pairs[i].0, Div(n, pairs[i].0)).0 == 1
  {
    var ns := Moduli(pairs);
    var rest := Without(ns, i);
    ProductWithout(ns, i);
    forall k | 0 <= k < |rest| ensures rest[k] >= 1 && Coprime(ns[i], rest[k]) {
      var k' := if k < i then k else k + 1;
      assert rest[k] == ns[k'];
      if k' < i { CoprimeSymmetric(ns[k'], ns[i]); }
    }
    ProductPositive(rest);
    var p := Product(rest);
    assert Quot(p * ns[i], ns[i]) == p by { QuotExact(p, ns[i]); }
    CoprimeProduct(ns[i], rest);
    CoprimeGcd(ns[i], p);
  }

  lemma QuotExact(p: int, n: int)
    requires p >= 0 && n > 0
    ensures Quot(p * n, n) == p
  {
    ModOfShifted(p, n, 0);
    assert (p * n) / n * n + (p * n) % n == p * n;
    assert ((p * n) / n - p) * n == 0;
  }

  /** Every other modulus divides `N / n_i`. */
  lemma OtherDivides(pairs: seq<(int, int)>, i: nat, j: nat) returns (c: int)
    requires CoprimeModuli(pairs) && i < |pairs| && j < |pairs| && i != j
    ensures Div(Product(Moduli(pairs)), pairs[i].0) == c * pairs[j].0
  {
    Cofactor(pairs, i);
    var ns := Moduli(pairs);
    var rest := Without(ns, i);
    var j' := if j < i then j else j - 1;
    assert rest[j'] == ns[j];
    ProductWithout(rest, j');
    c := Product(Without(rest, j'));
  }

  /** The first `k` terms, modulo `n_j`, leave `a_j` if `j < k` and nothing otherwise. */
  lemma {:induction false} CrtSumResidue(pairs: seq<(int, int)>, j: nat, k: nat) returns (m: int)
    requires CoprimeModuli(pairs) && j < |pairs| && k <= |pairs|
    ensures CrtSum(pairs[..k], Product(Moduli(pairs))) == (if j < k then pairs[j].1 else 0) + m * pairs[j].0
    decreases k
  {
    var n := Product(Moduli(pairs));
    if k == 0 {
      m := 0;
    } else {
      var before := CrtSumResidue(pairs, j, k - 1);
      assert pairs[..k][..k - 1] == pairs[..k - 1];
      var prev := CrtSum(pairs[..k - 1], n);
      if k - 1 == j {
        m := OwnTerm(pairs, j, prev, before);
      } else {
        m := OtherTerm(pairs, k - 1, j, prev, if j < k - 1 then pairs[j].1 else 0, before);
      }
    }
  }

  /** The term of pair `j` turns a multiple of `n_j` into `a_j` plus a multiple of `n_j`. */
  lemma OwnTerm(pairs: seq<(int, int)>, j: nat, prev: int, before: int) returns (m: int)
    requires CoprimeModuli(pairs) && j < |pairs| && prev == before * pairs[j].0
    ensures prev + Term(pairs[j], Product(Moduli(pairs))) == pairs[j].1 + m * pairs[j].0
  {
    var n := Product(Moduli(pairs));
    var b := Div(n, pairs[j].0);
    Cofactor(pairs, j);
    StepOwn(prev, before, pairs[j].1, Euclid(pairs[j].0, b).2, b, Euclid(pairs[j].0, b).1, pairs[j].0);
    m := before - pairs[j].1 * Euclid(pairs[j].0, b).1;
  }

  /** The term of another pair `i` is a multiple of `n_j`. */
  lemma OtherTerm(pairs: seq<(int, int)>, i: nat, j: nat, prev: int, base: int, before: int) returns (m: int)
    requires CoprimeModuli(pairs) && i < |pairs| && j < |pairs| && i != j && prev == base + before * pairs[j].0
    ensures prev + Term(pairs[i], Product(Moduli(pairs))) == base + m * pairs[j].0
  {
    var n := Product(Moduli(pairs));
    var b := Div(n, pairs[i].0);
    var s := Euclid(pairs[i].0, b).2;
    var c := OtherDivides(pairs, i, j);
    StepOther(prev, base, before, pairs[i].1, s, b, c, pairs[j].0);
    m := before + pairs[i].1 * s * c;
  }

  /** Adding the own term `a * s * b`, where `s * b` is 1 less a multiple of `nj`, leaves `a`. */
  lemma StepOwn(prev: int, m: int, a: int, s: int, b: int, r: int, nj: int)
    requires prev == m * nj && 1 == r * nj + s * b
    ensures prev + a * s * b == a + (m - a * r) * nj
  {
    assert a * s * b == a * (s * b);
    assert a * (1 - r * nj) == a - (a * r) * nj;
    assert (m - a * r) * nj == m * nj - (a * r) * nj;
  }

  /** Adding another term, a multiple of `nj`, keeps the residue. */
  lemma StepOther(prev: int, base: int, m: int, a: int, s: int, b: int, c: int, nj: int)
    requires prev == base + m * nj && b == c * nj
    ensures prev + a * s * b == base + (m + a * s * c) * nj
  {
    assert a * s * b == (a * s * c) * nj;
    assert (m + a * s * c) * nj == m * nj + (a * s * c) * nj;
  }

  /**
   * For pairwise coprime positive moduli, the result of `crt` is congruent
   * to `a_j` modulo `n_j` for every pair `j`.
   */
  lemma CrtSolves(pairs: seq<(int, int)>, j: nat)
    requires CoprimeModuli(pairs) && j < |pairs|
    ensures Crt(pairs).Some?
    ensures Crt(pairs).value % pairs[j].0 == pairs[j].1 % pairs[j].0
  {
    var n := Product(Moduli(pairs));
    var m := CrtSumResidue(pairs, j, |pairs|);
    assert pairs[..|pairs|] == pairs;
    Cofactor(pairs, j);
    var c := Div(n, pairs[j].0);
    assert n > 0 by { MulAtLeast(c, pairs[j].0); }
    ReduceResidue(CrtSum(pairs, n), n, c, pairs[j].0, pairs[j].1, m);
  }

  /** Reducing modulo a multiple `n` of `nj` keeps the residue modulo `nj`. */
  lemma ReduceResidue(sum: int, n: int, c: int, nj: int, a: int, m: int)
    requires n > 0 && nj > 0 && n == c * nj && sum == a + m * nj
    ensures sum % n % nj == a % nj
  {
    var d := sum / n;
    assert sum == d * n + sum % n;
    assert d * n == (d * c) * nj;
    assert sum % n == a + (m - d * c) * nj by {
      assert (m - d * c) * nj == m * nj - (d * c) * nj;
    }
    ModCongruent(sum % n, a, m - d * c, nj);
  }

  /** The first test of `crt`. */
  lemma SampleCrt(pairs: seq<(int, int)>)
    requires pairs == [(3, 0), (4, 3), (5, 4)]
    ensures Crt(pairs) == Some(39)
  {
    assert Moduli(pairs) == [3, 4, 5];
    assert Product([3, 4, 5]) == 60 by { assert [3, 4, 5][..2] == [3, 4]; assert [3, 4][..1] == [3]; }
    assert NonZeroModuli(pairs);
    SampleSum();
    ModOfShifted(-3, 60, 39);
  }

  lemma SampleSum()
    ensures CrtSum([(3, 0), (4, 3), (5, 4)], 60) == -141
  {
    SumOfThree((3, 0), (4, 3), (5, 4), 60);
    SampleTerms();
  }

  /** The fold over three pairs is the sum of their terms. */
  lemma SumOfThree(a: (int, int), b: (int, int), c: (int, int), n: int)
    requires a.0 != 0 && b.0 != 0 && c.0 != 0
    ensures CrtSum([a, b, c], n) == Term(a, n) + Term(b, n) + Term(c, n)
  {
    CrtSumSnoc([], a, n);
    assert [] + [a] == [a];
    CrtSumSnoc([a], b, n);
    assert [a] + [b] == [a, b];
    CrtSumSnoc([a, b], c, n);
    assert [a, b] + [c] == [a, b, c];
  }

  /** One more pair adds its term. */
  lemma CrtSumSnoc(pairs: seq<(int, int)>, p: (int, int), n: int)
    requires NonZeroModuli(pairs) && p.0 != 0
    ensures NonZeroModuli(pairs + [p])
    ensures CrtSum(pairs + [p], n) == CrtSum(pairs, n) + Term(p, n)
  {
    assert (pairs + [p])[..|pairs|] == pairs;
  }

  lemma SampleTerms()
    ensures Term((3, 0), 60) == 0 && Term((4, 3), 60) == -45 && Term((5, 4), 60) == -96
  {
    SampleQuotients();
    TermThree();
    TermFour();
    TermFive();
  }

  lemma SampleQuotients()
    ensures Div(60, 3) == 20 && Div(60, 4) == 15 && Div(60, 5) == 12
  {
  }

  lemma TermThree()
    requires Div(60, 3) == 20
    ensures Term((3, 0), 60) == 0
  {
  }

  lemma TermFour()
    requires Div(60, 4) == 15
    ensures Term((4, 3), 60) == -45
  {
    CoefficientFour();
  }

  lemma TermFive()
    requires Div(60, 5) == 12
    ensures Term((5, 4), 60) == -96
  {
    CoefficientFive();
  }

  /** The Bezout coefficients the sample needs. */
  lemma CoefficientThree()
    ensures Euclid(3, 20) == (1, 7, -1)
  {
    assert Euclid(2, 1) == (1, 0, 1);
    assert Euclid(3, 2) == (1, 1, -1);
    assert Euclid(20, 3) == (1, -1, 7);
  }

  lemma CoefficientFour()
    ensures Euclid(4, 15) == (1, 4, -1)
  {
    assert Euclid(3, 1) == (1, 0, 1);
    assert Euclid(4, 3) == (1, 1, -1);
    assert Euclid(15, 4) == (1, -1, 4);
  }

  lemma CoefficientFive()
    ensures Euclid(5, 12) == (1, 5, -2)
  {
    assert Euclid(2, 1) == (1, 0, 1);
    assert Euclid(5, 2) == (1, 1, -2);
    assert Euclid(12, 5) == (1, -2, 5);
  }

  // ---------------------------------------------------------------------
  // Part 2

  /** The pair entry `i` of the list gives `part2`, if it parses as a number `x`: `(x, x - i)`. */
  function Entry(parts: seq<string>, i: nat): Option<(int, int)>
    requires i < |parts|
  {
    match ParseInt(parts[i])
    case None => None
    case Some(x) => Some((x, x - i))
  }

  /** The pairs `part2` builds: the entries that parse, in order. */
  function Pairs(parts: seq<string>): (pairs: seq<(int, int)>)
    ensures |pairs| <= |parts|
    ensures forall k :: 0 <= k < |pairs| ==> exists i :: 0 <= i < |parts| && Entry(parts, i) == Some(pairs[k])
    ensures forall i :: 0 <= i < |parts| && Entry(parts, i).Some? ==> Entry(parts, i).value in pairs
  {
    if parts == [] then []
    else
      var n := |parts| - 1;
      var init := Pairs(parts[..n]);
      assert forall i :: 0 <= i < n ==> Entry(parts[..n], i) == Entry(parts, i);
      match Entry(parts, n)
      case None => init
      case Some(p) => init + [p]
  }

  /** No entry of the list is the number 0. */
  predicate NoZeroEntry(parts: seq<string>) {
    forall i :: 0 <= i < |parts| && Entry(parts, i).Some? ==> Entry(parts, i).value.0 != 0
  }

  /** At `t`, every bus `x` at offset `i` is due `i` minutes later: `t` is `x - i` modulo `x`. */
  predicate MeetsEntries(parts: seq<string>, t: int) {
    forall i :: 0 <= i < |parts| && Entry(parts, i).Some? ==>
      var (x, a) := Entry(parts, i).value;
      x > 0 && t % x == a % x
  }

  /**
   * `part2`: the pairs of the comma-separated list, solved by `crt`. It
   * panics (`None`) exactly when some entry is the number 0. With pairwise
   * coprime positive bus numbers the result meets every entry.
   */
  function Part2(ids: string): (r: Option<int>)
    ensures r.Some? <==> NoZeroEntry(Split(ids, ","))
    ensures r.Some? && CoprimeModuli(Pairs(Split(ids, ","))) ==> MeetsEntries(Split(ids, ","), r.value)
  {
    PairsNonZero(Split(ids, ","));
    PairsSolved(Split(ids, ","));
    Crt(Pairs(Split(ids, ",")))
  }

  /** No pair has modulus 0 exactly when no entry parses to 0. */
  lemma PairsNonZero(parts: seq<string>)
    ensures NonZeroModuli(Pairs(parts)) <==> NoZeroEntry(parts)
  {
    var pairs := Pairs(parts);
    if NonZeroModuli(pairs) {
      forall i | 0 <= i < |parts| && Entry(parts, i).Some?
        ensures Entry(parts, i).value.0 != 0
      {
        var j :| 0 <= j < |pairs| && pairs[j] == Entry(parts, i).value;
      }
    } else {
      var j :| 0 <= j < |pairs| && pairs[j].0 == 0;
      var i :| 0 <= i < |parts| && Entry(parts, i) == Some(pairs[j]);
    }
  }

  /** With coprime moduli, `crt` meets the congruence of every entry that parses. */
  lemma PairsSolved(parts: seq<string>)
    ensures CoprimeModuli(Pairs(parts)) ==> Crt(Pairs(parts)).Some? && MeetsEntries(parts, Crt(Pairs(parts)).value)
  {
    var pairs := Pairs(parts);
    if !CoprimeModuli(pairs) {
      return;
    }
    assert NonZeroModuli(pairs);
    forall i | 0 <= i < |parts| && Entry(parts, i).Some?
      ensures Entry(parts, i).value.0 > 0
      ensures Crt(pairs).value % Entry(parts, i).value.0 == Entry(parts, i).value.1 % Entry(parts, i).value.0
    {
      var j :| 0 <= j < |pairs| && pairs[j] == Entry(parts, i).value;
      CrtSolves(pairs, j);
    }
  }
}

=== FILE: day14.dfy ===
/** Bits of 64-bit words, numbered from the least significant, as `u64` shifts and masks use them. */
module Bits64 {
  /** A bit position as a shift amount. */
  type Index = k: bv7 | k < 64

  predicate BitAt(v: bv64, k: Index)
  {
    (v >> k) & 1 == 1
  }

  /** The shift amount of a bit position below 64. */
  function Idx(i: nat): Index
    requires i < 64
  {
    i as bv7
  }

  /** Bit `i` of `v`: `(v >> i) & 1 == 1`. */
  predicate Bit(v: bv64, i: nat)
    requires i < 64
  {
    BitAt(v, Idx(i))
  }

  /** `1 << k`. */
  function Single(k: nat): bv64
    requires k < 64
  {
    1 << Idx(k)
  }

  lemma IdxValue(i: nat)
    requires i < 64
    ensures Idx(i) as nat == i
  {
  }

  lemma SameIndex(i: nat, k: nat)
    requires i < 64 && k < 64
    ensures Idx(i) == Idx(k) <==> i == k
  {
    IdxValue(i);
    IdxValue(k);
  }

  lemma IdxBack(k: Index)
    ensures Idx(k as nat) == k
  {
    IdxValue(k as nat);
  }

  /** The nat and the bit-vector views of one bit agree. */
  lemma BitView(v: bv64, k: Index)
    ensures Bit(v, k as nat) == BitAt(v, k)
  {
    IdxBack(k);
  }

  lemma BitZero(i: nat)
    requires i < 64
    ensures !Bit(0, i)
  {
  }

  lemma BitSingleAt(k: Index, i: Index)
    ensures BitAt(1 << k, i) <==> i == k
  {
  }

  /** `1 << k` has bit `k` set and no other. */
  lemma BitSingle(k: nat, i: nat)
    requires k < 64 && i < 64
    ensures Bit(Single(k), i) <==> i == k
  {
    SameIndex(i, k);
    BitSingleAt(Idx(k), Idx(i));
  }

  lemma BitOrAt(v: bv64, k: Index, i: Index)
    ensures BitAt(v | (1 << k), i) == (BitAt(v, i) || i == k)
  {
  }

  /** Setting bit `k` changes bit `k` only. */
  lemma BitOr(v: bv64, k: nat, i: nat)
    requires k < 64 && i < 64
    ensures Bit(v | Single(k), i) <==> Bit(v, i) || i == k
  {
    SameIndex(i, k);
    BitOrAt(v, Idx(k), Idx(i));
  }

  lemma BitClearAt(v: bv64, k: Index, i: Index)
    ensures BitAt(v & !(1 << k), i) <==> BitAt(v, i) && i != k
  {
  }

  /** Clearing bit `k` changes bit `k` only. */
  lemma BitClear(v: bv64, k: nat, i: nat)
    requires k < 64 && i < 64
    ensures Bit(v & !Single(k), i) <==> Bit(v, i) && i != k
  {
    SameIndex(i, k);
    BitClearAt(v, Idx(k), Idx(i));
  }

  lemma BitAndAt(a: bv64, b: bv64, i: Index)
    ensures BitAt(a & b, i) <==> BitAt(a, i) && BitAt(b, i)
  {
  }

  lemma BitAnd(a: bv64, b: bv64, i: nat)
    requires i < 64
    ensures Bit(a & b, i) <==> Bit(a, i) && Bit(b, i)
  {
    BitAndAt(a, b, Idx(i));
  }

  lemma BitMaskedAt(v: bv64, ones: bv64, zeroes: bv64, i: Index)
    ensures BitAt((v | ones) & !zeroes, i) <==> !BitAt(zeroes, i) && (BitAt(ones, i) || BitAt(v, i))
  {
  }

  /** `(v | ones) & !zeroes`: a zero bit of the mask wins, then a one bit, then `v`'s bit. */
  lemma BitMasked(v: bv64, ones: bv64, zeroes: bv64, i: nat)
    requires i < 64
    ensures Bit((v | ones) & !zeroes, i) <==> !Bit(zeroes, i) && (Bit(ones, i) || Bit(v, i))
  {
    BitMaskedAt(v, ones, zeroes, Idx(i));
  }

  lemma XorBitAt(a: bv64, b: bv64, i: Index)
    ensures BitAt(a ^ b, i) <==> BitAt(a, i) != BitAt(b, i)
  {
  }

  /** The bits below `n`. */
  function LowMask(n: bv7): bv64
    requires n <= 64
  {
    if n == 64 then !0 else (1 << n) - 1
  }

  lemma LowMaskStep(d: bv64, n: bv7)
    requires 0 < n <= 64
    requires d & LowMask(n - 1) == 0
    requires !BitAt(d, n - 1)
    ensures d & LowMask(n) == 0
  {
  }

  lemma {:induction false} AgreeBelow(a: bv64, b: bv64, n: bv7)
    requires n <= 64
    requires forall i: Index :: i < n ==> BitAt(a, i) == BitAt(b, i)
    ensures (a ^ b) & LowMask(n) == 0
  {
    if n > 0 {
      AgreeBelow(a, b, n - 1);
      XorBitAt(a, b, n - 1);
      LowMaskStep(a ^ b, n);
    }
  }

  /** Two words with the same 64 bits are equal. */
  lemma Extensional(a: bv64, b: bv64)
    requires forall i :: 0 <= i < 64 ==> Bit(a, i) == Bit(b, i)
    ensures a == b
  {
    forall k: Index ensures BitAt(a, k) == BitAt(b, k) {
      BitView(a, k);
      BitView(b, k);
    }
    AgreeBelow(a, b, 64);
  }
}

/**
 * Day 14: a docking program that writes values to memory through bit masks.
 * Part one masks each value; part two masks the address, with floating bits
 * that take every combination of values.
 */
module Day14 {
  import opened Wrappers
  import opened Text
  import opened Numbers
  import opened Runs
  import opened Bits64

  /** The character `i` places from the right end of `s`: item `i` of `s.bytes().rev()`. */
  function FromRight(s: string, i: nat): char
    requires i < |s|
  {
    s[|s| - 1 - i]
  }

  // ----- parse_mask -----

  /** No `c` stands 64 or more places from the right, where `1 << idx` would overflow. */
  predicate Shiftable(mask: string, c: char)
  {
    forall i :: 64 <= i < |mask| ==> FromRight(mask, i) != c
  }

  function Cap(n: nat): nat
  {
    if n < 64 then n else 64
  }

  /** One more character of the mask sets one more bit, and none past the 64th. */
  lemma CollectStep(mask: string, c: char, idx: nat)
    requires idx < |mask|
    requires idx >= 64 ==> FromRight(mask, idx) != c
    ensures Collect(mask, c, Cap(idx + 1)) ==
      if FromRight(mask, idx) == c then Collect(mask, c, Cap(idx)) | Single(idx) else Collect(mask, c, Cap(idx))
  {
    if idx < 64 {
      CollectUnfold(mask, c, idx + 1);
    } else {
      assert Cap(idx + 1) == Cap(idx);
    }
  }

  lemma CollectUnfold(mask: string, c: char, n: nat)
    requires 0 < n <= |mask| && n <= 64
    ensures Collect(mask, c, n) ==
      if FromRight(mask, n - 1) == c then Collect(mask, c, n - 1) | Single(n - 1) else Collect(mask, c, n - 1)
  {
  }

  /** The word whose bit `i`, for `i < n`, is set exactly where the character `i` places from the right is `c`. */
  function Collect(mask: string, c: char, n: nat): (v: bv64)
    requires n <= |mask| && n <= 64
    ensures forall i :: 0 <= i < 64 ==> (Bit(v, i) <==> i < n && FromRight(mask, i) == c)
  {
    if n == 0 then
      assert forall i :: 0 <= i < 64 ==> !Bit(0, i) by {
        forall i | 0 <= i < 64 {
          BitZero(i);
        }
      }
      0
    else
      var v := Collect(mask, c, n - 1);
      CollectNext(v, mask, c, n);
      if FromRight(mask, n - 1) == c then v | Single(n - 1) else v
  }

  /** One more character of the mask, on a word holding the bits of the characters before it. */
  lemma CollectNext(v: bv64, mask: string, c: char, n: nat)
    requires 0 < n <= |mask| && n <= 64
    requires forall i :: 0 <= i < 64 ==> (Bit(v, i) <==> i < n - 1 && FromRight(mask, i) == c)
    ensures var w := if FromRight(mask, n - 1) == c then v | Single(n - 1) else v;
            forall i :: 0 <= i < 64 ==> (Bit(w, i) <==> i < n && FromRight(mask, i) == c)
  {
    forall i | 0 <= i < 64 {
      BitOr(v, n - 1, i);
    }
  }

  /**
   * What `parse_mask` returns: the ones and the zeroes of the mask that follows
   * the seventh character. `None` where `split_at(7)` panics on a short line or
   * a `1 << idx` overflows.
   */
  function MaskOf(line: string): Option<(bv64, bv64)>
  {
    if |line| < 7 || !Shiftable(line[7..], '1') || !Shiftable(line[7..], '0') then None
    else
      var mask := line[7..];
      Some((Collect(mask, '1', Cap(|mask|)), Collect(mask, '0', Cap(|mask|))))
  }

  /**
   * `parse_mask` panics exactly on a line shorter than seven characters or on a
   * '1' or '0' 64 or more places from the right; otherwise the ones have a bit
   * set exactly under each '1' and the zeroes exactly under each '0', so no bit
   * is in both.
   */
  lemma MaskBits(line: string)
    ensures MaskOf(line).Some? <==> 7 <= |line| && Shiftable(line[7..], '1') && Shiftable(line[7..], '0')
    ensures MaskOf(line).Some? ==> forall i :: 0 <= i < 64 ==>
      (Bit(MaskOf(line).value.0, i) <==> i < |line| - 7 && FromRight(line[7..], i) == '1') &&
      (Bit(MaskOf(line).value.1, i) <==> i < |line| - 7 && FromRight(line[7..], i) == '0')
    ensures MaskOf(line).Some? ==> MaskOf(line).value.0 & MaskOf(line).value.1 == 0
  {
    if MaskOf(line).Some? {
      var (ones, zeroes) := MaskOf(line).value;
      forall i | 0 <= i < 64
        ensures Bit(ones & zeroes, i) == Bit(0, i)
      {
        BitAnd(ones, zeroes, i);
        BitZero(i);
      }
      Extensional(ones & zeroes, 0);
    }
  }

  /** `parse_mask`: sets bit `idx` of the ones or the zeroes for each '1' or '0' met walking the mask from the right. */
  method ParseMask(line: string) returns (r: Option<(bv64, bv64)>)
    ensures r == MaskOf(line)
  {
    if |line| < 7 {
      return None;
    }
    var mask := line[7..];
    var ones: bv64 := 0;
    var zeroes: bv64 := 0;
    var idx := 0;
    while idx < |mask|
      invariant idx <= |mask|
      invariant forall i :: 64 <= i < idx ==> FromRight(mask, i) != '1' && FromRight(mask, i) != '0'
      invariant ones == Collect(mask, '1', Cap(idx))
      invariant zeroes == Collect(mask, '0', Cap(idx))
    {
      var byte := mask[|mask| - 1 - idx];
      assert byte == FromRight(mask, idx);
      if idx >= 64 && (byte == '1' || byte == '0') {
        return None;
      }
      CollectStep(mask, '1', idx);
      CollectStep(mask, '0', idx);
      if byte == '1' {
        ones := ones | Single(idx);
      } else if byte == '0' {
        zeroes := zeroes | Single(idx);
      }
      idx := idx + 1;
    }
    assert Cap(idx) == Cap(|mask|);
    return Some((ones, zeroes));
  }

  lemma SampleMaskChars(mask: string)
    requires mask == "XXXXXXXXXXXXXXXXXXXXXXXXXXXXX1XXXX0X"
    ensures |mask| == 36
    ensures forall i :: 0 <= i < 36 ==> FromRight(mask, i) == (if i == 6 then '1' else if i == 1 then '0' else 'X')
  {
    assert forall j :: 0 <= j < 36 ==> mask[j] == (if j == 29 then '1' else if j == 34 then '0' else 'X');
  }

  /** A word whose bits are those of `1 << k`. */
  lemma SingleFromBits(v: bv64, k: nat)
    requires k < 64
    requires forall i :: 0 <= i < 64 ==> (Bit(v, i) <==> i == k)
    ensures v == Single(k)
  {
    forall i | 0 <= i < 64
      ensures Bit(v, i) == Bit(Single(k), i)
    {
      BitSingle(k, i);
    }
    Extensional(v, Single(k));
  }

  /** The example mask: a one at bit 6 and a zero at bit 1, so `(64, 2)`. */
  lemma SampleMask(mask: string)
    requires mask == "XXXXXXXXXXXXXXXXXXXXXXXXXXXXX1XXXX0X"
    ensures MaskOf("mask = " + mask) == Some((64, 2))
  {
    var line := "mask = " + mask;
    assert line[7..] == mask;
    SampleMaskChars(mask);
    CollectOnly(mask, '1', 6);
    CollectOnly(mask, '0', 1);
    assert Single(6) == 64 && Single(1) == 2;
  }

  /** A 36-character mask with the character `c` only at bit `k` collects to `1 << k`. */
  lemma CollectOnly(mask: string, c: char, k: nat)
    requires |mask| == 36 && k < 36
    requires forall i :: 0 <= i < 36 ==> (FromRight(mask, i) == c <==> i == k)
    ensures Shiftable(mask, c) && Collect(mask, c, Cap(|mask|)) == Single(k)
  {
    SingleFromBits(Collect(mask, c, 36), k);
  }

  // ----- parse_mem -----

  /** `str::parse::<u64>`: decimal digits whose value fits in 64 bits. */
  function ParseU64(s: string): (r: Option<bv64>)
    ensures r.Some? <==> ParseNat(s).Some? && ParseNat(s).value < 0x1_0000_0000_0000_0000
  {
    match ParseNat(s)
    case Some(n) => if n < 0x1_0000_0000_0000_0000 then Some(n as bv64) else None
    case None => None
  }

  /**
   * `parse_mem`: the address between the fourth and the last character of the
   * text before the first " = ", and the value after it. `None` where indexing
   * the pieces, slicing or parsing panics.
   */
  function ParseMem(line: string): Option<(bv64, bv64)>
  {
    var split := Split(line, " = ");
    if |split| < 2 || |split[0]| < 5 then None
    else
      match ParseU64(split[0][4..|split[0]| - 1])
      case None => None
      case Some(addr) =>
        match ParseU64(split[1])
        case None => None
        case Some(value) => Some((addr, value))
  }

  lemma NoSpaceInDigits(s: string)
    requires AllDigits(s)
    ensures ' ' !in s
  {
  }

  lemma ParseDigits(s: string)
    requires |s| > 0 && AllDigits(s) && DigitsValue(s) < 0x1_0000_0000_0000_0000
    ensures ParseU64(s) == Some(DigitsValue(s) as bv64)
  {
    assert IsDigit(s[0]);
  }

  lemma SplitMemLine(a: string, v: string)
    requires AllDigits(a) && AllDigits(v)
    ensures Split("mem[" + a + "]" + " = " + v, " = ") == ["mem[" + a + "]", v]
  {
    var head := "mem[" + a + "]";
    NoSpaceInDigits(a);
    NoSpaceInDigits(v);
    assert ' ' !in "mem[" && ' ' !in "]";
    assert ' ' !in head;
    SplitLead(head, " = ", v);
    SplitFree(v, " = ");
  }

  /** A line `mem[a] = v` with decimal `a` and `v` is read back as the address `a` and the value `v`. */
  lemma ParseMemLine(a: string, v: string)
    requires |a| > 0 && AllDigits(a) && DigitsValue(a) < 0x1_0000_0000_0000_0000
    requires |v| > 0 && AllDigits(v) && DigitsValue(v) < 0x1_0000_0000_0000_0000
    ensures ParseMem("mem[" + a + "]" + " = " + v) == Some((DigitsValue(a) as bv64, DigitsValue(v) as bv64))
  {
    var head := "mem[" + a + "]";
    SplitMemLine(a, v);
    assert head[4..|head| - 1] == a;
    ParseDigits(a);
    ParseDigits(v);
  }

  /** The example `mem[8] = 11`. */
  lemma SampleParseMem(a: string, v: string)
    requires a == "8" && v == "11"
    ensures ParseMem("mem[" + a + "]" + " = " + v) == Some((8, 11))
  {
    SampleMemDigits(a, v);
    ParseMemLine(a, v);
  }

  lemma SampleMemDigits(a: string, v: string)
    requires a == "8" && v == "11"
    ensures |a| > 0 && AllDigits(a) && DigitsValue(a) == 8
    ensures |v| > 0 && AllDigits(v) && DigitsValue(v) == 11
  {
    assert DigitsValue(v[..1]) == 1;
  }

  // ----- the memory and its sum -----

  /** A memory address, a `u64` key of the memory map. */
  datatype Addr = Addr(bits: bv64)

  lemma KeyExists(mem: map<Addr, bv64>)
    requires |mem| != 0
    ensures exists k :: k in mem
  {
    if forall k :: k !in mem.Keys {
      assert false;
    }
  }

  /** The memory without the address `k`. */
  function Without(mem: map<Addr, bv64>, k: Addr): (rest: map<Addr, bv64>)
    requires k in mem
    ensures |rest| == |mem| - 1
  {
    var rest := map a | a in mem && a != k :: mem[a];
    assert rest.Keys == mem.Keys - {k};
    rest
  }

  /** The sum of the values in memory: `mem.values().sum()`. */
  ghost function SumValues(mem: map<Addr, bv64>): nat
    decreases |mem|
  {
    if |mem| == 0 then 0
    else
      KeyExists(mem);
      var k :| k in mem;
      mem[k] as int + SumValues(Without(mem, k))
  }

  /** The sum does not depend on the order the values are visited in. */
  lemma {:induction false} SumValuesRemove(mem: map<Addr, bv64>, k: Addr)
    requires k in mem
    ensures SumValues(mem) == mem[k] as int + SumValues(Without(mem, k))
    decreases |mem|
  {
    var j :| j in mem && SumValues(mem) == mem[j] as int + SumValues(Without(mem, j));
    if j != k {
      var mj := Without(mem, j);
      var mk := Without(mem, k);
      WithoutSwap(mem, j, k);
      SumValuesRemove(mj, k);
      SumValuesRemove(mk, j);
    }
  }

  lemma WithoutSwap(mem: map<Addr, bv64>, j: Addr, k: Addr)
    requires j in mem && k in mem && j != k
    ensures k in Without(mem, j) && Without(mem, j)[k] == mem[k]
    ensures j in Without(mem, k) && Without(mem, k)[j] == mem[j]
    ensures Without(Without(mem, j), k) == Without(Without(mem, k), j)
  {
  }

  /** Adds up the values of the memory, visiting its keys in any order. */
  method SumMemory(mem: map<Addr, bv64>) returns (total: nat)
    ensures total == SumValues(mem)
  {
    total := 0;
    var rest := mem;
    while rest != map[]
      invariant total + SumValues(rest) == SumValues(mem)
      decreases |rest|
    {
      var k :| k in rest;
      SumValuesRemove(rest, k);
      total := total + rest[k] as int;
      rest := Without(rest, k);
    }
  }

  // ----- part 1 -----

  /** The state of `part1`: the memory, and the ones and zeroes of the current mask. */
  datatype Machine = Machine(mem: map<Addr, bv64>, ones: bv64, zeroes: bv64)

  /** An empty memory and no mask bits. */
  const Start1 := Machine(map[], 0, 0)

  /** One line of `part1`: a mask line sets the mask, a memory line writes the masked value. */
  function Step1(s: Machine, line: string): Option<Machine>
  {
    if |line| < 2 then None
    else if line[..2] == "ma" then
      match MaskOf(line)
      case None => None
      case Some(m) => Some(Machine(s.mem, m.0, m.1))
    else if line[..2] == "me" then
      match ParseMem(line)
      case None => None
      case Some(w) => Some(s.(mem := s.mem[Addr(w.0) := (w.1 | s.ones) & !s.zeroes]))
    else None
  }

  lemma Overwrite(m: map<Addr, bv64>, a: Addr, y: bv64, x: bv64)
    ensures m[a := y][a := x] == m[a := x]
  {
  }

  /** A memory line of `part1` stores the value through the current mask. */
  lemma Step1Write(s: Machine, line: string, a: bv64, v: bv64)
    requires |line| >= 2 && line[..2] == "me" && ParseMem(line) == Some((a, v))
    ensures Step1(s, line) == Some(s.(mem := s.mem[Addr(a) := (v | s.ones) & !s.zeroes]))
  {
    assert line[..2][1] == 'e' != "ma"[1];
  }

  /** One line of the loop of `part1`, on the machine it finds. */
  method Line1(s: Machine, line: string) returns (t: Option<Machine>)
    ensures t == Step1(s, line)
  {
    if |line| < 2 {
      return None;
    }
    if line[..2] == "ma" {
      var res := ParseMask(line);
      if res.None? {
        return None;
      }
      return Some(Machine(s.mem, res.value.0, res.value.1));
    } else if line[..2] == "me" {
      var res := ParseMem(line);
      if res.None? {
        return None;
      }
      return Some(s.(mem := s.mem[Addr(res.value.0) := (res.value.1 | s.ones) & !s.zeroes]));
    }
    return None;
  }

  /** `part1`: `None` where it panics, else the sum of the memory the lines leave. */
  method Part1(input: string) returns (r: Option<nat>)
    ensures r.Some? <==> Run(Step1, Start1, Lines(input)).Some?
    ensures r.Some? ==> r.value == SumValues(Run(Step1, Start1, Lines(input)).value.mem)
  {
    var lines := Lines(input);
    var m := Start1;
    for i := 0 to |lines|
      invariant Run(Step1, Start1, lines[..i]) == Some(m)
    {
      RunPrefix(Step1, Start1, lines, i);
      var next := Line1(m, lines[i]);
      if next.None? {
        RunPanics(Step1, Start1, lines, i);
        return None;
      }
      m := next.value;
    }
    assert lines[..|lines|] == lines;
    var total := SumMemory(m.mem);
    return Some(total);
  }

  /**
   * A value written after a mask line is stored with a one wherever the mask
   * has '1', a zero wherever it has '0', and the value's own bit elsewhere,
   * the 64th and higher places of the mask included.
   */
  lemma WriteThroughMask(s: Machine, maskLine: string, memLine: string)
    requires |maskLine| >= 2 && maskLine[..2] == "ma" && MaskOf(maskLine).Some?
    requires |memLine| >= 2 && memLine[..2] == "me" && ParseMem(memLine).Some?
    ensures Run(Step1, s, [maskLine, memLine]).Some?
    ensures var t := Run(Step1, s, [maskLine, memLine]).value;
            var addr := Addr(ParseMem(memLine).value.0);
            var v := ParseMem(memLine).value.1;
            var mask := maskLine[7..];
            addr in t.mem &&
            forall i :: 0 <= i < 64 ==>
              (Bit(t.mem[addr], i) <==>
                 (i < |mask| && FromRight(mask, i) == '1') ||
                 (Bit(v, i) && !(i < |mask| && FromRight(mask, i) == '0')))
  {
    var (ones, zeroes) := MaskOf(maskLine).value;
    var (a, v) := ParseMem(memLine).value;
    MaskThenWrite(s, maskLine, memLine, a, v);
    MaskedBits(maskLine, v);
  }

  lemma MaskThenWrite(s: Machine, maskLine: string, memLine: string, a: bv64, v: bv64)
    requires |maskLine| >= 2 && maskLine[..2] == "ma" && MaskOf(maskLine).Some?
    requires |memLine| >= 2 && memLine[..2] == "me" && ParseMem(memLine) == Some((a, v))
    ensures var (ones, zeroes) := MaskOf(maskLine).value;
            Run(Step1, s, [maskLine, memLine]) == Some(Machine(s.mem[Addr(a) := (v | ones) & !zeroes], ones, zeroes))
  {
    MaskKeepsMemory(s, maskLine);
    var (ones, zeroes) := MaskOf(maskLine).value;
    var u := Machine(s.mem, ones, zeroes);
    assert Step1(s, maskLine) == Some(u);
    RunTwo(Step1, s, maskLine, memLine, u);
    Step1Write(u, memLine, a, v);
  }

  /** The bits of a value written through the mask of a mask line. */
  lemma MaskedBits(maskLine: string, v: bv64)
    requires MaskOf(maskLine).Some?
    ensures var (ones, zeroes) := MaskOf(maskLine).value;
            var mask := maskLine[7..];
            forall i :: 0 <= i < 64 ==>
              (Bit((v | ones) & !zeroes, i) <==>
                 (i < |mask| && FromRight(mask, i) == '1') ||
                 (Bit(v, i) && !(i < |mask| && FromRight(mask, i) == '0')))
  {
    MaskBits(maskLine);
    var (ones, zeroes) := MaskOf(maskLine).value;
    forall i | 0 <= i < 64
      ensures Bit((v | ones) & !zeroes, i) <==> !Bit(zeroes, i) && (Bit(ones, i) || Bit(v, i))
    {
      BitMasked(v, ones, zeroes, i);
    }
  }

  /** A later write to an address replaces an earlier one, whatever was written first. */
  lemma LaterWriteWins(s: Machine, first: string, second: string)
    requires |first| >= 2 && first[..2] == "me" && ParseMem(first).Some?
    requires |second| >= 2 && second[..2] == "me" && ParseMem(second).Some?
    requires ParseMem(first).value.0 == ParseMem(second).value.0
    ensures Run(Step1, s, [first, second]) == Step1(s, second)
  {
    var a := ParseMem(first).value.0;
    var v1 := ParseMem(first).value.1;
    var v2 := ParseMem(second).value.1;
    WriteTwice(s, first, second, a, v1, v2);
  }

  lemma WriteTwice(s: Machine, first: string, second: string, a: bv64, v1: bv64, v2: bv64)
    requires |first| >= 2 && first[..2] == "me" && ParseMem(first) == Some((a, v1))
    requires |second| >= 2 && second[..2] == "me" && ParseMem(second) == Some((a, v2))
    ensures Run(Step1, s, [first, second]) == Step1(s, second)
  {
    var y := (v1 | s.ones) & !s.zeroes;
    var t := s.(mem := s.mem[Addr(a) := y]);
    Step1Write(s, first, a, v1);
    RunTwo(Step1, s, first, second, t);
    Step1Write(t, second, a, v2);
    Step1Write(s, second, a, v2);
    Overwrite(s.mem, Addr(a), y, (v2 | s.ones) & !s.zeroes);
  }

  /** A mask line replaces the mask and leaves the memory alone. */
  lemma MaskKeepsMemory(s: Machine, line: string)
    requires |line| >= 2 && line[..2] == "ma"
    ensures Step1(s, line).Some? <==> MaskOf(line).Some?
    ensures Step1(s, line).Some? ==>
      Step1(s, line).value.mem == s.mem &&
      (Step1(s, line).value.ones, Step1(s, line).value.zeroes) == MaskOf(line).value
  {
  }

  // ----- part 2 -----

  /** The places, counted from the right among the first `n`, that hold an 'X', in increasing order. */
  function Floating(mask: string, n: nat): (xs: seq<nat>)
    requires n <= |mask|
    ensures forall j :: 0 <= j < |xs| ==> xs[j] < n && FromRight(mask, xs[j]) == 'X'
    ensures forall j, k :: 0 <= j < k < |xs| ==> xs[j] < xs[k]
    ensures forall i :: 0 <= i < n && FromRight(mask, i) == 'X' ==> i in xs
  {
    if n == 0 then []
    else Floating(mask, n - 1) + (if FromRight(mask, n - 1) == 'X' then [n - 1] else [])
  }

  /** The `xs` of `part2`: the places of the mask's 'X's, right to left. */
  function XIndices(mask: string): seq<nat>
  {
    Floating(mask, |mask|)
  }

  /** The closure folded in `apply_mask` over `(idx, byte)`. */
  function BaseStep(acc: bv64, addr: bv64, idx: nat, byte: char): bv64
    requires idx < 64
  {
    if (Bit(addr, idx) && byte == '0') || byte == '1' then acc | Single(idx)
    else if byte == 'X' then acc & !Single(idx)
    else acc
  }

  /** On an accumulator without bit `idx`, the closure decides bit `idx` and keeps every other bit. */
  lemma BaseStepBit(acc: bv64, addr: bv64, idx: nat, byte: char, i: nat)
    requires idx < 64 && i < 64 && !Bit(acc, idx)
    ensures Bit(BaseStep(acc, addr, idx, byte), i) <==>
      if i == idx then byte == '1' || (byte == '0' && Bit(addr, idx)) else Bit(acc, i)
  {
    BitOr(acc, idx, i);
    BitClear(acc, idx, i);
  }

  /**
   * The fold of `apply_mask` over the first `n` characters from the right: a
   * one under each '1', the address's bit under each '0', and a zero under
   * each 'X', under any other character and past the mask.
   */
  function Base(addr: bv64, mask: string, n: nat): (b: bv64)
    requires n <= |mask| && n <= 64
    ensures forall i :: 0 <= i < 64 ==>
      (Bit(b, i) <==> i < n && (FromRight(mask, i) == '1' || (FromRight(mask, i) == '0' && Bit(addr, i))))
  {
    if n == 0 then
      assert forall i :: 0 <= i < 64 ==> !Bit(0, i) by {
        forall i | 0 <= i < 64 {
          BitZero(i);
        }
      }
      0
    else
      var acc := Base(addr, mask, n - 1);
      BaseNext(acc, addr, mask, n);
      BaseStep(acc, addr, n - 1, FromRight(mask, n - 1))
  }

  /** One more character of the fold, on an accumulator holding the bits of the characters before it. */
  lemma BaseNext(acc: bv64, addr: bv64, mask: string, n: nat)
    requires 0 < n <= |mask| && n <= 64
    requires forall i :: 0 <= i < 64 ==>
      (Bit(acc, i) <==> i < n - 1 && (FromRight(mask, i) == '1' || (FromRight(mask, i) == '0' && Bit(addr, i))))
    ensures forall i :: 0 <= i < 64 ==>
      (Bit(BaseStep(acc, addr, n - 1, FromRight(mask, n - 1)), i) <==>
         i < n && (FromRight(mask, i) == '1' || (FromRight(mask, i) == '0' && Bit(addr, i))))
  {
    forall i | 0 <= i < 64 {
      BaseStepBit(acc, addr, n - 1, FromRight(mask, n - 1), i);
    }
  }

  /** `(p >> j) & 1 == 1` for a non-negative `p`. */
  predicate PermBit(p: nat, j: nat)
  {
    if j == 0 then p % 2 == 1 else PermBit(p / 2, j - 1)
  }

  /** Whether `apply_mask` can run: a shift by 64 or more, or `2u64.pow(64)`, panics. */
  predicate Applicable(mask: string, xs: seq<nat>)
  {
    |mask| <= 64 && |xs| < 64 && forall j :: 0 <= j < |xs| ==> xs[j] < 64
  }

  /** `masked_addr` after the first `k` places of `xs`: bit `xs[j]` is set where bit `j` of `p` is. */
  function Address(base: bv64, xs: seq<nat>, p: nat, k: nat): bv64
    requires k <= |xs| && forall j :: 0 <= j < |xs| ==> xs[j] < 64
  {
    if k == 0 then base
    else
      var a := Address(base, xs, p, k - 1);
      if PermBit(p, k - 1) then a | Single(xs[k - 1]) else a
  }

  /** What `apply_mask` returns: for each `perm` below `2^|xs|`, in order, its address and the value. */
  function Mutations(addr: bv64, mask: string, xs: seq<nat>, value: bv64): seq<(bv64, bv64)>
    requires Applicable(mask, xs)
  {
    var base := Base(addr, mask, |mask|);
    seq(Pow2(|xs|), p requires 0 <= p < Pow2(|xs|) => (Address(base, xs, p, |xs|), value))
  }

  /** The inner loop of `apply_mask`: sets bit `xs[j]` of `base` for each bit `j` of `perm`. */
  method FillFloating(base: bv64, xs: seq<nat>, perm: nat) returns (masked: bv64)
    requires forall j :: 0 <= j < |xs| ==> xs[j] < 64
    ensures masked == Address(base, xs, perm, |xs|)
  {
    masked := base;
    for j := 0 to |xs|
      invariant masked == Address(base, xs, perm, j)
    {
      if PermBit(perm, j) {
        masked := masked | Single(xs[j]);
      }
    }
  }

  /** `apply_mask`: one pair per `perm`, each pair the value at an address `perm` fills in. */
  method ApplyMask(addr: bv64, mask: string, xs: seq<nat>, value: bv64) returns (pairs: seq<(bv64, bv64)>)
    requires Applicable(mask, xs)
    ensures |pairs| == Pow2(|xs|)
    ensures forall k :: 0 <= k < |pairs| ==> pairs[k].1 == value
    ensures pairs == Mutations(addr, mask, xs, value)
  {
    var base := Base(addr, mask, |mask|);
    var count := Pow2(|xs|);
    pairs := [];
    var perm := 0;
    while perm < count
      invariant perm <= count && |pairs| == perm
      invariant forall k :: 0 <= k < perm ==> pairs[k] == (Address(base, xs, k, |xs|), value)
    {
      var masked := FillFloating(base, xs, perm);
      pairs := pairs + [(masked, value)];
      perm := perm + 1;
    }
    var expected := Mutations(addr, mask, xs, value);
    assert |expected| == |pairs|;
    forall k | 0 <= k < |pairs|
      ensures pairs[k] == expected[k]
    {
    }
  }

  /**
   * Whether `a` is one of the addresses the mask decodes `addr` to at bit `i`:
   * a one under '1', the address's bit under '0', either under 'X', and a zero
   * under any other character and past the mask.
   */
  predicate FitsAt(a: bv64, addr: bv64, mask: string, i: nat)
    requires i < 64
  {
    if i >= |mask| then !Bit(a, i)
    else if FromRight(mask, i) == '1' then Bit(a, i)
    else if FromRight(mask, i) == '0' then Bit(a, i) == Bit(addr, i)
    else if FromRight(mask, i) == 'X' then true
    else !Bit(a, i)
  }

  /** `a` is one of the addresses the mask decodes `addr` to. */
  predicate Decodes(a: bv64, addr: bv64, mask: string)
  {
    forall i :: 0 <= i < 64 ==> FitsAt(a, addr, mask, i)
  }

  /**
   * For distinct places `xs`, bit `xs[j]` of the address is set where the base
   * or bit `j` of `p` is, and every other bit is the base's.
   */
  lemma {:induction false} AddressBits(base: bv64, xs: seq<nat>, p: nat, k: nat)
    requires k <= |xs| && forall j :: 0 <= j < |xs| ==> xs[j] < 64
    requires forall j, l :: 0 <= j < l < |xs| ==> xs[j] < xs[l]
    ensures forall j :: 0 <= j < k ==> (Bit(Address(base, xs, p, k), xs[j]) <==> Bit(base, xs[j]) || PermBit(p, j))
    ensures forall i :: 0 <= i < 64 && i !in xs[..k] ==> (Bit(Address(base, xs, p, k), i) <==> Bit(base, i))
  {
    if k > 0 {
      AddressBits(base, xs, p, k - 1);
      var a := Address(base, xs, p, k - 1);
      assert xs[k - 1] !in xs[..k - 1];
      forall i | 0 <= i < 64 {
        AddressStepBit(base, xs, p, k, i);
      }
      assert forall i :: i in xs[..k] <==> i in xs[..k - 1] || i == xs[k - 1] by {
        assert xs[..k] == xs[..k - 1] + [xs[k - 1]];
      }
    }
  }

  lemma AddressStepBit(base: bv64, xs: seq<nat>, p: nat, k: nat, i: nat)
    requires 0 < k <= |xs| && (forall j :: 0 <= j < |xs| ==> xs[j] < 64) && i < 64
    ensures Bit(Address(base, xs, p, k), i) <==>
      Bit(Address(base, xs, p, k - 1), i) || (i == xs[k - 1] && PermBit(p, k - 1))
  {
    AddressUnfold(base, xs, p, k);
    BitOr(Address(base, xs, p, k - 1), xs[k - 1], i);
  }

  lemma AddressUnfold(base: bv64, xs: seq<nat>, p: nat, k: nat)
    requires 0 < k <= |xs| && (forall j :: 0 <= j < |xs| ==> xs[j] < 64)
    ensures Address(base, xs, p, k) ==
      if PermBit(p, k - 1) then Address(base, xs, p, k - 1) | Single(xs[k - 1]) else Address(base, xs, p, k - 1)
  {
  }

  /** The `perm` whose bit `j` is bit `xs[k + j]` of `a`. */
  function Extract(a: bv64, xs: seq<nat>, k: nat): (p: nat)
    requires k <= |xs| && forall j :: 0 <= j < |xs| ==> xs[j] < 64
    ensures p < Pow2(|xs| - k)
    ensures forall j :: 0 <= j < |xs| - k ==> (PermBit(p, j) <==> Bit(a, xs[k + j]))
    decreases |xs| - k
  {
    if k == |xs| then 0
    else
      var q := Extract(a, xs, k + 1);
      var p := (if Bit(a, xs[k]) then 1 else 0) + 2 * q;
      assert p % 2 == (if Bit(a, xs[k]) then 1 else 0) && p / 2 == q;
      assert forall j :: 0 <= j < |xs| - k ==> (PermBit(p, j) <==> Bit(a, xs[k + j])) by {
        forall j | 0 <= j < |xs| - k
          ensures PermBit(p, j) <==> Bit(a, xs[k + j])
        {
          if j > 0 {
            assert PermBit(p, j) == PermBit(q, j - 1);
            assert k + j == (k + 1) + (j - 1);
          }
        }
      }
      p
  }

  /** Two numbers below `2^n` with the same low `n` bits are equal. */
  lemma {:induction false} BitsDetermine(p: nat, q: nat, n: nat)
    requires p < Pow2(n) && q < Pow2(n)
    requires forall j :: 0 <= j < n ==> PermBit(p, j) == PermBit(q, j)
    ensures p == q
  {
    if n > 0 {
      assert PermBit(p, 0) == PermBit(q, 0);
      forall j | 0 <= j < n - 1
        ensures PermBit(p / 2, j) == PermBit(q / 2, j)
      {
        assert PermBit(p, j + 1) == PermBit(q, j + 1);
      }
      BitsDetermine(p / 2, q / 2, n - 1);
    }
  }

  /** Reading the floating bits back out of an address gives the `perm` that filled them in. */
  lemma ExtractAddress(base: bv64, xs: seq<nat>, p: nat)
    requires forall j :: 0 <= j < |xs| ==> xs[j] < 64 && !Bit(base, xs[j])
    requires forall j, l :: 0 <= j < l < |xs| ==> xs[j] < xs[l]
    requires p < Pow2(|xs|)
    ensures Extract(Address(base, xs, p, |xs|), xs, 0) == p
  {
    var a := Address(base, xs, p, |xs|);
    AddressBits(base, xs, p, |xs|);
    var e := Extract(a, xs, 0);
    forall j | 0 <= j < |xs|
      ensures PermBit(e, j) == PermBit(p, j)
    {
      assert 0 + j == j;
    }
    BitsDetermine(e, p, |xs|);
  }

  /** The base address has a zero under every 'X'. */
  lemma BaseFloatsClear(addr: bv64, mask: string)
    requires |mask| <= 64
    ensures forall j :: 0 <= j < |XIndices(mask)| ==> !Bit(Base(addr, mask, |mask|), XIndices(mask)[j])
  {
  }

  /** Every address `apply_mask` makes for `perm` is one the mask decodes the address to. */
  lemma AddressDecodes(addr: bv64, mask: string, p: nat)
    requires Applicable(mask, XIndices(mask))
    ensures Decodes(Address(Base(addr, mask, |mask|), XIndices(mask), p, |XIndices(mask)|), addr, mask)
  {
    var xs := XIndices(mask);
    var base := Base(addr, mask, |mask|);
    var a := Address(base, xs, p, |xs|);
    AddressBits(base, xs, p, |xs|);
    assert xs[..|xs|] == xs;
    forall i | 0 <= i < 64
      ensures FitsAt(a, addr, mask, i)
    {
    }
  }

  /** Every address the mask decodes `addr` to is made by `apply_mask`, for the `perm` read back out of it. */
  lemma AddressExtract(addr: bv64, mask: string, a: bv64)
    requires Applicable(mask, XIndices(mask)) && Decodes(a, addr, mask)
    ensures Extract(a, XIndices(mask), 0) < Pow2(|XIndices(mask)|)
    ensures Address(Base(addr, mask, |mask|), XIndices(mask), Extract(a, XIndices(mask), 0), |XIndices(mask)|) == a
  {
    var xs := XIndices(mask);
    var base := Base(addr, mask, |mask|);
    var e := Extract(a, xs, 0);
    var b := Address(base, xs, e, |xs|);
    AddressBits(base, xs, e, |xs|);
    BaseFloatsClear(addr, mask);
    assert xs[..|xs|] == xs;
    forall i | 0 <= i < 64
      ensures Bit(b, i) == Bit(a, i)
    {
      assert FitsAt(a, addr, mask, i);
      if i in xs {
        var j :| 0 <= j < |xs| && xs[j] == i;
        assert 0 + j == j;
      }
    }
    Extensional(b, a);
  }

  /** The addresses of `apply_mask` are pairwise distinct. */
  lemma MutationsDistinct(addr: bv64, mask: string, value: bv64)
    requires Applicable(mask, XIndices(mask))
    ensures var pairs := Mutations(addr, mask, XIndices(mask), value);
            forall k, l :: 0 <= k < l < |pairs| ==> pairs[k].0 != pairs[l].0
  {
    var xs := XIndices(mask);
    var base := Base(addr, mask, |mask|);
    var pairs := Mutations(addr, mask, xs, value);
    BaseFloatsClear(addr, mask);
    forall k, l | 0 <= k < l < |pairs|
      ensures pairs[k].0 != pairs[l].0
    {
      ExtractAddress(base, xs, k);
      ExtractAddress(base, xs, l);
    }
  }

  /** The addresses of `apply_mask` are exactly those the mask decodes the address to. */
  lemma MutationsCover(addr: bv64, mask: string, value: bv64)
    requires Applicable(mask, XIndices(mask))
    ensures var pairs := Mutations(addr, mask, XIndices(mask), value);
            forall a :: Decodes(a, addr, mask) <==> exists k :: 0 <= k < |pairs| && pairs[k].0 == a
  {
    var xs := XIndices(mask);
    var pairs := Mutations(addr, mask, xs, value);
    forall a
      ensures Decodes(a, addr, mask) <==> exists k :: 0 <= k < |pairs| && pairs[k].0 == a
    {
      if Decodes(a, addr, mask) {
        AddressExtract(addr, mask, a);
        var k := Extract(a, xs, 0);
        assert pairs[k].0 == a;
      }
      if exists k :: 0 <= k < |pairs| && pairs[k].0 == a {
        var k :| 0 <= k < |pairs| && pairs[k].0 == a;
        AddressDecodes(addr, mask, k);
      }
    }
  }

  /** Some pair of the list has address `b`. */
  predicate Listed(pairs: seq<(bv64, bv64)>, b: bv64)
  {
    exists k :: 0 <= k < |pairs| && pairs[k].0 == b
  }

  /** `HashMap::extend`: the pairs inserted in order, a later one replacing an earlier one. */
  function Extend(mem: map<Addr, bv64>, pairs: seq<(bv64, bv64)>): map<Addr, bv64>
    decreases |pairs|
  {
    if pairs == [] then mem else Extend(mem[Addr(pairs[0].0) := pairs[0].1], pairs[1..])
  }

  /** Extending by pairs that all carry `v` stores `v` at each of their addresses and keeps the rest. */
  lemma {:induction false} ExtendWrites(mem: map<Addr, bv64>, pairs: seq<(bv64, bv64)>, v: bv64)
    requires forall k :: 0 <= k < |pairs| ==> pairs[k].1 == v
    ensures forall a :: a in Extend(mem, pairs) <==> a in mem || Listed(pairs, a.bits)
    ensures forall a :: a in Extend(mem, pairs) ==>
      Extend(mem, pairs)[a] == if Listed(pairs, a.bits) then v else mem[a]
    decreases |pairs|
  {
    if pairs != [] {
      var next := mem[Addr(pairs[0].0) := v];
      ExtendWrites(next, pairs[1..], v);
      forall b
        ensures Listed(pairs, b) <==> pairs[0].0 == b || Listed(pairs[1..], b)
      {
        if Listed(pairs, b) && pairs[0].0 != b {
          var k :| 0 <= k < |pairs| && pairs[k].0 == b;
          assert pairs[1..][k - 1].0 == b;
        }
        if Listed(pairs[1..], b) {
          var k :| 0 <= k < |pairs| - 1 && pairs[1..][k].0 == b;
          assert pairs[k + 1].0 == b;
        }
      }
    }
  }

  /** The state of `part2`: the memory, the current mask, and the places of its 'X's. */
  datatype Decoder = Decoder(mem: map<Addr, bv64>, mask: string, xs: seq<nat>)

  /** An empty memory and the all-'0' mask of 36 characters, with no 'X'. */
  const Start2 := Decoder(map[], "000000000000000000000000000000000000", [])

  /**
   * One line of `part2`, chosen by its second character: 'a' sets the mask,
   * 'e' writes the value at every address the mask decodes the address to.
   */
  function Step2(s: Decoder, line: string): Option<Decoder>
  {
    if |line| < 2 then None
    else if line[1] == 'a' then
      if |line| < 7 then None else Some(s.(mask := line[7..], xs := XIndices(line[7..])))
    else if line[1] == 'e' then
      match ParseMem(line)
      case None => None
      case Some(w) =>
        if !Applicable(s.mask, s.xs) then None
        else Some(s.(mem := Extend(s.mem, Mutations(w.0, s.mask, s.xs, w.1))))
    else None
  }

  /** `xs` is always the list of the current mask's 'X' places. */
  predicate Consistent(s: Decoder)
  {
    s.xs == XIndices(s.mask)
  }

  lemma StartConsistent()
    ensures Consistent(Start2)
  {
    NoFloating(Start2.mask, |Start2.mask|);
  }

  lemma {:induction false} NoFloating(mask: string, n: nat)
    requires n <= |mask| && forall i :: 0 <= i < |mask| ==> mask[i] != 'X'
    ensures Floating(mask, n) == []
  {
    if n > 0 {
      NoFloating(mask, n - 1);
      assert FromRight(mask, n - 1) != 'X';
    }
  }

  lemma {:induction false} RunConsistent(s: Decoder, lines: seq<string>)
    requires Consistent(s) && Run(Step2, s, lines).Some?
    ensures Consistent(Run(Step2, s, lines).value)
    decreases |lines|
  {
    if lines != [] {
      RunConsistent(Step2(s, lines[0]).value, lines[1..]);
    }
  }

  /** Every state `part2` reaches keeps `xs` in step with the mask. */
  lemma ReachableConsistent(lines: seq<string>)
    requires Run(Step2, Start2, lines).Some?
    ensures Consistent(Run(Step2, Start2, lines).value)
  {
    StartConsistent();
    RunConsistent(Start2, lines);
  }

  /**
   * On a consistent state, a memory line with a mask of at most 64 characters
   * and fewer than 64 'X's writes its value at exactly the addresses the mask
   * decodes its address to, and leaves every other address as it was.
   */
  lemma FloatingWrite(s: Decoder, line: string, addr: bv64, v: bv64)
    requires Consistent(s) && Applicable(s.mask, s.xs)
    requires |line| >= 2 && line[1] == 'e' && ParseMem(line) == Some((addr, v))
    ensures Step2(s, line).Some?
    ensures var t := Step2(s, line).value;
            t.mask == s.mask && t.xs == s.xs &&
            (forall a :: a in t.mem <==> a in s.mem || Decodes(a.bits, addr, s.mask)) &&
            (forall a :: a in t.mem ==> t.mem[a] == if Decodes(a.bits, addr, s.mask) then v else s.mem[a])
  {
    var pairs := Mutations(addr, s.mask, s.xs, v);
    assert Step2(s, line) == Some(s.(mem := Extend(s.mem, pairs)));
    ExtendWrites(s.mem, pairs, v);
    MutationsCover(addr, s.mask, v);
  }

  /** One line of the loop of `part2`, on the decoder it finds. */
  method Line2(s: Decoder, line: string) returns (t: Option<Decoder>)
    ensures t == Step2(s, line)
  {
    if |line| < 2 {
      return None;
    }
    if line[1] == 'a' {
      if |line| < 7 {
        return None;
      }
      var mask := line[7..];
      return Some(s.(mask := mask, xs := XIndices(mask)));
    } else if line[1] == 'e' {
      var res := ParseMem(line);
      if res.None? || !Applicable(s.mask, s.xs) {
        return None;
      }
      var pairs := ApplyMask(res.value.0, s.mask, s.xs, res.value.1);
      return Some(s.(mem := Extend(s.mem, pairs)));
    }
    return None;
  }

  /** `part2`: `None` where it panics, else the sum of the memory the lines leave. */
  method Part2(input: string) returns (r: Option<nat>)
    ensures r.Some? <==> Run(Step2, Start2, Lines(input)).Some?
    ensures r.Some? ==> r.value == SumValues(Run(Step2, Start2, Lines(input)).value.mem)
  {
    var lines := Lines(input);
    var d := Start2;
    for i := 0 to |lines|
      invariant Run(Step2, Start2, lines[..i]) == Some(d)
    {
      RunPrefix(Step2, Start2, lines, i);
      var next := Line2(d, lines[i]);
      if next.None? {
        RunPanics(Step2, Start2, lines, i);
        return None;
      }
      d := next.value;
    }
    assert lines[..|lines|] == lines;
    var total := SumMemory(d.mem);
    return Some(total);
  }
}

=== FILE: day15.dfy ===
/**
 * Day 15, "Rambunctious Recitation". The elves' memory game: after the
 * starting numbers, each player says 0 if the previous number had not been
 * said before, and otherwise how many turns earlier it had last been said.
 * `part1` keeps, for every number, the list of turns it was said on.
 *
 * The game itself is defined first, independently of the code (`Game`);
 * then the code's own state machine (`Record`, `Turn`, `PlayFrom`), the
 * imperative `Part1`, and the proof that the two agree whenever the
 * starting numbers are distinct.
 */
module Day15 {
  import opened Wrappers

  // ---------------------------------------------------------------------
  // The game, as its rules state it

  /** The last index at which `x` occurs in `s`, if any. */
  function LastIndex(s: seq<nat>, x: nat): (r: Option<nat>)
    ensures r.None? <==> x !in s
    ensures r.Some? ==> r.value < |s| && s[r.value] == x && forall k :: r.value < k < |s| ==> s[k] != x
  {
    if s == [] then None
    else if s[|s| - 1] == x then Some(|s| - 1)
    else
      assert s == s[..|s| - 1] + [s[|s| - 1]];
      LastIndex(s[..|s| - 1], x)
  }

  /**
   * The number said after the history `s`: 0 when its last number is new,
   * else how many turns ago that number had last been said before.
   */
  function NextSpoken(s: seq<nat>): nat
    requires |s| > 0
  {
    var prev := s[..|s| - 1];
    match LastIndex(prev, s[|s| - 1])
    case None => 0
    case Some(j) => |s| - 1 - j
  }

  /**
   * The next number is 0 exactly when the last one is new; otherwise the
   * last one was said that many turns earlier and not in between.
   */
  lemma NextSpokenGap(s: seq<nat>)
    requires |s| > 0
    ensures var r := NextSpoken(s);
            (r == 0 <==> s[|s| - 1] !in s[..|s| - 1]) &&
            (r > 0 ==> r < |s| && s[|s| - 1 - r] == s[|s| - 1]) &&
            (r > 0 ==> forall k :: |s| - 1 - r < k < |s| - 1 ==> s[k] != s[|s| - 1])
  {
  }

  /** The first `n` numbers of the game that starts with `numbers`. */
  function Game(numbers: seq<nat>, n: nat): (g: seq<nat>)
    requires 0 < |numbers| <= n
    ensures |g| == n
    decreases n
  {
    if n == |numbers| then numbers
    else
      var h := Game(numbers, n - 1);
      h + [NextSpoken(h)]
  }

  /** One more turn of the game says `NextSpoken` of the turns so far. */
  lemma GameSnoc(numbers: seq<nat>, n: nat)
    requires 0 < |numbers| <= n
    ensures Game(numbers, n + 1) == Game(numbers, n) + [NextSpoken(Game(numbers, n))]
  {
  }

  /** Every number after the start is `NextSpoken` of the numbers before it. */
  lemma {:induction false} GameRule(numbers: seq<nat>, n: nat)
    requires 0 < |numbers| <= n
    ensures forall t :: |numbers| <= t < n ==> Game(numbers, n)[t] == NextSpoken(Game(numbers, n)[..t])
    decreases n
  {
    if n > |numbers| {
      GameRule(numbers, n - 1);
      var h, g := Game(numbers, n - 1), Game(numbers, n);
      assert g == h + [NextSpoken(h)];
      assert g[..n - 1] == h;
      forall t | |numbers| <= t < n ensures g[t] == NextSpoken(g[..t]) {
        if t < n - 1 {
          assert g[..t] == h[..t];
        }
      }
    }
  }

  /**
   * What `part1` should return: the number said on turn `turns`, or the
   * last starting number when `turns` does not reach past the start.
   */
  function Said(numbers: seq<nat>, turns: nat): nat
    requires |numbers| > 0
  {
    if turns <= |numbers| then numbers[|numbers| - 1] else Game(numbers, turns)[turns - 1]
  }

  /** The turns (counted from 1) on which `x` is said in the history `s`, in order. */
  function Turns(s: seq<nat>, x: nat): (ts: seq<nat>)
    ensures forall k :: 0 <= k < |ts| ==> 1 <= ts[k] <= |s| && s[ts[k] - 1] == x
    ensures forall j, k :: 0 <= j < k < |ts| ==> ts[j] < ts[k]
    ensures |ts| > 0 <==> x in s
  {
    if s == [] then []
    else
      assert s == s[..|s| - 1] + [s[|s| - 1]];
      Turns(s[..|s| - 1], x) + (if s[|s| - 1] == x then [|s|] else [])
  }

  lemma TurnsSnoc(s: seq<nat>, y: nat, x: nat)
    ensures Turns(s + [y], x) == Turns(s, x) + (if y == x then [|s| + 1] else [])
  {
    assert (s + [y])[..|s|] == s;
  }

  /** The last turn on which `x` was said is one past its last index. */
  lemma {:induction false} TurnsLast(s: seq<nat>, x: nat)
    requires x in s
    ensures Turns(s, x)[|Turns(s, x)| - 1] == LastIndex(s, x).value + 1
  {
    var p := s[..|s| - 1];
    assert s == p + [s[|s| - 1]];
    if s[|s| - 1] != x {
      TurnsLast(p, x);
    }
  }

  /** No number occurs twice among the starting numbers. */
  predicate Distinct(numbers: seq<nat>)
  {
    forall i, j :: 0 <= i < j < |numbers| ==> numbers[i] != numbers[j]
  }

  // ---------------------------------------------------------------------
  // The state of `part1`

  /** `spoken`: for each number said so far, the turns it was said on. */
  type Spoken = map<nat, seq<nat>>

  /** `spoken` holds, for every number of the history, exactly its turns. */
  ghost predicate Tracks(spoken: Spoken, hist: seq<nat>)
  {
    forall x :: (x in spoken <==> x in hist) && (x in spoken ==> spoken[x] == Turns(hist, x))
  }

  /** Every list is non-empty, strictly increasing and earlier than `turn`. */
  predicate Ordered(spoken: Spoken, turn: nat)
  {
    forall x :: x in spoken ==>
      |spoken[x]| > 0 &&
      (forall k :: 0 <= k < |spoken[x]| ==> spoken[x][k] < turn) &&
      (forall j, k :: 0 <= j < k < |spoken[x]| ==> spoken[x][j] < spoken[x][k])
  }

  lemma TracksOrdered(spoken: Spoken, hist: seq<nat>)
    requires Tracks(spoken, hist)
    ensures Ordered(spoken, |hist| + 1)
  {
    forall x | x in spoken
      ensures |spoken[x]| > 0
      ensures forall k :: 0 <= k < |spoken[x]| ==> spoken[x][k] < |hist| + 1
      ensures forall j, k :: 0 <= j < k < |spoken[x]| ==> spoken[x][j] < spoken[x][k]
    {
      assert spoken[x] == Turns(hist, x);
    }
  }

  /** `spoken.entry(x).or_insert(Vec::new()).push(turn)`. */
  function Push(spoken: Spoken, x: nat, turn: nat): (r: Spoken)
    ensures r.Keys == spoken.Keys + {x}
    ensures forall y :: y in spoken && y != x ==> r[y] == spoken[y]
  {
    spoken[x := (if x in spoken then spoken[x] else []) + [turn]]
  }

  /** Pushing the next turn of the history keeps `spoken` in step with it. */
  lemma PushTracks(spoken: Spoken, hist: seq<nat>, x: nat)
    requires Tracks(spoken, hist)
    ensures Tracks(Push(spoken, x, |hist| + 1), hist + [x])
  {
    var r := Push(spoken, x, |hist| + 1);
    forall y
      ensures (y in r <==> y in hist + [x]) && (y in r ==> r[y] == Turns(hist + [x], y))
    {
      TurnsSnoc(hist, x, y);
      assert y in hist + [x] <==> y in hist || y == x;
    }
  }

  /**
   * The starting loop of `part1`: turn `k` inserts `[k]` for the k-th
   * starting number, replacing whatever list that number already had, so
   * each starting number keeps only the last turn it was said on.
   */
  function Record(numbers: seq<nat>, k: nat): (r: Spoken)
    requires k <= |numbers|
    ensures forall x :: x in r <==> x in numbers[..k]
    ensures forall x :: x in r ==> r[x] == [LastIndex(numbers[..k], x).value + 1]
  {
    if k == 0 then map[]
    else
      var r := Record(numbers, k - 1)[numbers[k - 1] := [k]];
      assert numbers[..k] == numbers[..k - 1] + [numbers[k - 1]];
      assert numbers[..k][..k - 1] == numbers[..k - 1];
      r
  }

  lemma RecordOrdered(numbers: seq<nat>, k: nat)
    requires k <= |numbers|
    ensures Ordered(Record(numbers, k), k + 1)
  {
    var r := Record(numbers, k);
    forall x | x in r
      ensures |r[x]| == 1 && r[x][0] < k + 1
    {
      assert LastIndex(numbers[..k], x).value < k;
    }
  }

  /** With distinct starting numbers the recorded lists are exactly the turns. */
  lemma RecordTracks(numbers: seq<nat>, k: nat)
    requires k <= |numbers| && Distinct(numbers)
    ensures Tracks(Record(numbers, k), numbers[..k])
  {
    var r := Record(numbers, k);
    var s := numbers[..k];
    forall x | x in r
      ensures r[x] == Turns(s, x)
    {
      var j := LastIndex(s, x).value;
      OnlyTurn(s, j);
    }
  }

  /** In a history without repeats, the one turn of `s[j]` is `j + 1`. */
  lemma {:induction false} OnlyTurn(s: seq<nat>, j: nat)
    requires Distinct(s) && j < |s|
    ensures Turns(s, s[j]) == [j + 1]
  {
    var p := s[..|s| - 1];
    assert s == p + [s[|s| - 1]];
    if j < |s| - 1 {
      assert Distinct(p);
      OnlyTurn(p, j);
      assert s[|s| - 1] != s[j];
    }
  }

  /**
   * One turn of `part1`'s main loop. The number said next is 0 when `last`
   * has one turn on record, else the gap between its last two turns; it is
   * pushed with the current turn. A `last` without a record changes nothing.
   */
  function Turn(spoken: Spoken, last: nat, turn: nat): (Spoken, nat)
    requires Ordered(spoken, turn)
  {
    if last in spoken then
      var ts := spoken[last];
      var next := if |ts| == 1 then 0 else ts[|ts| - 1] - ts[|ts| - 2];
      (Push(spoken, next, turn), next)
    else (spoken, last)
  }

  /** Pushing the current turn keeps every list increasing and earlier than the next turn. */
  lemma PushOrdered(spoken: Spoken, x: nat, turn: nat)
    requires Ordered(spoken, turn)
    ensures Ordered(Push(spoken, x, turn), turn + 1)
  {
    var r := Push(spoken, x, turn);
    forall y | y in r
      ensures |r[y]| > 0
      ensures forall k :: 0 <= k < |r[y]| ==> r[y][k] < turn + 1
      ensures forall j, k :: 0 <= j < k < |r[y]| ==> r[y][j] < r[y][k]
    {
      if y != x {
        assert r[y] == spoken[y];
      }
    }
  }

  /** A turn keeps the state ordered for the next turn, and the number said is recorded. */
  lemma TurnOrdered(spoken: Spoken, last: nat, turn: nat)
    requires Ordered(spoken, turn)
    ensures var r := Turn(spoken, last, turn);
            Ordered(r.0, turn + 1) && (last in spoken ==> r.1 in r.0)
  {
    if last in spoken {
      var r := Turn(spoken, last, turn);
      PushOrdered(spoken, r.1, turn);
    }
  }

  /** The main loop of `part1` from `turn` through `turns`, returning the last number said. */
  function PlayFrom(spoken: Spoken, last: nat, turn: nat, turns: nat): nat
    requires Ordered(spoken, turn)
    decreases turns + 1 - turn
  {
    if turn > turns then last
    else
      var next := Turn(spoken, last, turn);
      TurnOrdered(spoken, last, turn);
      PlayFrom(next.0, next.1, turn + 1, turns)
  }

  lemma PlayUnfold(spoken: Spoken, last: nat, turn: nat, turns: nat)
    requires Ordered(spoken, turn) && turn <= turns
    ensures var next := Turn(spoken, last, turn);
            Ordered(next.0, turn + 1) && PlayFrom(spoken, last, turn, turns) == PlayFrom(next.0, next.1, turn + 1, turns)
  {
    TurnOrdered(spoken, last, turn);
  }

  /** `part1` as written: record the start, then play on from turn `len + 1`. */
  function Recited(numbers: seq<nat>, turns: nat): nat
    requires |numbers| > 0
  {
    var spoken := Record(numbers, |numbers|);
    RecordOrdered(numbers, |numbers|);
    PlayFrom(spoken, numbers[|numbers| - 1], |numbers| + 1, turns)
  }

  // ---------------------------------------------------------------------
  // The code follows the game

  /** The gap `part1` reads off the last two turns of `last` is the game's next number. */
  lemma GapIsNext(spoken: Spoken, hist: seq<nat>)
    requires |hist| > 0 && Tracks(spoken, hist)
    ensures hist[|hist| - 1] in spoken
    ensures var ts := spoken[hist[|hist| - 1]];
            |ts| > 0 && (if |ts| == 1 then 0 else ts[|ts| - 1] - ts[|ts| - 2]) == NextSpoken(hist)
  {
    var last := hist[|hist| - 1];
    var p := hist[..|hist| - 1];
    assert hist == p + [last];
    assert last in spoken;
    var ts := spoken[last];
    assert ts == Turns(hist, last);
    TurnsSnoc(p, last, last);
    assert ts == Turns(p, last) + [|hist|];
    if last in p {
      TurnsLast(p, last);
    }
  }

  /** On a state in step with the game's history, one turn says the game's next number. */
  lemma TurnFollowsGame(spoken: Spoken, hist: seq<nat>)
    requires |hist| > 0 && Tracks(spoken, hist)
    ensures Ordered(spoken, |hist| + 1)
    ensures Turn(spoken, hist[|hist| - 1], |hist| + 1).1 == NextSpoken(hist)
    ensures Tracks(Turn(spoken, hist[|hist| - 1], |hist| + 1).0, hist + [NextSpoken(hist)])
  {
    TracksOrdered(spoken, hist);
    GapIsNext(spoken, hist);
    var next := NextSpoken(hist);
    assert Turn(spoken, hist[|hist| - 1], |hist| + 1) == (Push(spoken, next, |hist| + 1), next);
    PushTracks(spoken, hist, next);
  }

  /** One turn of the loop on a state in step with `hist` moves on to `hist` plus the game's next number. */
  lemma PlayStep(spoken: Spoken, hist: seq<nat>, turns: nat) returns (spoken': Spoken)
    requires 0 < |hist| < turns && Tracks(spoken, hist)
    ensures Ordered(spoken, |hist| + 1) && Ordered(spoken', |hist| + 2)
    ensures Tracks(spoken', hist + [NextSpoken(hist)])
    ensures PlayFrom(spoken, hist[|hist| - 1], |hist| + 1, turns)
         == PlayFrom(spoken', (hist + [NextSpoken(hist)])[|hist|], |hist| + 2, turns)
  {
    var turn, last := |hist| + 1, hist[|hist| - 1];
    TurnFollowsGame(spoken, hist);
    PlayUnfold(spoken, last, turn, turns);
    spoken' := Turn(spoken, last, turn).0;
  }

  /** The history `hist` played on by the rules until it is `n` numbers long. */
  function Continue(hist: seq<nat>, n: nat): (g: seq<nat>)
    requires 0 < |hist| <= n
    ensures |g| == n
    decreases n - |hist|
  {
    if |hist| == n then hist else Continue(hist + [NextSpoken(hist)], n)
  }

  lemma ContinueDone(hist: seq<nat>)
    requires 0 < |hist|
    ensures Continue(hist, |hist|) == hist
  {
  }

  lemma ContinueSnoc(hist: seq<nat>, n: nat)
    requires 0 < |hist| < n
    ensures Continue(hist, n) == Continue(hist + [NextSpoken(hist)], n)
  {
  }

  lemma ContinueGameStep(numbers: seq<nat>, k: nat, n: nat)
    requires 0 < |numbers| <= k < n
    requires Continue(Game(numbers, k + 1), n) == Game(numbers, n)
    ensures Continue(Game(numbers, k), n) == Game(numbers, n)
  {
    var g := Game(numbers, k);
    GameSnoc(numbers, k);
    ContinueSnoc(g, n);
  }

  /** Playing on from the game's first `k` numbers gives the game's first `n`. */
  lemma {:induction false} ContinueGame(numbers: seq<nat>, k: nat, n: nat)
    requires 0 < |numbers| <= k <= n
    ensures Continue(Game(numbers, k), n) == Game(numbers, n)
    decreases n - k
  {
    if k < n {
      ContinueGame(numbers, k + 1, n);
      ContinueGameStep(numbers, k, n);
    } else {
      assert k == n;
      ContinueDone(Game(numbers, n));
    }
  }

  /** Played from a state in step with `hist`, the loop ends on the number the rules say on turn `turns`. */
  lemma {:induction false} PlayFollowsRules(spoken: Spoken, hist: seq<nat>, turns: nat)
    requires 0 < |hist| <= turns && Tracks(spoken, hist)
    ensures Ordered(spoken, |hist| + 1)
    ensures PlayFrom(spoken, hist[|hist| - 1], |hist| + 1, turns) == Continue(hist, turns)[turns - 1]
    decreases turns - |hist|
  {
    TracksOrdered(spoken, hist);
    if |hist| < turns {
      var spoken' := PlayStep(spoken, hist, turns);
      var hist' := hist + [NextSpoken(hist)];
      PlayFollowsRules(spoken', hist', turns);
      assert |hist'| == |hist| + 1;
    }
  }

  /** Played from a state in step with the game, the loop ends on the game's number for `turns`. */
  lemma PlayFollowsGame(numbers: seq<nat>, spoken: Spoken, turns: nat)
    requires 0 < |numbers| <= turns && Tracks(spoken, numbers)
    ensures Ordered(spoken, |numbers| + 1)
    ensures PlayFrom(spoken, numbers[|numbers| - 1], |numbers| + 1, turns) == Game(numbers, turns)[turns - 1]
  {
    PlayFollowsRules(spoken, numbers, turns);
    ContinueGame(numbers, |numbers|, turns);
  }

  /** With distinct starting numbers, `part1` as written returns the number said on turn `turns`. */
  lemma RecitedFollowsGame(numbers: seq<nat>, turns: nat)
    requires |numbers| > 0 && Distinct(numbers)
    ensures Recited(numbers, turns) == Said(numbers, turns)
  {
    var n := |numbers|;
    RecordTracks(numbers, n);
    assert numbers[..n] == numbers;
    if turns > n {
      PlayFollowsGame(numbers, Record(numbers, n), turns);
    }
  }

  // ---------------------------------------------------------------------
  // `part1`

  /**
   * The body of `part1`'s main loop: the `if let` on `spoken.get(&last)`,
   * then the push of the current turn for the number said.
   */
  method SayNext(spoken: Spoken, last: nat, turn: nat) returns (spoken': Spoken, said: nat)
    requires Ordered(spoken, turn)
    ensures (spoken', said) == Turn(spoken, last, turn)
  {
    spoken', said := spoken, last;
    if last in spoken {
      var ts := spoken[last];
      if |ts| == 1 {
        said := 0;
      } else {
        said := ts[|ts| - 1] - ts[|ts| - 2];
      }
      spoken' := spoken[said := (if said in spoken then spoken[said] else []) + [turn]];
    }
  }

  /** The starting loop of `part1`, inserting `[k + 1]` for the number said on turn `k + 1`. */
  method RecordStart(numbers: seq<nat>) returns (spoken: Spoken)
    ensures spoken == Record(numbers, |numbers|)
  {
    spoken := map[];
    for k := 0 to |numbers|
      invariant spoken == Record(numbers, k)
    {
      spoken := spoken[numbers[k] := [k + 1]];
    }
  }

  /**
   * `part1`: `None` where it panics (no starting numbers), else the number
   * the code leaves in `last`, which is the game's number for turn `turns`
   * whenever the starting numbers are distinct.
   */
  method Part1(numbers: seq<nat>, turns: nat) returns (r: Option<nat>)
    ensures r.Some? <==> |numbers| > 0
    ensures r.Some? ==> r.value == Recited(numbers, turns)
    ensures r.Some? && Distinct(numbers) ==> r.value == Said(numbers, turns)
  {
    var spoken := RecordStart(numbers);
    if |numbers| == 0 {
      return None;
    }
    var last := numbers[|numbers| - 1];
    var turn := |numbers| + 1;
    RecordOrdered(numbers, |numbers|);
    while turn <= turns
      invariant |numbers| < turn && Ordered(spoken, turn)
      invariant PlayFrom(spoken, last, turn, turns) == Recited(numbers, turns)
      decreases turns + 1 - turn
    {
      PlayUnfold(spoken, last, turn, turns);
      spoken, last := SayNext(spoken, last, turn);
      turn := turn + 1;
    }
    if Distinct(numbers) {
      RecitedFollowsGame(numbers, turns);
    }
    return Some(last);
  }

  // ---------------------------------------------------------------------
  // Repeated starting numbers

  /**
   * The starting loop with `push` in place of `insert`: every starting turn
   * of every number is kept, exactly as the history has them.
   */
  function RecordAll(numbers: seq<nat>, k: nat): Spoken
    requires k <= |numbers|
  {
    if k == 0 then map[]
    else Push(RecordAll(numbers, k - 1), numbers[k - 1], k)
  }

  /** After the corrected starting loop, every starting number has all its turns. */
  lemma {:induction false} RecordAllTracks(numbers: seq<nat>, k: nat)
    requires k <= |numbers|
    ensures Tracks(RecordAll(numbers, k), numbers[..k])
  {
    if k > 0 {
      var prev := RecordAll(numbers, k - 1);
      var h := numbers[..k - 1];
      assert h + [numbers[k - 1]] == numbers[..k];
      assert RecordAll(numbers, k) == Push(prev, numbers[k - 1], |h| + 1);
      RecordAllTracks(numbers, k - 1);
      PushTracks(prev, h, numbers[k - 1]);
    }
  }

  /** `part1` with the corrected starting loop. */
  function RecitedAll(numbers: seq<nat>, turns: nat): nat
    requires |numbers| > 0
  {
    var spoken := RecordAll(numbers, |numbers|);
    assert numbers[..|numbers|] == numbers;
    RecordAllTracks(numbers, |numbers|);
    TracksOrdered(spoken, numbers);
    PlayFrom(spoken, numbers[|numbers| - 1], |numbers| + 1, turns)
  }

  /** With the corrected starting loop, `part1` follows the game for every start. */
  lemma RecitedAllFollowsGame(numbers: seq<nat>, turns: nat)
    requires |numbers| > 0
    ensures RecitedAll(numbers, turns) == Said(numbers, turns)
  {
    var n := |numbers|;
    assert numbers[..n] == numbers;
    RecordAllTracks(numbers, n);
    if turns > n {
      PlayFollowsGame(numbers, RecordAll(numbers, n), turns);
    }
  }

  /**
   * With the start `0, 0` the game says 1 on turn 3 (0 was said on turns 1
   * and 2), but `insert` has forgotten turn 1 and the code says 0.
   */
  lemma RepeatedStart(numbers: seq<nat>)
    requires numbers == [0, 0]
    ensures Said(numbers, 3) == 1
    ensures Recited(numbers, 3) == 0
  {
    assert numbers[..1] == [0];
    assert Game(numbers, 3) == [0, 0, 1];
    var spoken := Record(numbers, 2);
    assert spoken == map[0 := [2]];
  }

  lemma GameStep(numbers: seq<nat>, n: nat, h: seq<nat>, v: nat)
    requires 0 < |numbers| <= n && Game(numbers, n) == h && NextSpoken(h) == v
    ensures Game(numbers, n + 1) == h + [v]
  {
  }

  /** One reply of the sample game, worked out from the history `h`. */
  lemma SampleReply(h: seq<nat>, v: nat)
    requires (h == [0, 3, 6] && v == 0) || (h == [0, 3, 6, 0] && v == 3) || (h == [0, 3, 6, 0, 3] && v == 3)
          || (h == [0, 3, 6, 0, 3, 3] && v == 1) || (h == [0, 3, 6, 0, 3, 3, 1] && v == 0)
          || (h == [0, 3, 6, 0, 3, 3, 1, 0] && v == 4) || (h == [0, 3, 6, 0, 3, 3, 1, 0, 4] && v == 0)
    ensures NextSpoken(h) == v
  {
    var p := h[..|h| - 1];
    if v == 0 {
      assert forall k :: 0 <= k < |p| ==> p[k] != h[|h| - 1];
    } else {
      assert h[|h| - 1 - v] == h[|h| - 1];
      assert forall k :: |h| - 1 - v < k < |h| - 1 ==> h[k] != h[|h| - 1];
    }
  }

  lemma SampleFirstTurns(numbers: seq<nat>)
    requires numbers == [0, 3, 6]
    ensures Game(numbers, 6) == [0, 3, 6, 0, 3, 3]
  {
    SampleReply([0, 3, 6], 0);
    GameStep(numbers, 3, [0, 3, 6], 0);
    SampleReply([0, 3, 6, 0], 3);
    GameStep(numbers, 4, [0, 3, 6, 0], 3);
    SampleReply([0, 3, 6, 0, 3], 3);
    GameStep(numbers, 5, [0, 3, 6, 0, 3], 3);
  }

  lemma SampleLaterTurns(numbers: seq<nat>)
    requires numbers == [0, 3, 6]
    ensures Game(numbers, 10) == [0, 3, 6, 0, 3, 3, 1, 0, 4, 0]
  {
    SampleFirstTurns(numbers);
    SampleReply([0, 3, 6, 0, 3, 3], 1);
    GameStep(numbers, 6, [0, 3, 6, 0, 3, 3], 1);
    SampleReply([0, 3, 6, 0, 3, 3, 1], 0);
    GameStep(numbers, 7, [0, 3, 6, 0, 3, 3, 1], 0);
    SampleReply([0, 3, 6, 0, 3, 3, 1, 0], 4);
    GameStep(numbers, 8, [0, 3, 6, 0, 3, 3, 1, 0], 4);
    SampleReply([0, 3, 6, 0, 3, 3, 1, 0, 4], 0);
    GameStep(numbers, 9, [0, 3, 6, 0, 3, 3, 1, 0, 4], 0);
  }

  /** The first example of the puzzle: from `0, 3, 6` the tenth number is 0. */
  lemma SampleGame(numbers: seq<nat>, turns: nat)
    requires numbers == [0, 3, 6] && turns == 10
    ensures Said(numbers, turns) == 0
  {
    SampleLaterTurns(numbers);
  }

  /** `part1(&[0, 3, 6], 10)` returns 0. */
  lemma SamplePart1(numbers: seq<nat>, turns: nat)
    requires numbers == [0, 3, 6] && turns == 10
    ensures Recited(numbers, turns) == 0
  {
    assert Distinct(numbers) by {
      assert numbers[0] != numbers[1] && numbers[0] != numbers[2] && numbers[1] != numbers[2];
    }
    SampleGame(numbers, turns);
    RecitedFollowsGame(numbers, turns);
  }
}

=== FILE: day16.dfy ===
/**
 * Day 16, "Ticket Translation". Each rule names a field and two inclusive
 * ranges. Part 1 sums the nearby-ticket values that satisfy no rule; part 2
 * narrows, for every position, the set of rules all valid values there
 * satisfy, assigns rules to positions from the smallest set up, and
 * multiplies the own-ticket values of the "departure" fields. The rules
 * come already parsed; every panic of the source is an `Option` here.
 */
module Day16 {
  import opened Wrappers
  import opened Text
  import opened Lists

  /** A field rule: a value is allowed if it lies in range `a` or range `b`. */
  datatype Rule = Rule(field: string, a: (nat, nat), b: (nat, nat))

  predicate Satisfies(r: Rule, x: nat)
  {
    (x >= r.a.0 && x <= r.a.1) || (x >= r.b.0 && x <= r.b.1)
  }

  /** `rules.iter().any(..)`: some rule allows `x`. */
  function AnyRule(rules: seq<Rule>, x: nat): (b: bool)
    ensures b <==> exists i :: 0 <= i < |rules| && Satisfies(rules[i], x)
  {
    if rules == [] then false
    else
      assert forall i :: 1 <= i < |rules| ==> rules[1..][i - 1] == rules[i];
      Satisfies(rules[0], x) || AnyRule(rules[1..], x)
  }

  // ---------------------------------------------------------------------
  // Part 1

  predicate IsSeparator(c: char) { c == '\n' || c == ',' }

  /** `split(|c| c == '\n' || c == ',')`: the pieces between separators. */
  function Pieces(s: string): (parts: seq<string>)
    ensures |parts| >= 1
    ensures forall k, j :: 0 <= k < |parts| && 0 <= j < |parts[k]| ==> !IsSeparator(parts[k][j])
    decreases |s|
  {
    if s == [] then [""]
    else if IsSeparator(s[0]) then [""] + Pieces(s[1..])
    else
      var rest := Pieces(s[1..]);
      [[s[0]] + rest[0]] + rest[1..]
  }

  /** The separators of `s`, in order. */
  function Separators(s: string): (seps: string)
    ensures forall j :: 0 <= j < |seps| ==> IsSeparator(seps[j])
  {
    if s == [] then [] else (if IsSeparator(s[0]) then [s[0]] else []) + Separators(s[1..])
  }

  /** The pieces put back together with the given separators between them. */
  function Weave(parts: seq<string>, seps: string): string
    requires |parts| == |seps| + 1
  {
    if seps == [] then parts[0] else parts[0] + [seps[0]] + Weave(parts[1..], seps[1..])
  }

  /** Splitting loses nothing: weaving the separators back in gives the original text. */
  lemma {:induction false} WeavePieces(s: string)
    ensures |Pieces(s)| == |Separators(s)| + 1
    ensures Weave(Pieces(s), Separators(s)) == s
    decreases |s|
  {
    if s != [] {
      WeavePieces(s[1..]);
      var rest, seps := Pieces(s[1..]), Separators(s[1..]);
      assert s == [s[0]] + s[1..];
      if IsSeparator(s[0]) {
        assert Pieces(s) == [""] + rest && Separators(s) == [s[0]] + seps;
        assert ([""] + rest)[1..] == rest;
      } else {
        var parts := [[s[0]] + rest[0]] + rest[1..];
        assert Pieces(s) == parts && Separators(s) == seps;
        if seps == [] {
          assert Weave(parts, seps) == [s[0]] + rest[0];
        } else {
          assert parts[1..] == rest[1..];
          assert Weave(parts, seps) == [s[0]] + rest[0] + [seps[0]] + Weave(rest[1..], seps[1..]);
        }
      }
    }
  }

  predicate NoSeparator(x: string)
  {
    forall j :: 0 <= j < |x| ==> !IsSeparator(x[j])
  }

  /** A separator ends the last piece of what comes before it. */
  lemma {:induction false} PiecesJoin(x: string, c: char, y: string)
    requires IsSeparator(c)
    ensures Pieces(x + [c] + y) == Pieces(x) + Pieces(y)
    decreases |x|
  {
    var s := x + [c] + y;
    if x == [] {
      assert s == [c] + y && s[1..] == y;
    } else {
      assert s[0] == x[0] && s[1..] == x[1..] + [c] + y;
      PiecesJoin(x[1..], c, y);
      var rest := Pieces(x[1..]);
      if !IsSeparator(x[0]) {
        assert (rest + Pieces(y))[0] == rest[0];
        assert (rest + Pieces(y))[1..] == rest[1..] + Pieces(y);
      }
    }
  }

  lemma {:induction false} PiecesFree(x: string)
    requires NoSeparator(x)
    ensures Pieces(x) == [x]
    decreases |x|
  {
    if x != [] {
      PiecesFree(x[1..]);
      assert [x[0]] + x[1..] == x;
    }
  }

  /** Weaving pieces free of separators and splitting again gives the pieces back. */
  lemma {:induction false} PiecesWeave(parts: seq<string>, seps: string)
    requires |parts| == |seps| + 1
    requires forall k :: 0 <= k < |parts| ==> NoSeparator(parts[k])
    requires forall j :: 0 <= j < |seps| ==> IsSeparator(seps[j])
    ensures Pieces(Weave(parts, seps)) == parts
    decreases |seps|
  {
    if seps == [] {
      PiecesFree(parts[0]);
    } else {
      PiecesWeave(parts[1..], seps[1..]);
      PiecesJoin(parts[0], seps[0], Weave(parts[1..], seps[1..]));
      PiecesFree(parts[0]);
      assert [parts[0]] + parts[1..] == parts;
    }
  }

  /**
   * The values that satisfy no rule, in order (`filter_map`); they never sum
   * to more than all the values.
   */
  function Invalid(rules: seq<Rule>, xs: seq<nat>): (r: seq<nat>)
    ensures |r| <= |xs| && Sum(r) <= Sum(xs)
  {
    if xs == [] then []
    else
      var init, y := xs[..|xs| - 1], xs[|xs| - 1];
      var tail := if AnyRule(rules, y) then [] else [y];
      SumAppend(Invalid(rules, init), tail);
      Invalid(rules, init) + tail
  }

  /** Each kept value is one of the values, and no rule allows it. */
  lemma {:induction false} InvalidMembers(rules: seq<Rule>, xs: seq<nat>)
    ensures forall k :: 0 <= k < |Invalid(rules, xs)| ==> Invalid(rules, xs)[k] in xs && !AnyRule(rules, Invalid(rules, xs)[k])
  {
    if xs != [] {
      var init := xs[..|xs| - 1];
      InvalidMembers(rules, init);
      assert forall x :: x in init ==> x in xs;
    }
  }

  /** A positive error rate comes from some value no rule allows. */
  lemma RatePositive(rules: seq<Rule>, xs: seq<nat>)
    requires Sum(Invalid(rules, xs)) > 0
    ensures exists k :: 0 <= k < |xs| && !AnyRule(rules, xs[k])
  {
    InvalidMembers(rules, xs);
    var r := Invalid(rules, xs);
    assert r != [];
    var k :| 0 <= k < |xs| && xs[k] == r[0];
  }

  /** Each value no rule allows is kept as often as it occurs, and no other value is. */
  lemma {:induction false} InvalidCounts(rules: seq<Rule>, xs: seq<nat>)
    ensures forall x :: multiset(Invalid(rules, xs))[x] == if AnyRule(rules, x) then 0 else multiset(xs)[x]
  {
    if xs != [] {
      var init, y := xs[..|xs| - 1], xs[|xs| - 1];
      assert xs == init + [y];
      InvalidCounts(rules, init);
    }
  }

  function Sum(xs: seq<nat>): nat
  {
    if xs == [] then 0 else Sum(xs[..|xs| - 1]) + xs[|xs| - 1]
  }

  /**
   * The values `part1` reads: drop the header line (`None` when there is no
   * line feed), split the rest on line feeds and commas and parse every piece
   * (`None` if one fails).
   */
  function NearbyValues(nearby: string): (r: Option<seq<nat>>)
    ensures r.Some? <==> SplitOnce(nearby, "\n").Some? && AllNumbers(Pieces(SplitOnce(nearby, "\n").value.1))
    ensures r.Some? ==> |r.value| == |Pieces(SplitOnce(nearby, "\n").value.1)|
  {
    match SplitOnce(nearby, "\n")
    case None => None
    case Some((_, body)) => Collect(ParseNat, Pieces(body))
  }

  /** Every piece is a decimal number. */
  predicate AllNumbers(pieces: seq<string>) {
    forall k :: 0 <= k < |pieces| ==> ParseNat(pieces[k]).Some?
  }

  /**
   * `part1`: the sum of the values no rule allows. It fails exactly when the
   * values cannot be read; the rate never exceeds the sum of all values, and
   * it is positive only when some value fits no rule.
   */
  function Part1(rules: seq<Rule>, nearby: string): (r: Option<nat>)
    ensures r.Some? <==> NearbyValues(nearby).Some?
    ensures r.Some? ==> r.value <= Sum(NearbyValues(nearby).value)
    ensures r.Some? && r.value > 0 ==> exists k :: 0 <= k < |NearbyValues(nearby).value| && !AnyRule(rules, NearbyValues(nearby).value[k])
  {
    match NearbyValues(nearby)
    case None => None
    case Some(xs) =>
      if Sum(Invalid(rules, xs)) > 0 then
        RatePositive(rules, xs);
        Some(Sum(Invalid(rules, xs)))
      else
        Some(Sum(Invalid(rules, xs)))
  }

  /** The error rate of two lists of values is the sum of theirs. */
  lemma {:induction false} InvalidSumAppend(rules: seq<Rule>, xs: seq<nat>, ys: seq<nat>)
    ensures Sum(Invalid(rules, xs + ys)) == Sum(Invalid(rules, xs)) + Sum(Invalid(rules, ys))
    decreases |ys|
  {
    if ys == [] {
      assert xs + ys == xs;
    } else {
      var init, y := ys[..|ys| - 1], ys[|ys| - 1];
      var tail := if AnyRule(rules, y) then [] else [y];
      var zs := xs + ys;
      assert zs[..|zs| - 1] == xs + init && zs[|zs| - 1] == y;
      assert Invalid(rules, zs) == Invalid(rules, xs + init) + tail;
      assert Invalid(rules, ys) == Invalid(rules, init) + tail;
      InvalidSumAppend(rules, xs, init);
      SumAppend(Invalid(rules, xs + init), tail);
      SumAppend(Invalid(rules, init), tail);
    }
  }

  lemma {:induction false} SumAppend(xs: seq<nat>, ys: seq<nat>)
    ensures Sum(xs + ys) == Sum(xs) + Sum(ys)
    decreases |ys|
  {
    if ys != [] {
      var init := ys[..|ys| - 1];
      var zs := xs + ys;
      assert zs[..|zs| - 1] == xs + init && zs[|zs| - 1] == ys[|ys| - 1];
      assert Sum(zs) == Sum(xs + init) + ys[|ys| - 1];
      assert Sum(ys) == Sum(init) + ys[|ys| - 1];
      SumAppend(xs, init);
    } else {
      assert xs + ys == xs;
    }
  }

  // ---------------------------------------------------------------------
  // Part 2: narrowing the candidate rules of every position

  /** A ticket line: its comma-separated values, parsed (`None` if one fails). */
  function Ticket(line: string): Option<seq<nat>>
  {
    Collect(ParseNat, Split(line, ","))
  }

  /** `(0..n).collect()`: every rule index. */
  function AllRules(n: nat): (s: set<nat>)
    ensures forall i: nat :: i in s <==> i < n
    ensures |s| == n
  {
    if n == 0 then {} else AllRules(n - 1) + {n - 1}
  }

  /** `no_match`: the rules that do not allow `x`. */
  function NoMatch(rules: seq<Rule>, x: nat): (s: set<nat>)
    ensures forall i: nat :: i in s <==> i < |rules| && !Satisfies(rules[i], x)
  {
    set i | 0 <= i < |rules| && !Satisfies(rules[i], x)
  }

  /** `no_match.len() != rules.len()` holds exactly when some rule allows `x`. */
  lemma NoMatchSize(rules: seq<Rule>, x: nat)
    ensures |NoMatch(rules, x)| == |rules| <==> !AnyRule(rules, x)
  {
    var n, s := |rules|, NoMatch(rules, x);
    SubsetSize(s, AllRules(n));
    if AnyRule(rules, x) {
      var i :| 0 <= i < n && Satisfies(rules[i], x);
      assert i in AllRules(n) && i !in s;
    } else {
      SubsetSize(AllRules(n), s);
    }
  }

  /**
   * Rule `i` allows, at position `p`, every value there that some rule
   * allows: values no rule allows are ignored, the rest of their ticket is not.
   */
  ghost predicate Allowed(rules: seq<Rule>, i: nat, p: nat, tickets: seq<seq<nat>>)
    requires i < |rules|
  {
    forall t :: 0 <= t < |tickets| && p < |tickets[t]| && AnyRule(rules, tickets[t][p]) ==> Satisfies(rules[i], tickets[t][p])
  }

  /** Every value some rule allows sits at a position below the number of rules. */
  ghost predicate Fits(rules: seq<Rule>, tickets: seq<seq<nat>>)
  {
    forall t, p :: 0 <= t < |tickets| && 0 <= p < |tickets[t]| && AnyRule(rules, tickets[t][p]) ==> p < |rules|
  }

  /** `valid` holds, for every position, exactly the rules allowed there. */
  ghost predicate Narrowed(rules: seq<Rule>, valid: seq<set<nat>>, tickets: seq<seq<nat>>)
  {
    |valid| == |rules| &&
    forall p: nat, i: nat :: p < |valid| ==> (i in valid[p] <==> i < |rules| && Allowed(rules, i, p, tickets))
  }

  /** Starting a new ticket with no values yet changes nothing. */
  lemma NarrowedEmptyTicket(rules: seq<Rule>, valid: seq<set<nat>>, done: seq<seq<nat>>)
    requires Narrowed(rules, valid, done) && Fits(rules, done)
    ensures Narrowed(rules, valid, done + [[]]) && Fits(rules, done + [[]])
  {
    forall i: nat, p: nat | i < |rules|
      ensures Allowed(rules, i, p, done + [[]]) <==> Allowed(rules, i, p, done)
    {
      assert forall t :: 0 <= t < |done| ==> (done + [[]])[t] == done[t];
    }
  }

  /** One more value `x` of the current ticket narrows only its own position. */
  lemma AllowedSnoc(rules: seq<Rule>, i: nat, p: nat, done: seq<seq<nat>>, vals: seq<nat>, x: nat)
    requires i < |rules|
    ensures Allowed(rules, i, p, done + [vals + [x]]) <==>
      Allowed(rules, i, p, done + [vals]) && (p == |vals| && AnyRule(rules, x) ==> Satisfies(rules[i], x))
  {
    var a, b := done + [vals + [x]], done + [vals];
    assert forall t :: 0 <= t < |done| ==> a[t] == b[t];
    assert a[|done|] == vals + [x] && b[|done|] == vals;
    assert forall q :: 0 <= q < |vals| ==> (vals + [x])[q] == vals[q];
    if Allowed(rules, i, p, a) {
      forall t | 0 <= t < |b| && p < |b[t]| && AnyRule(rules, b[t][p])
        ensures Satisfies(rules[i], b[t][p])
      {
        assert p < |a[t]| && a[t][p] == b[t][p];
      }
      if p == |vals| && AnyRule(rules, x) {
        assert a[|done|][p] == x;
      }
    }
  }

  /** The narrowing step of `part2` for one more value `x` keeps the candidate sets exact. */
  lemma NarrowStep(rules: seq<Rule>, valid: seq<set<nat>>, done: seq<seq<nat>>, vals: seq<nat>, x: nat)
    requires Narrowed(rules, valid, done + [vals]) && Fits(rules, done + [vals])
    requires AnyRule(rules, x) ==> |vals| < |rules|
    ensures var next := if AnyRule(rules, x) then valid[|vals| := valid[|vals|] - NoMatch(rules, x)] else valid;
            Narrowed(rules, next, done + [vals + [x]]) && Fits(rules, done + [vals + [x]])
  {
    var next := if AnyRule(rules, x) then valid[|vals| := valid[|vals|] - NoMatch(rules, x)] else valid;
    forall p: nat, i: nat | p < |next|
      ensures i in next[p] <==> i < |rules| && Allowed(rules, i, p, done + [vals + [x]])
    {
      if i < |rules| {
        AllowedSnoc(rules, i, p, done, vals, x);
      }
    }
    var a, b := done + [vals + [x]], done + [vals];
    forall t, p | 0 <= t < |a| && 0 <= p < |a[t]| && AnyRule(rules, a[t][p])
      ensures p < |rules|
    {
      if t < |done| {
        assert a[t] == b[t];
      } else if p < |vals| {
        assert a[t][p] == b[t][p];
      }
    }
  }

  /** Every candidate set of `next` lies within the one at the same position in `sets`. */
  predicate Shrinks(next: seq<set<nat>>, sets: seq<set<nat>>) {
    |next| == |sets| && forall p :: 0 <= p < |sets| ==> next[p] <= sets[p]
  }

  lemma ShrinksTrans(a: seq<set<nat>>, b: seq<set<nat>>, c: seq<set<nat>>)
    requires Shrinks(a, b) && Shrinks(b, c)
    ensures Shrinks(a, c)
  {
  }

  /** A value some rule allows at a position past the last rule makes the ticket not fit. */
  lemma TicketBreaks(rules: seq<Rule>, done: seq<seq<nat>>, line: string, k: nat, x: nat)
    requires k < |Split(line, ",")| && ParseNat(Split(line, ",")[k]) == Some(x)
    requires AnyRule(rules, x) && k >= |rules|
    ensures !(Ticket(line).Some? && Fits(rules, done + [Ticket(line).value]))
  {
    var t := Ticket(line);
    if t.Some? {
      assert t.value[k] == x;
      assert (done + [t.value])[|done|] == t.value;
    }
  }

  /**
   * The body of the inner narrowing loop for value `x` at position `k`:
   * remove the rules `x` breaks from the candidates of position `k` when some
   * rule allows `x`; `false` where the source panics because position `k`
   * has no candidate set.
   */
  method NarrowValue(rules: seq<Rule>, sets: seq<set<nat>>, ghost done: seq<seq<nat>>, ghost vals: seq<nat>, k: nat, x: nat)
    returns (ok: bool, next: seq<set<nat>>)
    requires k == |vals| && Narrowed(rules, sets, done + [vals]) && Fits(rules, done + [vals])
    ensures ok <==> !AnyRule(rules, x) || k < |rules|
    ensures ok ==> Narrowed(rules, next, done + [vals + [x]]) && Fits(rules, done + [vals + [x]])
    ensures ok ==> Shrinks(next, sets)
  {
    var no := NoMatch(rules, x);
    NoMatchSize(rules, x);
    if |no| != |rules| && k >= |rules| {
      return false, sets;
    }
    NarrowStep(rules, sets, done, vals, x);
    next := if |no| != |rules| then sets[k := sets[k] - no] else sets;
    ok := true;
  }

  /**
   * The inner narrowing loop of `part2`, over the values of one nearby
   * ticket. `None` where the source panics: a value that does not parse,
   * or a value some rule allows at a position with no candidate set.
   */
  method NarrowTicket(rules: seq<Rule>, valid: seq<set<nat>>, ghost done: seq<seq<nat>>, line: string)
    returns (r: Option<seq<set<nat>>>)
    requires Narrowed(rules, valid, done) && Fits(rules, done)
    ensures r.Some? <==> Ticket(line).Some? && Fits(rules, done + [Ticket(line).value])
    ensures r.Some? ==> Narrowed(rules, r.value, done + [Ticket(line).value])
    ensures r.Some? ==> Shrinks(r.value, valid)
  {
    var sets := valid;
    var pieces := Split(line, ",");
    var vals: seq<nat> := [];
    NarrowedEmptyTicket(rules, sets, done);
    for k := 0 to |pieces|
      invariant Collect(ParseNat, pieces[..k]) == Some(vals)
      invariant Fits(rules, done + [vals]) && Narrowed(rules, sets, done + [vals])
      invariant Shrinks(sets, valid)
    {
      var x := ParseNat(pieces[k]);
      if x.None? {
        return None;
      }
      var ok, next := NarrowValue(rules, sets, done, vals, k, x.value);
      if !ok {
        TicketBreaks(rules, done, line, k, x.value);
        return None;
      }
      ShrinksTrans(next, sets, valid);
      sets := next;
      CollectSnoc(ParseNat, pieces[..k], pieces[k]);
      assert pieces[..k + 1] == pieces[..k] + [pieces[k]];
      vals := vals + [x.value];
    }
    assert pieces[..|pieces|] == pieces;
    return Some(sets);
  }

  lemma FitsPrefix(rules: seq<Rule>, tickets: seq<seq<nat>>, m: nat)
    requires m <= |tickets|
    ensures Fits(rules, tickets) ==> Fits(rules, tickets[..m])
  {
    assert forall t :: 0 <= t < m ==> tickets[..m][t] == tickets[t];
  }

  /** The tickets parsed so far, plus the next line. */
  lemma TicketsSnoc(lines: seq<string>, li: nat, done: seq<seq<nat>>)
    requires li < |lines| && Collect(Ticket, lines[..li]) == Some(done) && Ticket(lines[li]).Some?
    ensures Collect(Ticket, lines[..li + 1]) == Some(done + [Ticket(lines[li]).value])
  {
    CollectSnoc(Ticket, lines[..li], lines[li]);
    assert lines[..li + 1] == lines[..li] + [lines[li]];
  }

  /** The tickets parsed so far, plus the next line, are a prefix of all of them. */
  lemma TicketsPrefix(rules: seq<Rule>, lines: seq<string>, li: nat, done: seq<seq<nat>>)
    requires li < |lines| && Collect(Ticket, lines[..li]) == Some(done)
    requires Collect(Ticket, lines).Some?
    ensures Ticket(lines[li]).Some?
    ensures Collect(Ticket, lines).value[..li + 1] == done + [Ticket(lines[li]).value]
  {
    var all := Collect(Ticket, lines).value;
    assert Ticket(lines[li]).Some?;
    forall k | 0 <= k < li + 1
      ensures all[k] == (done + [Ticket(lines[li]).value])[k]
    {
      if k < li {
        assert lines[..li][k] == lines[k];
      }
    }
  }

  /** The narrowing loops of `part2` over the nearby tickets (the header line already skipped). */
  method Narrow(rules: seq<Rule>, lines: seq<string>) returns (valid: Option<seq<set<nat>>>)
    ensures valid.Some? <==> Collect(Ticket, lines).Some? && Fits(rules, Collect(Ticket, lines).value)
    ensures valid.Some? ==> Narrowed(rules, valid.value, Collect(Ticket, lines).value)
  {
    var n := |rules|;
    var sets := seq(n, _ => AllRules(n));
    ghost var done: seq<seq<nat>> := [];
    assert Narrowed(rules, sets, done);
    for li := 0 to |lines|
      invariant Collect(Ticket, lines[..li]) == Some(done)
      invariant Fits(rules, done) && Narrowed(rules, sets, done)
    {
      var next := NarrowTicket(rules, sets, done, lines[li]);
      if next.None? {
        ghost var all := Collect(Ticket, lines);
        if all.Some? {
          TicketsPrefix(rules, lines, li, done);
          FitsPrefix(rules, all.value, li + 1);
        }
        return None;
      }
      TicketsSnoc(lines, li, done);
      sets := next.value;
      done := done + [Ticket(lines[li]).value];
    }
    assert lines[..|lines|] == lines;
    return Some(sets);
  }


  // ---------------------------------------------------------------------
  // Part 2: matching positions to rules, fewest candidates first

  /**
   * Position `a` sorts before position `b`: fewer candidates, or as many and
   * an earlier position (`sort_by_key` is a stable sort).
   */
  predicate Before(valid: seq<set<nat>>, a: nat, b: nat)
    requires a < |valid| && b < |valid|
  {
    |valid[a]| < |valid[b]| || (|valid[a]| == |valid[b]| && a < b)
  }

  /** `order` lists positions of `valid`, each one before the next. */
  predicate SizeOrdered(valid: seq<set<nat>>, order: seq<nat>)
  {
    (forall k :: 0 <= k < |order| ==> order[k] < |valid|) &&
    forall j, k :: 0 <= j < k < |order| ==> Before(valid, order[j], order[k])
  }

  /** Inserts position `p` into a size-ordered list of positions. */
  function InsertBySize(valid: seq<set<nat>>, p: nat, order: seq<nat>): (r: seq<nat>)
    requires p < |valid| && SizeOrdered(valid, order) && p !in order
    ensures SizeOrdered(valid, r) && |r| == |order| + 1
    ensures forall q :: q in r <==> q in order || q == p
  {
    if order == [] || Before(valid, p, order[0]) then [p] + order
    else
      var rest := InsertBySize(valid, p, order[1..]);
      assert forall k :: 0 <= k < |rest| ==> Before(valid, order[0], rest[k]) by {
        forall k | 0 <= k < |rest| ensures Before(valid, order[0], rest[k]) {
          assert rest[k] in rest;
          if rest[k] != p {
            assert rest[k] in order[1..];
            var j :| 0 <= j < |order[1..]| && order[1..][j] == rest[k];
            assert order[1..][j] == order[j + 1];
          }
        }
      }
      [order[0]] + rest
  }

  /** `valid_rules` after `sort_by_key(|(_, pos)| pos.len())`: positions `0..n`, by size. */
  function BySize(valid: seq<set<nat>>, n: nat): (r: seq<nat>)
    requires n <= |valid|
    ensures SizeOrdered(valid, r) && |r| == n
    ensures forall q: nat :: q in r <==> q < n
  {
    if n == 0 then [] else InsertBySize(valid, n - 1, BySize(valid, n - 1))
  }

  /** The first position of a size ordering comes before every other one of it. */
  lemma HeadFirst(valid: seq<set<nat>>, order: seq<nat>, q: nat)
    requires SizeOrdered(valid, order) && q in order
    ensures q == order[0] || Before(valid, order[0], q)
  {
  }

  /** Two size orderings of the same positions are the same list: the sort's outcome is determined. */
  lemma {:induction false} SizeOrderedUnique(valid: seq<set<nat>>, o1: seq<nat>, o2: seq<nat>)
    requires SizeOrdered(valid, o1) && SizeOrdered(valid, o2)
    requires |o1| == |o2| && forall q :: q in o1 <==> q in o2
    ensures o1 == o2
  {
    if o1 != [] {
      HeadFirst(valid, o1, o2[0]);
      HeadFirst(valid, o2, o1[0]);
      assert o1[0] == o2[0];
      assert o1 == [o1[0]] + o1[1..] && o2 == [o2[0]] + o2[1..];
      forall q ensures q in o1[1..] <==> q in o2[1..] {
        if q in o1[1..] {
          var j :| 1 <= j < |o1| && o1[j] == q;
          assert Before(valid, o1[0], q) && q in o2;
          var i :| 0 <= i < |o2| && o2[i] == q;
          assert o2[1..][i - 1] == q;
        }
        if q in o2[1..] {
          var j :| 1 <= j < |o2| && o2[j] == q;
          assert Before(valid, o2[0], q) && q in o1;
          var i :| 0 <= i < |o1| && o1[i] == q;
          assert o1[1..][i - 1] == q;
        }
      }
      SizeOrderedUnique(valid, o1[1..], o2[1..]);
      assert o1 == [o1[0]] + o1[1..] && o2 == [o2[0]] + o2[1..];
    }
  }

  /**
   * `picks[k]` is the rule matched to position `order[k]`: one of its
   * candidates that no earlier position was matched to.
   */
  predicate Assignment(valid: seq<set<nat>>, order: seq<nat>, picks: seq<nat>)
  {
    |picks| == |order| &&
    forall k :: 0 <= k < |order| ==> order[k] < |valid| && picks[k] in valid[order[k]] && picks[k] !in picks[..k]
  }

  /** Matching one more position to a candidate not matched before extends an assignment. */
  lemma AssignmentSnoc(valid: seq<set<nat>>, order: seq<nat>, picks: seq<nat>, position: nat, rule: nat)
    requires Assignment(valid, order, picks)
    requires position < |valid| && rule in valid[position] && rule !in picks
    ensures Assignment(valid, order + [position], picks + [rule])
  {
    var o, q := order + [position], picks + [rule];
    forall k | 0 <= k < |o|
      ensures o[k] < |valid| && q[k] in valid[o[k]] && q[k] !in q[..k]
    {
      if k < |order| {
        assert o[k] == order[k] && q[k] == picks[k] && q[..k] == picks[..k];
      } else {
        assert q[..k] == picks;
      }
    }
  }

  /**
   * The product of the values of `mine` at the positions matched to a rule
   * whose field starts with "departure"; `None` where the source panics on an
   * index.
   */
  function DepartureProduct(rules: seq<Rule>, mine: seq<nat>, order: seq<nat>, picks: seq<nat>): Option<nat>
    requires |picks| == |order|
  {
    if order == [] then Some(1)
    else
      var k := |order| - 1;
      match DepartureProduct(rules, mine, order[..k], picks[..k])
      case None => None
      case Some(q) =>
        if picks[k] >= |rules| then None
        else if !StartsWith(rules[picks[k]].field, "departure") then Some(q)
        else if order[k] < |mine| then Some(q * mine[order[k]])
        else None
  }

  /**
   * The product is defined exactly when every pick names a rule and every
   * "departure" position has a value on `mine`.
   */
  lemma {:induction false} DepartureDefined(rules: seq<Rule>, mine: seq<nat>, order: seq<nat>, picks: seq<nat>)
    requires |picks| == |order|
    ensures DepartureProduct(rules, mine, order, picks).Some? <==> forall k :: 0 <= k < |order| ==>
      picks[k] < |rules| && (StartsWith(rules[picks[k]].field, "departure") ==> order[k] < |mine|)
  {
    if order != [] {
      var k := |order| - 1;
      DepartureDefined(rules, mine, order[..k], picks[..k]);
      assert forall j :: 0 <= j < k ==> order[..k][j] == order[j] && picks[..k][j] == picks[j];
    }
  }

  /** One more matched position extends the product as the loop of `part2` does. */
  lemma DepartureSnoc(rules: seq<Rule>, mine: seq<nat>, order: seq<nat>, picks: seq<nat>, position: nat, rule: nat)
    requires |picks| == |order| && DepartureProduct(rules, mine, order, picks).Some? && rule < |rules|
    ensures var q := DepartureProduct(rules, mine, order, picks).value;
      DepartureProduct(rules, mine, order + [position], picks + [rule]) ==
        if !StartsWith(rules[rule].field, "departure") then Some(q)
        else if position < |mine| then Some(q * mine[position])
        else None
  {
    assert (order + [position])[..|order|] == order && (picks + [rule])[..|picks|] == picks;
  }

  /** Without a "departure" field among the picked rules the product is empty: 1. */
  lemma {:induction false} NoDepartureProduct(rules: seq<Rule>, mine: seq<nat>, order: seq<nat>, picks: seq<nat>)
    requires |picks| == |order| && forall k :: 0 <= k < |picks| ==> picks[k] < |rules|
    requires forall i :: 0 <= i < |rules| ==> !StartsWith(rules[i].field, "departure")
    ensures DepartureProduct(rules, mine, order, picks) == Some(1)
  {
    if order != [] {
      var k := |order| - 1;
      NoDepartureProduct(rules, mine, order[..k], picks[..k]);
    }
  }

  /** The elements of a sequence. */
  function Elems(s: seq<nat>): (e: set<nat>)
    ensures forall x :: x in e <==> x in s
  {
    set x | x in s
  }

  /** A sequence without repeats has as many elements as entries. */
  lemma {:induction false} DistinctCard(s: seq<nat>)
    requires forall k :: 0 <= k < |s| ==> s[k] !in s[..k]
    ensures |Elems(s)| == |s|
  {
    if s != [] {
      var n := |s| - 1;
      DistinctPrefix(s, s[..n]);
      DistinctCard(s[..n]);
      ElemsSnoc(s);
    }
  }

  /** A prefix of a sequence without repeats has none either. */
  lemma DistinctPrefix(s: seq<nat>, pre: seq<nat>)
    requires s != [] && pre == s[..|s| - 1] && forall k :: 0 <= k < |s| ==> s[k] !in s[..k]
    ensures forall k :: 0 <= k < |pre| ==> pre[k] !in pre[..k]
  {
    forall k | 0 <= k < |pre| ensures pre[k] !in pre[..k] {
      assert pre[k] == s[k] && pre[..k] == s[..k];
    }
  }

  /** The last entry, when new, adds one element. */
  lemma ElemsSnoc(s: seq<nat>)
    requires s != [] && s[|s| - 1] !in s[..|s| - 1]
    ensures |Elems(s)| == |Elems(s[..|s| - 1])| + 1
  {
    var n := |s| - 1;
    assert s == s[..n] + [s[n]];
    assert Elems(s) == Elems(s[..n]) + {s[n]};
  }

  /**
   * The candidate sets, taken in `order`, grow by one rule at a time: the
   * shape under which matching fewest candidates first is forced.
   */
  predicate Chain(valid: seq<set<nat>>, order: seq<nat>)
  {
    (forall k :: 0 <= k < |order| ==> order[k] < |valid| && |valid[order[k]]| == k + 1) &&
    forall k :: 0 < k < |order| ==> valid[order[k - 1]] <= valid[order[k]]
  }

  lemma {:induction false} ChainGrows(valid: seq<set<nat>>, order: seq<nat>, j: nat, k: nat)
    requires Chain(valid, order) && j <= k < |order|
    ensures valid[order[j]] <= valid[order[k]]
    decreases k - j
  {
    if j < k {
      ChainGrows(valid, order, j, k - 1);
    }
  }

  /** Under a chain, the first `k` picks use up exactly the candidates of position `order[k - 1]`. */
  lemma PicksFill(valid: seq<set<nat>>, order: seq<nat>, picks: seq<nat>, k: nat)
    requires Chain(valid, order) && Assignment(valid, order, picks) && 0 < k <= |order|
    ensures Elems(picks[..k]) == valid[order[k - 1]]
  {
    var p := picks[..k];
    forall j | 0 <= j < k ensures p[j] !in p[..j] && p[j] in valid[order[k - 1]] {
      assert p[..j] == picks[..j];
      ChainGrows(valid, order, j, k - 1);
    }
    DistinctCard(p);
    SubsetSize(Elems(p), valid[order[k - 1]]);
  }

  lemma SubsetDifference(a: set<nat>, b: set<nat>)
    requires a <= b
    ensures |b - a| == |b| - |a|
  {
    assert b == a + (b - a) && a * (b - a) == {};
  }

  lemma Singleton(d: set<nat>, a: nat, b: nat)
    requires |d| == 1 && a in d && b in d
    ensures a == b
  {
    SubsetSize({a}, d);
  }

  /** Under a chain, picks that agree so far agree on the next position too. */
  lemma ForcedPick(valid: seq<set<nat>>, order: seq<nat>, p1: seq<nat>, p2: seq<nat>, j: nat)
    requires Chain(valid, order) && Assignment(valid, order, p1) && Assignment(valid, order, p2)
    requires j < |order| && p1[..j] == p2[..j]
    ensures p1[j] == p2[j]
  {
    if j == 0 {
      Singleton(valid[order[0]], p1[0], p2[0]);
    } else {
      PicksFill(valid, order, p1, j);
      PicksFill(valid, order, p2, j);
      var a, b := valid[order[j - 1]], valid[order[j]];
      SubsetDifference(a, b);
      Singleton(b - a, p1[j], p2[j]);
    }
  }

  /**
   * Under a chain, there is only one assignment: whichever candidate the
   * hash set yields first, the matching is the same.
   */
  lemma {:induction false} AssignmentForced(valid: seq<set<nat>>, order: seq<nat>, p1: seq<nat>, p2: seq<nat>, k: nat)
    requires Chain(valid, order) && Assignment(valid, order, p1) && Assignment(valid, order, p2)
    requires k <= |order|
    ensures p1[..k] == p2[..k]
  {
    if k > 0 {
      AssignmentForced(valid, order, p1, p2, k - 1);
      ForcedPick(valid, order, p1, p2, k - 1);
      assert p1[..k] == p1[..k - 1] + [p1[k - 1]] && p2[..k] == p2[..k - 1] + [p2[k - 1]];
    }
  }

  /** `nearby.lines().skip(1)`: the nearby ticket lines, header skipped. */
  function NearbyLines(nearby: string): seq<string>
  {
    var ls := Lines(nearby);
    if ls == [] then [] else ls[1..]
  }

  /** `ticket.lines().nth(1)`, parsed; `None` where the source panics. */
  function MyTicket(ticket: string): Option<seq<nat>>
  {
    var ls := Lines(ticket);
    if |ls| < 2 then None else Ticket(ls[1])
  }

  /**
   * The matching loop of `part2`: every position in `order` takes a candidate
   * rule not yet matched, and the values of `mine` at positions matched to a
   * "departure" field are multiplied. `None` where the source panics.
   */
  method Match(rules: seq<Rule>, valid: seq<set<nat>>, order: seq<nat>, mine: seq<nat>)
    returns (r: Option<nat>, ghost picks: seq<nat>)
    requires forall p, i :: 0 <= p < |valid| && i in valid[p] ==> i < |rules|
    requires forall k :: 0 <= k < |order| ==> order[k] < |valid|
    ensures r.Some? ==> Assignment(valid, order, picks) && DepartureProduct(rules, mine, order, picks) == r
  {
    var matched: set<nat> := {};
    var prod: int := 1;
    picks := [];
    for k := 0 to |order|
      invariant |picks| == k
      invariant forall q :: q in matched <==> q in picks
      invariant Assignment(valid, order[..k], picks)
      invariant DepartureProduct(rules, mine, order[..k], picks) == Some(prod)
    {
      var position := order[k];
      var unmatched := valid[position] - matched;
      if unmatched == {} {
        return None, picks;
      }
      var rule :| rule in unmatched;
      matched := matched + {rule};
      if StartsWith(rules[rule].field, "departure") {
        if position >= |mine| {
          return None, picks;
        }
        prod := prod * mine[position];
      }
      assert order[..k + 1] == order[..k] + [position];
      DepartureSnoc(rules, mine, order[..k], picks, position, rule);
      AssignmentSnoc(valid, order[..k], picks, position, rule);
      picks := picks + [rule];
    }
    assert order[..|order|] == order;
    return Some(prod), picks;
  }

  /**
   * A product `part2` may return for these tickets: the exact candidate
   * sets, positions by size, each matched to a candidate not matched before.
   */
  ghost predicate Outcome(rules: seq<Rule>, tickets: seq<seq<nat>>, mine: seq<nat>, v: nat)
  {
    exists valid: seq<set<nat>>, picks: seq<nat> ::
      Narrowed(rules, valid, tickets) && Assignment(valid, BySize(valid, |valid|), picks) &&
      DepartureProduct(rules, mine, BySize(valid, |valid|), picks) == Some(v)
  }

  /**
   * `part2`. The source takes the first element of a `HashSet` difference,
   * whose iteration order is not fixed; the model picks any element.
   */
  method Part2(rules: seq<Rule>, nearby: string, ticket: string) returns (r: Option<nat>)
    ensures Collect(Ticket, NearbyLines(nearby)).None? ==> r.None?
    ensures MyTicket(ticket).None? ==> r.None?
    ensures r.Some? ==> Fits(rules, Collect(Ticket, NearbyLines(nearby)).value)
    ensures r.Some? ==> Outcome(rules, Collect(Ticket, NearbyLines(nearby)).value, MyTicket(ticket).value, r.value)
  {
    var v := Narrow(rules, NearbyLines(nearby));
    if v.None? {
      return None;
    }
    var valid := v.value;
    var order := BySize(valid, |valid|);
    var m := MyTicket(ticket);
    if m.None? {
      return None;
    }
    ghost var picks;
    r, picks := Match(rules, valid, order, m.value);
    if r.Some? {
      ghost var tickets := Collect(Ticket, NearbyLines(nearby)).value;
      assert Narrowed(rules, valid, tickets) && Assignment(valid, BySize(valid, |valid|), picks);
    }
  }

  /** With no "departure" field among the rules, every product `part2` may return is 1. */
  lemma NoDepartureOutcome(rules: seq<Rule>, tickets: seq<seq<nat>>, mine: seq<nat>, v: nat)
    requires forall i :: 0 <= i < |rules| ==> !StartsWith(rules[i].field, "departure")
    requires Outcome(rules, tickets, mine, v)
    ensures v == 1
  {
    var valid: seq<set<nat>>, picks: seq<nat> :|
      Narrowed(rules, valid, tickets) && Assignment(valid, BySize(valid, |valid|), picks) &&
      DepartureProduct(rules, mine, BySize(valid, |valid|), picks) == Some(v);
    NoDepartureProduct(rules, mine, BySize(valid, |valid|), picks);
  }

  /** The rules of the second example: none is a "departure" field, so its answer is 1. */
  lemma SamplePart2(rules: seq<Rule>, tickets: seq<seq<nat>>, mine: seq<nat>, v: nat)
    requires rules == [Rule("class", (0, 1), (4, 19)), Rule("row", (0, 5), (8, 19)), Rule("seat", (0, 13), (16, 19))]
    requires Outcome(rules, tickets, mine, v)
    ensures v == 1
  {
    NoDepartureOutcome(rules, tickets, mine, v);
  }

  /** The three rules of the examples. */
  const SampleRules := [Rule("class", (1, 3), (5, 7)), Rule("row", (6, 11), (33, 44)), Rule("seat", (13, 40), (45, 50))]

  /** A ticket line `a,b,c` of numbers splits into its three numbers. */
  lemma SampleLine(l: string, a: string, b: string, c: string)
    requires NoSeparator(a) && NoSeparator(b) && NoSeparator(c)
    requires l == a + [','] + b + [','] + c
    ensures Pieces(l) == [a, b, c]
  {
    PiecesJoin(a + [','] + b, ',', c);
    PiecesJoin(a, ',', b);
    PiecesFree(a);
    PiecesFree(b);
    PiecesFree(c);
  }

  lemma SampleValues(l1: string, l2: string, l3: string, l4: string, parts: seq<string>)
    requires l1 == "7,3,47" && l2 == "40,4,50" && l3 == "55,2,20" && l4 == "38,6,12"
    requires parts == ["7", "3", "47", "40", "4", "50", "55", "2", "20", "38", "6", "12"]
    ensures Pieces(l1 + ['\n'] + l2 + ['\n'] + l3 + ['\n'] + l4) == parts
  {
    FourLines(l1, l2, l3, l4);
    SampleFirstLines(l1, l2);
    SampleLastLines(l3, l4);
  }

  lemma SampleFirstLines(l1: string, l2: string)
    requires l1 == "7,3,47" && l2 == "40,4,50"
    ensures Pieces(l1) == ["7", "3", "47"] && Pieces(l2) == ["40", "4", "50"]
  {
    SampleLine(l1, "7", "3", "47");
    SampleLine(l2, "40", "4", "50");
  }

  lemma SampleLastLines(l3: string, l4: string)
    requires l3 == "55,2,20" && l4 == "38,6,12"
    ensures Pieces(l3) == ["55", "2", "20"] && Pieces(l4) == ["38", "6", "12"]
  {
    SampleLine(l3, "55", "2", "20");
    SampleLine(l4, "38", "6", "12");
  }

  lemma FourLines(l1: string, l2: string, l3: string, l4: string)
    ensures Pieces(l1 + ['\n'] + l2 + ['\n'] + l3 + ['\n'] + l4) == Pieces(l1) + Pieces(l2) + Pieces(l3) + Pieces(l4)
  {
    PiecesJoin(l1, '\n', l2);
    PiecesJoin(l1 + ['\n'] + l2, '\n', l3);
    PiecesJoin(l1 + ['\n'] + l2 + ['\n'] + l3, '\n', l4);
  }

  lemma SampleParse(parts: seq<string>, xs: seq<nat>)
    requires parts == ["7", "3", "47", "40", "4", "50", "55", "2", "20", "38", "6", "12"]
    requires xs == [7, 3, 47, 40, 4, 50, 55, 2, 20, 38, 6, 12]
    ensures Collect(ParseNat, parts) == Some(xs)
  {
    OneDigit("7", 7); OneDigit("3", 3); TwoDigits("47", 47);
    TwoDigits("40", 40); OneDigit("4", 4); TwoDigits("50", 50);
    TwoDigits("55", 55); OneDigit("2", 2); TwoDigits("20", 20);
    TwoDigits("38", 38); OneDigit("6", 6); TwoDigits("12", 12);
    CollectIs(ParseNat, parts, xs);
  }

  lemma OneRate(rules: seq<Rule>, x: nat)
    ensures Sum(Invalid(rules, [x])) == if AnyRule(rules, x) then 0 else x
  {
    assert [x][..0] == [];
  }

  /** The error rate of a ticket of three values. */
  lemma TicketRate(rules: seq<Rule>, p: nat, q: nat, r: nat)
    ensures Sum(Invalid(rules, [p, q, r])) ==
      (if AnyRule(rules, p) then 0 else p) + (if AnyRule(rules, q) then 0 else q) + (if AnyRule(rules, r) then 0 else r)
  {
    assert [p, q, r] == [p] + [q] + [r];
    InvalidSumAppend(rules, [p], [q]);
    InvalidSumAppend(rules, [p] + [q], [r]);
    OneRate(rules, p);
    OneRate(rules, q);
    OneRate(rules, r);
  }

  /** Under the example rules a value is allowed iff it lies in 1-3, 5-11, 13-44 or 45-50. */
  lemma SampleRanges(rules: seq<Rule>)
    requires rules == SampleRules
    ensures forall x :: AnyRule(rules, x) <==> (1 <= x <= 3 || 5 <= x <= 11 || 13 <= x <= 44 || 45 <= x <= 50)
  {
    forall x ensures AnyRule(rules, x) <==> (1 <= x <= 3 || 5 <= x <= 11 || 13 <= x <= 44 || 45 <= x <= 50) {
      assert rules[0].a == (1, 3) && rules[0].b == (5, 7);
      assert rules[1].a == (6, 11) && rules[1].b == (33, 44);
      assert rules[2].a == (13, 40) && rules[2].b == (45, 50);
    }
  }

  lemma SampleRate(rules: seq<Rule>, xs: seq<nat>)
    requires rules == SampleRules
    requires xs == [7, 3, 47, 40, 4, 50, 55, 2, 20, 38, 6, 12]
    ensures Sum(Invalid(rules, xs)) == 71
  {
    var a, b, c, d := [7, 3, 47], [40, 4, 50], [55, 2, 20], [38, 6, 12];
    assert xs == ((a + b) + c) + d;
    TicketRate(rules, 7, 3, 47);
    TicketRate(rules, 40, 4, 50);
    TicketRate(rules, 55, 2, 20);
    TicketRate(rules, 38, 6, 12);
    SampleRanges(rules);
    InvalidSumAppend(rules, a, b);
    InvalidSumAppend(rules, a + b, c);
    InvalidSumAppend(rules, (a + b) + c, d);
  }

  /** The example's four ticket lines parse to their twelve values. */
  lemma SampleBody(l1: string, l2: string, l3: string, l4: string)
    requires l1 == "7,3,47" && l2 == "40,4,50" && l3 == "55,2,20" && l4 == "38,6,12"
    ensures Collect(ParseNat, Pieces(l1 + ['\n'] + l2 + ['\n'] + l3 + ['\n'] + l4)) ==
              Some([7, 3, 47, 40, 4, 50, 55, 2, 20, 38, 6, 12])
  {
    var parts := ["7", "3", "47", "40", "4", "50", "55", "2", "20", "38", "6", "12"];
    SampleValues(l1, l2, l3, l4, parts);
    SampleParse(parts, [7, 3, 47, 40, 4, 50, 55, 2, 20, 38, 6, 12]);
  }

  /** The example of `part1`: the invalid values 4, 55 and 12 sum to 71. */
  lemma SamplePart1(rules: seq<Rule>, header: string, l1: string, l2: string, l3: string, l4: string)
    requires rules == SampleRules && header == "nearby tickets:"
    requires l1 == "7,3,47" && l2 == "40,4,50" && l3 == "55,2,20" && l4 == "38,6,12"
    ensures Part1(rules, header + ['\n'] + l1 + ['\n'] + l2 + ['\n'] + l3 + ['\n'] + l4) == Some(71)
  {
    var body := l1 + ['\n'] + l2 + ['\n'] + l3 + ['\n'] + l4;
    assert header + ['\n'] + l1 + ['\n'] + l2 + ['\n'] + l3 + ['\n'] + l4 == header + ['\n'] + body;
    SampleHeader(header, body);
    SampleBody(l1, l2, l3, l4);
    SampleRate(rules, [7, 3, 47, 40, 4, 50, 55, 2, 20, 38, 6, 12]);
  }

  /** `splitn(2, '\n').nth(1)` drops the header line. */
  lemma SampleHeader(header: string, body: string)
    requires header == "nearby tickets:"
    ensures SplitOnce(header + ['\n'] + body, "\n") == Some((header, body))
  {
    assert forall j :: 0 <= j < |header| ==> header[j] != '\n';
    SplitOnceChar(header + ['\n'] + body, header, '\n', body);
  }
}

=== FILE: day17.dfy ===
/**
 * Day 17: Conway cubes. Active cells are a set of 4-D coordinates; in the
 * 3-D mode every cell keeps w = 0.
 */
module Day17 {
  import opened Text

  datatype Coord = Coord(x: int, y: int, z: int, w: int)

  // ---------------------------------------------------------------------
  // Parsing

  /** Cell `c` is a '#' of the input: column x of line y, in the plane z = w = 0. */
  predicate Hash(lines: seq<string>, c: Coord)
  {
    c.z == 0 && c.w == 0 && 0 <= c.y < |lines| && 0 <= c.x < |lines[c.y]| && lines[c.y][c.x] == '#'
  }

  /** `parse`: one active cell per '#', at (column, line, 0, 0). */
  method Parse(input: string) returns (active: set<Coord>)
    ensures forall c :: c in active <==> Hash(Lines(input), c)
  {
    var lines := Lines(input);
    active := {};
    for y := 0 to |lines|
      invariant forall c :: c in active <==> Hash(lines, c) && c.y < y
    {
      var line := lines[y];
      for x := 0 to |line|
        invariant forall c :: c in active <==> Hash(lines, c) && (c.y < y || (c.y == y && c.x < x))
      {
        if line[x] == '#' {
          active := active + {Coord(x, y, 0, 0)};
        }
      }
    }
  }

  // ---------------------------------------------------------------------
  // Neighbourhoods

  /** The lowest and highest w of the cube around `c`: only 0 in the 3-D mode. */
  function WLow(c: Coord, fourD: bool): int { if fourD then c.w - 1 else 0 }
  function WHigh(c: Coord, fourD: bool): int { if fourD then c.w + 1 else 0 }

  /** `d` lies in the cube of side 3 around `c` (`c` itself included). */
  predicate Near(c: Coord, d: Coord, fourD: bool)
  {
    c.x - 1 <= d.x <= c.x + 1 && c.y - 1 <= d.y <= c.y + 1 && c.z - 1 <= d.z <= c.z + 1 &&
    WLow(c, fourD) <= d.w <= WHigh(c, fourD)
  }

  /** `d` comes before (x, y, z, w) in the order the loops of `neighbors` visit cells. */
  predicate Lex(d: Coord, x: int, y: int, z: int, w: int)
  {
    d.x < x || (d.x == x && (d.y < y || (d.y == y && (d.z < z || (d.z == z && d.w < w)))))
  }

  predicate Distinct(ns: seq<Coord>)
  {
    forall i, j :: 0 <= i < j < |ns| ==> ns[i] != ns[j]
  }

  /**
   * `neighbors`: the 27 (3-D) or 81 (4-D) cells of the cube around `c`,
   * `c` itself included, each once; in the 3-D mode with w = 0.
   */
  method Neighbors(c: Coord, fourD: bool) returns (ns: seq<Coord>)
    ensures |ns| == if fourD then 81 else 27
    ensures forall d :: d in ns <==> Near(c, d, fourD)
    ensures Distinct(ns)
  {
    var per := if fourD then 3 else 1;
    ns := [];
    for x := c.x - 1 to c.x + 2
      invariant |ns| == (x - c.x + 1) * 9 * per
      invariant forall d :: d in ns <==> Near(c, d, fourD) && Lex(d, x, c.y - 1, c.z - 1, WLow(c, fourD))
      invariant Distinct(ns)
    {
      for y := c.y - 1 to c.y + 2
        invariant |ns| == (x - c.x + 1) * 9 * per + (y - c.y + 1) * 3 * per
        invariant forall d :: d in ns <==> Near(c, d, fourD) && Lex(d, x, y, c.z - 1, WLow(c, fourD))
        invariant Distinct(ns)
      {
        for z := c.z - 1 to c.z + 2
          invariant |ns| == (x - c.x + 1) * 9 * per + (y - c.y + 1) * 3 * per + (z - c.z + 1) * per
          invariant forall d :: d in ns <==> Near(c, d, fourD) && Lex(d, x, y, z, WLow(c, fourD))
          invariant Distinct(ns)
        {
          ns := PushColumn(c, fourD, ns, x, y, z);
        }
      }
    }
  }

  /** The innermost loop of `neighbors`: the cells (x, y, z, w) for every w of the cube. */
  method PushColumn(c: Coord, fourD: bool, ns: seq<Coord>, x: int, y: int, z: int) returns (ns': seq<Coord>)
    requires c.x - 1 <= x <= c.x + 1 && c.y - 1 <= y <= c.y + 1 && c.z - 1 <= z <= c.z + 1
    requires forall d :: d in ns <==> Near(c, d, fourD) && Lex(d, x, y, z, WLow(c, fourD))
    requires Distinct(ns)
    ensures |ns'| == |ns| + if fourD then 3 else 1
    ensures forall d :: d in ns' <==> Near(c, d, fourD) && Lex(d, x, y, z + 1, WLow(c, fourD))
    ensures Distinct(ns')
  {
    ns' := ns;
    if fourD {
      for w := c.w - 1 to c.w + 2
        invariant |ns'| == |ns| + (w - c.w + 1)
        invariant forall d :: d in ns' <==> Near(c, d, fourD) && Lex(d, x, y, z, w)
        invariant Distinct(ns')
      {
        DistinctSnoc(ns', Coord(x, y, z, w));
        ns' := ns' + [Coord(x, y, z, w)];
      }
    } else {
      DistinctSnoc(ns', Coord(x, y, z, 0));
      ns' := ns' + [Coord(x, y, z, 0)];
    }
  }

  lemma DistinctSnoc(ns: seq<Coord>, e: Coord)
    requires Distinct(ns) && e !in ns
    ensures Distinct(ns + [e])
  {
    forall i, j | 0 <= i < j < |ns| + 1 ensures (ns + [e])[i] != (ns + [e])[j] {
      if j == |ns| {
        assert (ns + [e])[i] == ns[i] && ns[i] in ns;
      }
    }
  }

  /** The cube around `c` as a set. */
  function Cube(c: Coord, fourD: bool): (s: set<Coord>)
    ensures forall d :: d in s <==> Near(c, d, fourD)
  {
    set x, y, z, w | c.x - 1 <= x <= c.x + 1 && c.y - 1 <= y <= c.y + 1 && c.z - 1 <= z <= c.z + 1 &&
                     WLow(c, fourD) <= w <= WHigh(c, fourD) :: Coord(x, y, z, w)
  }

  // ---------------------------------------------------------------------
  // One cycle

  /** The number of active cells in the cube around `c`, `c` itself included. */
  function Count(active: set<Coord>, c: Coord, fourD: bool): nat
  {
    |active * Cube(c, fourD)|
  }

  /**
   * `step`: of the cells in the cubes around active cells, those whose cube
   * holds 3 active cells, or 4 when the cell is active itself.
   */
  function Step(active: set<Coord>, fourD: bool): (next: set<Coord>)
    ensures forall c :: c in next ==> exists a :: a in active && Near(a, c, fourD)
    ensures !fourD ==> forall c :: c in next ==> c.w == 0
  {
    var toUpdate := set a, d | a in active && d in Cube(a, fourD) :: d;
    set c | c in toUpdate && (Count(active, c, fourD) == 3 || (c in active && Count(active, c, fourD) == 4))
  }

  /** The active cells around `c`, other than `c`. */
  function Others(active: set<Coord>, c: Coord, fourD: bool): set<Coord>
  {
    active * Cube(c, fourD) - {c}
  }

  /** Cubes are symmetric: in 4-D always, in 3-D for cells in the plane w = 0. */
  lemma NearSymmetric(c: Coord, d: Coord, fourD: bool)
    requires fourD || c.w == 0
    requires Near(c, d, fourD)
    ensures Near(d, c, fourD)
  {
  }

  /** Counting `c` itself: one more when `c` is active. */
  lemma CountOthers(active: set<Coord>, c: Coord, fourD: bool)
    requires fourD || c.w == 0
    ensures Count(active, c, fourD) == |Others(active, c, fourD)| + if c in active then 1 else 0
  {
    var s := active * Cube(c, fourD);
    if c in active {
      assert c in s;
      assert s == Others(active, c, fourD) + {c};
    } else {
      assert s == Others(active, c, fourD);
    }
  }

  /**
   * The usual rule of the puzzle: an active cell stays active iff 2 or 3 other
   * cells around it are active; an inactive one becomes active iff exactly 3
   * are. (In the 3-D mode this is about cells of the plane w = 0.)
   */
  lemma StepRule(active: set<Coord>, c: Coord, fourD: bool)
    requires fourD || c.w == 0
    ensures c in Step(active, fourD) <==>
      (c in active && 2 <= |Others(active, c, fourD)| <= 3) ||
      (c !in active && |Others(active, c, fourD)| == 3)
  {
    CountOthers(active, c, fourD);
    var n := Count(active, c, fourD);
    if n >= 3 {
      var s := active * Cube(c, fourD);
      assert s != {};
      var a :| a in s;
      NearSymmetric(c, a, fourD);
      assert c in Cube(a, fourD);
    }
  }

  // ---------------------------------------------------------------------
  // Running

  /** `steps` cycles from `init`. */
  function Iterate(init: set<Coord>, steps: nat, fourD: bool): set<Coord>
  {
    if steps == 0 then init else Step(Iterate(init, steps - 1, fourD), fourD)
  }

  /** `run`: the number of active cells after `steps` cycles. */
  method Run(init: set<Coord>, steps: nat, fourD: bool) returns (n: nat)
    ensures n == |Iterate(init, steps, fourD)|
  {
    var active := init;
    for i := 0 to steps
      invariant active == Iterate(init, i, fourD)
    {
      active := Step(active, fourD);
    }
    return |active|;
  }

  /** `d` is within `k` cells of `c` on every axis; in the 3-D mode it has w = 0. */
  predicate Within(c: Coord, d: Coord, k: nat, fourD: bool)
  {
    c.x - k <= d.x <= c.x + k && c.y - k <= d.y <= c.y + k && c.z - k <= d.z <= c.z + k &&
    (if fourD then c.w - k <= d.w <= c.w + k else d.w == 0)
  }

  /**
   * After `k` cycles every active cell lies within `k` cells of an initially
   * active one; in the 3-D mode the cells stay in the plane w = 0.
   */
  lemma {:induction false} Spread(init: set<Coord>, k: nat, fourD: bool, c: Coord)
    requires fourD || forall a :: a in init ==> a.w == 0
    requires c in Iterate(init, k, fourD)
    ensures exists a :: a in init && Within(a, c, k, fourD)
  {
    if k > 0 {
      var b :| b in Iterate(init, k - 1, fourD) && Near(b, c, fourD);
      Spread(init, k - 1, fourD, b);
      var a :| a in init && Within(a, b, k - 1, fourD);
      assert Within(a, c, k, fourD);
    } else {
      assert Within(c, c, 0, fourD);
    }
  }

  // ---------------------------------------------------------------------
  // The example

  lemma SampleLines(input: string)
    requires input == ".#.\n..#\n###"
    ensures Lines(input) == [".#.", "..#", "###"]
  {
    assert input == ".#." + "\n" + ("..#" + "\n" + "###");
    SplitLead(".#.", "\n", "..#" + "\n" + "###");
    SplitLead("..#", "\n", "###");
    SplitFree("###", "\n");
  }

  /** The example grid parses to its five active cells. */
  lemma SampleParse(input: string, c: Coord)
    requires input == ".#.\n..#\n###"
    ensures Hash(Lines(input), c) <==>
      c in {Coord(1, 0, 0, 0), Coord(2, 1, 0, 0), Coord(0, 2, 0, 0), Coord(1, 2, 0, 0), Coord(2, 2, 0, 0)}
  {
    SampleLines(input);
  }
}

=== FILE: day18.dfy ===
/**
 * Day 18: operator order. Each homework line is evaluated by precedence
 * climbing over its characters, spaces removed; in the first part `+` and
 * `*` have equal precedence, in the second `+` binds tighter.
 */
module Day18 {
  import opened Wrappers
  import opened Text

  datatype Mode = Part1 | Part2

  /** `op_precedence1`: `*` and `+` both have precedence 0; anything else none. */
  function OpPrecedence1(op: char): (p: Option<int>)
    ensures p.Some? <==> op == '*' || op == '+'
    ensures p.Some? ==> p.value == 0
  {
    if op == '*' || op == '+' then Some(0) else None
  }

  /** `op_precedence2`: `*` has precedence 0 and `+` precedence 1. */
  function OpPrecedence2(op: char): (p: Option<int>)
    ensures p.Some? <==> op == '*' || op == '+'
    ensures p.Some? ==> p.value == (if op == '+' then 1 else 0)
  {
    if op == '*' then Some(0) else if op == '+' then Some(1) else None
  }

  function Precedence(mode: Mode, op: char): Option<int>
  {
    match mode
    case Part1 => OpPrecedence1(op)
    case Part2 => OpPrecedence2(op)
  }

  /** `apply_op`; `None` where the source panics on an unknown operator. */
  function ApplyOp(lhs: nat, op: char, rhs: nat): (r: Option<nat>)
    ensures r.Some? <==> op == '*' || op == '+'
    ensures op == '*' ==> r == Some(lhs * rhs)
    ensures op == '+' ==> r == Some(lhs + rhs)
  {
    if op == '*' then Some(lhs * rhs) else if op == '+' then Some(lhs + rhs) else None
  }

  // ---------------------------------------------------------------------
  // Precedence climbing, as functions of the cursor position

  /**
   * `parse_primary` from position `i`: a digit, or an expression in
   * parentheses; the value and the position after it, `None` where the
   * source panics.
   */
  function Primary(t: string, i: nat, mode: Mode): (r: Option<(nat, nat)>)
    requires i <= |t|
    ensures r.Some? ==> i < r.value.1 <= |t|
    decreases |t| - i, 0
  {
    if i == |t| then None
    else if t[i] == '(' then
      match Expr(t, i + 1, 0, mode)
      case None => None
      case Some((v, j)) => if j < |t| && t[j] == ')' then Some((v, j + 1)) else None
    else if IsDigit(t[i]) then Some(((t[i] as int - '0' as int) as nat, i + 1))
    else None
  }

  /** `parse_expression` from position `i` with least precedence `min`. */
  function Expr(t: string, i: nat, min: int, mode: Mode): (r: Option<(nat, nat)>)
    requires i <= |t|
    ensures r.Some? ==> i < r.value.1 <= |t|
    decreases |t| - i, 1
  {
    match Primary(t, i, mode)
    case None => None
    case Some((lhs, j)) => Climb(t, j, min, lhs, mode)
  }

  /**
   * The `while let` loop of `parse_expression` at position `j` with value
   * `lhs` so far: stop at the end or at a token without precedence at least
   * `min`; otherwise take the operator and a right operand of least
   * precedence `min + 1`.
   */
  function Climb(t: string, j: nat, min: int, lhs: nat, mode: Mode): (r: Option<(nat, nat)>)
    requires j <= |t|
    ensures r.Some? ==> j <= r.value.1 <= |t|
    decreases |t| - j, 2
  {
    if j == |t| then Some((lhs, j))
    else
      var p := Precedence(mode, t[j]);
      if p.None? || p.value < min then Some((lhs, j))
      else
        match Expr(t, j + 1, min + 1, mode)
        case None => None
        case Some((rhs, k)) =>
          match ApplyOp(lhs, t[j], rhs)
          case None => None
          case Some(v) => Climb(t, k, min, v, mode)
  }

  /**
   * At least precedence 0 the climb only stops at the end of the input or at
   * a token that is not an operator, such as `)`.
   */
  lemma {:induction false} ClimbStops(t: string, j: nat, lhs: nat, mode: Mode)
    requires j <= |t| && Climb(t, j, 0, lhs, mode).Some?
    ensures var k := Climb(t, j, 0, lhs, mode).value.1;
      k == |t| || Precedence(mode, t[k]).None?
    decreases |t| - j
  {
    if j < |t| && Precedence(mode, t[j]).Some? {
      var k := Expr(t, j + 1, 1, mode).value.1;
      var v := ApplyOp(lhs, t[j], Expr(t, j + 1, 1, mode).value.0).value;
      ClimbStops(t, k, v, mode);
    }
  }

  /** The same for a whole expression: `parse_expression` stops at `)` or the end. */
  lemma ExprStops(t: string, i: nat, mode: Mode)
    requires i <= |t| && Expr(t, i, 0, mode).Some?
    ensures var k := Expr(t, i, 0, mode).value.1;
      k == |t| || Precedence(mode, t[k]).None?
  {
    var (lhs, j) := Primary(t, i, mode).value;
    ClimbStops(t, j, lhs, mode);
  }

  // ---------------------------------------------------------------------
  // The imperative parser: a cursor threaded through recursive calls

  /** `parse_primary`: returns the value and the advanced cursor. */
  method ParsePrimary(tokens: string, index: nat, mode: Mode) returns (r: Option<(nat, nat)>)
    requires index <= |tokens|
    ensures r == Primary(tokens, index, mode)
    decreases |tokens| - index, 0
  {
    if index == |tokens| {
      return None;
    }
    var c := tokens[index];
    if c == '(' {
      var res := ParseExpression(tokens, index + 1, 0, mode);
      if res.None? {
        return None;
      }
      var i := res.value.1;
      if i == |tokens| || tokens[i] != ')' {
        return None;
      }
      return Some((res.value.0, i + 1));
    } else if IsDigit(c) {
      return Some(((c as int - '0' as int) as nat, index + 1));
    }
    return None;
  }

  /** `parse_expression`: returns the value and the advanced cursor. */
  method ParseExpression(tokens: string, index: nat, minPrecedence: int, mode: Mode) returns (r: Option<(nat, nat)>)
    requires index <= |tokens|
    ensures r == Expr(tokens, index, minPrecedence, mode)
    decreases |tokens| - index, 1
  {
    var first := ParsePrimary(tokens, index, mode);
    if first.None? {
      return None;
    }
    var lhs, i := first.value.0, first.value.1;
    while i < |tokens|
      invariant index < i <= |tokens|
      invariant Climb(tokens, i, minPrecedence, lhs, mode) == Expr(tokens, index, minPrecedence, mode)
      decreases |tokens| - i
    {
      var op := tokens[i];
      var p := Precedence(mode, op);
      if p.None? || p.value < minPrecedence {
        break;
      }
      var rhs := ParseExpression(tokens, i + 1, minPrecedence + 1, mode);
      if rhs.None? {
        return None;
      }
      var v := ApplyOp(lhs, op, rhs.value.0);
      if v.None? {
        return None;
      }
      lhs, i := v.value, rhs.value.1;
    }
    return Some((lhs, i));
  }

  // ---------------------------------------------------------------------
  // Reference grammar for part 1: operators left to right

  /** A digit, or a parenthesised flat expression. */
  function Atom1(t: string, i: nat): (r: Option<(nat, nat)>)
    requires i <= |t|
    ensures r.Some? ==> i < r.value.1 <= |t|
    decreases |t| - i, 0
  {
    if i == |t| then None
    else if t[i] == '(' then
      match Flat(t, i + 1)
      case None => None
      case Some((v, j)) => if j < |t| && t[j] == ')' then Some((v, j + 1)) else None
    else if IsDigit(t[i]) then Some(((t[i] as int - '0' as int) as nat, i + 1))
    else None
  }

  /** Atoms separated by `+` or `*`, applied strictly from left to right. */
  function Flat(t: string, i: nat): (r: Option<(nat, nat)>)
    requires i <= |t|
    ensures r.Some? ==> i < r.value.1 <= |t|
    decreases |t| - i, 1
  {
    match Atom1(t, i)
    case None => None
    case Some((v, j)) => FlatTail(t, j, v)
  }

  function FlatTail(t: string, j: nat, acc: nat): (r: Option<(nat, nat)>)
    requires j <= |t|
    ensures r.Some? ==> j <= r.value.1 <= |t|
    decreases |t| - j, 2
  {
    if j < |t| && (t[j] == '+' || t[j] == '*') then
      match Atom1(t, j + 1)
      case None => None
      case Some((v, k)) => FlatTail(t, k, ApplyOp(acc, t[j], v).value)
    else Some((acc, j))
  }

  /** With equal precedences, the right operand of an operator is a single primary. */
  lemma Part1Operand(t: string, i: nat)
    requires i <= |t|
    ensures Expr(t, i, 1, Part1) == Primary(t, i, Part1)
  {
  }

  /** In part 1 a primary is an atom of the flat grammar. */
  lemma {:induction false} Part1Primary(t: string, i: nat)
    requires i <= |t|
    ensures Primary(t, i, Part1) == Atom1(t, i)
    decreases |t| - i, 0
  {
    if i < |t| && t[i] == '(' {
      Part1Expr(t, i + 1);
    }
  }

  /** In part 1 `parse_expression` evaluates strictly from left to right. */
  lemma {:induction false} Part1Expr(t: string, i: nat)
    requires i <= |t|
    ensures Expr(t, i, 0, Part1) == Flat(t, i)
    decreases |t| - i, 1
  {
    Part1Primary(t, i);
    if Primary(t, i, Part1).Some? {
      var (v, j) := Primary(t, i, Part1).value;
      Part1Climb(t, j, v);
    }
  }

  lemma {:induction false} Part1Climb(t: string, j: nat, acc: nat)
    requires j <= |t|
    ensures Climb(t, j, 0, acc, Part1) == FlatTail(t, j, acc)
    decreases |t| - j, 2
  {
    if j < |t| && (t[j] == '+' || t[j] == '*') {
      Part1Operand(t, j + 1);
      Part1Primary(t, j + 1);
      if Atom1(t, j + 1).Some? {
        var (v, k) := Atom1(t, j + 1).value;
        Part1Climb(t, k, ApplyOp(acc, t[j], v).value);
      }
    }
  }

  // ---------------------------------------------------------------------
  // Reference grammar for part 2: sums inside products

  /** A digit, or a parenthesised product. */
  function Atom2(t: string, i: nat): (r: Option<(nat, nat)>)
    requires i <= |t|
    ensures r.Some? ==> i < r.value.1 <= |t|
    decreases |t| - i, 0
  {
    if i == |t| then None
    else if t[i] == '(' then
      match Product(t, i + 1)
      case None => None
      case Some((v, j)) => if j < |t| && t[j] == ')' then Some((v, j + 1)) else None
    else if IsDigit(t[i]) then Some(((t[i] as int - '0' as int) as nat, i + 1))
    else None
  }

  /** Atoms joined by `+`. */
  function Sum(t: string, i: nat): (r: Option<(nat, nat)>)
    requires i <= |t|
    ensures r.Some? ==> i < r.value.1 <= |t|
    decreases |t| - i, 1
  {
    match Atom2(t, i)
    case None => None
    case Some((v, j)) => SumTail(t, j, v)
  }

  function SumTail(t: string, j: nat, acc: nat): (r: Option<(nat, nat)>)
    requires j <= |t|
    ensures r.Some? ==> j <= r.value.1 <= |t|
    decreases |t| - j, 2
  {
    if j < |t| && t[j] == '+' then
      match Atom2(t, j + 1)
      case None => None
      case Some((v, k)) => SumTail(t, k, acc + v)
    else Some((acc, j))
  }

  /** Sums joined by `*`. */
  function Product(t: string, i: nat): (r: Option<(nat, nat)>)
    requires i <= |t|
    ensures r.Some? ==> i < r.value.1 <= |t|
    decreases |t| - i, 3
  {
    match Sum(t, i)
    case None => None
    case Some((v, j)) => ProductTail(t, j, v)
  }

  function ProductTail(t: string, j: nat, acc: nat): (r: Option<(nat, nat)>)
    requires j <= |t|
    ensures r.Some? ==> j <= r.value.1 <= |t|
    decreases |t| - j, 4
  {
    if j < |t| && t[j] == '*' then
      match Sum(t, j + 1)
      case None => None
      case Some((v, k)) => ProductTail(t, k, acc * v)
    else Some((acc, j))
  }

  /** A sum stops at a token other than `+`. */
  lemma {:induction false} SumTailStops(t: string, j: nat, acc: nat)
    requires j <= |t| && SumTail(t, j, acc).Some?
    ensures var k := SumTail(t, j, acc).value.1; k == |t| || t[k] != '+'
    decreases |t| - j
  {
    if j < |t| && t[j] == '+' {
      var (v, k) := Atom2(t, j + 1).value;
      SumTailStops(t, k, acc + v);
    }
  }

  /** A result with `a` added to its value. */
  function Shift(r: Option<(nat, nat)>, a: nat): Option<(nat, nat)>
  {
    match r
    case None => None
    case Some((v, k)) => Some((a + v, k))
  }

  /** Addition is associative: the running total of a sum only shifts its result. */
  lemma {:induction false} SumTailShift(t: string, j: nat, a: nat, b: nat)
    requires j <= |t|
    ensures SumTail(t, j, a + b) == Shift(SumTail(t, j, b), a)
    decreases |t| - j
  {
    if j < |t| && t[j] == '+' {
      match Atom2(t, j + 1)
      case None =>
      case Some((v, k)) =>
        SumTailShift(t, k, a, b + v);
        assert a + b + v == a + (b + v);
    }
  }

  /** In part 2 a primary is an atom of the reference grammar. */
  lemma {:induction false} Part2Primary(t: string, i: nat)
    requires i <= |t|
    ensures Primary(t, i, Part2) == Atom2(t, i)
    decreases |t| - i, 0
  {
    if i < |t| && t[i] == '(' {
      Part2Expr(t, i + 1);
    }
  }

  /** In part 2 an operand of precedence at least 2 is a single primary. */
  lemma Part2Operand(t: string, i: nat)
    requires i <= |t|
    ensures Expr(t, i, 2, Part2) == Primary(t, i, Part2)
  {
  }

  /** In part 2 an operand of precedence at least 1 is a sum. */
  lemma {:induction false} Part2Sum(t: string, i: nat)
    requires i <= |t|
    ensures Expr(t, i, 1, Part2) == Sum(t, i)
    decreases |t| - i, 1
  {
    Part2Primary(t, i);
    if Atom2(t, i).Some? {
      var (v, j) := Atom2(t, i).value;
      Part2SumClimb(t, j, v);
    }
  }

  lemma {:induction false} Part2SumClimb(t: string, j: nat, acc: nat)
    requires j <= |t|
    ensures Climb(t, j, 1, acc, Part2) == SumTail(t, j, acc)
    decreases |t| - j, 2
  {
    if j < |t| && t[j] == '+' {
      Part2Operand(t, j + 1);
      Part2Primary(t, j + 1);
      if Atom2(t, j + 1).Some? {
        var (v, k) := Atom2(t, j + 1).value;
        Part2SumClimb(t, k, acc + v);
      }
    }
  }

  /** The reference result from position `j` with `acc` so far: the rest of a sum, then the rest of a product. */
  function SumThenProduct(t: string, j: nat, acc: nat): Option<(nat, nat)>
    requires j <= |t|
  {
    match SumTail(t, j, acc)
    case None => None
    case Some((s, k)) => ProductTail(t, k, s)
  }

  /**
   * In part 2 the loop at least precedence 0 takes a sum as every right
   * operand; only the first operator can be `+`, and addition being
   * associative makes that the same as extending the first sum.
   */
  lemma {:induction false} Part2Climb(t: string, j: nat, acc: nat)
    requires j <= |t|
    ensures Climb(t, j, 0, acc, Part2) == SumThenProduct(t, j, acc)
    decreases |t| - j, 3
  {
    if j < |t| && (t[j] == '+' || t[j] == '*') {
      Part2Sum(t, j + 1);
      match Sum(t, j + 1)
      case None =>
        if t[j] == '+' {
          assert Atom2(t, j + 1).None? || SumTail(t, Atom2(t, j + 1).value.1, Atom2(t, j + 1).value.0).None?;
          if Atom2(t, j + 1).Some? {
            var (a, m) := Atom2(t, j + 1).value;
            SumTailShift(t, m, acc, a);
          }
        }
      case Some((s, k)) =>
        var v := ApplyOp(acc, t[j], s).value;
        Part2Climb(t, k, v);
        SumTailStops(t, Atom2(t, j + 1).value.1, Atom2(t, j + 1).value.0);
        assert SumTail(t, k, v) == Some((v, k));
        if t[j] == '+' {
          var (a, m) := Atom2(t, j + 1).value;
          SumTailShift(t, m, acc, a);
        }
    }
  }

  /** In part 2 `parse_expression` evaluates sums before products. */
  lemma {:induction false} Part2Expr(t: string, i: nat)
    requires i <= |t|
    ensures Expr(t, i, 0, Part2) == Product(t, i)
    decreases |t| - i, 4
  {
    Part2Primary(t, i);
    if Atom2(t, i).Some? {
      var (v, j) := Atom2(t, i).value;
      Part2Climb(t, j, v);
    }
  }

  // ---------------------------------------------------------------------
  // The homework

  /** The line with its spaces removed. */
  function Strip(s: string): string
  {
    if s == [] then [] else (if s[0] == ' ' then [] else [s[0]]) + Strip(s[1..])
  }

  /** Removing spaces leaves no space and keeps every other character as often as it occurs. */
  lemma {:induction false} StripKeeps(s: string)
    ensures ' ' !in Strip(s)
    ensures multiset(Strip(s)) == multiset(s)[' ' := 0]
  {
    if s != [] {
      StripKeeps(s[1..]);
      assert s == [s[0]] + s[1..];
    }
  }

  /** The value of one homework line: its expression from the start, spaces removed. */
  function LineValue(line: string, mode: Mode): Option<nat>
  {
    match Expr(Strip(line), 0, 0, mode)
    case None => None
    case Some((v, _)) => Some(v)
  }

  /**
   * Under the part-1 precedences a line reads left to right, under the
   * part-2 precedences sums before products.
   */
  lemma LineValueReads(line: string, mode: Mode)
    ensures LineValue(line, mode) == Reading(Strip(line), mode)
  {
    if mode == Part1 {
      Part1Expr(Strip(line), 0);
    } else {
      Part2Expr(Strip(line), 0);
    }
  }

  /**
   * The reference reading of a stripped line: the value of the part-1
   * grammar (`Flat`) or of the part-2 grammar (`Product`) from its start.
   */
  function Reading(t: string, mode: Mode): Option<nat> {
    match (if mode == Part1 then Flat(t, 0) else Product(t, 0))
    case None => None
    case Some((v, _)) => Some(v)
  }

  /** `do_homework` over the lines: the sum of their values; `None` if one panics. */
  function Homework(lines: seq<string>, mode: Mode): (r: Option<nat>)
    ensures r.Some? <==> forall k :: 0 <= k < |lines| ==> LineValue(lines[k], mode).Some?
  {
    if lines == [] then Some(0)
    else
      match (LineValue(lines[0], mode), Homework(lines[1..], mode))
      case (Some(v), Some(s)) => Some(v + s)
      case _ => None
  }

  /** The homework of two blocks of lines adds up. */
  lemma {:induction false} HomeworkAppend(xs: seq<string>, ys: seq<string>, mode: Mode)
    requires Homework(xs, mode).Some? && Homework(ys, mode).Some?
    ensures Homework(xs + ys, mode) == Some(Homework(xs, mode).value + Homework(ys, mode).value)
  {
    if xs != [] {
      assert (xs + ys)[1..] == xs[1..] + ys;
      HomeworkAppend(xs[1..], ys, mode);
    } else {
      assert xs + ys == ys;
    }
  }

  /** `part1` and `part2`. */
  function Solve(input: string, mode: Mode): (r: Option<nat>)
    ensures r.Some? <==> forall k :: 0 <= k < |Lines(input)| ==> LineValue(Lines(input)[k], mode).Some?
  {
    Homework(Lines(input), mode)
  }

  // ---------------------------------------------------------------------
  // Examples

  /** Removing spaces distributes over concatenation. */
  lemma {:induction false} StripAppend(a: string, b: string)
    ensures Strip(a + b) == Strip(a) + Strip(b)
  {
    if a != [] {
      assert (a + b)[1..] == a[1..] + b;
      StripAppend(a[1..], b);
    } else {
      assert a + b == b;
    }
  }

  /** "2 * 3 + (4 * 5)" is 26 in part 1: (2 * 3 + 20) from left to right. */
  lemma SamplePart1(t: string)
    requires t == "2*3+(4*5)"
    ensures Expr(t, 0, 0, Part1) == Some((26, 9))
  {
    Part1Expr(t, 0);
    assert Atom1(t, 7) == Some((5, 8));
    assert FlatTail(t, 8, 20) == Some((20, 8));
    assert Atom1(t, 5) == Some((4, 6));
    assert Flat(t, 5) == Some((20, 8));
    assert Atom1(t, 4) == Some((20, 9));
    assert FlatTail(t, 3, 6) == Some((26, 9));
    assert Atom1(t, 2) == Some((3, 3));
    assert FlatTail(t, 1, 2) == Some((26, 9));
  }

  /** And 46 in part 2: 2 * (3 + 20). */
  lemma SamplePart2(t: string)
    requires t == "2*3+(4*5)"
    ensures Expr(t, 0, 0, Part2) == Some((46, 9))
  {
    Part2Expr(t, 0);
    assert Atom2(t, 7) == Some((5, 8));
    assert SumTail(t, 8, 5) == Some((5, 8));
    assert Sum(t, 7) == Some((5, 8));
    assert ProductTail(t, 8, 20) == Some((20, 8));
    assert Atom2(t, 5) == Some((4, 6));
    assert SumTail(t, 6, 4) == Some((4, 6));
    assert Product(t, 5) == Some((20, 8));
    assert Atom2(t, 4) == Some((20, 9));
    assert SumTail(t, 9, 23) == Some((23, 9));
    assert SumTail(t, 3, 3) == Some((23, 9));
    assert Atom2(t, 2) == Some((3, 3));
    assert Sum(t, 2) == Some((23, 9));
    assert ProductTail(t, 9, 46) == Some((46, 9));
    assert ProductTail(t, 1, 2) == Some((46, 9));
    assert SumTail(t, 1, 2) == Some((2, 1));
    assert Atom2(t, 0) == Some((2, 1));
    assert Sum(t, 0) == Some((2, 1));
    assert Product(t, 0) == Some((46, 9));
  }
}

=== FILE: day19.dfy ===
/**
 * Day 19: monster messages. Numbered rules form a context-free grammar; a
 * message matches when rule 0 derives exactly its characters. The matcher
 * is a depth-first search over an explicit stack of pending symbols.
 */
module Day19 {
  import opened Wrappers
  import opened Text
  import opened Lists

  datatype Symbol = Terminal(c: char) | Rule(i: nat)

  /** A rule: its alternatives, each a sequence of symbols. */
  type Alternatives = seq<seq<Symbol>>
  type Grammar = map<nat, Alternatives>

  // ---------------------------------------------------------------------
  // Parsing the rules

  /**
   * `parse_symbol`: a number is a rule reference; otherwise, with the double
   * quotes trimmed, a lower-case letter first is a terminal; anything else
   * panics (`None`).
   */
  function ParseSymbol(s: string): (r: Option<Symbol>)
    ensures ParseNat(s).Some? ==> r == Some(Rule(ParseNat(s).value))
    ensures r.Some? && r.value.Terminal? ==> ParseNat(s).None? && IsLower(r.value.c) && r.value.c in s
    ensures ParseNat(s).None? && (forall x :: x in s ==> !IsLower(x)) ==> r.None?
  {
    match ParseNat(s)
    case Some(n) => Some(Rule(n))
    case None =>
      var t := TrimMatches(s, '"');
      if |t| > 0 && IsLower(t[0]) then
        assert t[0] in s by { TrimMatchesWithin(s, '"'); }
        Some(Terminal(t[0]))
      else None
  }

  lemma TrimMatchesWithin(s: string, c: char)
    ensures forall x :: x in TrimMatches(s, c) ==> x in s
  {
    var a := TrimStart(s, c);
    assert forall x :: x in TrimEnd(a, c) ==> x in a;
    assert forall x :: x in a ==> x in s;
  }

  /** A quoted lower-case letter is that terminal. */
  lemma QuotedLetter(s: string, c: char)
    requires s == ['"', c, '"'] && IsLower(c)
    ensures ParseSymbol(s) == Some(Terminal(c))
  {
    assert ParseNat(s).None? by { assert !IsDigit(s[1]); }
    assert TrimStart(s, '"') == [c, '"'] by { assert s[1..] == [c, '"']; }
    assert TrimEnd([c, '"'], '"') == [c] by { assert [c, '"'][..1] == [c]; }
  }

  /** One alternative: its tokens, split on single spaces, parsed in order. */
  function ParseAlternative(s: string): (r: Option<seq<Symbol>>)
    ensures r.Some? ==> |r.value| > 0
  {
    Collect(ParseSymbol, Split(s, " "))
  }

  /** Every alternative has at least one symbol. */
  predicate NonEmpty(alts: Alternatives)
  {
    forall k :: 0 <= k < |alts| ==> |alts[k]| > 0
  }

  /**
   * `parse_rule`: "index: body", the body split on " | " into alternatives
   * and each of those on spaces into symbols, in order; `None` where the
   * source panics. A rule has at least one alternative, none of them empty.
   */
  function ParseRule(line: string): (r: Option<(nat, Alternatives)>)
    ensures r.Some? ==> |r.value.1| > 0 && NonEmpty(r.value.1)
    ensures r.Some? ==> SplitOnce(line, ": ").Some? && ParseNat(SplitOnce(line, ": ").value.0) == Some(r.value.0)
    ensures r.Some? ==> |r.value.1| == |Split(SplitOnce(line, ": ").value.1, " | ")|
  {
    match SplitOnce(line, ": ")
    case None => None
    case Some((index, body)) =>
      match (ParseNat(index), Collect(ParseAlternative, Split(body, " | ")))
      case (Some(i), Some(alts)) => Some((i, alts))
      case _ => None
  }

  /** Collecting index/rule pairs into a map: a later pair wins over an earlier one with the same index. */
  function ToMap(rs: seq<(nat, Alternatives)>): (m: Grammar)
    ensures forall i :: i in m <==> exists k :: 0 <= k < |rs| && rs[k].0 == i
    ensures forall i :: i in m ==> exists k :: 0 <= k < |rs| && rs[k] == (i, m[i])
  {
    if rs == [] then map[]
    else
      var n := |rs| - 1;
      assert forall k :: 0 <= k < n ==> rs[..n][k] == rs[k];
      ToMap(rs[..n])[rs[n].0 := rs[n].1]
  }

  /** The rule of an index is the one of the last pair with that index. */
  lemma {:induction false} ToMapLast(rs: seq<(nat, Alternatives)>, k: nat)
    requires k < |rs| && forall k' :: k < k' < |rs| ==> rs[k'].0 != rs[k].0
    ensures ToMap(rs)[rs[k].0] == rs[k].1
  {
    var n := |rs| - 1;
    var m := ToMap(rs[..n]);
    assert ToMap(rs) == m[rs[n].0 := rs[n].1];
    if k < n {
      var front := rs[..n];
      assert front[k] == rs[k];
      assert forall k' :: k < k' < n ==> front[k'] == rs[k'];
      ToMapLast(front, k);
    }
  }

  /** `build_map`: every line parsed as a rule (`None` when one panics), collected into a map. */
  function BuildMap(lines: seq<string>): (r: Option<Grammar>)
    ensures r.Some? <==> forall k :: 0 <= k < |lines| ==> ParseRule(lines[k]).Some?
    ensures r.Some? ==> forall i :: i in r.value ==> |r.value[i]| > 0 && NonEmpty(r.value[i])
  {
    match Collect(ParseRule, lines)
    case None => None
    case Some(rs) => Some(ToMap(rs))
  }

  /** `get_messages`: one message per line. */
  function ParseInput(input: string): (r: Option<(seq<string>, Grammar)>)
    ensures r.Some? ==> Contains(input, "\n\n")
    ensures r.Some? ==> forall k :: 0 <= k < |r.value.0| ==> '\n' !in r.value.0[k]
  {
    match SplitOnce(input, "\n\n")
    case None => None
    case Some((rules, messages)) =>
      match BuildMap(Lines(rules))
      case None => None
      case Some(g) => Some((Lines(messages), g))
  }

  // ---------------------------------------------------------------------
  // Derivations

  /** Rewriting the rule at position `p` of `a` with its alternative `j` gives `b`. */
  predicate StepAt(rules: Grammar, a: seq<Symbol>, b: seq<Symbol>, p: nat, j: nat)
  {
    p < |a| && a[p].Rule? && a[p].i in rules && j < |rules[a[p].i]| &&
    b == a[..p] + rules[a[p].i][j] + a[p + 1..]
  }

  ghost predicate Produces(rules: Grammar, a: seq<Symbol>, b: seq<Symbol>)
  {
    exists p: nat, j: nat :: StepAt(rules, a, b, p, j)
  }

  /** A chain of rewritings that starts from rule 0. */
  ghost predicate Derivation(rules: Grammar, chain: seq<seq<Symbol>>)
  {
    |chain| > 0 && chain[0] == [Rule(0)] &&
    forall k :: 0 <= k < |chain| - 1 ==> Produces(rules, chain[k], chain[k + 1])
  }

  /** Rule 0 derives the sentential form `form`. */
  ghost predicate Derivable(rules: Grammar, form: seq<Symbol>)
  {
    exists chain :: Derivation(rules, chain) && chain[|chain| - 1] == form
  }

  /** A message as a string of terminals. */
  function Word(s: string): (w: seq<Symbol>)
    ensures |w| == |s| && forall k :: 0 <= k < |s| ==> w[k] == Terminal(s[k])
  {
    seq(|s|, k requires 0 <= k < |s| => Terminal(s[k]))
  }

  lemma WordSnoc(s: string, i: nat)
    requires i < |s|
    ensures Word(s[..i + 1]) == Word(s[..i]) + [Terminal(s[i])]
  {
  }

  lemma DerivableStart(rules: Grammar)
    ensures Derivable(rules, [Rule(0)])
  {
    assert Derivation(rules, [[Rule(0)]]);
  }

  lemma DerivableStep(rules: Grammar, a: seq<Symbol>, b: seq<Symbol>, p: nat, j: nat)
    requires Derivable(rules, a) && StepAt(rules, a, b, p, j)
    ensures Derivable(rules, b)
  {
    var chain :| Derivation(rules, chain) && chain[|chain| - 1] == a;
    var longer := chain + [b];
    forall k | 0 <= k < |longer| - 1 ensures Produces(rules, longer[k], longer[k + 1]) {
      if k < |chain| - 1 {
        assert longer[k] == chain[k] && longer[k + 1] == chain[k + 1];
      } else {
        assert longer[k] == a && longer[k + 1] == b;
      }
    }
    assert Derivation(rules, longer);
  }

  // ---------------------------------------------------------------------
  // The stack

  /** A stack entry: the symbol to match next, the symbols after it, and how many characters are matched. */
  datatype Entry = Entry(symbol: Symbol, rest: seq<Symbol>, matched: nat)

  /** The sentential form an entry stands for: the matched characters, then its pending symbols. */
  function Form(message: string, e: Entry): seq<Symbol>
    requires e.matched <= |message|
  {
    Word(message[..e.matched]) + [e.symbol] + e.rest
  }

  /**
   * `push_stack`: pushes the head and the tail of `form`, which must not be
   * empty (the source panics on an empty one).
   */
  function Push(stack: seq<Entry>, form: seq<Symbol>, matched: nat): (r: Option<seq<Entry>>)
    ensures r.Some? <==> |form| > 0
    ensures r.Some? ==> |r.value| == |stack| + 1 && r.value[..|stack|] == stack
    ensures r.Some? ==> [r.value[|stack|].symbol] + r.value[|stack|].rest == form && r.value[|stack|].matched == matched
  {
    if form == [] then None else Some(stack + [Entry(form[0], form[1..], matched)])
  }

  /**
   * Pushing the alternatives of a rule in order, each followed by the pending
   * symbols `rest`: one entry per alternative at the same `matched`, above
   * the untouched `stack`; a panic when some alternative and `rest` are both empty.
   */
  function Expanded(stack: seq<Entry>, alts: Alternatives, rest: seq<Symbol>, matched: nat): (r: Option<seq<Entry>>)
    ensures r.Some? <==> forall k :: 0 <= k < |alts| ==> |alts[k] + rest| > 0
    ensures r.Some? ==> |r.value| == |stack| + |alts| && r.value[..|stack|] == stack
    ensures r.Some? ==> forall k :: |stack| <= k < |r.value| ==>
      [r.value[k].symbol] + r.value[k].rest == alts[k - |stack|] + rest && r.value[k].matched == matched
  {
    if alts == [] then Some(stack)
    else
      var n := |alts| - 1;
      assert forall k :: 0 <= k < n ==> alts[..n][k] == alts[k];
      match Expanded(stack, alts[..n], rest, matched)
      case None => None
      case Some(s) =>
        var r := Push(s, alts[n] + rest, matched);
        assert r.Some? ==> forall k :: 0 <= k < |stack| + n ==> r.value[k] == s[k];
        r
  }

  /** The `for` loop of `full_match` over the alternatives of a rule. */
  method ExpandRule(stack: seq<Entry>, alts: Alternatives, rest: seq<Symbol>, matched: nat) returns (r: Option<seq<Entry>>)
    ensures r == Expanded(stack, alts, rest, matched)
  {
    var s := stack;
    for k := 0 to |alts|
      invariant Expanded(stack, alts[..k], rest, matched) == Some(s)
    {
      assert alts[..k + 1][..k] == alts[..k];
      var newRest := alts[k] + rest;
      var pushed := Push(s, newRest, matched);
      if pushed.None? {
        ExpandedPanics(stack, alts, rest, matched, k);
        return None;
      }
      s := pushed.value;
    }
    assert alts[..|alts|] == alts;
    return Some(s);
  }

  lemma ExpandedPanics(stack: seq<Entry>, alts: Alternatives, rest: seq<Symbol>, matched: nat, k: nat)
    requires k < |alts| && |alts[k] + rest| == 0
    ensures Expanded(stack, alts, rest, matched).None?
  {
  }

  /** What one iteration of the loop of `full_match` does. */
  datatype Step = Next(stack: seq<Entry>) | Stop(outcome: Outcome)

  /** The result of `full_match`: a verdict, a panic, or more iterations than the fuel allows. */
  datatype Outcome = Done(matches: bool) | Panic | OutOfFuel

  /**
   * One iteration: pop the top entry. A terminal that equals the next
   * character advances `matched` by one, and either pushes the pending
   * symbols or, when none are left, accepts if the message is used up; any
   * other terminal drops the entry. A rule pushes one entry per alternative.
   */
  function Pop(message: string, rules: Grammar, stack: seq<Entry>): Step
    requires |stack| > 0
  {
    var e := stack[|stack| - 1];
    var below := stack[..|stack| - 1];
    match e.symbol
    case Terminal(c) =>
      if e.matched < |message| && message[e.matched] == c then
        var newMatched := e.matched + 1;
        if e.rest == [] then
          if newMatched == |message| then Stop(Done(true))
          else if newMatched > |message| then Stop(Done(false))
          else Next(below)
        else
          Next(Push(below, e.rest, newMatched).value)
      else Next(below)
    case Rule(i) =>
      if i !in rules then Stop(Panic)
      else
        match Expanded(below, rules[i], e.rest, e.matched)
        case None => Stop(Panic)
        case Some(s) => Next(s)
  }

  /**
   * What one iteration does to the stack: a mismatched terminal is dropped; a
   * matched one with pending symbols is replaced by an entry one character
   * further; acceptance needs the last character matched with nothing
   * pending; a rule is replaced by one entry per alternative at the same count.
   */
  lemma PopCases(message: string, rules: Grammar, stack: seq<Entry>)
    requires |stack| > 0
    ensures var e, r := stack[|stack| - 1], Pop(message, rules, stack);
      e.symbol.Terminal? && !(e.matched < |message| && message[e.matched] == e.symbol.c) ==>
      r == Next(stack[..|stack| - 1])
    ensures var e, r := stack[|stack| - 1], Pop(message, rules, stack);
      e.symbol.Terminal? && r.Next? && |r.stack| == |stack| ==>
      e.matched < |message| && message[e.matched] == e.symbol.c &&
      r.stack[..|stack| - 1] == stack[..|stack| - 1] && r.stack[|stack| - 1].matched == e.matched + 1 &&
      [r.stack[|stack| - 1].symbol] + r.stack[|stack| - 1].rest == e.rest
    ensures var e, r := stack[|stack| - 1], Pop(message, rules, stack);
      r == Stop(Done(true)) ==>
      e.symbol.Terminal? && e.matched + 1 == |message| && message[e.matched] == e.symbol.c && e.rest == []
    ensures var e, r := stack[|stack| - 1], Pop(message, rules, stack);
      e.symbol.Rule? && r.Next? ==>
      e.symbol.i in rules && |r.stack| == |stack| - 1 + |rules[e.symbol.i]| &&
      r.stack[..|stack| - 1] == stack[..|stack| - 1] &&
      forall k :: |stack| - 1 <= k < |r.stack| ==> r.stack[k].matched == e.matched
  {
  }

  /** Running the loop of `full_match` from `stack` for at most `fuel` iterations. */
  function Search(message: string, rules: Grammar, stack: seq<Entry>, fuel: nat): Outcome
    decreases fuel
  {
    if stack == [] then Done(false)
    else if fuel == 0 then OutOfFuel
    else
      match Pop(message, rules, stack)
      case Stop(o) => o
      case Next(s) => Search(message, rules, s, fuel - 1)
  }

  /** `full_match`: one entry per alternative of rule 0 (a panic without rule 0), then the loop. */
  function Match(message: string, rules: Grammar, fuel: nat): Outcome
  {
    if 0 !in rules then Panic
    else
      match Expanded([], rules[0], [], 0)
      case None => Panic
      case Some(s) => Search(message, rules, s, fuel)
  }

  /** Every entry's matched count is within the message. */
  predicate Bounded(stack: seq<Entry>, n: nat)
  {
    forall k :: 0 <= k < |stack| ==> stack[k].matched <= n
  }

  /**
   * One iteration of the loop of `full_match`: pops the top entry and pushes
   * what it expands to. The matched counts stay within the message.
   */
  method PopEntry(message: string, rules: Grammar, stack: seq<Entry>) returns (r: Step)
    requires |stack| > 0 && Bounded(stack, |message|)
    ensures r == Pop(message, rules, stack)
    ensures r.Next? ==> Bounded(r.stack, |message|)
  {
    var e := stack[|stack| - 1];
    var below := stack[..|stack| - 1];
    match e.symbol {
      case Terminal(c) =>
        if e.matched < |message| && message[e.matched] == c {
          var newMatched := e.matched + 1;
          if e.rest == [] {
            if newMatched == |message| {
              return Stop(Done(true));
            }
            // The source's `new_matched > len` branch cannot be taken.
            assert newMatched < |message|;
            return Next(below);
          }
          var next := below + [Entry(e.rest[0], e.rest[1..], newMatched)];
          assert forall k :: 0 <= k < |below| ==> next[k] == stack[k];
          return Next(next);
        }
        return Next(below);
      case Rule(i) =>
        if i !in rules {
          return Stop(Panic);
        }
        var next := ExpandRule(below, rules[i], e.rest, e.matched);
        if next.None? {
          return Stop(Panic);
        }
        ExpandedBounded(below, rules[i], e.rest, e.matched, |message|);
        return Next(next.value);
    }
  }

  lemma ExpandedBounded(below: seq<Entry>, alts: Alternatives, rest: seq<Symbol>, matched: nat, n: nat)
    requires Bounded(below, n) && matched <= n && Expanded(below, alts, rest, matched).Some?
    ensures Bounded(Expanded(below, alts, rest, matched).value, n)
  {
    var s := Expanded(below, alts, rest, matched).value;
    forall k | 0 <= k < |s| ensures s[k].matched <= n {
      if k < |below| {
        assert s[..|below|][k] == s[k];
      }
    }
  }

  /**
   * `full_match` as the source writes it, with a bound on the number of
   * iterations (the source loops for ever on a left-recursive grammar).
   * A `true` is only returned for a non-empty message that rule 0 derives.
   */
  method FullMatch(message: string, rules: Grammar, fuel: nat) returns (r: Outcome)
    ensures r == Match(message, rules, fuel)
    ensures r == Done(true) ==> |message| > 0 && Derivable(rules, Word(message))
  {
    MatchSound(message, rules, fuel);
    if 0 !in rules {
      return Panic;
    }
    var init := ExpandRule([], rules[0], [], 0);
    if init.None? {
      return Panic;
    }
    var stack := init.value;
    var n := 0;
    while stack != []
      invariant n <= fuel
      invariant Search(message, rules, stack, fuel - n) == Match(message, rules, fuel)
      invariant Bounded(stack, |message|)
      decreases fuel - n
    {
      if n == fuel {
        return OutOfFuel;
      }
      var step := PopEntry(message, rules, stack);
      n := n + 1;
      match step {
        case Stop(o) => return o;
        case Next(s) => stack := s;
      }
    }
    return Done(false);
  }

  // ---------------------------------------------------------------------
  // Soundness

  /** Every entry stands for a sentential form that rule 0 derives. */
  ghost predicate Sound(message: string, rules: Grammar, stack: seq<Entry>)
  {
    forall k :: 0 <= k < |stack| ==> SoundEntry(message, rules, stack[k])
  }

  /** An entry within the message whose sentential form rule 0 derives. */
  ghost predicate SoundEntry(message: string, rules: Grammar, e: Entry)
  {
    e.matched <= |message| && Derivable(rules, Form(message, e))
  }

  /** The entries pushed for a rule each stand for one rewriting of the popped entry's form. */
  lemma ExpandSound(message: string, rules: Grammar, e: Entry, below: seq<Entry>, s: seq<Entry>)
    requires e.symbol.Rule? && e.symbol.i in rules && e.matched <= |message|
    requires Derivable(rules, Form(message, e)) && Sound(message, rules, below)
    requires Expanded(below, rules[e.symbol.i], e.rest, e.matched) == Some(s)
    ensures Sound(message, rules, s)
  {
    var alts := rules[e.symbol.i];
    var w := Word(message[..e.matched]);
    var a := Form(message, e);
    forall k | 0 <= k < |s| ensures SoundEntry(message, rules, s[k]) {
      if k < |below| {
        assert s[..|below|][k] == s[k];
      } else {
        var j := k - |below|;
        assert s[|below| + j] == s[k];
        var b := w + alts[j] + e.rest;
        assert Form(message, s[k]) == w + ([s[k].symbol] + s[k].rest);
        assert Form(message, s[k]) == b;
        assert a[..|w|] == w && a[|w|] == e.symbol && a[|w| + 1..] == e.rest;
        assert StepAt(rules, a, b, |w|, j);
        DerivableStep(rules, a, b, |w|, j);
      }
    }
  }

  /** The entries below the top of a sound stack form a sound stack. */
  lemma SoundBelow(message: string, rules: Grammar, stack: seq<Entry>)
    requires |stack| > 0 && Sound(message, rules, stack)
    ensures Sound(message, rules, stack[..|stack| - 1])
  {
    var below := stack[..|stack| - 1];
    forall k | 0 <= k < |below| ensures below[k] == stack[k] { }
  }

  /**
   * A terminal entry that matches the next character: with no pending
   * symbols at the end of the message it derives the message, and otherwise
   * the entry pushed for its pending symbols stands for the same form.
   */
  lemma TerminalSound(message: string, rules: Grammar, e: Entry, below: seq<Entry>)
    requires e.symbol.Terminal? && e.matched < |message| && message[e.matched] == e.symbol.c
    requires Derivable(rules, Form(message, e)) && Sound(message, rules, below)
    ensures e.rest == [] && e.matched + 1 == |message| ==> Derivable(rules, Word(message))
    ensures e.rest != [] ==> Sound(message, rules, Push(below, e.rest, e.matched + 1).value)
  {
    WordSnoc(message, e.matched);
    var next := Word(message[..e.matched + 1]);
    assert Form(message, e) == next + e.rest;
    if e.rest == [] {
      if e.matched + 1 == |message| {
        assert message[..e.matched + 1] == message;
        assert Form(message, e) == Word(message);
      }
    } else {
      var s := Push(below, e.rest, e.matched + 1).value;
      var top := s[|below|];
      assert Form(message, top) == next + ([top.symbol] + top.rest);
      assert Form(message, top) == Form(message, e);
      forall k | 0 <= k < |s| ensures SoundEntry(message, rules, s[k]) {
        if k < |below| {
          assert s[..|below|][k] == s[k];
        }
      }
    }
  }

  /** One iteration keeps every entry derivable, and accepts only a derivable message. */
  lemma PopSound(message: string, rules: Grammar, stack: seq<Entry>)
    requires |stack| > 0 && Sound(message, rules, stack)
    ensures Pop(message, rules, stack) == Stop(Done(true)) ==> |message| > 0 && Derivable(rules, Word(message))
    ensures Pop(message, rules, stack).Next? ==> Sound(message, rules, Pop(message, rules, stack).stack)
  {
    var e := stack[|stack| - 1];
    var below := stack[..|stack| - 1];
    SoundBelow(message, rules, stack);
    assert SoundEntry(message, rules, e);
    match e.symbol
    case Terminal(c) =>
      if e.matched < |message| && message[e.matched] == c {
        TerminalSound(message, rules, e, below);
      }
    case Rule(i) =>
      if i in rules && Expanded(below, rules[i], e.rest, e.matched).Some? {
        ExpandSound(message, rules, e, below, Expanded(below, rules[i], e.rest, e.matched).value);
      }
  }

  lemma {:induction false} SearchSound(message: string, rules: Grammar, stack: seq<Entry>, fuel: nat)
    requires Sound(message, rules, stack)
    ensures Search(message, rules, stack, fuel) == Done(true) ==> |message| > 0 && Derivable(rules, Word(message))
    decreases fuel
  {
    if stack != [] && fuel > 0 {
      PopSound(message, rules, stack);
      var step := Pop(message, rules, stack);
      if step.Next? {
        SearchSound(message, rules, step.stack, fuel - 1);
      }
    }
  }

  /** The entries rule 0 starts with are its alternatives, each derived in one step. */
  lemma InitialSound(message: string, rules: Grammar, s: seq<Entry>)
    requires 0 in rules && Expanded([], rules[0], [], 0) == Some(s)
    ensures Sound(message, rules, s)
  {
    forall k | 0 <= k < |s| ensures SoundEntry(message, rules, s[k]) {
      InitialEntry(message, rules, s, k);
    }
  }

  lemma InitialEntry(message: string, rules: Grammar, s: seq<Entry>, k: nat)
    requires 0 in rules && Expanded([], rules[0], [], 0) == Some(s) && k < |s|
    ensures SoundEntry(message, rules, s[k])
  {
    InitialForm(message, rules, s, k);
    DerivableAlternative(rules, k);
  }

  /** The entry for alternative `k` of rule 0 has matched nothing and stands for that alternative. */
  lemma InitialForm(message: string, rules: Grammar, s: seq<Entry>, k: nat)
    requires 0 in rules && Expanded([], rules[0], [], 0) == Some(s) && k < |s|
    ensures k < |rules[0]| && s[k].matched == 0 && Form(message, s[k]) == rules[0][k]
  {
    var alt := rules[0][k];
    assert [s[k].symbol] + s[k].rest == alt + [] && s[k].matched == 0 by {
      assert s[0 + k] == s[k];
    }
    assert Word(message[..0]) == [];
    assert alt + [] == alt;
  }

  /** Rule 0 derives each of its alternatives in one step. */
  lemma DerivableAlternative(rules: Grammar, k: nat)
    requires 0 in rules && k < |rules[0]|
    ensures Derivable(rules, rules[0][k])
  {
    var alt := rules[0][k];
    DerivableStart(rules);
    assert [Rule(0)][..0] + alt + [Rule(0)][1..] == alt;
    assert StepAt(rules, [Rule(0)], alt, 0, k);
    DerivableStep(rules, [Rule(0)], alt, 0, k);
  }

  /** Soundness of the matcher: it accepts only non-empty messages that rule 0 derives. */
  lemma MatchSound(message: string, rules: Grammar, fuel: nat)
    ensures Match(message, rules, fuel) == Done(true) ==> |message| > 0 && Derivable(rules, Word(message))
  {
    if 0 in rules && Expanded([], rules[0], [], 0).Some? {
      var s := Expanded([], rules[0], [], 0).value;
      InitialSound(message, rules, s);
      SearchSound(message, rules, s, fuel);
    }
  }

  // ---------------------------------------------------------------------
  // The two parts

  /** The messages that match, in order; `None` when a match panics or runs out of fuel. */
  function Accepted(messages: seq<string>, rules: Grammar, fuel: nat): (r: Option<seq<string>>)
    ensures r.Some? <==> forall k :: 0 <= k < |messages| ==> Match(messages[k], rules, fuel).Done?
    ensures r.Some? ==> |r.value| <= |messages|
    ensures r.Some? ==> forall k :: 0 <= k < |r.value| ==> r.value[k] in messages
  {
    if messages == [] then Some([])
    else
      var n := |messages| - 1;
      assert forall k :: 0 <= k < n ==> messages[..n][k] == messages[k];
      match (Accepted(messages[..n], rules, fuel), Match(messages[n], rules, fuel))
      case (Some(xs), Done(true)) => Some(xs + [messages[n]])
      case (Some(xs), Done(false)) => Some(xs)
      case _ => None
  }

  /** Every accepted message is derived by rule 0. */
  lemma {:induction false} AcceptedDerivable(messages: seq<string>, rules: Grammar, fuel: nat)
    requires Accepted(messages, rules, fuel).Some?
    ensures forall k :: 0 <= k < |Accepted(messages, rules, fuel).value| ==>
      Derivable(rules, Word(Accepted(messages, rules, fuel).value[k]))
  {
    if messages != [] {
      var n := |messages| - 1;
      assert forall k :: 0 <= k < n ==> messages[..n][k] == messages[k];
      AcceptedDerivable(messages[..n], rules, fuel);
      MatchSound(messages[n], rules, fuel);
    }
  }

  /** `part1`: the number of messages that match. */
  method Part1(messages: seq<string>, rules: Grammar, fuel: nat) returns (r: Option<nat>)
    ensures r.Some? <==> Accepted(messages, rules, fuel).Some?
    ensures r.Some? ==> r.value == |Accepted(messages, rules, fuel).value|
  {
    var count := 0;
    for i := 0 to |messages|
      invariant Accepted(messages[..i], rules, fuel).Some?
      invariant count == |Accepted(messages[..i], rules, fuel).value|
    {
      assert messages[..i + 1][..i] == messages[..i];
      var outcome := FullMatch(messages[i], rules, fuel);
      if !outcome.Done? {
        AcceptedStops(messages, rules, fuel, i);
        return None;
      }
      if outcome.matches {
        count := count + 1;
      }
    }
    assert messages[..|messages|] == messages;
    return Some(count);
  }

  lemma AcceptedStops(messages: seq<string>, rules: Grammar, fuel: nat, i: nat)
    requires i < |messages| && !Match(messages[i], rules, fuel).Done?
    ensures Accepted(messages, rules, fuel).None?
  {
  }

  /** Rule 8 of the second part, "8: 42 | 42 8". */
  function Loop8(): Alternatives { [[Rule(42)], [Rule(42), Rule(8)]] }

  /** Rule 11 of the second part, "11: 42 31 | 42 11 31". */
  function Loop11(): Alternatives { [[Rule(42), Rule(31)], [Rule(42), Rule(11), Rule(31)]] }

  /**
   * `part2`'s `map.extend`: rules 8 and 11 replaced by their looping
   * versions, every other rule kept.
   */
  function Replaced(rules: Grammar): (r: Grammar)
    ensures r.Keys == rules.Keys + {8, 11}
    ensures r[8] == Loop8() && r[11] == Loop11()
    ensures forall i :: i in rules && i != 8 && i != 11 ==> r[i] == rules[i]
  {
    rules[8 := Loop8()][11 := Loop11()]
  }

  /** `part2`: the number of messages that match under the replaced rules. */
  method Part2(messages: seq<string>, rules: Grammar, fuel: nat) returns (r: Option<nat>)
    ensures r.Some? <==> Accepted(messages, Replaced(rules), fuel).Some?
    ensures r.Some? ==> r.value == |Accepted(messages, Replaced(rules), fuel).value|
  {
    r := Part1(messages, Replaced(rules), fuel);
  }

  // ---------------------------------------------------------------------
  // Reading rule lines

  /** "index: body" splits at the colon when the index is all digits. */
  lemma RuleLine(line: string, index: string, body: string)
    requires line == index + ": " + body && AllDigits(index)
    ensures SplitOnce(line, ": ") == Some((index, body))
  {
    var k := |index|;
    assert line[k..k + 2] == ": ";
    forall i | 0 <= i < k ensures !OccursAt(line, ": ", i) {
      assert line[i..i + 2][0] == index[i] && IsDigit(index[i]);
    }
    FindAt(line, ": ", k);
    assert line[..k] == index && line[k + 2..] == body;
  }

  /** A body with one " | " splits into its two alternatives. */
  lemma BarSplit(s: string, a: string, b: string)
    requires s == a + " | " + b && '|' !in a && '|' !in b
    ensures Split(s, " | ") == [a, b]
  {
    var k := |a|;
    assert s[k..k + 3] == " | ";
    forall i | 0 <= i < k ensures !OccursAt(s, " | ", i) {
      assert s[i..i + 3][1] == s[i + 1];
      if i + 1 < k {
        assert s[i + 1] == a[i + 1];
      } else {
        assert s[i + 1] == ' ';
      }
    }
    SplitFirstAt(s, " | ", k);
    assert s[..k] == a && s[k + 3..] == b;
    SplitWithout(b, " | ", 1);
  }

  /** Tokens free of spaces split off one by one. */
  lemma SpaceSplit2(s: string, a: string, b: string)
    requires s == a + " " + b && ' ' !in a && ' ' !in b
    ensures Split(s, " ") == [a, b]
  {
    SplitLead(a, " ", b);
    SplitFree(b, " ");
  }

  lemma SpaceSplit3(s: string, a: string, b: string, c: string)
    requires s == a + " " + b + " " + c && ' ' !in a && ' ' !in b && ' ' !in c
    ensures Split(s, " ") == [a, b, c]
  {
    assert s == a + " " + (b + " " + c);
    SplitLead(a, " ", b + " " + c);
    SpaceSplit2(b + " " + c, b, c);
  }

  /** A token of one or two digits is a rule reference. */
  lemma RuleToken(s: string, n: nat)
    requires (|s| == 1 && IsDigit(s[0]) && n == s[0] as int - '0' as int) ||
             (|s| == 2 && IsDigit(s[0]) && IsDigit(s[1]) && n == 10 * (s[0] as int - '0' as int) + (s[1] as int - '0' as int))
    ensures ParseSymbol(s) == Some(Rule(n))
  {
    if |s| == 1 {
      OneDigit(s, n);
    } else {
      TwoDigits(s, n);
    }
  }

  /** Two alternatives of one token each or more, collected in order. */
  lemma CollectPair<T, U>(f: T -> Option<U>, x: T, y: T, u: U, v: U)
    requires f(x) == Some(u) && f(y) == Some(v)
    ensures Collect(f, [x, y]) == Some([u, v])
  {
    CollectIs(f, [x, y], [u, v]);
  }

  /** An alternative of one token. */
  lemma AltOne(s: string, u: Symbol)
    requires ParseSymbol(s) == Some(u) && ' ' !in s
    ensures ParseAlternative(s) == Some([u])
  {
    SplitFree(s, " ");
    CollectIs(ParseSymbol, [s], [u]);
  }

  /** A rule line of one alternative. */
  lemma RuleOne(line: string, index: string, n: nat, a: string, alt: seq<Symbol>)
    requires line == index + ": " + a && AllDigits(index) && ParseNat(index) == Some(n)
    requires '|' !in a && ParseAlternative(a) == Some(alt)
    ensures ParseRule(line) == Some((n, [alt]))
  {
    RuleLine(line, index, a);
    SplitWithout(a, " | ", 1);
    CollectIs(ParseAlternative, [a], [alt]);
  }

  /** An alternative of two rule tokens. */
  lemma AltTwo(s: string, x: string, y: string, u: Symbol, v: Symbol)
    requires s == x + " " + y && ' ' !in x && ' ' !in y
    requires ParseSymbol(x) == Some(u) && ParseSymbol(y) == Some(v)
    ensures ParseAlternative(s) == Some([u, v])
  {
    SpaceSplit2(s, x, y);
    CollectPair(ParseSymbol, x, y, u, v);
  }

  /** An alternative of three rule tokens. */
  lemma AltThree(s: string, x: string, y: string, z: string, u: Symbol, v: Symbol, w: Symbol)
    requires s == x + " " + y + " " + z && ' ' !in x && ' ' !in y && ' ' !in z
    requires ParseSymbol(x) == Some(u) && ParseSymbol(y) == Some(v) && ParseSymbol(z) == Some(w)
    ensures ParseAlternative(s) == Some([u, v, w])
  {
    SpaceSplit3(s, x, y, z);
    CollectThree(ParseSymbol, x, y, z, u, v, w);
  }

  lemma CollectThree<T, U>(f: T -> Option<U>, x: T, y: T, z: T, u: U, v: U, w: U)
    requires f(x) == Some(u) && f(y) == Some(v) && f(z) == Some(w)
    ensures Collect(f, [x, y, z]) == Some([u, v, w])
  {
    CollectIs(f, [x, y, z], [u, v, w]);
  }

  /** A rule line of two alternatives. */
  lemma RuleTwo(line: string, index: string, n: nat, a: string, b: string, alts: Alternatives)
    requires line == index + ": " + (a + " | " + b) && AllDigits(index) && ParseNat(index) == Some(n)
    requires '|' !in a && '|' !in b && |alts| == 2
    requires ParseAlternative(a) == Some(alts[0]) && ParseAlternative(b) == Some(alts[1])
    ensures ParseRule(line) == Some((n, alts))
  {
    RuleLine(line, index, a + " | " + b);
    BarSplit(a + " | " + b, a, b);
    CollectIs(ParseAlternative, [a, b], alts);
  }

  lemma CollectFour<T, U>(f: T -> Option<U>, x0: T, x1: T, x2: T, x3: T, y0: U, y1: U, y2: U, y3: U)
    requires f(x0) == Some(y0) && f(x1) == Some(y1) && f(x2) == Some(y2) && f(x3) == Some(y3)
    ensures Collect(f, [x0, x1, x2, x3]) == Some([y0, y1, y2, y3])
  {
    CollectIs(f, [x0, x1, x2, x3], [y0, y1, y2, y3]);
  }

  /** `parse_rule("8: 42 | 42 8")`, the line written piece by piece, is rule 8 of the second part. */
  lemma ParseLoop8(line: string, index: string, a: string, b1: string, b2: string)
    requires index == "8" && a == "42" && b1 == "42" && b2 == "8"
    requires line == index + ": " + (a + " | " + (b1 + " " + b2))
    ensures ParseRule(line) == Some((8, Loop8()))
  {
    OneDigit(index, 8);
    RuleToken(a, 42);
    RuleToken(b1, 42);
    RuleToken(b2, 8);
    AltOne(a, Rule(42));
    AltTwo(b1 + " " + b2, b1, b2, Rule(42), Rule(8));
    RuleTwo(line, index, 8, a, b1 + " " + b2, Loop8());
  }

  /** `parse_rule("11: 42 31 | 42 11 31")`, written piece by piece, is rule 11 of the second part. */
  lemma ParseLoop11(line: string, index: string, a1: string, a2: string, b1: string, b2: string, b3: string)
    requires index == "11" && a1 == "42" && a2 == "31" && b1 == "42" && b2 == "11" && b3 == "31"
    requires line == index + ": " + ((a1 + " " + a2) + " | " + (b1 + " " + b2 + " " + b3))
    ensures ParseRule(line) == Some((11, Loop11()))
  {
    TwoDigits(index, 11);
    RuleToken(a1, 42);
    RuleToken(a2, 31);
    RuleToken(b1, 42);
    RuleToken(b2, 11);
    RuleToken(b3, 31);
    AltTwo(a1 + " " + a2, a1, a2, Rule(42), Rule(31));
    AltThree(b1 + " " + b2 + " " + b3, b1, b2, b3, Rule(42), Rule(11), Rule(31));
    RuleTwo(line, index, 11, a1 + " " + a2, b1 + " " + b2 + " " + b3, Loop11());
  }

  // ---------------------------------------------------------------------
  // The four-rule example of the unit tests

  /** The map of the unit tests: 0: 1 2, 1: "a", 2: 1 3 | 3 1, 3: "b". */
  function SampleGrammar(): Grammar
  {
    map[0 := [[Rule(1), Rule(2)]], 1 := [[Terminal('a')]],
        2 := [[Rule(1), Rule(3)], [Rule(3), Rule(1)]], 3 := [[Terminal('b')]]]
  }

  lemma SampleLine0(line: string)
    requires line == "0: 1 2"
    ensures ParseRule(line) == Some((0, [[Rule(1), Rule(2)]]))
  {
    var index, a := line[..1], line[3..];
    var x, y := a[..1], a[2..];
    assert line == index + ": " + a && a == x + " " + y;
    OneDigit(index, 0);
    RuleToken(x, 1);
    RuleToken(y, 2);
    AltTwo(a, x, y, Rule(1), Rule(2));
    RuleOne(line, index, 0, a, [Rule(1), Rule(2)]);
  }

  lemma SampleLetter(line: string, index: string, a: string, n: nat, c: char)
    requires |index| == 1 && IsDigit(index[0]) && n == index[0] as int - '0' as int
    requires a == ['"', c, '"'] && IsLower(c) && line == index + ": " + a
    ensures ParseRule(line) == Some((n, [[Terminal(c)]]))
  {
    assert ' ' !in a && '|' !in a;
    OneDigit(index, n);
    QuotedLetter(a, c);
    AltOne(a, Terminal(c));
    RuleOne(line, index, n, a, [Terminal(c)]);
  }

  lemma SampleLine1(line: string)
    requires line == "1: \"a\""
    ensures ParseRule(line) == Some((1, [[Terminal('a')]]))
  {
    SampleLetter(line, line[..1], line[3..], 1, 'a');
  }

  lemma SampleLine3(line: string)
    requires line == "3: \"b\""
    ensures ParseRule(line) == Some((3, [[Terminal('b')]]))
  {
    SampleLetter(line, line[..1], line[3..], 3, 'b');
  }

  lemma SampleLine2(line: string)
    requires line == "2: 1 3 | 3 1"
    ensures ParseRule(line) == Some((2, [[Rule(1), Rule(3)], [Rule(3), Rule(1)]]))
  {
    var index, body := line[..1], line[3..];
    var a, b := body[..3], body[6..];
    var a1, a2, b1, b2 := a[..1], a[2..], b[..1], b[2..];
    assert line == index + ": " + (a + " | " + b);
    assert a == a1 + " " + a2 && b == b1 + " " + b2;
    OneDigit(index, 2);
    RuleToken(a1, 1);
    RuleToken(a2, 3);
    RuleToken(b1, 3);
    RuleToken(b2, 1);
    AltTwo(a, a1, a2, Rule(1), Rule(3));
    AltTwo(b, b1, b2, Rule(3), Rule(1));
    RuleTwo(line, index, 2, a, b, [[Rule(1), Rule(3)], [Rule(3), Rule(1)]]);
  }

  /** The rules of the example, in the order of its lines. */
  function SampleRules(): seq<(nat, Alternatives)>
  {
    [(0, [[Rule(1), Rule(2)]]), (1, [[Terminal('a')]]),
     (2, [[Rule(1), Rule(3)], [Rule(3), Rule(1)]]), (3, [[Terminal('b')]])]
  }

  lemma ToMapSnoc(rs: seq<(nat, Alternatives)>, n: nat)
    requires n < |rs|
    ensures ToMap(rs[..n + 1]) == ToMap(rs[..n])[rs[n].0 := rs[n].1]
  {
    assert rs[..n + 1][..n] == rs[..n];
  }

  lemma SampleToMap(rs: seq<(nat, Alternatives)>)
    requires rs == SampleRules()
    ensures ToMap(rs) == SampleGrammar()
  {
    assert rs[..0] == [];
    ToMapSnoc(rs, 0);
    ToMapSnoc(rs, 1);
    ToMapSnoc(rs, 2);
    ToMapSnoc(rs, 3);
    assert rs[..4] == rs;
  }

  /** `build_map` reproduces the map of the unit tests. */
  lemma SampleBuildMap(l0: string, l1: string, l2: string, l3: string)
    requires l0 == "0: 1 2" && l1 == "1: \"a\"" && l2 == "2: 1 3 | 3 1" && l3 == "3: \"b\""
    ensures BuildMap([l0, l1, l2, l3]) == Some(SampleGrammar())
  {
    SampleLine0(l0);
    SampleLine1(l1);
    SampleLine2(l2);
    SampleLine3(l3);
    var rs := SampleRules();
    CollectFour(ParseRule, l0, l1, l2, l3, rs[0], rs[1], rs[2], rs[3]);
    assert [rs[0], rs[1], rs[2], rs[3]] == rs;
    SampleToMap(SampleRules());
  }

  /** A symbol that can stand where the example's `a` stands, and one where its `b` stands. */
  predicate IsA(s: Symbol) { s == Rule(1) || s == Terminal('a') }
  predicate IsB(s: Symbol) { s == Rule(3) || s == Terminal('b') }

  /** The sentential forms of the example grammar. */
  predicate SampleForm(f: seq<Symbol>)
  {
    f == [Rule(0)] ||
    (|f| == 2 && IsA(f[0]) && f[1] == Rule(2)) ||
    (|f| == 3 && IsA(f[0]) && ((IsA(f[1]) && IsB(f[2])) || (IsB(f[1]) && IsA(f[2]))))
  }

  /** The symbols of a rewriting, position by position. */
  lemma StepAtIndex(rules: Grammar, a: seq<Symbol>, b: seq<Symbol>, p: nat, j: nat)
    requires StepAt(rules, a, b, p, j)
    ensures var alt := rules[a[p].i][j];
      |b| == |a| - 1 + |alt| &&
      (forall q :: 0 <= q < p ==> b[q] == a[q]) &&
      (forall q :: 0 <= q < |alt| ==> b[p + q] == alt[q]) &&
      (forall q :: p < q < |a| ==> b[q - 1 + |alt|] == a[q])
  {
  }

  /** Rewriting keeps the example's forms among its forms. */
  lemma SampleStep(g: Grammar, a: seq<Symbol>, b: seq<Symbol>, p: nat, j: nat)
    requires g == SampleGrammar() && SampleForm(a) && StepAt(g, a, b, p, j)
    ensures SampleForm(b)
  {
    StepAtIndex(g, a, b, p, j);
  }

  lemma {:induction false} SampleChain(g: Grammar, chain: seq<seq<Symbol>>, k: nat)
    requires g == SampleGrammar() && Derivation(g, chain) && k < |chain|
    ensures SampleForm(chain[k])
  {
    if k > 0 {
      SampleChain(g, chain, k - 1);
      assert Produces(g, chain[k - 1], chain[k]);
      var p: nat, j: nat :| StepAt(g, chain[k - 1], chain[k], p, j);
      SampleStep(g, chain[k - 1], chain[k], p, j);
    }
  }

  /** The example grammar derives exactly two messages, "aab" and "aba". */
  lemma SampleLanguage(g: Grammar, w: string)
    requires g == SampleGrammar()
    ensures Derivable(g, Word(w)) ==> w == "aab" || w == "aba"
  {
    if Derivable(g, Word(w)) {
      var chain :| Derivation(g, chain) && chain[|chain| - 1] == Word(w);
      SampleChain(g, chain, |chain| - 1);
      assert SampleForm(Word(w));
      assert |w| > 0 ==> Word(w)[0].Terminal?;
      assert |w| > 1 ==> Word(w)[1].Terminal?;
      assert |w| == 3;
      assert w == [w[0], w[1], w[2]];
    }
  }

  /** "abaa", "ab" and "baa" never match the example grammar, whatever the fuel. */
  lemma SampleRejects(g: Grammar, w: string, fuel: nat)
    requires g == SampleGrammar() && (w == "abaa" || w == "ab" || w == "baa")
    ensures Match(w, g, fuel) != Done(true)
  {
    MatchSound(w, g, fuel);
    SampleLanguage(g, w);
  }

  /** More fuel changes nothing once the search has finished. */
  lemma {:induction false} SearchMore(message: string, rules: Grammar, stack: seq<Entry>, fuel: nat, more: nat)
    requires fuel <= more && Search(message, rules, stack, fuel) != OutOfFuel
    ensures Search(message, rules, stack, more) == Search(message, rules, stack, fuel)
    decreases fuel
  {
    if stack != [] {
      match Pop(message, rules, stack)
      case Stop(o) =>
      case Next(s) => SearchMore(message, rules, s, fuel - 1, more - 1);
    }
  }

  /** An entry is determined by the form it was pushed for. */
  lemma EntryOf(e: Entry, form: seq<Symbol>)
    requires [e.symbol] + e.rest == form
    ensures e == Entry(form[0], form[1..], e.matched)
  {
    assert form[1..] == e.rest;
  }

  /** Rule 0 of the example starts the search with one entry. */
  lemma SampleStart(g: Grammar)
    requires g == SampleGrammar()
    ensures Expanded([], g[0], [], 0) == Some([Entry(Rule(1), [Rule(2)], 0)])
  {
    var r := Expanded([], g[0], [], 0);
    assert g[0][0] + [] == [Rule(1), Rule(2)];
    assert r.Some?;
    EntryOf(r.value[0], [Rule(1), Rule(2)]);
    assert r.value == [r.value[0]];
  }

  /** Rule 2 of the example, with nothing pending, pushes its two alternatives. */
  lemma SampleRule2(g: Grammar, below: seq<Entry>, m: nat)
    requires g == SampleGrammar()
    ensures Expanded(below, g[2], [], m) ==
      Some(below + [Entry(Rule(1), [Rule(3)], m), Entry(Rule(3), [Rule(1)], m)])
  {
    var r := Expanded(below, g[2], [], m);
    assert g[2][0] + [] == [Rule(1), Rule(3)] && g[2][1] + [] == [Rule(3), Rule(1)];
    assert r.Some?;
    var n := |below|;
    EntryOf(r.value[n], [Rule(1), Rule(3)]);
    EntryOf(r.value[n + 1], [Rule(3), Rule(1)]);
    assert r.value == r.value[..n] + [r.value[n], r.value[n + 1]];
  }

  /** A rule of one terminal replaces itself by that terminal. */
  lemma SampleLetterRule(g: Grammar, i: nat, c: char, below: seq<Entry>, rest: seq<Symbol>, m: nat)
    requires g == SampleGrammar() && ((i == 1 && c == 'a') || (i == 3 && c == 'b'))
    ensures Expanded(below, g[i], rest, m) == Some(below + [Entry(Terminal(c), rest, m)])
  {
    assert g[i][..0] == [];
    assert ([Terminal(c)] + rest)[1..] == rest;
  }

  /** One iteration of the search. */
  lemma SearchStep(message: string, rules: Grammar, stack: seq<Entry>, next: seq<Entry>, fuel: nat)
    requires |stack| > 0 && fuel > 0 && Pop(message, rules, stack) == Next(next)
    ensures Search(message, rules, stack, fuel) == Search(message, rules, next, fuel - 1)
  {
  }

  /** The search starts from the single entry for rule 0. */
  lemma SampleMatch(g: Grammar, w: string, fuel: nat)
    requires g == SampleGrammar()
    ensures Match(w, g, fuel) == Search(w, g, [Entry(Rule(1), [Rule(2)], 0)], fuel)
  {
    SampleStart(g);
  }

  /** Both messages begin with 'a': after three iterations both alternatives of rule 2 are pending. */
  lemma SampleOpening(g: Grammar, w: string, fuel: nat)
    requires g == SampleGrammar() && |w| > 0 && w[0] == 'a' && fuel >= 3
    ensures Search(w, g, [Entry(Rule(1), [Rule(2)], 0)], fuel) ==
      Search(w, g, [Entry(Rule(1), [Rule(3)], 1), Entry(Rule(3), [Rule(1)], 1)], fuel - 3)
  {
    var s0 := [Entry(Rule(1), [Rule(2)], 0)];
    var s1 := [Entry(Terminal('a'), [Rule(2)], 0)];
    var s2 := [Entry(Rule(2), [], 1)];
    SampleLetterRule(g, 1, 'a', [], [Rule(2)], 0);
    SampleRule2(g, [], 1);
    SearchStep(w, g, s0, s1, fuel);
    assert Pop(w, g, s1) == Next(s2);
    SearchStep(w, g, s1, s2, fuel - 1);
    SearchStep(w, g, s2, [Entry(Rule(1), [Rule(3)], 1), Entry(Rule(3), [Rule(1)], 1)], fuel - 2);
  }

  /** After the opening, "aab" tries rule 3 first, drops its 'b', and then succeeds with rule 1. */
  lemma SampleAab(g: Grammar, w: string)
    requires g == SampleGrammar() && w == "aab"
    ensures Search(w, g, [Entry(Rule(1), [Rule(3)], 1), Entry(Rule(3), [Rule(1)], 1)], 6) == Done(true)
  {
    AabDropB(g, w, 6);
    AabRule1(g, w, 4);
  }

  /** "aab" at its second character: rule 3 expands to a 'b' that does not match and is dropped. */
  lemma AabDropB(g: Grammar, w: string, fuel: nat)
    requires g == SampleGrammar() && w == "aab" && fuel >= 2
    ensures Search(w, g, [Entry(Rule(1), [Rule(3)], 1), Entry(Rule(3), [Rule(1)], 1)], fuel) ==
      Search(w, g, [Entry(Rule(1), [Rule(3)], 1)], fuel - 2)
  {
    var r1 := Entry(Rule(1), [Rule(3)], 1);
    var s3 := [r1, Entry(Rule(3), [Rule(1)], 1)];
    var s4 := [r1, Entry(Terminal('b'), [Rule(1)], 1)];
    SampleLetterRule(g, 3, 'b', [r1], [Rule(1)], 1);
    SearchStep(w, g, s3, s4, fuel);
    assert Pop(w, g, s4) == Next([r1]);
    SearchStep(w, g, s4, [r1], fuel - 1);
  }

  /** "aab" at its second character: rule 1 matches the 'a', then rule 3 the final 'b'. */
  lemma AabRule1(g: Grammar, w: string, fuel: nat)
    requires g == SampleGrammar() && w == "aab" && fuel >= 4
    ensures Search(w, g, [Entry(Rule(1), [Rule(3)], 1)], fuel) == Done(true)
  {
    var s6 := [Entry(Terminal('a'), [Rule(3)], 1)];
    var s7 := [Entry(Rule(3), [], 2)];
    SampleLetterRule(g, 1, 'a', [], [Rule(3)], 1);
    SearchStep(w, g, [Entry(Rule(1), [Rule(3)], 1)], s6, fuel);
    assert Pop(w, g, s6) == Next(s7);
    SearchStep(w, g, s6, s7, fuel - 1);
    AabFinalB(g, w, fuel - 2);
  }

  /** "aab" at its last character: rule 3 matches the final 'b'. */
  lemma AabFinalB(g: Grammar, w: string, fuel: nat)
    requires g == SampleGrammar() && w == "aab" && fuel >= 2
    ensures Search(w, g, [Entry(Rule(3), [], 2)], fuel) == Done(true)
  {
    var s7 := [Entry(Rule(3), [], 2)];
    var s8 := [Entry(Terminal('b'), [], 2)];
    SampleLetterRule(g, 3, 'b', [], [], 2);
    SearchStep(w, g, s7, s8, fuel);
    assert Pop(w, g, s8) == Stop(Done(true));
  }

  /** After the opening, "aba" succeeds with rule 3 followed by rule 1. */
  lemma SampleAba(g: Grammar, w: string)
    requires g == SampleGrammar() && w == "aba"
    ensures Search(w, g, [Entry(Rule(1), [Rule(3)], 1), Entry(Rule(3), [Rule(1)], 1)], 4) == Done(true)
  {
    AbaMatchB(g, w, 4);
    AbaMatchA(g, w, 2);
  }

  /** "aba" at its second character: rule 3 matches the 'b' and leaves rule 1 pending. */
  lemma AbaMatchB(g: Grammar, w: string, fuel: nat)
    requires g == SampleGrammar() && w == "aba" && fuel >= 2
    ensures Search(w, g, [Entry(Rule(1), [Rule(3)], 1), Entry(Rule(3), [Rule(1)], 1)], fuel) ==
      Search(w, g, [Entry(Rule(1), [Rule(3)], 1), Entry(Rule(1), [], 2)], fuel - 2)
  {
    var r1 := Entry(Rule(1), [Rule(3)], 1);
    var s3 := [r1, Entry(Rule(3), [Rule(1)], 1)];
    var s4 := [r1, Entry(Terminal('b'), [Rule(1)], 1)];
    var s5 := [r1, Entry(Rule(1), [], 2)];
    SampleLetterRule(g, 3, 'b', [r1], [Rule(1)], 1);
    SearchStep(w, g, s3, s4, fuel);
    assert Pop(w, g, s4) == Next(s5);
    SearchStep(w, g, s4, s5, fuel - 1);
  }

  /** "aba" at its last character: rule 1 matches the final 'a'. */
  lemma AbaMatchA(g: Grammar, w: string, fuel: nat)
    requires g == SampleGrammar() && w == "aba" && fuel >= 2
    ensures Search(w, g, [Entry(Rule(1), [Rule(3)], 1), Entry(Rule(1), [], 2)], fuel) == Done(true)
  {
    var r1 := Entry(Rule(1), [Rule(3)], 1);
    var s5 := [r1, Entry(Rule(1), [], 2)];
    var s6 := [r1, Entry(Terminal('a'), [], 2)];
    SampleLetterRule(g, 1, 'a', [r1], [], 2);
    SearchStep(w, g, s5, s6, fuel);
    assert Pop(w, g, s6) == Stop(Done(true));
  }

  /** "aab" and "aba" match the example grammar given nine iterations. */
  lemma SampleAccepts(g: Grammar, w: string, fuel: nat)
    requires g == SampleGrammar() && (w == "aab" || w == "aba") && fuel >= 9
    ensures Match(w, g, fuel) == Done(true)
  {
    var s3 := [Entry(Rule(1), [Rule(3)], 1), Entry(Rule(3), [Rule(1)], 1)];
    SampleMatch(g, w, fuel);
    SampleOpening(g, w, fuel);
    if w == "aab" {
      SampleAab(g, w);
      SearchMore(w, g, s3, 6, fuel - 3);
    } else {
      SampleAba(g, w);
      SearchMore(w, g, s3, 4, fuel - 3);
    }
  }
}

=== FILE: day20.dfy ===
/**
 * Day 20: jigsaw tiles. A tile is a block of rows, each row kept in a 16-bit
 * word whose bit i is pixel i ('#' set, '.' clear); the puzzle's tiles are
 * 10 by 10. Two tiles are neighbours when an edge of one equals an edge of
 * the other, read either way round.
 */
module Day20 {
  import opened Wrappers
  import opened Text
  import opened Lists

  /** `TILE_SIZE`: the side of a tile. */
  const TileSize: nat := 10

  /** `Edge(u16)`: a row or a column of a tile, bit i for pixel i. */
  type Edge = bv16

  /** A bit position of an `Edge`; arithmetic on it wraps modulo 16. */
  type Index = bv4

  predicate Bit(x: Edge, i: Index) { (x >> i) & 1 == 1 }

  /** The sixteen bits of `x` and `y` agree, position by position. */
  predicate AllBitsAgree(x: Edge, y: Edge)
  {
    Bit(x, 0) == Bit(y, 0) && Bit(x, 1) == Bit(y, 1) && Bit(x, 2) == Bit(y, 2) && Bit(x, 3) == Bit(y, 3) &&
    Bit(x, 4) == Bit(y, 4) && Bit(x, 5) == Bit(y, 5) && Bit(x, 6) == Bit(y, 6) && Bit(x, 7) == Bit(y, 7) &&
    Bit(x, 8) == Bit(y, 8) && Bit(x, 9) == Bit(y, 9) && Bit(x, 10) == Bit(y, 10) && Bit(x, 11) == Bit(y, 11) &&
    Bit(x, 12) == Bit(y, 12) && Bit(x, 13) == Bit(y, 13) && Bit(x, 14) == Bit(y, 14) && Bit(x, 15) == Bit(y, 15)
  }

  lemma AgreeingBits(x: Edge, y: Edge)
    requires AllBitsAgree(x, y)
    ensures x == y
  {
  }

  /** Two edges with the same sixteen bits are the same edge. */
  lemma SameBits(x: Edge, y: Edge)
    requires forall i: Index :: Bit(x, i) == Bit(y, i)
    ensures x == y
  {
    assert AllBitsAgree(x, y);
    AgreeingBits(x, y);
  }

  /** An edge of a 10-pixel side: no bit at position 10 or above. */
  predicate TenBits(x: Edge) { x < 1024 }

  lemma TenBitsHigh(x: Edge)
    ensures TenBits(x) <==> forall i: Index :: i >= 10 ==> !Bit(x, i)
  {
    if !TenBits(x) {
      assert Bit(x, 10) || Bit(x, 11) || Bit(x, 12) || Bit(x, 13) || Bit(x, 14) || Bit(x, 15);
    }
  }

  // ---------------------------------------------------------------------
  // Reversal

  /** `u16::reverse_bits`, written as the usual swap network: bit i moves to bit 15 - i. */
  function ReverseBits(x: Edge): (r: Edge)
    ensures forall i: Index :: Bit(r, i) == Bit(x, 15 - i)
  {
    var a := ((x >> 1) & 0x5555) | ((x & 0x5555) << 1);
    var b := ((a >> 2) & 0x3333) | ((a & 0x3333) << 2);
    var c := ((b >> 4) & 0x0F0F) | ((b & 0x0F0F) << 4);
    (c >> 8) | (c << 8)
  }

  /**
   * `Edge::reverse`: the sixteen bits reversed, then rotated left by ten, so
   * that bit i goes to bit (9 - i) mod 16 and a 10-bit edge is read backwards.
   */
  function Reverse(e: Edge): (r: Edge)
    ensures forall i: Index :: Bit(r, i) == Bit(e, 9 - i)
  {
    ReverseBits(e).RotateLeft(10)
  }

  /** Reversing twice gives the edge back. */
  lemma ReverseInvolution(e: Edge)
    ensures Reverse(Reverse(e)) == e
  {
    SameBits(Reverse(Reverse(e)), e);
  }

  /** Reversal keeps a 10-bit edge within ten bits. */
  lemma ReverseTenBits(e: Edge)
    requires TenBits(e)
    ensures TenBits(Reverse(e))
  {
    TenBitsHigh(e);
    TenBitsHigh(Reverse(e));
  }

  /** Reversal is injective. */
  lemma ReverseInjective(e: Edge, f: Edge)
    requires Reverse(e) == Reverse(f)
    ensures e == f
  {
    ReverseInvolution(e);
    ReverseInvolution(f);
  }

  // ---------------------------------------------------------------------
  // Tiles

  datatype Tile = Tile(id: nat, rows: seq<Edge>)
  {
    /**
     * `get_col` for every row: the shifts of the source overflow a `u16`
     * (a panic) beyond sixteen rows.
     */
    predicate Columnable() { |rows| <= 16 }

    /** The edges exist: row 9 is there, and no shift overflows. */
    predicate Shaped() { TileSize <= |rows| <= 16 }

    /** A puzzle tile: ten rows of ten pixels. */
    predicate Square() { |rows| == TileSize && forall k :: 0 <= k < |rows| ==> TenBits(rows[k]) }

    /** `get_col(c)`: bit r is pixel c of row r. */
    function GetCol(c: Index): Edge
      requires Columnable()
    {
      Column(rows, c)
    }

    /** `top_edge`: row 0, left to right. */
    function TopEdge(): Edge
      requires Shaped()
    {
      rows[0]
    }

    /** `right_edge`: column 9, top to bottom. */
    function RightEdge(): Edge
      requires Shaped()
    {
      GetCol(9)
    }

    /** `bottom_edge`: row 9, left to right (not reversed). */
    function BottomEdge(): Edge
      requires Shaped()
    {
      rows[TileSize - 1]
    }

    /** `left_edge`: column 0, top to bottom (not reversed). */
    function LeftEdge(): Edge
      requires Shaped()
    {
      GetCol(0)
    }

    /** `edges`: top, right, bottom, left, each read in its unreversed direction. */
    function Edges(): seq<Edge>
      requires Shaped()
    {
      [TopEdge(), RightEdge(), BottomEdge(), LeftEdge()]
    }

    /**
     * `rotate`: a quarter turn. New row k is old column k read backwards, so
     * its bit j is bit 9 - j (mod 16) of that column.
     */
    function Rotate(): (t: Tile)
      requires Columnable()
      ensures t.id == id && |t.rows| == TileSize
      ensures forall k :: 0 <= k < TileSize ==> t.rows[k] == Reverse(GetCol(k as Index))
    {
      Tile(id, seq(TileSize, k requires 0 <= k < TileSize => Reverse(GetCol(k as Index))))
    }
  }

  /** The fold of `get_col`: the rows' pixels `c`, row r in bit r. */
  function Column(rows: seq<Edge>, c: Index): Edge
    requires |rows| <= 16
  {
    if rows == [] then 0
    else
      var k := |rows| - 1;
      Column(rows[..k], c) | Pixel(rows[k], c, k)
  }

  /**
   * The four edges are row 0, column 9 (bit r is pixel 9 of row r), row 9
   * and column 0 (bit r is pixel 0 of row r), in that order, none reversed.
   */
  lemma EdgesLayout(t: Tile)
    requires t.Shaped()
    ensures |t.Edges()| == 4 && t.Edges()[0] == t.rows[0] && t.Edges()[2] == t.rows[9]
    ensures forall r: Index :: Bit(t.Edges()[1], r) == (r as int < |t.rows| && Bit(t.rows[r], 9))
    ensures forall r: Index :: Bit(t.Edges()[3], r) == (r as int < |t.rows| && Bit(t.rows[r], 0))
  {
    ColumnBits(t.rows, 9);
    ColumnBits(t.rows, 0);
  }

  /** One step of the fold: pixel `c` of `row`, moved to bit `k`. */
  function Pixel(row: Edge, c: Index, k: nat): Edge
    requires k < 16
  {
    ((row & (1 << c)) >> c) << k
  }

  /** One step of the fold: bit k of the accumulator takes pixel c of the row. */
  lemma ColumnStepAt(a: Edge, row: Edge, c: Index, k: nat, r: Index, x: Edge)
    requires k < 16
    requires x == a | Pixel(row, c, k)
    ensures Bit(x, r) == (Bit(a, r) || (r as int == k && Bit(row, c)))
  {
  }

  /** Bit r of column c is pixel c of row r; bits past the last row are clear. */
  lemma {:induction false} ColumnBitAt(rows: seq<Edge>, c: Index, r: Index)
    requires |rows| <= 16
    ensures Bit(Column(rows, c), r) == (r as int < |rows| && Bit(rows[r], c))
  {
    if rows != [] {
      var k := |rows| - 1;
      ColumnBitAt(rows[..k], c, r);
      ColumnStepAt(Column(rows[..k], c), rows[k], c, k, r, Column(rows, c));
      if r as int < k {
        assert rows[..k][r] == rows[r];
      }
    }
  }

  lemma ColumnBits(rows: seq<Edge>, c: Index)
    requires |rows| <= 16
    ensures forall r: Index :: Bit(Column(rows, c), r) == (r as int < |rows| && Bit(rows[r], c))
  {
    forall r: Index ensures Bit(Column(rows, c), r) == (r as int < |rows| && Bit(rows[r], c)) {
      ColumnBitAt(rows, c, r);
    }
  }

  // ---------------------------------------------------------------------
  // Rotation

  /** After a quarter turn, pixel j of row k is pixel k of old row 9 - j. */
  lemma RotateBitAt(t: Tile, k: nat, j: Index)
    requires t.Square() && k < TileSize
    ensures Bit(t.Rotate().rows[k], j) == (j < 10 && Bit(t.rows[9 - j], k as Index))
  {
    ColumnBitAt(t.rows, k as Index, 9 - j);
  }

  /** A quarter turn of a puzzle tile is again ten rows of ten pixels. */
  lemma RotateSquare(t: Tile)
    requires t.Square()
    ensures t.Rotate().Square()
  {
    var u := t.Rotate();
    forall k | 0 <= k < TileSize ensures TenBits(u.rows[k]) {
      forall j: Index | j >= 10 ensures !Bit(u.rows[k], j) {
        RotateBitAt(t, k, j);
      }
      TenBitsHigh(u.rows[k]);
    }
  }

  /** A half turn: pixel j of row k is pixel 9 - j of old row 9 - k. */
  lemma HalfTurnBitAt(t: Tile, k: nat, j: Index)
    requires t.Square() && k < TileSize
    ensures t.Rotate().Square()
    ensures Bit(t.Rotate().Rotate().rows[k], j) == (j < 10 && Bit(t.rows[9 - k], 9 - j))
  {
    RotateSquare(t);
    var u := t.Rotate();
    RotateBitAt(u, k, j);
    if j < 10 {
      var r := (9 - j) as int;
      FlipIndex(j);
      NatIndex(k);
      RotateBitAt(t, r, k as Index);
    }
  }

  /** The bit-vector arithmetic behind `9 - j` for a pixel index below ten. */
  lemma FlipIndex(j: Index)
    requires j < 10
    ensures (9 - j) as int == 9 - j as int && ((9 - j) as int) as Index == 9 - j
  {
  }

  /** A row number below ten as a pixel index, and its mirror. */
  lemma NatIndex(k: nat)
    requires k < 10
    ensures (k as Index) as int == k && k as Index < 10 && (9 - k as Index) as int == 9 - k
  {
  }

  /** `rotate` has order four on puzzle tiles: four quarter turns give the tile back. */
  lemma RotateFour(t: Tile)
    requires t.Square()
    ensures t.Rotate().Rotate().Rotate().Rotate() == t
  {
    var h := t.Rotate().Rotate();
    RotateSquare(t);
    RotateSquare(t.Rotate());
    var u := h.Rotate().Rotate();
    forall k | 0 <= k < TileSize ensures u.rows[k] == t.rows[k] {
      forall j: Index ensures Bit(u.rows[k], j) == Bit(t.rows[k], j) {
        FullTurnBitAt(t, k, j);
      }
      SameBits(u.rows[k], t.rows[k]);
    }
    assert u.rows == t.rows;
  }

  /** Two half turns put every pixel back in place. */
  lemma FullTurnBitAt(t: Tile, k: nat, j: Index)
    requires t.Square() && k < TileSize
    ensures t.Rotate().Square() && t.Rotate().Rotate().Square()
    ensures Bit(t.Rotate().Rotate().Rotate().Rotate().rows[k], j) == Bit(t.rows[k], j)
  {
    RotateSquare(t);
    RotateSquare(t.Rotate());
    var h := t.Rotate().Rotate();
    HalfTurnBitAt(h, k, j);
    if j < 10 {
      HalfTurnBitAt(t, 9 - k, 9 - j);
    } else {
      TenBitsHigh(t.rows[k]);
    }
  }

  /**
   * A quarter turn takes the edges top, right, bottom, left to: the old left
   * reversed, the old top, the old right reversed, the old bottom.
   */
  lemma RotateEdges(t: Tile)
    requires t.Square()
    ensures t.Rotate().Shaped()
    ensures t.Rotate().Edges() == [Reverse(t.LeftEdge()), t.TopEdge(), Reverse(t.RightEdge()), t.BottomEdge()]
  {
    var u := t.Rotate();
    RotateSquare(t);
    forall r: Index ensures Bit(u.RightEdge(), r) == Bit(t.TopEdge(), r) {
      ColumnBitAt(u.rows, 9, r);
      if r < 10 {
        RotateBitAt(t, r as int, 9);
      } else {
        TenBitsHigh(t.rows[0]);
      }
    }
    SameBits(u.RightEdge(), t.TopEdge());
    forall r: Index ensures Bit(u.LeftEdge(), r) == Bit(t.BottomEdge(), r) {
      ColumnBitAt(u.rows, 0, r);
      if r < 10 {
        RotateBitAt(t, r as int, 0);
      } else {
        TenBitsHigh(t.rows[9]);
      }
    }
    SameBits(u.LeftEdge(), t.BottomEdge());
  }

  // ---------------------------------------------------------------------
  // Parsing

  /** The fold of `parse_tile` over one line: sets bit i for a '#' in column i. */
  function ParseRow(line: string): (r: Option<Edge>)
    ensures r.Some? <==> forall i :: 0 <= i < |line| && line[i] == '#' ==> i < 16
  {
    if line == [] then Some(0)
    else
      var k := |line| - 1;
      assert forall i :: 0 <= i < k ==> line[..k][i] == line[i];
      match ParseRow(line[..k])
      case None => None
      case Some(row) =>
        if line[k] != '#' then Some(row)
        else if k < 16 then Some(Mark(row, k))
        else None
  }

  /** `row | (1 << i)`. */
  function Mark(row: Edge, i: nat): Edge
    requires i < 16
  {
    row | (1 << i)
  }

  lemma MarkBitAt(row: Edge, i: nat, r: Index, x: Edge)
    requires i < 16 && x == Mark(row, i)
    ensures Bit(x, r) == (Bit(row, r) || r as int == i)
  {
  }

  /** Bit i of a parsed row is set exactly when column i holds a '#'. */
  lemma {:induction false} RowBitAt(line: string, i: Index)
    requires ParseRow(line).Some?
    ensures Bit(ParseRow(line).value, i) == (i as int < |line| && line[i] == '#')
  {
    if line != [] {
      var prefix := line[..|line| - 1];
      assert ParseRow(prefix).Some?;
      RowBitAt(prefix, i);
      RowBitStep(line, i);
    }
  }

  /** The fold's step: column `|line| - 1` decides bit i only when i is that column. */
  lemma RowBitStep(line: string, i: Index)
    requires line != [] && ParseRow(line).Some? && ParseRow(line[..|line| - 1]).Some?
    requires var prefix := line[..|line| - 1];
             Bit(ParseRow(prefix).value, i) == (i as int < |prefix| && prefix[i] == '#')
    ensures Bit(ParseRow(line).value, i) == (i as int < |line| && line[i] == '#')
  {
    var k := |line| - 1;
    var prefix := line[..k];
    var row, x := ParseRow(prefix).value, ParseRow(line).value;
    if line[k] == '#' {
      assert x == Mark(row, k);
      MarkBitAt(row, k, i, x);
    } else {
      assert x == row;
    }
    if (i as int) < k {
      assert prefix[i] == line[i];
    }
  }

  lemma RowBits(line: string)
    requires ParseRow(line).Some?
    ensures forall i: Index :: Bit(ParseRow(line).value, i) == (i as int < |line| && line[i] == '#')
  {
    forall i: Index ensures Bit(ParseRow(line).value, i) == (i as int < |line| && line[i] == '#') {
      RowBitAt(line, i);
    }
  }

  /** The header of a tile, `Tile <id>:`, with its prefix and suffix stripped and the rest parsed. */
  function ParseHeader(header: string): (r: Option<nat>)
    ensures r.Some? ==> |header| >= 6 && header == "Tile " + header[5..|header| - 1] + ":"
                        && ParseNat(header[5..|header| - 1]) == r
  {
    if StartsWith(header, "Tile ") && |header| >= 6 && header[|header| - 1] == ':' then
      assert header == header[..5] + header[5..|header| - 1] + [header[|header| - 1]];
      ParseNat(header[5..|header| - 1])
    else None
  }

  /** Every `Tile <digits>:` header is accepted, with the digits' value. */
  lemma HeaderOf(digits: string)
    ensures ParseHeader("Tile " + digits + ":") == ParseNat(digits)
  {
    var h := "Tile " + digits + ":";
    assert h[..5] == "Tile " && h[|h| - 1] == ':';
    assert h[5..|h| - 1] == digits;
    if digits == [] {
      assert ParseNat(digits).None?;
    }
  }

  /**
   * `parse_tile`: the header line, then one row per following line; `None`
   * without a line feed, with a bad header, or (a panic in the source) with
   * a '#' past column 15.
   */
  function ParseTile(s: string): (r: Option<Tile>)
    ensures r.Some? <==> SplitOnce(s, "\n").Some?
                         && ParseHeader(SplitOnce(s, "\n").value.0).Some?
                         && forall k :: 0 <= k < |Lines(SplitOnce(s, "\n").value.1)| ==>
                              ParseRow(Lines(SplitOnce(s, "\n").value.1)[k]).Some?
    ensures r.Some? ==> var body := Lines(SplitOnce(s, "\n").value.1);
                        r.value.id == ParseHeader(SplitOnce(s, "\n").value.0).value
                        && |r.value.rows| == |body|
                        && forall k, i: Index :: 0 <= k < |body| ==>
                             Bit(r.value.rows[k], i) == (i as int < |body[k]| && body[k][i] == '#')
  {
    match SplitOnce(s, "\n")
    case None => None
    case Some((header, body)) =>
      match ParseHeader(header)
      case None => None
      case Some(id) =>
        var lines := Lines(body);
        match Collect(ParseRow, lines)
        case None => None
        case Some(rows) =>
          assert forall k :: 0 <= k < |lines| ==> rows[k] == ParseRow(lines[k]).value;
          RowsBits(lines, rows);
          Some(Tile(id, rows))
  }

  lemma RowsBits(lines: seq<string>, rows: seq<Edge>)
    requires |rows| == |lines|
    requires forall k :: 0 <= k < |lines| ==> ParseRow(lines[k]) == Some(rows[k])
    ensures forall k, i: Index :: 0 <= k < |lines| ==> Bit(rows[k], i) == (i as int < |lines[k]| && lines[k][i] == '#')
  {
    forall k, i: Index | 0 <= k < |lines| ensures Bit(rows[k], i) == (i as int < |lines[k]| && lines[k][i] == '#') {
      RowBitAt(lines[k], i);
    }
  }

  /** Every block parses as a tile. */
  predicate AllTiles(blocks: seq<string>)
  {
    forall k :: 0 <= k < |blocks| ==> ParseTile(blocks[k]).Some?
  }

  /** `tiles` are the blocks' tiles, in order. */
  predicate TilesOf(blocks: seq<string>, tiles: seq<Tile>)
  {
    |tiles| == |blocks| && forall k :: 0 <= k < |blocks| ==> ParseTile(blocks[k]) == Some(tiles[k])
  }

  /** `parse_input`: the blocks between blank lines, each a tile; `None` if any block fails. */
  function ParseInput(contents: string): (r: Option<seq<Tile>>)
    ensures r.Some? <==> AllTiles(Split(contents, "\n\n"))
    ensures r.Some? ==> TilesOf(Split(contents, "\n\n"), r.value)
  {
    Collect(ParseTile, Split(contents, "\n\n"))
  }

  // ---------------------------------------------------------------------
  // Neighbours

  /** The test of `find_neighbors`: the edges are equal, or equal once `f` is reversed. */
  predicate EdgesMatch(e: Edge, f: Edge)
  {
    e == f || e == Reverse(f)
  }

  /** The test is symmetric, because reversal is an involution. */
  lemma MatchSymmetric(e: Edge, f: Edge)
    ensures EdgesMatch(e, f) <==> EdgesMatch(f, e)
  {
    ReverseInvolution(e);
    ReverseInvolution(f);
  }

  /** Reversing one side does not change whether two edges match. */
  lemma MatchReversed(e: Edge, f: Edge)
    ensures EdgesMatch(Reverse(e), f) <==> EdgesMatch(e, f)
  {
    ReverseInvolution(e);
    ReverseInvolution(f);
    if Reverse(e) == Reverse(f) {
      ReverseInjective(e, f);
    }
  }

  /** How many edges of `fs` match `e`. */
  function Hits(e: Edge, fs: seq<Edge>): (n: nat)
    ensures n <= |fs|
  {
    if fs == [] then 0
    else Hits(e, fs[..|fs| - 1]) + if EdgesMatch(e, fs[|fs| - 1]) then 1 else 0
  }

  /** How many pairs of an edge of `es` and an edge of `fs` match. */
  function Matches(es: seq<Edge>, fs: seq<Edge>): nat
  {
    if es == [] then 0
    else Matches(es[..|es| - 1], fs) + Hits(es[|es| - 1], fs)
  }

  lemma {:induction false} MatchesSnocRight(fs: seq<Edge>, es: seq<Edge>, e: Edge)
    ensures Matches(fs, es + [e]) == Matches(fs, es) + Hits(e, fs)
  {
    if fs != [] {
      var f, init := fs[|fs| - 1], fs[..|fs| - 1];
      MatchesSnocRight(init, es, e);
      assert (es + [e])[..|es|] == es;
      MatchSymmetric(e, f);
    }
  }

  lemma {:induction false} MatchesNone(fs: seq<Edge>)
    ensures Matches(fs, []) == 0
  {
    if fs != [] {
      MatchesNone(fs[..|fs| - 1]);
    }
  }

  /** Counting matching pairs does not depend on which tile comes first. */
  lemma {:induction false} MatchesSymmetric(es: seq<Edge>, fs: seq<Edge>)
    ensures Matches(es, fs) == Matches(fs, es)
  {
    if es != [] {
      var init, e := es[..|es| - 1], es[|es| - 1];
      MatchesSymmetric(init, fs);
      MatchesSnocRight(fs, init, e);
      assert init + [e] == es;
    } else {
      MatchesNone(fs);
    }
  }

  /** Reversing an edge does not change how many edges it matches. */
  lemma {:induction false} HitsReversed(e: Edge, fs: seq<Edge>)
    ensures Hits(Reverse(e), fs) == Hits(e, fs)
  {
    if fs != [] {
      HitsReversed(e, fs[..|fs| - 1]);
      MatchReversed(e, fs[|fs| - 1]);
    }
  }

  /** The matching pairs of four edges, one edge at a time. */
  lemma MatchesFour(es: seq<Edge>, fs: seq<Edge>)
    requires |es| == 4
    ensures Matches(es, fs) == Hits(es[0], fs) + Hits(es[1], fs) + Hits(es[2], fs) + Hits(es[3], fs)
  {
    assert es[..3][..2] == es[..2] && es[..2][..1] == es[..1] && es[..1][..0] == [];
    assert Matches(es[..1], fs) == Hits(es[0], fs);
    assert Matches(es[..2], fs) == Matches(es[..1], fs) + Hits(es[1], fs);
    assert Matches(es[..3], fs) == Matches(es[..2], fs) + Hits(es[2], fs);
  }

  /**
   * Turning a puzzle tile a quarter does not change how many of its edge
   * pairs match another tile's: the matching is blind to orientation.
   */
  lemma RotateKeepsMatches(t: Tile, u: Tile)
    requires t.Square() && u.Shaped()
    ensures t.Rotate().Shaped()
    ensures Matches(t.Rotate().Edges(), u.Edges()) == Matches(t.Edges(), u.Edges())
  {
    RotateEdges(t);
    var fs := u.Edges();
    MatchesFour(t.Rotate().Edges(), fs);
    MatchesFour(t.Edges(), fs);
    HitsReversed(t.LeftEdge(), fs);
    HitsReversed(t.RightEdge(), fs);
  }

  /** `n` copies of `v`. */
  function Repeat(v: nat, n: nat): (r: seq<nat>)
    ensures |r| == n && forall k :: 0 <= k < n ==> r[k] == v
  {
    seq(n, _ => v)
  }

  lemma RepeatCount(v: nat, n: nat, b: nat)
    ensures multiset(Repeat(v, n))[b] == if v == b then n else 0
  {
    if n > 0 {
      assert Repeat(v, n) == Repeat(v, n - 1) + [v];
      RepeatCount(v, n - 1, b);
    }
  }

  /** The tiles' edges exist. */
  predicate AllShaped(tiles: seq<Tile>)
  {
    forall t :: t in tiles ==> t.Shaped()
  }

  /** The ids of the tiles. */
  function Ids(tiles: seq<Tile>): set<nat>
  {
    set t | t in tiles :: t.id
  }

  /**
   * The ids pushed onto the list of `t` while the middle loop visits
   * `others`: each other tile's id once per matching edge pair; tiles with
   * `t`'s own id are skipped.
   */
  function Pushes(t: Tile, others: seq<Tile>): (ps: seq<nat>)
    requires t.Shaped() && AllShaped(others)
    ensures forall k :: 0 <= k < |ps| ==> ps[k] != t.id && ps[k] in Ids(others)
  {
    if others == [] then []
    else
      var u := others[|others| - 1];
      var init := others[..|others| - 1];
      assert Ids(init) <= Ids(others) && u.id in Ids(others);
      Pushes(t, init) + if u.id == t.id then [] else Repeat(u.id, Matches(t.Edges(), u.Edges()))
  }

  /** The list of id `a` once the outer loop of `find_neighbors` has visited `ts`. */
  function ListFor(ts: seq<Tile>, tiles: seq<Tile>, a: nat): (ns: seq<nat>)
    requires AllShaped(ts) && AllShaped(tiles)
    ensures forall k :: 0 <= k < |ns| ==> ns[k] != a && ns[k] in Ids(tiles)
  {
    if ts == [] then []
    else
      var t := ts[|ts| - 1];
      ListFor(ts[..|ts| - 1], tiles, a) + if t.id == a then Pushes(t, tiles) else []
  }

  /** The ids `b` pushed onto the list of `a` because of the ordered pair (t, u). */
  function Link(t: Tile, u: Tile, a: nat, b: nat): nat
    requires t.Shaped() && u.Shaped()
  {
    if t.id == a && u.id == b && a != b then Matches(t.Edges(), u.Edges()) else 0
  }

  /** Pushes of `b` onto the list of `a` caused by `t` and each tile of `us`. */
  function Row(t: Tile, us: seq<Tile>, a: nat, b: nat): (n: nat)
    requires t.Shaped() && AllShaped(us)
    ensures t.id != a || a == b ==> n == 0
  {
    if us == [] then 0 else Row(t, us[..|us| - 1], a, b) + Link(t, us[|us| - 1], a, b)
  }

  /** Pushes of `b` onto the list of `a` caused by each tile of `ts` and `u`. */
  function Into(ts: seq<Tile>, u: Tile, a: nat, b: nat): nat
    requires AllShaped(ts) && u.Shaped()
  {
    if ts == [] then 0 else Into(ts[..|ts| - 1], u, a, b) + Link(ts[|ts| - 1], u, a, b)
  }

  /** Pushes of `b` onto the list of `a` over all pairs of a tile of `ts` and a tile of `us`. */
  function Links(ts: seq<Tile>, us: seq<Tile>, a: nat, b: nat): nat
    requires AllShaped(ts) && AllShaped(us)
  {
    if ts == [] then 0 else Links(ts[..|ts| - 1], us, a, b) + Row(ts[|ts| - 1], us, a, b)
  }

  lemma LinkSwap(t: Tile, u: Tile, a: nat, b: nat)
    requires t.Shaped() && u.Shaped()
    ensures Link(t, u, a, b) == Link(u, t, b, a)
  {
    MatchesSymmetric(t.Edges(), u.Edges());
  }

  lemma {:induction false} RowSwap(t: Tile, us: seq<Tile>, a: nat, b: nat)
    requires t.Shaped() && AllShaped(us)
    ensures Row(t, us, a, b) == Into(us, t, b, a)
  {
    if us != [] {
      RowSwap(t, us[..|us| - 1], a, b);
      LinkSwap(t, us[|us| - 1], a, b);
    }
  }

  lemma {:induction false} LinksNone(us: seq<Tile>, a: nat, b: nat)
    requires AllShaped(us)
    ensures Links(us, [], a, b) == 0
  {
    if us != [] {
      LinksNone(us[..|us| - 1], a, b);
    }
  }

  lemma {:induction false} LinksSnocRight(us: seq<Tile>, ts: seq<Tile>, t: Tile, a: nat, b: nat)
    requires AllShaped(us) && AllShaped(ts) && t.Shaped()
    ensures AllShaped(ts + [t])
    ensures Links(us, ts + [t], a, b) == Links(us, ts, a, b) + Into(us, t, a, b)
  {
    if us != [] {
      var u := us[|us| - 1];
      LinksSnocRight(us[..|us| - 1], ts, t, a, b);
      assert (ts + [t])[..|ts|] == ts;
      assert Row(u, ts + [t], a, b) == Row(u, ts, a, b) + Link(u, t, a, b);
    }
  }

  /** The pushes of `b` onto `a`'s list over all pairs are the pushes of `a` onto `b`'s. */
  lemma {:induction false} LinksSwap(ts: seq<Tile>, us: seq<Tile>, a: nat, b: nat)
    requires AllShaped(ts) && AllShaped(us)
    ensures Links(ts, us, a, b) == Links(us, ts, b, a)
  {
    if ts == [] {
      LinksNone(us, b, a);
    } else {
      var init, t := ts[..|ts| - 1], ts[|ts| - 1];
      LinksSwap(init, us, a, b);
      RowSwap(t, us, a, b);
      LinksSnocRight(us, init, t, b, a);
      assert init + [t] == ts;
    }
  }

  /** How often `b` is pushed while the middle loop runs for `t`. */
  lemma {:induction false} PushesCount(t: Tile, us: seq<Tile>, b: nat)
    requires t.Shaped() && AllShaped(us)
    ensures multiset(Pushes(t, us))[b] == Row(t, us, t.id, b)
  {
    if us != [] {
      var u := us[|us| - 1];
      PushesCount(t, us[..|us| - 1], b);
      if u.id != t.id {
        RepeatCount(u.id, Matches(t.Edges(), u.Edges()), b);
      }
    }
  }

  /** How often `b` is in the list of `a` once the outer loop has visited `ts`. */
  lemma {:induction false} ListForCount(ts: seq<Tile>, tiles: seq<Tile>, a: nat, b: nat)
    requires AllShaped(ts) && AllShaped(tiles)
    ensures multiset(ListFor(ts, tiles, a))[b] == Links(ts, tiles, a, b)
  {
    if ts != [] {
      var t := ts[|ts| - 1];
      ListForCount(ts[..|ts| - 1], tiles, a, b);
      if t.id == a {
        PushesCount(t, tiles, b);
      }
    }
  }

  /**
   * The number of times `b` is in the list of `a` is the number of matching
   * edge pairs between a tile with id `a` and a tile with id `b`; a tile is
   * never its own neighbour.
   */
  lemma NeighborCount(tiles: seq<Tile>, a: nat, b: nat)
    requires AllShaped(tiles)
    ensures multiset(ListFor(tiles, tiles, a))[b] == Links(tiles, tiles, a, b)
    ensures a !in ListFor(tiles, tiles, a)
  {
    ListForCount(tiles, tiles, a, b);
  }

  /** `b` is in the list of `a` exactly as often as `a` is in the list of `b`. */
  lemma NeighborsSymmetric(tiles: seq<Tile>, a: nat, b: nat)
    requires AllShaped(tiles)
    ensures multiset(ListFor(tiles, tiles, a))[b] == multiset(ListFor(tiles, tiles, b))[a]
  {
    ListForCount(tiles, tiles, a, b);
    ListForCount(tiles, tiles, b, a);
    LinksSwap(tiles, tiles, a, b);
  }

  /**
   * `find_neighbors`: an empty list per tile id, then for every ordered pair
   * of tiles with different ids and every pair of their edges that match,
   * the second tile's id pushed onto the first tile's list.
   */
  method FindNeighbors(tiles: seq<Tile>) returns (neighbors: map<nat, seq<nat>>)
    requires AllShaped(tiles)
    ensures neighbors.Keys == Ids(tiles)
    ensures forall a :: a in neighbors ==> neighbors[a] == ListFor(tiles, tiles, a)
  {
    neighbors := map t | t in tiles :: t.id := [];
    for i := 0 to |tiles|
      invariant neighbors.Keys == Ids(tiles)
      invariant forall a :: a in neighbors ==> neighbors[a] == ListFor(tiles[..i], tiles, a)
    {
      var tile := tiles[i];
      assert tiles[..i + 1][..i] == tiles[..i] && tiles[..i + 1][i] == tile;
      var list := PushRow(neighbors[tile.id], tile, tiles);
      neighbors := neighbors[tile.id := list];
    }
    assert tiles[..|tiles|] == tiles;
  }

  /** The middle loop of `find_neighbors`: the pushes onto the list of `tile` for every `tile2`. */
  method PushRow(list: seq<nat>, tile: Tile, tiles: seq<Tile>) returns (list': seq<nat>)
    requires tile.Shaped() && AllShaped(tiles)
    ensures list' == list + Pushes(tile, tiles)
  {
    list' := list;
    for j := 0 to |tiles|
      invariant list' == list + Pushes(tile, tiles[..j])
    {
      var tile2 := tiles[j];
      assert tiles[..j + 1][..j] == tiles[..j] && tiles[..j + 1][j] == tile2;
      if tile.id == tile2.id {
        continue;
      }
      list' := PushMatches(list', tile, tile2);
    }
    assert tiles[..|tiles|] == tiles;
  }

  /**
   * The two inner loops of `find_neighbors`, pushing onto the list of `tile`
   * (held through `get_mut`): `tile2`'s id once per pair of matching edges.
   */
  method PushMatches(list: seq<nat>, tile: Tile, tile2: Tile) returns (list': seq<nat>)
    requires tile.Shaped() && tile2.Shaped()
    ensures list' == list + Repeat(tile2.id, Matches(tile.Edges(), tile2.Edges()))
  {
    var edges, edges2 := tile.Edges(), tile2.Edges();
    list' := list;
    assert edges[..0] == [] && list + Repeat(tile2.id, 0) == list;
    for x := 0 to 4
      invariant list' == list + Repeat(tile2.id, Matches(edges[..x], edges2))
    {
      assert edges[..x + 1][..x] == edges[..x];
      ghost var n := Matches(edges[..x], edges2);
      list' := PushHits(list', edges[x], edges2, tile2.id);
      assert Repeat(tile2.id, n) + Repeat(tile2.id, Hits(edges[x], edges2)) == Repeat(tile2.id, n + Hits(edges[x], edges2));
    }
    assert edges[..4] == edges;
  }

  /** The innermost loop: `id2` pushed once per edge of `edges2` that matches `edge`. */
  method PushHits(list: seq<nat>, edge: Edge, edges2: seq<Edge>, id2: nat) returns (list': seq<nat>)
    ensures list' == list + Repeat(id2, Hits(edge, edges2))
  {
    list' := list;
    assert edges2[..0] == [] && list + Repeat(id2, 0) == list;
    for y := 0 to |edges2|
      invariant list' == list + Repeat(id2, Hits(edge, edges2[..y]))
    {
      assert edges2[..y + 1][..y] == edges2[..y];
      ghost var n := Hits(edge, edges2[..y]);
      if edge == edges2[y] || edge == Reverse(edges2[y]) {
        assert Repeat(id2, n) + [id2] == Repeat(id2, n + 1);
        list' := list' + [id2];
      }
    }
    assert edges2[..|edges2|] == edges2;
  }

  // ---------------------------------------------------------------------
  // Part 1

  /** The ids whose neighbour list holds exactly two entries. */
  function Corners(neighbors: map<nat, seq<nat>>): set<nat>
  {
    set k | k in neighbors && |neighbors[k]| == 2
  }

  /** The product of a finite set of ids, taken in no particular order. */
  ghost function Product(s: set<nat>): nat
  {
    if s == {} then 1 else var k :| k in s; k * Product(s - {k})
  }

  lemma MulSwap(j: nat, k: nat, p: nat)
    ensures j * (k * p) == k * (j * p)
  {
  }

  /** Any element can be taken out first: the product does not depend on the order. */
  lemma ProductRemove(s: set<nat>, k: nat)
    requires k in s
    ensures Product(s) == k * Product(s - {k})
    decreases |s|
  {
    var j :| j in s && Product(s) == j * Product(s - {j});
    if j != k {
      ProductRemove(s - {j}, k);
      ProductRemove(s - {k}, j);
      assert s - {j} - {k} == s - {k} - {j};
      MulSwap(j, k, Product(s - {j} - {k}));
    }
  }

  /** Visiting key `k` multiplies in `k` exactly when it is a corner. */
  lemma CornerStep(neighbors: map<nat, seq<nat>>, keys: set<nat>, k: nat, p: nat)
    requires k in keys && keys <= neighbors.Keys
    requires p * Product(Corners(neighbors) * keys) == Product(Corners(neighbors))
    ensures (if |neighbors[k]| == 2 then p * k else p) * Product(Corners(neighbors) * (keys - {k}))
         == Product(Corners(neighbors))
  {
    var c, rest := Corners(neighbors), keys - {k};
    if |neighbors[k]| == 2 {
      ProductRemove(c * keys, k);
      assert c * keys - {k} == c * rest;
      MulAssoc(p, k, Product(c * rest));
    } else {
      assert c * keys == c * rest;
    }
  }

  lemma MulAssoc(a: nat, b: nat, c: nat)
    ensures a * (b * c) == (a * b) * c
  {
  }

  /**
   * `part1`: the product of the ids whose list has length two, over the
   * map's keys in whatever order the map yields them.
   */
  method Part1(neighbors: map<nat, seq<nat>>) returns (p: nat)
    ensures p == Product(Corners(neighbors))
  {
    p := 1;
    var keys := neighbors.Keys;
    assert Corners(neighbors) * keys == Corners(neighbors);
    while keys != {}
      invariant keys <= neighbors.Keys
      invariant p * Product(Corners(neighbors) * keys) == Product(Corners(neighbors))
      decreases |keys|
    {
      keys, p := VisitKey(neighbors, keys, p);
    }
    assert Corners(neighbors) * keys == {};
  }

  /** One iteration of `part1`'s loop: take some key, multiplying it in when it is a corner. */
  method VisitKey(neighbors: map<nat, seq<nat>>, keys: set<nat>, p: nat) returns (rest: set<nat>, p': nat)
    requires keys != {} && keys <= neighbors.Keys
    requires p * Product(Corners(neighbors) * keys) == Product(Corners(neighbors))
    ensures rest <= keys && |rest| < |keys|
    ensures p' * Product(Corners(neighbors) * rest) == Product(Corners(neighbors))
  {
    var k :| k in keys;
    rest := keys - {k};
    CornerStep(neighbors, keys, k, p);
    p' := p;
    if |neighbors[k]| == 2 {
      p' := p * k;
    }
  }
}

=== FILE: sorting.dfy ===
/**
 * Sorting of integer sequences, standing for the standard library's
 * `sort` / `sort_unstable` on a vector of integers. Only the result matters
 * (a sorted permutation of the input, which is unique), so it is given as a
 * function.
 */
module Sorting {
  predicate Sorted(s: seq<int>) {
    forall i, j :: 0 <= i < j < |s| ==> s[i] <= s[j]
  }

  /** Insert `x` into a sorted sequence, before the first larger element. */
  function Insert(x: int, s: seq<int>): (r: seq<int>)
    requires Sorted(s)
    ensures Sorted(r) && multiset(r) == multiset(s) + multiset{x}
    ensures |r| == |s| + 1 && (r[0] == x || (|s| > 0 && r[0] == s[0]))
  {
    if s == [] || x <= s[0] then [x] + s
    else
      assert s == [s[0]] + s[1..];
      var rest := Insert(x, s[1..]);
      assert forall k :: 0 <= k < |rest| ==> s[0] <= rest[0] <= rest[k];
      [s[0]] + rest
  }

  /** Insertion sort: a sorted permutation of `s`. */
  function Sort(s: seq<int>): (r: seq<int>)
    ensures Sorted(r) && multiset(r) == multiset(s)
  {
    if s == [] then []
    else
      assert s == [s[0]] + s[1..];
      Insert(s[0], Sort(s[1..]))
  }

  /** Two sorted sequences with the same elements are equal, so a sort's result does not depend on the algorithm. */
  lemma {:induction false} SortedUnique(a: seq<int>, b: seq<int>)
    requires Sorted(a) && Sorted(b) && multiset(a) == multiset(b)
    ensures a == b
    decreases |a|
  {
    assert |a| == |b| by {
      assert |a| == |multiset(a)| && |b| == |multiset(b)|;
    }
    if a != [] {
      SameHead(a, b);
      SortedTail(a);
      SortedTail(b);
      SortedUnique(a[1..], b[1..]);
    }
  }

  /** Two sorted permutations of each other start with the same element, their least. */
  lemma SameHead(a: seq<int>, b: seq<int>)
    requires Sorted(a) && Sorted(b) && multiset(a) == multiset(b) && a != []
    ensures b != [] && a[0] == b[0]
  {
    assert |a| == |multiset(a)| == |multiset(b)| == |b|;
    assert a[0] in multiset(b) by { assert a[0] in multiset(a); }
    assert b[0] in multiset(a) by { assert b[0] in multiset(b); }
    assert a[0] in b;
    assert b[0] in a;
  }

  /** Dropping the head of a sorted sequence keeps it sorted and takes one copy of the head off its multiset. */
  lemma SortedTail(a: seq<int>)
    requires Sorted(a) && a != []
    ensures Sorted(a[1..]) && multiset(a[1..]) == multiset(a) - multiset{a[0]}
  {
    assert a == [a[0]] + a[1..];
  }
}
